=== FILE: README.md ===
# ls.joyous calendar core, modelled in Dafny

Joyous is a calendar application for the Wagtail content management system. Its pages hold simple,
multi-day and recurring events. Recurring events can have exceptions: cancellations, extra information,
postponements, extended cancellations over a range of days, and closures for holidays. The calendar is
served by month, by week and by day. Events can be imported from iCalendar files. In the admin, the
recurrence editor switches between a simple and an advanced mode.

This project models the logic of that core as pure Dafny functions over immutable values and proves what
the code promises. The modules follow the source files:

- `Dates` and `TellTime` hold Python's proleptic Gregorian dates as day ordinals (0001-01-01 is day 1),
  times of day as microseconds, and the start and end time defaults.
- `Weeks`, `WeekStyle` and `Names` cover Monday-start weeks (ISO 8601 week dates), Sunday-start weeks,
  weeks of the month and the name tables.
- `CalendarViews`, `MiniCalendar` and `ThisWeek` cover the URL pictures, month and week navigation, the
  link bounds, paging, the mini calendar and the "this week" window.
- `EventBase`, `EventsApi`, `Grouping`, `Sorting` and `OneOffEvents` cover the day lists, month grids,
  sorting by start time, the query prefilters and start-before-end validation.
- `RecurringEvents` covers the exception logic of recurring events. The occurrences of a rule are an
  abstract ascending sequence of day ordinals.
- `Recurrence` and `RecurrenceWhen` cover the RRULE text (section 3.3.10 of RFC 5545) and the
  human-readable description of a rule.
- `RecurrenceAdmin` covers the recurrence editor and the exception date chooser. Each widget is a record
  of its controls' values.
- `ICal` covers VEVENT checking and classification (section 3.6.1 of RFC 5545), UID matching and the
  time zone span.
- `Holidays`, `ManyThings` and `Forms` cover holiday merging, list joining and ordinals, and the form
  class defence.
- `Text` and `Wrappers` are the shared string helpers and the `Option`/`Result` types.

Where the source raises an exception that its caller handles, the model returns a `Failure` or `None`.
What the original reads from the clock, the database, time zone tables or translation catalogues is
passed in as a parameter.

## Model

| member | source | states |
|---|---|---|
| Weeks.IsoYearStart | ls/joyous/utils/weeks.py:21-25 | the ISO year starts on a Monday no more than six days before 4 January, the generic Monday year start |
| Weeks.IsoYearStartRange | ls/joyous/utils/weeks.py:21-25 | the ISO year start is a Monday between 29 December of the year before and 4 January |
| Weeks.IsoToGregorian | ls/joyous/utils/weeks.py:27-30 | day d (1..7) of any ISO week falls on ISO weekday d |
| Weeks.IsoNumWeeks | ls/joyous/utils/weeks.py:32-37 | an ISO year has 52 or 53 weeks, exactly the whole weeks from its start to the next year's start |
| Weeks.IsoInfo | ls/joyous/utils/weeks.py:39-48 | first and last day are days 1 and 7 of the week; the week counts are those of the year before and of the year |
| Weeks.GregorianToIso | ls/joyous/utils/weeks.py:50-52 | the ISO week date of a date: a week within its year's count, the ISO weekday as day, a year within one of the calendar year |
| Weeks.IsoYearInRange | ls/joyous/utils/weeks.py:50-52 | the ISO year of any date Python can hold is itself a year Python can hold |
| Weeks.IsoRoundTrip | ls/joyous/utils/weeks.py:27-52 | converting a date to its ISO week date and back gives the same day |
| Weeks.IsoRoundTripBack | ls/joyous/utils/weeks.py:27-52 | every ISO week date naming a valid day converts to a date whose ISO week date is the one given |
| Weeks.IsoWeekOfMonth | ls/joyous/utils/weeks.py:54-57 | the index counts the Monday week starts passed since the week of the 1st, and lies in 0..5 |
| Weeks.IsoWeekOfMonthFirst | ls/joyous/utils/weeks.py:54-57 | the 1st of a month is in week 0 |
| Weeks.IsoWeekOfMonthStep | ls/joyous/utils/weeks.py:54-57 | from one day to the next the index grows by one exactly when the next day is a Monday |
| Weeks.IsoWeekOfMonthMonotone | ls/joyous/utils/weeks.py:54-57 | later days of a month never have a smaller week index |
| Weeks.SsweekYearStart | ls/joyous/utils/weeks.py:61-65 | the Sunday-week year starts on a Sunday no more than six days before 4 January |
| Weeks.SsweekYearStartRange | ls/joyous/utils/weeks.py:61-65 | the Sunday-week year start is a Sunday between 29 December of the year before and 4 January |
| Weeks.SsweekToGregorian | ls/joyous/utils/weeks.py:67-70 | day d (1..7) of a Sunday week falls d - 1 days after a Sunday |
| Weeks.SsweekNumWeeks | ls/joyous/utils/weeks.py:72-77 | 52 or 53 weeks, exactly the whole weeks between consecutive Sunday-week year starts |
| Weeks.SsweekInfo | ls/joyous/utils/weeks.py:79-88 | first and last day are days 1 and 7 of the week; the week counts are those of the year before and of the year |
| Weeks.GregorianToSsweekAsWritten | ls/joyous/utils/weeks.py:90-102 | as written: the day number is the ISO weekday, and the week is at least 1 only for days on or after the calendar year's start |
| Weeks.SsweekWeekZero | ls/joyous/utils/weeks.py:90-102 | as written, 2015-01-01 is numbered week 0 of 2015 (day 4) |
| Weeks.GregorianToSsweek | ls/joyous/utils/weeks.py:90-102 | corrected: year and week are those of the reference Sunday week date holding the day; the day number is the ISO weekday |
| Weeks.GregorianToSsweekBounds | ls/joyous/utils/weeks.py:90-102 | corrected: the week is within its year's count and holds the day; it agrees with the source on every day not before its calendar year's start |
| Weeks.SsweekRoundTrip | ls/joyous/utils/weeks.py:67-102 | converting a date to its Sunday week date and back, with the day counted from Sunday, gives the same day |
| Weeks.SsweekOfMonth | ls/joyous/utils/weeks.py:104-107 | the index counts the Sunday week starts passed since the week of the 1st, and lies in 0..5 |
| Weeks.SsweekOfMonthFirst | ls/joyous/utils/weeks.py:104-107 | the 1st of a month is in week 0 |
| Weeks.SsweekOfMonthStep | ls/joyous/utils/weeks.py:104-107 | from one day to the next the index grows by one exactly when the next day is a Sunday |
| Weeks.SsweekOfMonthMonotone | ls/joyous/utils/weeks.py:104-107 | later days of a month never have a smaller week index |
| WeekStyle.FirstDayOfWeek | ls/joyous/utils/weeks.py:110-114 | the weeks start on Monday exactly when the first-day-of-week setting is 1 |
| WeekStyle.StartWeekday | ls/joyous/utils/weeks.py:114-142 | Monday-first weeks start on weekday 0 (Monday), the others on weekday 6 (Sunday) |
| WeekStyle.NumWeeksInYear | ls/joyous/utils/weeks.py:114-142 | `num_weeks_in_year` is 52 or 53, the week count of the flavour's year |
| WeekStyle.WeekInfoFor | ls/joyous/utils/weeks.py:114-142 | `week_info`: week w starts 7(w-1) days after the year start, lasts seven days, and the counts are those of the year before and of the year |
| WeekStyle.GregorianToWeekDate | ls/joyous/utils/weeks.py:114-142 | `gregorian_to_week_date` with the corrected Sunday-week numbering: a week within its year's count whose seven days hold the date, the year within one of the date's; the day is the ISO weekday |
| WeekStyle.GregorianToWeekDateAsWritten | ls/joyous/utils/weeks.py:135-139 | the binding as the source makes it: week 0 exactly on a Sunday-first site before the Sunday-week year start, in the date's own year; otherwise the same week date as WeekStyle.GregorianToWeekDate; the seven days of the week always hold the date |
| WeekStyle.SundayWeekZeroOn2015 | ls/joyous/utils/weeks.py:90-102 | with Sunday-first weeks, 2015-01-01 is numbered (2015, 0, 4) |
| WeekStyle.WeekOfMonth | ls/joyous/utils/weeks.py:114-142 | `week_of_month` counts the flavour's week starts since the week of the 1st, in 0..5 |
| WeekStyle.WeekdayTable | ls/joyous/utils/weeks.py:130-142 | `weekday_name`/`weekday_abbr`: position i names weekday (i + start) mod 7 |
| Names.MondayToSunday | ls/joyous/utils/names.py:22 | the names are Django's weekday names in order from Monday |
| Names.SundayToSaturday | ls/joyous/utils/names.py:25 | Sunday's name first, then Monday's to Saturday's |
| Names.SundayRotation | ls/joyous/utils/names.py:22-31 | each table is the other rotated by one place |
| Names.MonthNames | ls/joyous/utils/names.py:46 | thirteen entries: "" at 0 and month m's name at m |
| Names.WrappedMonthNames | ls/joyous/utils/names.py:49 | fourteen entries: December, January to December, January |
| Names.WrappedAgreesWithPlain | ls/joyous/utils/names.py:46-49 | the wrapped table is the plain one with December before and January after |
| Names.GetItem | ls/joyous/utils/names.py:14-18 | an index is accepted exactly when in range, counting negative indices from the end, and gives that name; a slice always gives names |
| Names.SliceBound | ls/joyous/utils/names.py:14-18 | a slice bound is clamped into 0..n, negative bounds counting from the end |
| Names.FullSlice | ls/joyous/utils/names.py:14-18 | the full slice gives the whole table |
| Names.SliceEntries | ls/joyous/utils/names.py:14-18 | entry k of a slice is the name at the slice's start plus k |
| ManyThings.ToOrdinal | ls/joyous/utils/manythings.py:16-24 | -1 is "last", -2 "penultimate", 1..5 spelled out, every other number in numeric ordinal form |
| ManyThings.HrJoin | ls/joyous/utils/manythings.py:27-31 | none gives "", one gives itself, two are joined by " and ", more are comma-separated with " and " before the last |
| ManyThings.HrJoinKeepsOrder | ls/joyous/utils/manythings.py:27-31 | every item appears in the joined text, in the order given |
| ManyThings.HrJoinThree | ls/joyous/utils/manythings.py:27-31 | three items give "a, b and c" |
| TellTime.CombineParts | ls/joyous/utils/telltime.py:8-11 | a combined datetime gives back its date and its time of day |
| TellTime.CombineOrder | ls/joyous/utils/telltime.py:8-11 | combined datetimes order by date first, then by time |
| TellTime.TimeFrom | ls/joyous/utils/telltime.py:13-14 | a missing start time becomes `time.min` |
| TellTime.TimeTo | ls/joyous/utils/telltime.py:16-17 | a missing end time becomes `time.max` |
| TellTime.GetDatetime | ls/joyous/utils/telltime.py:8-11 | the datetime is on the date given, at the time given or else the default |
| TellTime.DatetimeFrom | ls/joyous/utils/telltime.py:19-20 | `datetimeFrom` is `getDatetime` with the `time.min` default |
| TellTime.DatetimeTo | ls/joyous/utils/telltime.py:22-23 | `datetimeTo` is `getDatetime` with the `time.max` default |
| TellTime.DatetimeBounds | ls/joyous/utils/telltime.py:19-23 | every time of a day lies between the day's open start and open end |
| TellTime.TimeFormat | ls/joyous/utils/telltime.py:26-35 | empty without times; the prefixed start time leads when given; the infixed end time ends the text when given |
| TellTime.DateFormat | ls/joyous/utils/telltime.py:37-44 | empty for no date; the formatted date, followed by the year when that is not the current year |
| TellTime.DateFormatYear | ls/joyous/utils/telltime.py:37-44 | outside the current year the text ends with the date's year in digits that read back as the year |
| TellTime.DateFormatDMY | ls/joyous/utils/telltime.py:46-51 | empty for no date, the formatted date otherwise |
| Dates.ToFromOrdinal | ls/joyous/models/recurring_events.py:1861-1864 | turning a day ordinal into a date and back gives the same ordinal |
| Dates.FromToOrdinal | ls/joyous/models/recurring_events.py:1861-1864 | turning a date into its ordinal and back gives the same date |
| Dates.OrdinalInjective | ls/joyous/models/recurring_events.py:1861-1864 | two calendar dates with the same ordinal are the same date |
| Dates.ValidOrdinalRange | ls/joyous/models/recurring_events.py:1861-1864 | a date lies in years 1..9999 exactly when its ordinal lies in the range Python's dates can hold |
| Text.Lower | ls/joyous/models/calendar.py:161 | same length, each character lower-cased on its own |
| Text.LowerIdempotent | ls/joyous/models/calendar.py:161 | lower-casing twice is lower-casing once |
| Text.TrimStart | ls/joyous/static/joyous/js/recurrence_admin.js:29 | no longer than the text and not starting with whitespace |
| Text.TrimStartSuffix | ls/joyous/static/joyous/js/recurrence_admin.js:29 | what is removed is leading whitespace only, the rest of the text kept as it was |
| Text.TrimEnd | ls/joyous/models/calendar.py:487 | no longer than the text and not ending with whitespace |
| Text.TrimEndPrefix | ls/joyous/models/calendar.py:487 | what is removed is trailing whitespace only, the rest of the text kept as it was |
| Text.TrimSpaced | ls/joyous/models/calendar.py:487 | whitespace around a text with no whitespace at either end is removed, and the text kept |
| Text.JoinSplit | ls/joyous/models/recurring_events.py:1603 | splitting a text at a separator and joining the pieces with it gives the text back |
| Text.SplitJoin | ls/joyous/utils/recurrence.py:256 | pieces free of the separator character, joined with it and split again, are the same pieces |
| Text.JoinAppearsInOrder | ls/joyous/utils/manythings.py:27-31 | every piece of a joined text appears in it, in order |
| Text.DedupMembers | ls/joyous/holidays/__init__.py:48 | removing duplicates keeps exactly the elements of the list |
| Text.DedupNoDuplicates | ls/joyous/holidays/__init__.py:48 | the result holds each element once |
| Text.DedupOrder | ls/joyous/holidays/__init__.py:48 | the elements keep the order of their first appearance |
| Grouping.GroupBy | ls/joyous/models/events_api.py:279 | `groupby` yields no groups exactly for no input |
| Grouping.GroupByFlatten | ls/joyous/models/events_api.py:279 | the groups, concatenated, are the input |
| Grouping.GroupByRuns | ls/joyous/models/events_api.py:279 | every group is a nonempty run of one key, and neighbouring groups have different keys |
| Grouping.GroupByFirstRun | ls/joyous/models/events_api.py:279 | the first group is the longest prefix sharing the first element's key |
| Grouping.GroupByAtMostSeven | ls/joyous/models/events_api.py:279-281 | when the key changes within every seven consecutive days, no group is longer than seven |
| Grouping.GroupByAscending | ls/joyous/models/events_api.py:279-283 | with ascending keys, every group after the first starts with a key above the first element's |
| Sorting.InsertAfterElements | ls/joyous/models/events_api.py:266 | inserting keeps every element: the result is the input plus the new one, as a multiset |
| Sorting.InsertAfterSorted | ls/joyous/models/events_api.py:266 | inserting into a sorted list keeps it sorted |
| Sorting.InsertAfterWithKey | ls/joyous/models/events_api.py:266 | the new element goes after every element of the same key (stability) |
| Sorting.SortByKeyCorrect | ls/joyous/models/events_api.py:266 | `list.sort(key=...)`: sorted by key, a permutation of the input, and elements of equal key keep their order |
| EventsApi.Matches | ls/joyous/models/events_api.py:188-194 | one candidate per page kind that has the uid |
| EventsApi.GetEventFromUid | ls/joyous/models/events_api.py:178-205 | not found exactly when no kind has the uid, multiple exactly when two or more do; a found page is a match the request may see |
| EventsApi.GetEventFound | ls/joyous/models/events_api.py:178-205 | a page is returned exactly when it is the only match and the request is authorised for it |
| EventsApi.RemoveList | ls/joyous/models/events_api.py:232-237 | a name is removed exactly when it is given by itself or inside a list argument |
| EventsApi.RemoveContentPanels | ls/joyous/models/events_api.py:228-244 | no panel naming a removed field is left, and the remaining field names are the old ones without the removed |
| EventsApi.ZipLength | ls/joyous/models/events_api.py:255 | `zip` stops at the shortest source: no longer than any source and as long as one of them |
| EventsApi.SortTime | ls/joyous/models/events_api.py:261-265 | an event without a start time sorts as `time.max` |
| EventsApi.EventsByDay | ls/joyous/models/events_api.py:249-270 | one day per zipped row; it fails (date overflow) exactly when a day would fall past `date.max` |
| EventsApi.EventsRow | ls/joyous/models/events_api.py:256-268 | row i is dated i days after the start, carries that day's holiday and the sources' continuing events in order |
| EventsApi.EventsRowSorted | ls/joyous/models/events_api.py:256-266 | the day's events are the sources' events, sorted stably by start time |
| EventsApi.WeekKeyOf | ls/joyous/models/events_api.py:276-277 | the grouping key of a day is the week of the month of its date |
| EventsApi.PadWeek | ls/joyous/models/events_api.py:280-287 | a short week is padded to seven, before its days in week 0 and after them otherwise, and the days stay in order |
| EventsApi.EventsByWeek | ls/joyous/models/events_api.py:272-288 | one week per group of days sharing a week of the month |
| EventsApi.EventsByWeekDays | ls/joyous/models/events_api.py:272-288 | the non-blank cells of the weeks, in order, are all the days |
| EventsApi.MonthDayWeek | ls/joyous/models/events_api.py:276-277 | day i of the month has the week of the month of the date (y, m, i + 1) |
| EventsApi.MonthKeys | ls/joyous/models/events_api.py:274-278 | day i of the month is in week (i + lead) / 7, lead being the 1st's offset from the week start |
| EventsApi.EventsByWeekMonth | ls/joyous/models/events_api.py:272-288 | for a month's days: every week has seven cells, the cells hold all the days in order, the first week has `lead` blanks then its days, later weeks are padded at the end |
| EventsApi.EventsByWeekLead | ls/joyous/models/events_api.py:279-288 | the same grid for any days whose weeks follow a lead offset |
| EventsApi.LeadGroups | ls/joyous/models/events_api.py:279-283 | the first group is the first 7 - lead days, in week 0; every group has one to seven days and later groups are in weeks after 0 |
| Holidays.Init | ls/joyous/holidays/__init__.py:11-13 | no single-day holidays, and the list of sources holds only them |
| Holidays.Register | ls/joyous/holidays/__init__.py:23-25 | the source is appended at the end of the sources and nothing else changes |
| Holidays.Add | ls/joyous/holidays/__init__.py:27-34 | other days are unchanged; a new day gets the value; a value containing or contained in the old one changes nothing; otherwise the value is appended after ", " |
| Holidays.AddIdempotent | ls/joyous/holidays/__init__.py:27-34 | adding the same holiday twice is adding it once |
| Holidays.Get | ls/joyous/holidays/__init__.py:36-49 | empty when no source has a holiday that day; otherwise the names of every source, each appearing in order |
| Holidays.NamesEmpty | ls/joyous/holidays/__init__.py:39-47 | no names are gathered exactly when no source has a holiday on the day |
| Holidays.GetSomeHoliday | ls/joyous/holidays/__init__.py:36-49 | a day some source celebrates has at least one name |
| Holidays.GetNamesProperties | ls/joyous/holidays/__init__.py:48 | the names are free of duplicates, are exactly the gathered names, and keep their first-seen order |
| Holidays.NamesAppend | ls/joyous/holidays/__init__.py:39-47 | the names from two lists of sources are those of the first then those of the second |
| Holidays.RegisterNames | ls/joyous/holidays/__init__.py:23-47 | a registered source adds its names for the day, split at ", ", after the earlier ones |
| Holidays.AddOtherDay | ls/joyous/holidays/__init__.py:27-49 | adding a holiday leaves every other day's holidays as they were |
| Holidays.InitAddGet | ls/joyous/holidays/__init__.py:11-49 | a fresh table reports a single added holiday as itself |
| Holidays.SplitJoinSep | ls/joyous/holidays/__init__.py:47-49 | names free of ", " joined and split again are the same names |
| EventBase.AllEvents | ls/joyous/models/event_base.py:65-71 | all the day's events: its own and its continuing ones, as many as both lists together |
| EventBase.Titles | ls/joyous/models/event_base.py:79 | the title of every event, in order |
| EventBase.Preview | ls/joyous/models/event_base.py:73-79 | at most 100 characters, a prefix of the comma-joined titles, all of them when they fit |
| EventBase.HolidayOn | ls/joyous/models/event_base.py:96 | the day's holiday when the map has one, none otherwise |
| EventBase.NewByDayList | ls/joyous/models/event_base.py:88-96 | one entry per day of the range, dated consecutively from the start, with the day's holiday and no events |
| EventBase.Add | ls/joyous/models/event_base.py:98-108 | the list keeps its range, dates and holidays |
| EventBase.AddByLoop | ls/joyous/models/event_base.py:98-108 | the two loops of `add`, over the start day and over the later days, give the per-day description `Add` |
| EventBase.AddCounts | ls/joyous/models/event_base.py:98-108 | each day gains the event exactly once when it is the start day or a later day up to the end, and nothing else changes |
| EventBase.AddOutside | ls/joyous/models/event_base.py:98-108 | an event wholly before or after the range leaves the list unchanged |
| EventBase.WithoutMembers | ls/joyous/models/event_base.py:34-42 | a name survives the filter exactly when it was there and is not removed |
| EventBase.WithoutAppend | ls/joyous/models/event_base.py:34-42 | filtering a concatenation filters each part |
| EventBase.FilterPanels | ls/joyous/models/event_base.py:34-42 | filtering never adds panels |
| EventBase.FilterPanelsCorrect | ls/joyous/models/event_base.py:34-42 | no removed field panel is left at any depth, and the field names left are the old ones without the removed, in order |
| EventBase.FilterPanelsIdempotent | ls/joyous/models/event_base.py:34-42 | filtering twice is filtering once |
| EventBase.NoneRemovedUnchanged | ls/joyous/models/event_base.py:34-42 | panels holding none of the removed fields are kept as they are |
| EventBase.PredicateBasedOn | ls/joyous/models/event_base.py:185-195 | a day is accepted exactly when every one of its events' pages has the attribute; a page exactly when it has it |
| EventBase.Status | ls/joyous/models/event_base.py:359-368 | "finished" exactly when the end is before now, "started" exactly when only the start is, none otherwise |
| EventBase.CheckTimes | ls/joyous/models/event_base.py:248-252 | an error on `time_to` exactly when both times are given and the start is after the end |
| OneOffEvents.CheckMultiday | ls/joyous/models/one_off_events.py:148-154 | a start date after the end date gives the `date_to` error; earlier gives none; equal dates defer to the time check |
| OneOffEvents.CheckMultidayErrors | ls/joyous/models/one_off_events.py:148-154 | the `date_to` error comes exactly from reversed dates, the `time_to` error exactly from equal dates (missing ones being `date.min`/`date.max`) with reversed times, and never both |
| OneOffEvents.CheckMultidayMissingDate | ls/joyous/models/one_off_events.py:149-150 | with a date missing there is no date error, only possibly the time one |
| OneOffEvents.MultidayWindowOverlap | ls/joyous/models/one_off_events.py:144-145 | a multiday event is queried exactly when one of its days is within two days of the range |
| OneOffEvents.SingleDayWindows | ls/joyous/models/one_off_events.py:60 | for a one-day event the two queries agree |
| OneOffEvents.Query | ls/joyous/models/one_off_events.py:60 | an event is kept exactly when the date-range filter accepts it |
| OneOffEvents.ByDay | ls/joyous/models/one_off_events.py:43-60 | the result is a well-formed day list over the range asked for |
| OneOffEvents.QueryLosesNothing | ls/joyous/models/one_off_events.py:43-60 | when local dates are within two days of the stored ones, the prefilter drops no event that would have appeared on a day of the range |
| OneOffEvents.ByDayAllEvents | ls/joyous/models/one_off_events.py:43-60 | `byDay` gives the same days as adding every event to a fresh list |
| ThisWeek.EventsThisWeek | ls/joyous/templatetags/joyous_tags.py:25-32 | seven consecutive days from the window start, holding today; it fails exactly when the end would pass `date.max` |
| ThisWeek.WindowBegin | ls/joyous/templatetags/joyous_tags.py:26-29 | today on a Sunday, otherwise the Monday of today's week |
| ThisWeek.WindowFailsAtEnd | ls/joyous/templatetags/joyous_tags.py:30-32 | the window cannot be formed exactly when today is one of the last six days Python can hold |
| CalendarViews.YearPicture | ls/joyous/models/calendar.py:101 | a year part is accepted exactly when it is four digits reading 1900..2099 |
| CalendarViews.MonthPicture | ls/joyous/models/calendar.py:102 | a month part is accepted exactly when it is one digit or two reading 1..12, a leading zero allowed |
| CalendarViews.DayPicture | ls/joyous/models/calendar.py:104 | a day part is accepted exactly when it reads 1..31, a leading zero allowed |
| CalendarViews.WeekPicture | ls/joyous/models/calendar.py:105 | a week part is accepted exactly when it reads 1..53, a leading zero allowed |
| CalendarViews.MonAlternatives | ls/joyous/models/calendar.py:103 | the twelve alternatives are the lower-cased first three letters of each month abbreviation |
| CalendarViews.IndexOf | ls/joyous/models/calendar.py:161 | `str.index`: the first place the text occurs, none when it does not occur |
| CalendarViews.RouteByMonthAbbr | ls/joyous/models/calendar.py:158-162 | the route fails (ValueError) exactly when the lower-cased abbreviation is not in the picture |
| CalendarViews.MonPictureLayout | ls/joyous/models/calendar.py:103 | the picture is 49 characters with alternative k at 1 + 4k, each preceded by an opening parenthesis or a bar |
| CalendarViews.FirstOccurrence | ls/joyous/models/calendar.py:161 | alternative k is first found at 1 + 4k |
| CalendarViews.MonthAbbrRoute | ls/joyous/models/calendar.py:158-162 | any capitalisation of alternative k routes to month k + 1 |
| CalendarViews.EnglishWellFormed | ls/joyous/models/calendar.py:103 | the English alternatives are twelve distinct three-letter words |
| CalendarViews.EnglishMonthRoutes | ls/joyous/models/calendar.py:158-162 | with English month names "jan".."dec", in any case, route to 1..12 |
| CalendarViews.PrevMonth | ls/joyous/models/calendar.py:188-192 | January goes back to December of the year before, other months to the month before |
| CalendarViews.NextMonth | ls/joyous/models/calendar.py:194-198 | December goes on to January of the next year, other months to the month after |
| CalendarViews.MonthNavigation | ls/joyous/models/calendar.py:188-198 | both stay within 1..12 and each undoes the other |
| CalendarViews.NextMonthIsAdjacent | ls/joyous/models/calendar.py:194-198 | the next month starts the day after the month ends |
| CalendarViews.MonthUrl | ls/joyous/models/calendar.py:169-172 | no link exactly when the year is outside 1900..2099 |
| CalendarViews.MonthUrlRoutes | ls/joyous/models/calendar.py:165-172 | every month link is accepted by the month route, which reads back the same year and month |
| CalendarViews.MonthWeekLink | ls/joyous/models/calendar.py:180-183 | with the corrected week numbering: for a month other than today's, the weekly link is a week overlapping the month; always a week 1..53 of a year within one of the month's |
| CalendarViews.MonthWeekLinkAsWritten | ls/joyous/models/calendar.py:180-183 | with the source's binding, the link is week 0 exactly for today's month on a Sunday-first site before the Sunday-week year start; otherwise it is the corrected week |
| CalendarViews.MonthWeeklyUrlAsWrittenFails | ls/joyous/models/calendar.py:180-185 | as written, for years 1901..2098, reversing the month view's weekly link fails (NoReverseMatch) exactly for today's month on a Sunday-first site before the Sunday-week year start |
| CalendarViews.MonthWeeklyUrlWeekZero | ls/joyous/models/calendar.py:180-185 | on 2015-01-01 a Sunday-first site's month view for January 2015 gets week 0 and cannot reverse its weekly link |
| CalendarViews.MonthWeeklyUrlRoutes | ls/joyous/models/calendar.py:180-185 | with the corrected week numbering, every month view of 1901..2098 reverses its weekly link to the week chosen |
| CalendarViews.TodayWeeklyUrlAsWrittenFails | ls/joyous/models/calendar.py:342-344 | as written, for years 1901..2098, the upcoming and past views' weekly link fails to reverse exactly on a Sunday-first site before the Sunday-week year start |
| CalendarViews.TodayWeeklyUrlRoutes | ls/joyous/models/calendar.py:366-368 | with the corrected week numbering, the upcoming and past views always reverse today's weekly link |
| CalendarViews.PrevWeek | ls/joyous/models/calendar.py:256-260 | week 1 goes back to the last week of the year before, other weeks to the week before |
| CalendarViews.NextWeek | ls/joyous/models/calendar.py:262-266 | past the year's last week goes on to week 1 of the next year, otherwise to the next week |
| CalendarViews.NextWeekNavigation | ls/joyous/models/calendar.py:242-266 | the next week is a valid week starting seven days later, and going back from it returns |
| CalendarViews.PrevWeekNavigation | ls/joyous/models/calendar.py:242-266 | the previous week is a valid week starting seven days earlier, and going on from it returns |
| CalendarViews.LinkedWeek | ls/joyous/models/calendar.py:231-232 | week 53 is linked as 52 in a 52-week year; every other week as itself |
| CalendarViews.WeekUrl | ls/joyous/models/calendar.py:226-234 | no link exactly for years outside 1900..2099 and for week 53 of 2099; NoReverseMatch exactly for a week outside 1..53 in 1900..2099; otherwise the path of the linked week |
| CalendarViews.WeekViewLinks | ls/joyous/models/calendar.py:256-278 | the week view raises exactly when its previous-week, next-week, previous-year, next-year or this-week link names a week outside 1..53 in 1900..2099, so always for week 0 shown on the `week/` route |
| CalendarViews.WeekViewAsWrittenFails | ls/joyous/models/calendar.py:236-238 | as written, for years 1901..2098, the link to today's week fails exactly on a Sunday-first site before the Sunday-week year start, and then every week view raises |
| CalendarViews.WeekViewLinksRoute | ls/joyous/models/calendar.py:244-278 | with the corrected week numbering, every week 1..53 that the view does not reject as week 53 of a 52-week year has all five links |
| CalendarViews.ReverseWeek | ls/joyous/models/calendar.py:222 | a reversed week route is the week path of its arguments |
| CalendarViews.ReverseWeekFound | ls/joyous/models/calendar.py:101-105 | `reverse_subpage('serveWeek')` succeeds exactly for years 1900..2099 and weeks 1..53, the values the YYYY and WW pictures accept |
| CalendarViews.WeekUrlRoutes | ls/joyous/models/calendar.py:222-234 | every week link is accepted by the week route, which reads back the linked week |
| CalendarViews.ServeWeek | ls/joyous/models/calendar.py:242-244 | 404 exactly for week 53 of a 52-week year; otherwise the week's information |
| CalendarViews.WeekMonthlyLink | ls/joyous/models/calendar.py:247-251 | the month holding the week's first day, or January 1900 for days before 1900 |
| CalendarViews.ServeDay | ls/joyous/models/calendar.py:301-304 | 404 exactly when the day is beyond the month's length |
| CalendarViews.ServeDayValid | ls/joyous/models/calendar.py:290-304 | every day the route accepts and `serveDay` serves is a valid date |
| CalendarViews.NumPages | ls/joyous/models/calendar.py:485 | at least one page, and just enough pages of `perPage` for the items |
| CalendarViews.ParseInt | ls/joyous/models/calendar.py:487 | Python's `int` on the page text: after trimming whitespace, an optional sign then digits with single underscores between digits; the value is theirs |
| CalendarViews.ParseIntOfString | ls/joyous/models/calendar.py:487 | every integer's decimal text reads back as it |
| CalendarViews.ParseIntSpaced | ls/joyous/models/calendar.py:487 | whitespace around the text changes nothing |
| CalendarViews.ParseIntUnderscore | ls/joyous/models/calendar.py:487 | an underscore between digits changes nothing |
| CalendarViews.Paginate | ls/joyous/models/calendar.py:484-492 | page 1 for a missing or non-integer page, the page asked for when it exists, the last page otherwise |
| CalendarViews.PageItems | ls/joyous/models/calendar.py:484-492 | a page holds at most `perPage` items |
| CalendarViews.PagesCoverItems | ls/joyous/models/calendar.py:484-492 | the pages, in order, hold exactly the items |
| MiniCalendar.Prev | ls/joyous/static/joyous/js/minicalendar.js:11-18 | month 1 goes back to December of the year before, other months to the month before; the URL base stays |
| MiniCalendar.Next | ls/joyous/static/joyous/js/minicalendar.js:23-30 | month 12 goes on to January of the next year, other months to the month after; the URL base stays |
| MiniCalendar.MonthStaysInRange | ls/joyous/static/joyous/js/minicalendar.js:10-35 | from a month in 1..12 both moves stay in 1..12 |
| MiniCalendar.PrevNextRoundTrip | ls/joyous/static/joyous/js/minicalendar.js:13-31 | next undoes previous except from month 13, and previous undoes next except from month 0 |
| MiniCalendar.UrlRoutes | ls/joyous/static/joyous/js/minicalendar.js:19 | the fetch URL is the calendar URL, "mini/", the year and the unpadded month, which the month route reads back |
| Recurrence.Code | ls/joyous/utils/recurrence.py:32 | each weekday has a two-letter code drawn from the MO..SU table |
| Recurrence.CodeIndexOf | ls/joyous/utils/recurrence.py:32 | the seven codes are distinct: looking a code up gives back its weekday |
| Recurrence.WeekdayRepr | ls/joyous/utils/recurrence.py:31-36 | the repr ends in the day code; it is the bare code exactly when there is no ordinal, else the ordinal with a forced sign comes first |
| Recurrence.SignedReadsBack | ls/joyous/utils/recurrence.py:36 | a non-zero ordinal written with a forced sign is a sign followed by digits and reads back as the same number |
| Recurrence.WeekdayReprRoundTrip | ls/joyous/utils/recurrence.py:31-36 | parsing the repr of any valid weekday gives that weekday back |
| Recurrence.WeekdayReprInjective | ls/joyous/utils/recurrence.py:31-36 | two weekdays with the same repr are the same weekday and ordinal |
| Recurrence.Frequency | ls/joyous/utils/recurrence.py:121-130 | frequencies 0..3 are named YEARLY, MONTHLY, WEEKLY, DAILY; any other is unsupported_frequency_ followed by its number |
| Recurrence.FrequencyRoundTrip | ls/joyous/utils/recurrence.py:121-130 | every frequency, supported or not, can be read back from its name |
| Recurrence.ByWeekday | ls/joyous/utils/recurrence.py:150-161 | the plain weekdays come first without ordinal, then the nth weekdays with theirs, nothing else |
| Recurrence.ByMonthday | ls/joyous/utils/recurrence.py:163-173 | the positive month days followed by the negative ones, in order |
| Recurrence.Eq | ls/joyous/utils/recurrence.py:196-222 | the field-by-field comparison holds exactly when the two rules are identical |
| Recurrence.Ymd | ls/joyous/utils/recurrence.py:227 | a date is written as eight digits, four for the year, two for the month, two for the day |
| Recurrence.YmdReadsBack | ls/joyous/utils/recurrence.py:227 | reading the three digit groups back gives the date that was written |
| Recurrence.UtcStamp | ls/joyous/utils/recurrence.py:244 | a UTC until is the date's eight digits, T, six digits of time and Z |
| Recurrence.ByPart | ls/joyous/utils/recurrence.py:253-255 | a BY part is written exactly when it has values, as the values joined by commas |
| Recurrence.IntervalPart | ls/joyous/utils/recurrence.py:237-238 | INTERVAL is written exactly when the interval is neither 0 nor 1 |
| Recurrence.WkstPart | ls/joyous/utils/recurrence.py:239-240 | WKST is always written, as the week start's day code |
| Recurrence.CountPart | ls/joyous/utils/recurrence.py:241-242 | COUNT is written exactly when a non-zero count is set |
| Recurrence.UntilPart | ls/joyous/utils/recurrence.py:243-246 | UNTIL is written when either a UTC until or the rule's until is present, the UTC stamp taking precedence over the plain date |
| Recurrence.Candidates | ls/joyous/utils/recurrence.py:236-255 | one slot per part name in the fixed order FREQ, INTERVAL, WKST, COUNT, UNTIL, BYSETPOS, BYDAY, BYMONTH, BYMONTHDAY, BYYEARDAY, BYWEEKNO |
| Recurrence.GetRrule | ls/joyous/utils/recurrence.py:232-256 | fails exactly when a UTC until with a non-zero UTC offset is given; without one it is the rule's RRULE text |
| Recurrence.RruleReadsBack | ls/joyous/utils/recurrence.py:232-256 | splitting the RRULE text at semicolons and each part at = gives the written parts back, FREQ first, names in the fixed order, each name's value that of its slot |
| Recurrence.ReadJoinedParts | ls/joyous/utils/recurrence.py:256 | parts whose names hold no = and whose texts hold no semicolon are recovered from their semicolon-joined text |
| Recurrence.ParsePartText | ls/joyous/utils/recurrence.py:254 | a NAME=value text splits at its first = back into its name and value |
| Recurrence.Repr | ls/joyous/utils/recurrence.py:224-230 | the repr is DTSTART:, the start date's eight digits, a newline, RRULE: and the RRULE text |
| Recurrence.ReprStartReadsBack | ls/joyous/utils/recurrence.py:224-230 | the start date can be read back from the repr |
| Recurrence.EqSameText | ls/joyous/utils/recurrence.py:196-230 | equal rules have the same repr |
| Recurrence.EasterNotWritten | ls/joyous/utils/recurrence.py:196-256 | the Easter offset takes part in equality but is never written, so two unequal rules can share a repr |
| RecurrenceWhen.LocalWeekday | ls/joyous/utils/recurrence.py:50 | the local weekday index is the weekday moved by the offset, modulo 7 |
| RecurrenceWhen.LocalWeekdayIsShifted | ls/joyous/utils/recurrence.py:50 | the weekday of a day moved by the offset is the local weekday of that day's weekday |
| RecurrenceWhen.WeekdayWhen | ls/joyous/utils/recurrence.py:41-60 | without offset: the name, or ordinal and name; with offset: the local name, followed for an ordinal by before or after (by the offset's sign), the ordinal and the name |
| RecurrenceWhen.WeekdayWhenNamesLocalDay | ls/joyous/utils/recurrence.py:41-60 | with an offset the phrase starts with the name of the day the offset actually lands on |
| RecurrenceWhen.WeekdayPhrases | ls/joyous/utils/recurrence.py:290 | one phrase per weekday of the rule, in order |
| RecurrenceWhen.Numbered | ls/joyous/utils/recurrence.py:284 | the text is the prefix, the number's digits (which read back as the number) and the suffix |
| RecurrenceWhen.DailyWhen | ls/joyous/utils/recurrence.py:282-287 | Daily for an interval of at most 1, otherwise Every n days |
| RecurrenceWhen.WeeklyWhen | ls/joyous/utils/recurrence.py:289-296 | the joined plural day phrases, prefixed by Fortnightly on for interval 2 and by Every n weeks on above 2 |
| RecurrenceWhen.WeeklyWhenNamesEveryDay | ls/joyous/utils/recurrence.py:289-296 | every weekday phrase of the rule appears in the weekly text, in the rule's order |
| RecurrenceWhen.Capitalize | ls/joyous/utils/recurrence.py:369 | only the first character changes, a lower-case ASCII letter becoming upper case |
| RecurrenceWhen.WhenByWeekday | ls/joyous/utils/recurrence.py:326-337 | Everyday for all seven plain weekdays; otherwise Every and the phrases when the first has no ordinal, else The, the phrases and the of-text |
| RecurrenceWhen.PlanMonthday | ls/joyous/utils/recurrence.py:339-362 | the 1st with a negative offset and the last day with a positive offset move into the neighbouring month; a day that stays within 1..28 is adjusted; anything else keeps the day and is described by an offset |
| RecurrenceWhen.PlanMonthdayIsShifted | ls/joyous/utils/recurrence.py:339-358 | a moved month day names exactly the date the offset lands on, in the month it moved to |
| RecurrenceWhen.PlanMonthdayNoOffset | ls/joyous/utils/recurrence.py:356-358 | without offset days 1..28 are kept as they are |
| RecurrenceWhen.WrappedNamesShift | ls/joyous/utils/recurrence.py:346-353 | the wrapped month name table at m-1 or m+1 names the month before or after m, across the year boundary |
| RecurrenceWhen.WhenByMonthday | ls/joyous/utils/recurrence.py:339-372 | an unmoved day with an offset phrase reads offset, ordinal, day; otherwise the capitalised ordinal and day, failing on an empty ordinal; yearly rules whose day moved month name the wrapped months |
| RecurrenceWhen.WhenWithOffsetMonthdays | ls/joyous/utils/recurrence.py:374-384 | the joined ordinals of all month days, preceded by the offset phrase when there is an offset, capitalised otherwise (failing when empty) |
| RecurrenceWhen.MonthlyYearlyWhen | ls/joyous/utils/recurrence.py:315-324 | weekdays take precedence, then a single month day, then the several-month-days text |
| RecurrenceWhen.Every | ls/joyous/utils/recurrence.py:301-312 | an interval of 2 or more appends , every n months or years; errors pass through |
| RecurrenceWhen.YearlyOf | ls/joyous/utils/recurrence.py:307-308 | the of-text of a yearly rule names its months unshifted |
| RecurrenceWhen.ForDays | ls/joyous/utils/recurrence.py:275-276 | for n days is appended exactly when there are at least two days |
| RecurrenceWhen.UntilSuffix | ls/joyous/utils/recurrence.py:277-279 | without until nothing is added; with one, the short format of the until moved by the offset, failing exactly when that date is out of range |
| RecurrenceWhen.FrequencyWhen | ls/joyous/utils/recurrence.py:261-273 | the daily, weekly, monthly or yearly text by frequency, empty for any other frequency |
| RecurrenceWhen.GetWhen | ls/joyous/utils/recurrence.py:261-280 | the frequency text, then the days suffix, then the until suffix; fails exactly when one of the parts does |
| RecurrenceWhen.GetWhenDays | ls/joyous/utils/recurrence.py:261-280 | between the frequency text and the until suffix sits nothing for fewer than two days, else for, the day count in digits and days |
| RecurrenceAdmin.DigitPrefix | ls/joyous/static/joyous/js/recurrence_admin.js:223-225 | the longest run of digits at the start of the text, stopping at the first non-digit |
| RecurrenceAdmin.ParseTrimmed | ls/joyous/static/joyous/js/recurrence_admin.js:29 | once leading blanks are gone, parseInt is NaN exactly when the text starts neither with a digit nor with a sign followed by a digit |
| RecurrenceAdmin.ParseIntOfString | ls/joyous/static/joyous/js/recurrence_admin.js:174 | parseInt reads every decimal numeral back as its number |
| RecurrenceAdmin.ParseIntDigits | ls/joyous/static/joyous/js/recurrence_admin.js:223-225 | a non-empty run of digits, leading zeros included, is read as its decimal value |
| RecurrenceAdmin.ParseIntSigned | ls/joyous/static/joyous/js/recurrence_admin.js:54-58 | leading whitespace is skipped and a + or - sign is honoured |
| RecurrenceAdmin.Ticked | ls/joyous/static/joyous/js/recurrence_admin.js:32-34 | the values of exactly the ticked boxes, box i having value i plus the base |
| RecurrenceAdmin.HasAdvancedSingleWidget | ls/joyous/static/joyous/js/recurrence_admin.js:26-68 | on a page holding one widget the page-wide lookup of the secondary selects agrees with the widget's own |
| RecurrenceAdmin.ClearAdvanced | ls/joyous/static/joyous/js/recurrence_admin.js:70-81 | interval 1, only the start date's weekday ticked (none for the NaN weekday of an empty start date), no month ticked, primary choice 101/200, every secondary select emptied and disabled, the start date untouched |
| RecurrenceAdmin.ClearedNotAdvanced | ls/joyous/static/joyous/js/recurrence_admin.js:26-81 | a cleared widget has the start weekday alone ticked, or none for a NaN start date, and its own controls show nothing advanced |
| RecurrenceAdmin.PlainNotAdvanced | ls/joyous/static/joyous/js/recurrence_admin.js:26-68 | interval 1, the start weekday alone or no weekday ticked, no month, 101/200 and empty secondaries are not advanced |
| RecurrenceAdmin.ClearIdempotent | ls/joyous/static/joyous/js/recurrence_admin.js:70-81 | clearing twice gives what clearing once gives |
| RecurrenceAdmin.ClearedStillAdvancedAsWritten | ls/joyous/static/joyous/js/recurrence_admin.js:61-63 | as written, a cleared widget is reported advanced when the page loads as soon as another widget has a secondary select set |
| RecurrenceAdmin.PrimaryOrdDayChanged | ls/joyous/static/joyous/js/recurrence_admin.js:160-169 | the secondary selects are enabled and kept exactly when the primary is an ordinal -1..5 with a day 0..6, else emptied and disabled; nothing else changes |
| RecurrenceAdmin.PrimaryChangeConsistent | ls/joyous/static/joyous/js/recurrence_admin.js:160-169 | after a primary change no disabled secondary select holds a value, and applying it again changes nothing |
| RecurrenceAdmin.ClearConsistent | ls/joyous/static/joyous/js/recurrence_admin.js:80 | after clearing no disabled secondary select holds a value |
| RecurrenceAdmin.FreqChanged | ls/joyous/static/joyous/js/recurrence_admin.js:171-195 | yearly shows the monthly and yearly panels with years, monthly the monthly panel with months, weekly the weekly panel with weeks, daily no panel with days |
| RecurrenceAdmin.FreqChangedUnits | ls/joyous/static/joyous/js/recurrence_admin.js:171-195 | a frequency 0..3 shows exactly one interval unit; any other value shows no unit and no panel |
| RecurrenceAdmin.OnGenerate | ls/joyous/static/joyous/js/recurrence_admin.js:210-230 | with a date list and a displayed time strictly between the first of the month 200 days back and that 600 days ahead, exactly the listed cells are enabled; otherwise nothing changes |
| RecurrenceAdmin.CellOfYmd | ls/joyous/static/joyous/js/recurrence_admin.js:222-226 | a date sent as eight digits selects the cell of that year, zero-based month and day |
| RecurringEvents.RawDates | ls/joyous/models/recurring_events.py:1850-1864 | consecutive days, exactly those within both the range asked for and the cancelled range |
| RecurringEvents.RawDatesEmpty | ls/joyous/models/recurring_events.py:1850-1864 | there are no raw dates exactly when the two ranges have no day in common |
| RecurringEvents.IsoDate | ls/joyous/models/recurring_events.py:1825 | a date's text is ten characters long |
| RecurringEvents.IsoDateInjective | ls/joyous/models/recurring_events.py:1825 | different dates have different YYYY-MM-DD texts |
| RecurringEvents.OrdinalIsoInjective | ls/joyous/models/recurring_events.py:1825 | different day ordinals have different texts |
| RecurringEvents.ExtSlug | ls/joyous/models/recurring_events.py:1832-1833 | the slug is the start date, a dash, the end date when there is one, and -cancellation; its length is fixed by whether there is an end |
| RecurringEvents.ExtSlugInjective | ls/joyous/models/recurring_events.py:1822-1833 | two extended cancellations with the same slug cover the same range |
| RecurringEvents.ExtTitle | ls/joyous/models/recurring_events.py:1823-1831 | Cancellation from the start, then to the end or until further notice |
| RecurringEvents.ClosedOn | ls/joyous/models/recurring_events.py:1589-1605 | closed exactly when there is a registry, the page is closed for something, the day has a holiday and either all holidays count or one of the comma-separated names is closed for |
| RecurringEvents.ClosedOnNames | ls/joyous/models/recurring_events.py:1599-1604 | for holiday names free of the separator, closed exactly when all holidays count and there is one, or one of the day's names is closed for |
| RecurringEvents.Filter | ls/joyous/models/recurring_events.py:1568-1570 | reference: the closed occurrences, and only they |
| RecurringEvents.GetMyDates | ls/joyous/models/recurring_events.py:1554-1561 | nothing without a holiday registry or when the page is closed for nothing |
| RecurringEvents.ClosedDatesAll | ls/joyous/models/recurring_events.py:1562-1570 | when no 500 occurrences in a row are all open, the search yields every closed occurrence in order |
| RecurringEvents.ClosedDatesBail | ls/joyous/models/recurring_events.py:1562-1567 | after 500 open occurrences in a row the search yields nothing more |
| RecurringEvents.ClosedDates | ls/joyous/models/recurring_events.py:1562-1570 | the closed dates found are occurrences the page is closed on, at most one per occurrence |
| RecurringEvents.FirstShutdown | ls/joyous/models/recurring_events.py:583-584 | the first extended cancellation covering the day; none exactly when none covers it |
| RecurringEvents.AfterStart | ls/joyous/models/recurring_events.py:557-559 | the search starts a day later exactly when the event's start time has already passed today |
| RecurringEvents.After | ls/joyous/models/recurring_events.py:556-594 | the day found is one of the occurrences |
| RecurringEvents.AfterLoop | ls/joyous/models/recurring_events.py:578-594 | a day found is not an exception, not in any extended cancellation, and not a closed holiday |
| RecurringEvents.AfterFinds | ls/joyous/models/recurring_events.py:578-594 | day d is found exactly when it is among the first 500 occurrences, is not skipped, and every earlier one was skipped without an open-ended cancellation stopping the search |
| RecurringEvents.AfterLoopStops | ls/joyous/models/recurring_events.py:585-587 | an occurrence inside an open-ended extended cancellation stops the search with nothing found |
| RecurringEvents.LastFor | ls/joyous/models/recurring_events.py:141-154 | a day has an exception exactly when some entry is for that day, and the entry kept is one of those |
| RecurringEvents.PutAll | ls/joyous/models/recurring_events.py:141-154 | storing entries never drops a day, and the last entry's day holds the last entry |
| RecurringEvents.PutAllLookup | ls/joyous/models/recurring_events.py:141-154 | after storing entries in order, a day holds its last entry, or what it held before when there is none |
| RecurringEvents.LastForSnoc | ls/joyous/models/recurring_events.py:154 | a later entry for the same day replaces the earlier |
| RecurringEvents.ShutdownPairs | ls/joyous/models/recurring_events.py:156-166 | every pair is a day of the range covered by one of the extended cancellations, carrying that cancellation's event |
| RecurringEvents.ShutdownPairsCover | ls/joyous/models/recurring_events.py:156-166 | some pair is for day d exactly when d is in the range and some extended cancellation covers it |
| RecurringEvents.InRange | ls/joyous/models/recurring_events.py:138 | only entries dated within the range remain |
| RecurringEvents.Exceptions | ls/joyous/models/recurring_events.py:134-164 | every day holding an exception lies within the range asked for |
| RecurringEvents.ExceptionsAsWritten | ls/joyous/models/recurring_events.py:135 | the exceptions gathered as written lie within two days of the range |
| RecurringEvents.OccurrenceFrom | ls/joyous/models/recurring_events.py:104-107 | the earliest occurrence asked for ends two days before the range |
| RecurringEvents.OccurrenceTo | ls/joyous/models/recurring_events.py:106-108 | the last day asked for is two days after the range |
| RecurringEvents.ExceptionsFor | ls/joyous/models/recurring_events.py:104-108 | the corrected exceptions lie within the days the occurrences are asked for |
| RecurringEvents.LastForInRange | ls/joyous/models/recurring_events.py:135-144 | limiting the entries to the range keeps each day's last entry inside it and drops every day outside |
| RecurringEvents.Titled | ls/joyous/models/recurring_events.py:111-113 | an exception is shown exactly when it has a title, as itself |
| RecurringEvents.OccurrenceEvent | ls/joyous/models/recurring_events.py:109-124 | an exception decides alone, shown exactly when titled; without one a holiday closure shows its cancellation event; otherwise the page shows |
| RecurringEvents.OccurrencePrecedence | ls/joyous/models/recurring_events.py:110-124 | an extended cancellation beats a cancellation, which beats extra information; without any, a holiday closure and then the page decide; outside the window no exception counts |
| RecurringEvents.ShutdownDecides | ls/joyous/models/recurring_events.py:156-166 | an extended cancellation decides a day exactly when the day is in the window and some extended cancellation covers it |
| RecurringEvents.CancellationMissedAsWritten | ls/joyous/models/recurring_events.py:105-107 | as written, a five-day occurrence starting four days before the range, cancelled, is still shown, since its cancellation lies outside the two days gathered |
| RecurringEvents.ExceptionsForDecide | ls/joyous/models/recurring_events.py:105-160 | with the exceptions gathered over the whole occurrence window, every occurrence looked up obeys the precedence: an extended cancellation, else a cancellation, else extra information, else closure or page |
| RecurringEvents.What | ls/joyous/models/recurring_events.py:1247-1267 | Postponed exactly when the new start is later; nothing exactly when start, length and end time are all unchanged; Rescheduled otherwise |
| RecurringEvents.WhatEndFromNewDate | ls/joyous/models/recurring_events.py:1253-1267 | counting the new end from the new date rather than the original one would give the same answer |
| ICal.AddDuration | ls/joyous/formats/ical.py:414 | a date plus a duration stays a date moved by the whole days, failing exactly when it leaves the calendar; a datetime keeps its zone and moves by the whole duration |
| ICal.InclusiveToExclusive | ls/joyous/formats/ical.py:250-251 | an inclusive date becomes the next day, failing outside the calendar; a datetime is unchanged |
| ICal.InclusiveDate | ls/joyous/formats/ical.py:262-269 | the inclusive date of an exclusive date end is the day before; a datetime's is its own day |
| ICal.InclusiveRoundTrip | ls/joyous/formats/ical.py:245-269 | making a date exclusive and reading it back inclusive gives the same day |
| ICal.TimeOf | ls/joyous/formats/ical.py:271-273 | only datetimes have a time of day, their own |
| ICal.TimeZoneOf | ls/joyous/formats/ical.py:295-306 | a datetime with a zone names it; anything else is in the current zone |
| ICal.NumDays | ls/joyous/formats/ical.py:553-557 | the days from the start's day to the inclusive end day, both counted; fails exactly when the inclusive end cannot be formed |
| ICal.Get | ls/joyous/formats/ical.py:443-444 | reading a property fails exactly when it is absent |
| ICal.TextDiffers | ls/joyous/formats/ical.py:443-444 | a different summary differs; with the same summary, a description differs when it changed and is not empty; a missing summary fails |
| ICal.CompleteEnd | ls/joyous/formats/ical.py:407-417 | DURATION and DTEND together are refused; a duration is added to the start; a missing end is the day after a date start or the start itself for a datetime |
| ICal.ExceptionKind | ls/joyous/formats/ical.py:434-452 | extra information exactly when the exception keeps the parent's start, day count and end time and its text differs; a failed SUMMARY/DESCRIPTION lookup exactly in that slot; otherwise a multi-day reschedule when the exception or its parent is multi-day, else a postponement |
| ICal.ExceptionKindByText | ls/joyous/formats/ical.py:438-441 | in the parent's slot a changed summary, or a changed non-empty description, gives extra information and unchanged texts a reschedule or postponement by length; out of the slot the texts are not read |
| ICal.MakeFromProps | ls/joyous/formats/ical.py:398-457 | missing UID, DTSTAMP or DTSTART and DURATION with DTEND are refused in that order; a result has an end completed from the properties with the start's type and zone, the inclusive day count, and its kind by RRULE, RECURRENCE-ID and length |
| ICal.DefaultEnds | ls/joyous/formats/ical.py:407-417 | without DTEND a duration sets the end; a date lasts one day; a datetime ends when it starts; both are simple events |
| ICal.RemakeAll | ls/joyous/formats/ical.py:389-393 | every orphan is remade against the parent, in order, or the whole step fails on one that cannot be |
| ICal.MatchAdd | ls/joyous/formats/ical.py:370-393 | an exception joins the parent's children or, with no parent yet, the orphans; a second parent is refused; a first parent takes over the remade orphans |
| ICal.MatchAll | ls/joyous/formats/ical.py:370-393 | adding the events of one UID keeps the match well formed |
| ICal.MatchAllKeepsExceptions | ls/joyous/formats/ical.py:370-393 | every exception added ends up a child or an orphan: none is lost |
| ICal.RemakeAsWritten | ls/joyous/formats/ical.py:391 | as written, an orphan is remade from its stored properties, which already hold the end filled in when it was first made |
| ICal.OrphanWithDurationFails | ls/joyous/formats/ical.py:388-414 | as written, remaking an orphan that was given with DURATION fails with Both DURATION and DTEND set, raised outside the load loop's error handling |
| ICal.RemakeOrphan | ls/joyous/formats/ical.py:391 | the remake drops the duration so that the stored end is used |
| ICal.RemakeOrphanAsIfLate | ls/joyous/formats/ical.py:391-452 | the corrected remake of an orphan succeeds exactly when making it with its parent known would, with the same kind, end and length |
| ICal.ExDates | ls/joyous/formats/ical.py:544-551 | every excluded date or datetime of the type of the start, from all EXDATE lines, and nothing else |
| ICal.ToAware | ls/joyous/formats/ical.py:275-283 | a datetime keeps its day and time, a date takes the default time; the zone is that of the value or the current one |
| ICal.LastTransitionDayIsDec31 | ls/joyous/formats/ical.py:349 | the end used for unending rules is 31 December 2038 |
| ICal.LastOf | ls/joyous/formats/ical.py:337-349 | the last moment is the end at the day's last time, or the rule's UNTIL, or for an unending rule the end moved to 31 December 2038 |
| ICal.SpanAdd | ls/joyous/formats/ical.py:351-354 | the span's first moment is no later than the event's and than the old first, and is one of them; likewise the last is no earlier |
| ICal.SpanAllFirstBound | ls/joyous/formats/ical.py:335-354 | after adding events, the first moment is no later than any event's |
| ICal.SpanAll | ls/joyous/formats/ical.py:325-354 | the span after adding every event is empty exactly when there are none |
| ICal.SpanAllFirstAttained | ls/joyous/formats/ical.py:335-354 | the first moment is some event's first moment |
| ICal.SpanAllLastBound | ls/joyous/formats/ical.py:335-354 | the last moment is no earlier than any event's |
| ICal.SpanAllLastAttained | ls/joyous/formats/ical.py:335-354 | the last moment is some event's last moment |
| ICal.CreateVTimeZone | ls/joyous/formats/ical.py:356-359 | fails exactly when the span has no events, else covers the span's first to last moment |
| Forms.Renamed | ls/joyous/forms.py:63 | base_form_class is stored as _base_form_class; every other attribute name is kept |
| Forms.NewAttrs | ls/joyous/forms.py:62-66 | the class attributes are exactly the renamed names of those declared, and base_form_class itself never is one |
| Forms.NewAttrsLastWins | ls/joyous/forms.py:63-64 | an attribute holds the value of its last declaration under that stored name |
| Forms.DeclaredFormClassReadsBack | ls/joyous/forms.py:62-70 | a declared base_form_class is what the property reads back |
| Forms.Assimilate | ls/joyous/forms.py:15-18 | a Borg form assimilates a subclass of WagtailAdminPageForm and ignores anything else; no other Borg form's assimilated class changes |
| Forms.SetFormClass | ls/joyous/forms.py:72-88 | an unset form class is set; when defended a set one is kept, a Borg form assimilating the new one; when undefended it is overwritten with a warning naming both |
| Forms.DefendedKeepsFirst | ls/joyous/forms.py:72-80 | with forms defended, a series of assignments leaves the first form class set |
| Forms.UndefendedKeepsLast | ls/joyous/forms.py:72-88 | without defence the last form class assigned wins |
| Forms.BorgAssimilatesLast | ls/joyous/forms.py:15-18 | a defended Borg form ends up assimilating the last admin page form assigned to it |
| Forms.KeepsAssimilated | ls/joyous/forms.py:15-18 | assignments of classes that are not admin page forms leave what was assimilated |

## Left out

- Text.Lower: lower-cases ASCII letters only, where Python's `str.lower` also folds other alphabets.
- RecurrenceWhen.Capitalize: upper-cases an ASCII first letter only, where Python's `str.upper` also handles other alphabets.
- Text.TrimStart: strips ASCII whitespace only; Python's `str.strip` and JavaScript's `parseInt` also skip Unicode spaces.
- Text.TrimEnd: strips ASCII whitespace only, as for Text.TrimStart.
- CalendarViews.ParseInt: reads ASCII digits only, where Python's `int` also accepts other Unicode decimal digits.
- Weeks.IsoToGregorian: returns the day ordinal even outside 0001-01-01..9999-12-31, where Python raises OverflowError. Years outside 1..9999 are excluded by the precondition, where Python raises ValueError.
- Weeks.SsweekToGregorian: the same as for Weeks.IsoToGregorian. The year must also be at least 2, because the Sunday-week start of year 1 falls before date.min.
- Weeks.GregorianToSsweek: year 1 is excluded, as for Weeks.GregorianToSsweekAsWritten, WeekStyle.GregorianToWeekDate and the Sunday-week functions built on them, because `_ssweek_year_start(1)` overflows before date.min.
- WeekStyle.GregorianToWeekDate: the Sunday-first branch uses the corrected Weeks.GregorianToSsweek, not `_gregorian_to_ssweek` as `weeks.py` binds it (first Findings row). So it never gives week 0. The binding as written is WeekStyle.GregorianToWeekDateAsWritten, and its effect on the calendar views is the last two Findings rows.
- CalendarViews.MonthWeekLink: the same as for WeekStyle.GregorianToWeekDate. Today's week is the corrected one.
- Names.GetItem: slices with a step (`names[a:b:k]`) are not modelled. Only start and stop are.
- CalendarViews.YearPicture: the pictures' `\d` is an ASCII digit here, where Python's `re` also matches other Unicode decimal digits in `str` patterns. The same holds for the day, month and week pictures.
- Recurrence.Ymd: `%Y` is taken to pad years below 1000 to four digits. Python's `strftime` leaves this to the platform's C library.
- ICal.LastOf: the unending-rule end moved to 31 December 2038 takes that day's UTC offset from the offset parameter. pytz's `replace` keeps the original offset, which may be stale across a daylight-saving change.
- ICal.MakeFromProps: a missing SUMMARY or DESCRIPTION in the parent comparison (a KeyError) and a date overflow become a `Failure`, like the CalendarTypeError cases. In the source, `_loadEvents` catches only CalendarTypeError (ls/joyous/formats/ical.py:165), so those other errors abort the whole load.
- ICal.Get: the same as for ICal.MakeFromProps. A missing property is a `Failure`, not an abort.
- Recurrence rule iteration (dateutil's `rrule`, `rrulestr`, `between`, `xafter`, `getCount`): not modelled. Occurrences are an abstract ascending sequence of day ordinals given as input.
- The `Recurrence` constructor's parsing of RRULE text: dateutil's parser is not part of this model. A rule is a record of dateutil's fields.
- `toTheOrdinal`, `toDaysOffsetStr` and `dateShortFormat` are not part of this model. The recurrence description takes them as parameters.
- `num2words`, Django's `dateformat` and the translation catalogues: taken as parameters. The English phrases are modelled.
- Time zones (pytz, `getLocalDate`, `getAwareDatetime`, `_convertTZ`, `formats/vtimezone.py`): the UTC offset of a zone is a parameter. Local-date conversion of occurrences is not modelled.
- "Now" and "today": parameters everywhere (`status`, `__after`, the this-week window, the date chooser window).
- Database queries, querysets, authorisation and URLs: replaced by sequences of records and booleans passed in. Their filters are modelled where they decide what is shown (`byDay` prefilters, the exception date ranges).
- The DOM, jQuery event wiring, AJAX fetches and HTML splicing of the two scripts, and the datetimepicker widget itself: a page is the sequence of its widgets' control values, and a calendar is the sequence of its day cells.
- `BorgPageForm.__init__`, `clean` and `save`: Django form machinery. Only the assimilation and the class defence are modelled.
- `VCalendar.load`, page creation and revisions in `_loadEvents`, `makeFromPage`, `vSmart` decoding, and the RSS and Google exports: serialisation and persistence, not classification.
- The holiday sources (python-holidays, workalendar, `holidays/parser.py`): each source is a map from day to holiday text.
- `ls/joyous/models/events.py` and `ls/joyous/recurrence.py` are superseded duplicates of the split model modules and of `utils/recurrence.py`, which are modelled once. `ls/joyous/utils/ical.py` is dead code.
- No Sunday-week round trip with the source's day numbering: `_gregorian_to_ssweek` numbers Monday as day 1, while `_ssweek_to_gregorian` counts day 1 from Sunday. Weeks.SsweekRoundTrip converts the day number explicitly.

## Findings

| source | as written | input that shows it | evidently intended | confidence | as-written member | corrected member |
|---|---|---|---|---|---|---|
| ls/joyous/utils/weeks.py:90-102 | only moves a day forward into the next Sunday-week year; a day before its own calendar year's Sunday-week start keeps that year and gets week 0 | 2015-01-01, a Thursday before the 2015 Sunday-week start of 2015-01-04, gives (2015, 0, 4) | (2014, 53, 4), the last week of the Sunday-week year started 2013-12-29 | not executed | Weeks.SsweekWeekZero | Weeks.GregorianToSsweekBounds |
| ls/joyous/formats/ical.py:388-414 | an orphan exception is remade from its stored properties, which already hold the DTEND filled in from its DURATION, so the remake raises "Both DURATION and DTEND set" from `match.add`, outside the try of `_loadEvents` (lines 160-170), aborting the load | an exception VEVENT with RECURRENCE-ID and DURATION listed before its recurring parent with the same UID | the orphan is classified as if it had come after its parent | not executed | ICal.OrphanWithDurationFails | ICal.RemakeOrphanAsIfLate |
| ls/joyous/static/joyous/js/recurrence_admin.js:61-63 | the secondary selects are looked up with the page-wide `$` rather than the widget's own `this.our` | a page with two recurrence widgets where only the second has a secondary select set: the first, holding only plain values, opens in advanced mode | the check is confined to the widget's own selects, like every other check in `_hasAdvanced` | not executed | RecurrenceAdmin.ClearedStillAdvancedAsWritten | RecurrenceAdmin.ClearedNotAdvanced |
| ls/joyous/models/recurring_events.py:105-107 | occurrences are fetched from `num_days + 1` days before the range, but exceptions are gathered only from two days before it (line 135) | a five-day event whose occurrence starting four days before the range is cancelled: the occurrence reaches into the range and is shown as if not cancelled | the exceptions are gathered over the same window as the occurrences | not executed | RecurringEvents.CancellationMissedAsWritten | RecurringEvents.ExceptionsForDecide |
| ls/joyous/models/calendar.py:180-185 | with Sunday-first weeks, `serveMonth` reverses `serveWeek` with the week number `_gregorian_to_ssweek` gives for today, which is 0 from 1 January up to the Sunday-week year start; the WW picture (line 105) accepts only 1..53, so Django raises NoReverseMatch; `serveUpcoming` and `servePast` (lines 342-344 and 366-368) do the same, and `serveWeek` too (next row) | the month view for January 2015 on 2015-01-01 on a Sunday-first site: week (2015, 0) | the link names today's week, week 53 of 2014 | not executed | CalendarViews.MonthWeeklyUrlWeekZero | CalendarViews.MonthWeeklyUrlRoutes |
| ls/joyous/models/calendar.py:236-238 | `serveWeek` takes today's week from `gregorian_to_week_date` and always puts `myUrl(thisYear, thisWeekNum)` in its context (line 278); with Sunday-first weeks that is week 0 from 1 January up to the Sunday-week year start, which `reverse_subpage` cannot reverse (line 233); on the `week/` route week 0 is also the week shown, whose previous week is -1 (lines 256-260) | any week page of a Sunday-first site on 2015-01-01, when today's week is (2015, 0) | the link names today's week, week 53 of 2014, and the page is served | not executed | CalendarViews.WeekViewAsWrittenFails | CalendarViews.WeekViewLinksRoute |

=== FILE: calendar_views.dfy ===
/**
 * The calendar page's URL handling: the date pictures its routes accept,
 * decoding of a month abbreviation, the links to neighbouring months and
 * weeks with their 1900..2099 bounds, the range checks of the week and
 * day views, and pagination of a day's events.
 */
module CalendarViews {
  import opened Wrappers
  import opened Text
  import opened Dates
  import opened Weeks
  import opened WeekStyle
  import opened Names

  // ---------------------------------------------------------------------
  // Date pictures, each alternative of the regular expression written out

  /** `(?:19|20)\d\d` */
  predicate MatchYYYY(s: string) {
    |s| == 4 && ((s[0] == '1' && s[1] == '9') || (s[0] == '2' && s[1] == '0')) &&
    IsDigit(s[2]) && IsDigit(s[3])
  }

  /** `0?[1-9]`, the last alternative of the month, day and week pictures. */
  predicate MatchOneToNine(s: string) {
    (|s| == 1 && '1' <= s[0] <= '9') || (|s| == 2 && s[0] == '0' && '1' <= s[1] <= '9')
  }

  /** `1[012]|0?[1-9]` */
  predicate MatchMM(s: string) {
    (|s| == 2 && s[0] == '1' && '0' <= s[1] <= '2') || MatchOneToNine(s)
  }

  /** `3[01]|[12]\d|0?[1-9]` */
  predicate MatchDD(s: string) {
    (|s| == 2 && s[0] == '3' && '0' <= s[1] <= '1') ||
    (|s| == 2 && '1' <= s[0] <= '2' && IsDigit(s[1])) ||
    MatchOneToNine(s)
  }

  /** `5[0-3]|[1-4]\d|0?[1-9]` */
  predicate MatchWW(s: string) {
    (|s| == 2 && s[0] == '5' && '0' <= s[1] <= '3') ||
    (|s| == 2 && '1' <= s[0] <= '4' && IsDigit(s[1])) ||
    MatchOneToNine(s)
  }

  /** One or two decimal digits whose value lies in `lo..hi`. */
  predicate SmallNumber(s: string, lo: int, hi: int) {
    1 <= |s| <= 2 && AllDigits(s) && lo <= ParseNat(s) <= hi
  }

  lemma ParseOne(s: string)
    requires |s| == 1 && AllDigits(s)
    ensures ParseNat(s) == DigitValue(s[0])
  {
    assert s[..0] == [];
  }

  lemma ParseTwo(s: string)
    requires |s| == 2 && AllDigits(s)
    ensures ParseNat(s) == 10 * DigitValue(s[0]) + DigitValue(s[1])
  {
    ParseOne(s[..1]);
  }

  lemma ParseFour(s: string)
    requires |s| == 4 && AllDigits(s)
    ensures ParseNat(s) ==
      1000 * DigitValue(s[0]) + 100 * DigitValue(s[1]) + 10 * DigitValue(s[2]) + DigitValue(s[3])
  {
    ParseTwo(s[..2]);
    assert s[..3][..2] == s[..2];
    assert s[..4][..3] == s[..3];
    assert s[..4] == s;
  }

  /** The year picture accepts exactly the four-digit years 1900 to 2099. */
  lemma YearPicture(s: string)
    ensures MatchYYYY(s) <==> |s| == 4 && AllDigits(s) && 1900 <= ParseNat(s) <= 2099
  {
    if |s| == 4 && AllDigits(s) {
      ParseFour(s);
    }
  }

  /** The month picture accepts one or two digits with value 1 to 12. */
  lemma MonthPicture(s: string)
    ensures MatchMM(s) <==> SmallNumber(s, 1, 12)
  {
    if |s| == 1 && AllDigits(s) { ParseOne(s); }
    if |s| == 2 && AllDigits(s) { ParseTwo(s); }
  }

  /** The day picture accepts one or two digits with value 1 to 31. */
  lemma DayPicture(s: string)
    ensures MatchDD(s) <==> SmallNumber(s, 1, 31)
  {
    if |s| == 1 && AllDigits(s) { ParseOne(s); }
    if |s| == 2 && AllDigits(s) { ParseTwo(s); }
  }

  /** The week picture accepts one or two digits with value 1 to 53. */
  lemma WeekPicture(s: string)
    ensures MatchWW(s) <==> SmallNumber(s, 1, 53)
  {
    if |s| == 1 && AllDigits(s) { ParseOne(s); }
    if |s| == 2 && AllDigits(s) { ParseTwo(s); }
  }

  // ---------------------------------------------------------------------
  // Month abbreviations

  /** `s[:3]` */
  function Prefix3(s: string): (r: string)
    ensures |r| == if |s| < 3 then |s| else 3
  {
    if |s| <= 3 then s else s[..3]
  }

  /** The alternatives of the `Mon` picture: `m.lower()[:3]` for each month abbreviation. */
  function MonAlternatives(abbrs: map<int, string>): (r: seq<string>)
    requires IsMonthTable(abbrs)
    ensures |r| == 12
    ensures forall k :: 0 <= k < 12 ==> r[k] == Prefix3(Lower(abbrs[k + 1]))
  {
    seq(12, k requires 0 <= k < 12 => Prefix3(Lower(abbrs[k + 1])))
  }

  /** The `Mon` picture: `(` then the alternatives separated by `|`, then `)`. */
  function MonPicture(alts: seq<string>): string {
    "(" + Join(alts, "|") + ")"
  }

  /** `hay.index(needle)` from position `i` on. */
  function IndexFrom(hay: string, needle: string, i: nat): (r: Option<nat>)
    requires i <= |hay| + 1
    ensures r.Some? ==> i <= r.value && OccursAt(hay, needle, r.value)
    ensures r.Some? ==> forall j :: i <= j < r.value ==> !OccursAt(hay, needle, j)
    ensures r.None? ==> forall j :: i <= j ==> !OccursAt(hay, needle, j)
    decreases |hay| + 1 - i
  {
    if i + |needle| > |hay| then None
    else if hay[i..i + |needle|] == needle then Some(i)
    else IndexFrom(hay, needle, i + 1)
  }

  /** `hay.index(needle)`: the first occurrence, or None where Python raises ValueError. */
  function IndexOf(hay: string, needle: string): (r: Option<nat>)
    ensures r.Some? ==> OccursAt(hay, needle, r.value)
    ensures r.Some? ==> forall j :: 0 <= j < r.value ==> !OccursAt(hay, needle, j)
    ensures r.None? ==> !Contains(hay, needle)
  {
    IndexFrom(hay, needle, 0)
  }

  /**
   * `routeByMonthAbbr`: the month is the position of the lower-cased
   * abbreviation in the `Mon` picture, divided by 4, plus one.
   */
  function RouteByMonthAbbr(alts: seq<string>, monthAbbr: string): (r: Result<int>)
    ensures r.Failure? <==> !Contains(MonPicture(alts), Lower(monthAbbr))
  {
    match IndexOf(MonPicture(alts), Lower(monthAbbr))
    case None => Failure("substring not found")
    case Some(i) =>
      assert OccursAt(MonPicture(alts), Lower(monthAbbr), i);
      Success(i / 4 + 1)
  }

  /** Twelve distinct three-letter alternatives free of the picture's punctuation. */
  predicate WellFormedAlternatives(alts: seq<string>) {
    |alts| == 12 &&
    (forall k :: 0 <= k < 12 ==> |alts[k]| == 3 && '|' !in alts[k] && '(' !in alts[k]) &&
    (forall j, k :: 0 <= j < k < 12 ==> alts[j] != alts[k])
  }

  /** Joining three-character parts with `|` puts part j at 4j. */
  lemma {:induction false} JoinThrees(parts: seq<string>)
    requires |parts| >= 1 && forall k :: 0 <= k < |parts| ==> |parts[k]| == 3
    ensures |Join(parts, "|")| == 4 * |parts| - 1
    ensures forall k :: 0 <= k < |parts| ==> Join(parts, "|")[4 * k..4 * k + 3] == parts[k]
    ensures forall k :: 0 <= k < |parts| - 1 ==> Join(parts, "|")[4 * k + 3] == '|'
  {
    if |parts| > 1 {
      JoinThrees(parts[1..]);
      var rest := Join(parts[1..], "|");
      var s := Join(parts, "|");
      assert s == parts[0] + "|" + rest;
      forall k | 1 <= k < |parts|
        ensures s[4 * k..4 * k + 3] == parts[k]
      {
        assert s[4 * k..4 * k + 3] == rest[4 * (k - 1)..4 * (k - 1) + 3];
      }
      forall k | 1 <= k < |parts| - 1
        ensures s[4 * k + 3] == '|'
      {
        assert s[4 * k + 3] == rest[4 * (k - 1) + 3];
      }
      assert s[0..3] == parts[0];
    }
  }

  /** Layout of the `Mon` picture: alternative k at 1 + 4k, punctuation at each 4k. */
  lemma MonPictureLayout(alts: seq<string>)
    requires WellFormedAlternatives(alts)
    ensures |MonPicture(alts)| == 49
    ensures forall k :: 0 <= k < 12 ==> MonPicture(alts)[1 + 4 * k..4 + 4 * k] == alts[k]
    ensures forall k :: 0 <= k < 12 ==> MonPicture(alts)[4 * k] in "(|"
  {
    JoinThrees(alts);
    var j := Join(alts, "|");
    var p := MonPicture(alts);
    assert p == "(" + j + ")" && |j| == 47;
    forall k | 0 <= k < 12
      ensures p[1 + 4 * k..4 + 4 * k] == alts[k]
    {
      assert 4 * k + 3 <= |j|;
      assert p[1 + 4 * k..4 + 4 * k] == j[4 * k..4 * k + 3];
    }
    forall k | 0 <= k < 12
      ensures p[4 * k] in "(|"
    {
      if k > 0 {
        assert p[4 * k] == j[4 * (k - 1) + 3];
      }
    }
  }

  /** An alternative occurs in the picture first at its own place. */
  lemma FirstOccurrence(alts: seq<string>, k: int)
    requires WellFormedAlternatives(alts) && 0 <= k < 12
    ensures IndexOf(MonPicture(alts), alts[k]) == Some(1 + 4 * k)
  {
    var p := MonPicture(alts);
    MonPictureLayout(alts);
    assert OccursAt(p, alts[k], 1 + 4 * k);
    forall i | 0 <= i < 1 + 4 * k
      ensures !OccursAt(p, alts[k], i)
    {
      NotBefore(p, alts, k, i);
    }
    var r := IndexOf(p, alts[k]);
    assert Contains(p, alts[k]) by { assert 1 + 4 * k <= |p|; }
  }

  /** In a picture laid out as `MonPicture`'s, alternative k does not occur before its own place. */
  lemma NotBefore(p: string, alts: seq<string>, k: int, i: int)
    requires WellFormedAlternatives(alts) && 0 <= k < 12 && 0 <= i < 1 + 4 * k
    requires |p| == 49
    requires forall j :: 0 <= j < 12 ==> p[1 + 4 * j..4 + 4 * j] == alts[j]
    requires forall j :: 0 <= j < 12 ==> p[4 * j] in "(|"
    ensures !OccursAt(p, alts[k], i)
  {
    if i % 4 == 1 {
      var j := i / 4;
      assert j < k && i == 1 + 4 * j;
      assert p[i..i + 3] == alts[j] != alts[k];
    } else {
      var q := if i % 4 == 0 then i else i + (4 - i % 4);
      assert q % 4 == 0 && i <= q < i + 3 && q <= 4 * k;
      var c := p[q];
      assert c in "(|" by { assert q == 4 * (q / 4); }
      assert c !in alts[k] by {
        assert '|' !in alts[k] && '(' !in alts[k];
      }
      var window := p[i..i + 3];
      assert window[q - i] == c && window[q - i] in window;
      assert window != alts[k];
    }
  }

  /**
   * Any capitalisation of a month's alternative routes to that month, when
   * the alternatives are well formed.
   */
  lemma MonthAbbrRoute(alts: seq<string>, monthAbbr: string, k: int)
    requires WellFormedAlternatives(alts) && 0 <= k < 12
    requires Lower(monthAbbr) == alts[k]
    ensures RouteByMonthAbbr(alts, monthAbbr) == Success(k + 1)
  {
    FirstOccurrence(alts, k);
    assert IndexOf(MonPicture(alts), Lower(monthAbbr)) == Some(1 + 4 * k);
    assert (1 + 4 * k) / 4 == k;
  }

  /** The first three letters of a lower-cased word, letter by letter. */
  lemma LowerPrefix3(s: string)
    requires |s| >= 3
    ensures Prefix3(Lower(s)) == [LowerChar(s[0]), LowerChar(s[1]), LowerChar(s[2])]
  {
  }

  /** Alternative k of a month table, when the k+1st abbreviation is known. */
  lemma Month3(abbrs: map<int, string>, k: int, abbr: string, expected: string)
    requires IsMonthTable(abbrs) && 0 <= k < 12 && abbrs[k + 1] == abbr && |abbr| >= 3
    requires expected == [LowerChar(abbr[0]), LowerChar(abbr[1]), LowerChar(abbr[2])]
    ensures MonAlternatives(abbrs)[k] == expected
  {
    LowerPrefix3(abbr);
  }

  const EnglishMon: seq<string> :=
    ["jan", "feb", "mar", "apr", "may", "jun", "jul", "aug", "sep", "oct", "nov", "dec"]

  /** The English month abbreviations give "jan", "feb", ..., "dec". */
  lemma EnglishAlternatives()
    ensures MonAlternatives(EnglishMonthAbbrs) == EnglishMon
  {
    EnglishTables();
    var alts := MonAlternatives(EnglishMonthAbbrs);
    EnglishJan();
    EnglishFeb();
    EnglishMar();
    EnglishApr();
    EnglishMay();
    EnglishJun();
    EnglishJul();
    EnglishAug();
    EnglishSep();
    EnglishOct();
    EnglishNov();
    EnglishDec();
    SameTwelve(alts, EnglishMon);
  }

  lemma SameTwelve(a: seq<string>, b: seq<string>)
    requires |a| == 12 && |b| == 12
    requires a[0] == b[0] && a[1] == b[1] && a[2] == b[2] && a[3] == b[3]
    requires a[4] == b[4] && a[5] == b[5] && a[6] == b[6] && a[7] == b[7]
    requires a[8] == b[8] && a[9] == b[9] && a[10] == b[10] && a[11] == b[11]
    ensures a == b
  {
    assert forall k :: 0 <= k < 12 ==> a[k] == b[k];
  }

  lemma EnglishJan()
    ensures IsMonthTable(EnglishMonthAbbrs) && MonAlternatives(EnglishMonthAbbrs)[0] == EnglishMon[0]
  {
    EnglishTables();
    assert EnglishMonthAbbrs[1] == "Jan.";
    Month3(EnglishMonthAbbrs, 0, "Jan.", EnglishMon[0]);
  }

  lemma EnglishFeb()
    ensures IsMonthTable(EnglishMonthAbbrs) && MonAlternatives(EnglishMonthAbbrs)[1] == EnglishMon[1]
  {
    EnglishTables();
    assert EnglishMonthAbbrs[2] == "Feb.";
    Month3(EnglishMonthAbbrs, 1, "Feb.", EnglishMon[1]);
  }

  lemma EnglishMar()
    ensures IsMonthTable(EnglishMonthAbbrs) && MonAlternatives(EnglishMonthAbbrs)[2] == EnglishMon[2]
  {
    EnglishTables();
    assert EnglishMonthAbbrs[3] == "March";
    Month3(EnglishMonthAbbrs, 2, "March", EnglishMon[2]);
  }

  lemma EnglishApr()
    ensures IsMonthTable(EnglishMonthAbbrs) && MonAlternatives(EnglishMonthAbbrs)[3] == EnglishMon[3]
  {
    EnglishTables();
    assert EnglishMonthAbbrs[4] == "April";
    Month3(EnglishMonthAbbrs, 3, "April", EnglishMon[3]);
  }

  lemma EnglishMay()
    ensures IsMonthTable(EnglishMonthAbbrs) && MonAlternatives(EnglishMonthAbbrs)[4] == EnglishMon[4]
  {
    EnglishTables();
    assert EnglishMonthAbbrs[5] == "May";
    Month3(EnglishMonthAbbrs, 4, "May", EnglishMon[4]);
  }

  lemma EnglishJun()
    ensures IsMonthTable(EnglishMonthAbbrs) && MonAlternatives(EnglishMonthAbbrs)[5] == EnglishMon[5]
  {
    EnglishTables();
    assert EnglishMonthAbbrs[6] == "June";
    Month3(EnglishMonthAbbrs, 5, "June", EnglishMon[5]);
  }

  lemma EnglishJul()
    ensures IsMonthTable(EnglishMonthAbbrs) && MonAlternatives(EnglishMonthAbbrs)[6] == EnglishMon[6]
  {
    EnglishTables();
    assert EnglishMonthAbbrs[7] == "July";
    Month3(EnglishMonthAbbrs, 6, "July", EnglishMon[6]);
  }

  lemma EnglishAug()
    ensures IsMonthTable(EnglishMonthAbbrs) && MonAlternatives(EnglishMonthAbbrs)[7] == EnglishMon[7]
  {
    EnglishTables();
    assert EnglishMonthAbbrs[8] == "Aug.";
    Month3(EnglishMonthAbbrs, 7, "Aug.", EnglishMon[7]);
  }

  lemma EnglishSep()
    ensures IsMonthTable(EnglishMonthAbbrs) && MonAlternatives(EnglishMonthAbbrs)[8] == EnglishMon[8]
  {
    EnglishTables();
    assert EnglishMonthAbbrs[9] == "Sept.";
    Month3(EnglishMonthAbbrs, 8, "Sept.", EnglishMon[8]);
  }

  lemma EnglishOct()
    ensures IsMonthTable(EnglishMonthAbbrs) && MonAlternatives(EnglishMonthAbbrs)[9] == EnglishMon[9]
  {
    EnglishTables();
    assert EnglishMonthAbbrs[10] == "Oct.";
    Month3(EnglishMonthAbbrs, 9, "Oct.", EnglishMon[9]);
  }

  lemma EnglishNov()
    ensures IsMonthTable(EnglishMonthAbbrs) && MonAlternatives(EnglishMonthAbbrs)[10] == EnglishMon[10]
  {
    EnglishTables();
    assert EnglishMonthAbbrs[11] == "Nov.";
    Month3(EnglishMonthAbbrs, 10, "Nov.", EnglishMon[10]);
  }

  lemma EnglishDec()
    ensures IsMonthTable(EnglishMonthAbbrs) && MonAlternatives(EnglishMonthAbbrs)[11] == EnglishMon[11]
  {
    EnglishTables();
    assert EnglishMonthAbbrs[12] == "Dec.";
    Month3(EnglishMonthAbbrs, 11, "Dec.", EnglishMon[11]);
  }

  /** The English alternatives are twelve distinct three-letter words. */
  lemma EnglishWellFormed()
    ensures WellFormedAlternatives(EnglishMon)
  {
    forall j, k | 0 <= j < k < 12
      ensures EnglishMon[j] != EnglishMon[k]
    {
      var a := EnglishMon[j];
      var b := EnglishMon[k];
      assert a[0] != b[0] || a[1] != b[1] || a[2] != b[2];
    }
  }

  /** Every capitalisation of an English month's first three letters routes to that month. */
  lemma EnglishMonthRoutes(monthAbbr: string, k: int)
    requires 0 <= k < 12 && Lower(monthAbbr) == EnglishMon[k]
    ensures RouteByMonthAbbr(MonAlternatives(EnglishMonthAbbrs), monthAbbr) == Success(k + 1)
  {
    EnglishAlternatives();
    EnglishWellFormed();
    MonthAbbrRoute(EnglishMon, monthAbbr, k);
  }

  // ---------------------------------------------------------------------
  // Month navigation and links

  /** The month before `(y, m)`, wrapping from January to December of the previous year. */
  function PrevMonth(y: int, m: int): (r: (int, int))
    ensures m == 1 ==> r == (y - 1, 12)
    ensures m != 1 ==> r == (y, m - 1)
  {
    if m - 1 == 0 then (y - 1, 12) else (y, m - 1)
  }

  /** The month after `(y, m)`, wrapping from December to January of the next year. */
  function NextMonth(y: int, m: int): (r: (int, int))
    ensures m == 12 ==> r == (y + 1, 1)
    ensures m != 12 ==> r == (y, m + 1)
  {
    if m + 1 == 13 then (y + 1, 1) else (y, m + 1)
  }

  /** Neighbouring months are months, and going there and back returns. */
  lemma MonthNavigation(y: int, m: int)
    requires 1 <= m <= 12
    ensures 1 <= PrevMonth(y, m).1 <= 12 && 1 <= NextMonth(y, m).1 <= 12
    ensures NextMonth(PrevMonth(y, m).0, PrevMonth(y, m).1) == (y, m)
    ensures PrevMonth(NextMonth(y, m).0, NextMonth(y, m).1) == (y, m)
  {
  }

  /** The next month begins the day after the month ends. */
  lemma NextMonthIsAdjacent(y: int, m: int)
    requires 1 <= m <= 12
    ensures FirstOfMonth(NextMonth(y, m).0, NextMonth(y, m).1) == FirstOfMonth(y, m) + DaysInMonth(y, m)
  {
    if m == 12 {
      YearLength(y);
      DaysBeforeYearStep(y);
    }
  }

  predicate LinkableYear(y: int) {
    1900 <= y <= 2099
  }

  /** The path of the month view of `(y, m)` under the calendar's URL. */
  function MonthPath(base: string, y: int, m: int): string {
    base + IntToString(y) + "/" + IntToString(m) + "/"
  }

  /** `serveMonth`'s `myUrl`: a link only for years 1900 to 2099. */
  function MonthUrl(base: string, y: int, m: int): (r: Option<string>)
    ensures r.None? <==> !LinkableYear(y)
    ensures r.Some? ==> r.value == MonthPath(base, y, m)
  {
    if 1900 <= y <= 2099 then Some(MonthPath(base, y, m)) else None
  }

  /** Every month link is accepted by the month route, which reads back the same month. */
  lemma MonthUrlRoutes(base: string, y: int, m: int)
    requires LinkableYear(y) && 1 <= m <= 12
    ensures MonthUrl(base, y, m) == Some(base + NatToString(y) + "/" + NatToString(m) + "/")
    ensures MatchYYYY(NatToString(y)) && ParseNat(NatToString(y)) == y
    ensures MatchMM(NatToString(m)) && ParseNat(NatToString(m)) == m
  {
    YearString(y);
    MonthString(m);
  }

  /** A linkable year prints as four digits that read back as it. */
  lemma YearString(y: int)
    requires LinkableYear(y)
    ensures MatchYYYY(NatToString(y)) && ParseNat(NatToString(y)) == y
  {
    var ys := NatToString(y);
    ParseNatToString(y);
    FourDigits(y);
    YearPicture(ys);
  }

  lemma FourDigits(n: nat)
    requires 1000 <= n < 10000
    ensures |NatToString(n)| == 4
  {
    var b := n / 10;
    var c := b / 10;
    var d := c / 10;
    assert 10 <= b && 10 <= c && 1 <= d < 10;
    NatToStringLonger(n);
    NatToStringLonger(b);
    NatToStringLonger(c);
  }

  lemma NatToStringLonger(n: nat)
    requires n >= 10
    ensures |NatToString(n)| == |NatToString(n / 10)| + 1
  {
  }

  /** A month number prints as one or two digits that read back as it. */
  lemma MonthString(m: int)
    requires 1 <= m <= 12
    ensures MatchMM(NatToString(m)) && ParseNat(NatToString(m)) == m
  {
    var ms := NatToString(m);
    ParseNatToString(m);
    assert |ms| <= 2 by {
      if m >= 10 {
        assert ms == NatToString(m / 10) + [DigitChar(m % 10)];
      }
    }
    MonthPicture(ms);
  }

  /**
   * The week whose link the month view shows: today's week for the current
   * month, otherwise the week holding the 7th.
   */
  function MonthWeekLink(s: FirstDay, y: int, m: int, today: Date): (r: WeekDate)
    requires NumberableDate(s, today) && NumberableDate(s, Date(y, m, 7))
    ensures
      var start := YearStart(r.year, StartWeekday(s)) + 7 * (r.week - 1);
      (y, m) != (today.year, today.month) ==>
        FirstOfMonth(y, m) <= start + 6 && start < FirstOfMonth(y, m) + DaysInMonth(y, m)
    ensures 1 <= r.week <= 53 && y - 1 <= r.year <= y + 1
  {
    if y == today.year && m == today.month then GregorianToWeekDate(s, today)
    else GregorianToWeekDate(s, Date(y, m, 7))
  }

  /**
   * `MonthWeekLink` with `gregorian_to_week_date` as the setting binds it:
   * only today's week, on a Sunday-first site before the Sunday-week year
   * start, comes out as week 0; the 7th of a month never does.
   */
  function MonthWeekLinkAsWritten(s: FirstDay, y: int, m: int, today: Date): (r: WeekDate)
    requires NumberableDate(s, today) && NumberableDate(s, Date(y, m, 7))
    ensures r.week == 0 <==>
      (y, m) == (today.year, today.month) && s.SundayFirst? && ToOrdinal(today) < SsweekYearStart(today.year)
    ensures r.week != 0 ==> r == MonthWeekLink(s, y, m, today)
  {
    if y == today.year && m == today.month then GregorianToWeekDateAsWritten(s, today)
    else
      assert s.SundayFirst? ==> ToOrdinal(Date(y, m, 7)) >= SsweekYearStart(y) by {
        DaysBeforeMonthBounds(y, m);
      }
      GregorianToWeekDateAsWritten(s, Date(y, m, 7))
  }

  // ---------------------------------------------------------------------
  // Week navigation and links

  /** The week before week `w`, wrapping to the last week of the previous year. */
  function PrevWeek(y: int, w: int, prevYearNumWeeks: int): (r: (int, int))
    ensures w == 1 ==> r == (y - 1, prevYearNumWeeks)
    ensures w != 1 ==> r == (y, w - 1)
  {
    if w - 1 == 0 then (y - 1, prevYearNumWeeks) else (y, w - 1)
  }

  /** The week after week `w`, wrapping past the year's last week to week 1. */
  function NextWeek(y: int, w: int, yearNumWeeks: int): (r: (int, int))
    ensures w + 1 > yearNumWeeks ==> r == (y + 1, 1)
    ensures w + 1 <= yearNumWeeks ==> r == (y, w + 1)
  {
    if w + 1 > yearNumWeeks then (y + 1, 1) else (y, w + 1)
  }

  /**
   * The week after a week of the year starts seven days later, is a week
   * its year has, and its previous week is the week it came from.
   */
  lemma NextWeekNavigation(s: FirstDay, y: int, w: int)
    requires InfoYear(s, y) && InfoYear(s, y + 1)
    requires 1 <= w <= NumWeeks(y, StartWeekday(s))
    ensures var next := NextWeek(y, w, WeekInfoFor(s, y, w).yearNumWeeks);
      && 1 <= next.1 <= NumWeeks(next.0, StartWeekday(s))
      && WeekInfoFor(s, next.0, next.1).firstDay == WeekInfoFor(s, y, w).firstDay + 7
      && PrevWeek(next.0, next.1, WeekInfoFor(s, next.0, next.1).prevYearNumWeeks) == (y, w)
  {
    var fw := StartWeekday(s);
    var n := NumWeeks(y, fw);
    assert YearStart(y, fw) + 7 * n == YearStart(y + 1, fw);
    if w == n {
      assert NextWeek(y, w, n) == (y + 1, 1);
      assert WeekInfoFor(s, y + 1, 1).prevYearNumWeeks == n;
    } else {
      assert NextWeek(y, w, n) == (y, w + 1);
    }
  }

  /**
   * The week before a week of the year starts seven days earlier, is a
   * week its year has, and its next week is the week it came from.
   */
  lemma PrevWeekNavigation(s: FirstDay, y: int, w: int)
    requires InfoYear(s, y) && InfoYear(s, y - 1)
    requires 1 <= w <= NumWeeks(y, StartWeekday(s))
    ensures var prev := PrevWeek(y, w, WeekInfoFor(s, y, w).prevYearNumWeeks);
      && 1 <= prev.1 <= NumWeeks(prev.0, StartWeekday(s))
      && WeekInfoFor(s, prev.0, prev.1).firstDay == WeekInfoFor(s, y, w).firstDay - 7
      && NextWeek(prev.0, prev.1, WeekInfoFor(s, prev.0, prev.1).yearNumWeeks) == (y, w)
  {
    var fw := StartWeekday(s);
    var n := NumWeeks(y - 1, fw);
    assert YearStart(y - 1, fw) + 7 * n == YearStart(y, fw);
    if w == 1 {
      assert PrevWeek(y, w, n) == (y - 1, n);
      assert WeekInfoFor(s, y - 1, n).yearNumWeeks == n;
    } else {
      assert PrevWeek(y, w, n) == (y, w - 1);
    }
  }

  /** The path of the week view of week `w` of year `y`. */
  function WeekPath(base: string, y: int, w: int): string {
    base + IntToString(y) + "/W" + IntToString(w) + "/"
  }

  /** The week a link names: week 53 of a 52-week year becomes week 52. */
  function LinkedWeek(s: FirstDay, y: int, w: int): (r: int)
    requires LinkableYear(y)
    ensures 1 <= w <= 53 ==> 1 <= r <= NumWeeksInYear(s, y)
    ensures w != 53 ==> r == w
  {
    if w == 53 && NumWeeksInYear(s, y) == 52 then 52 else w
  }

  /** A week Django cannot reverse in a year `myUrl` would link: NoReverseMatch. */
  predicate WeekUnreversable(y: int, w: int) {
    LinkableYear(y) && !(1 <= w <= 53)
  }

  /**
   * `serveWeek`'s `myUrl`: no link outside 1900..2099 or for week 53 of
   * 2099; otherwise the linked week is reversed, which raises
   * NoReverseMatch (a failure here) for a week outside 1..53.
   */
  function WeekUrl(s: FirstDay, base: string, y: int, w: int): (r: Result<Option<string>>)
    ensures r == Success(None) <==> !LinkableYear(y) || (y == 2099 && w == 53)
    ensures r.Failure? <==> WeekUnreversable(y, w)
    ensures r.Success? && r.value.Some? ==> LinkableYear(y) && r.value.value == WeekPath(base, y, LinkedWeek(s, y, w))
  {
    if y < 1900 || y > 2099 || (y == 2099 && w == 53) then Success(None)
    else
      var week := if w == 53 && NumWeeksInYear(s, y) == 52 then 52 else w;
      ReverseWeekFound(base, y, week);
      match ReverseWeek(base, y, week)
      case Some(path) => Success(Some(path))
      case None => Failure("NoReverseMatch")
  }

  /** A week link is in the form the week route accepts, and reads back as the linked week. */
  lemma WeekUrlRoutes(s: FirstDay, base: string, y: int, w: int)
    requires LinkableYear(y) && 1 <= w <= 53 && !(y == 2099 && w == 53)
    ensures WeekUrl(s, base, y, w) ==
      Success(Some(base + NatToString(y) + "/W" + NatToString(LinkedWeek(s, y, w)) + "/"))
    ensures MatchWW(NatToString(LinkedWeek(s, y, w)))
    ensures ParseNat(NatToString(LinkedWeek(s, y, w))) == LinkedWeek(s, y, w)
  {
    var linked := LinkedWeek(s, y, w);
    WeekString(linked);
    assert WeekUrl(s, base, y, w) == Success(Some(WeekPath(base, y, linked)));
  }

  /** The links of `serveWeek`'s context. */
  datatype WeekLinks = WeekLinks(prevWeek: Option<string>, nextWeek: Option<string>,
                                 prevYear: Option<string>, nextYear: Option<string>,
                                 thisWeek: Option<string>)

  /**
   * The five `myUrl` links `serveWeek` puts in its context for week `w` of
   * year `y`, with today's week `(thisYear, thisWeek)`: the view raises
   * NoReverseMatch as soon as one of them names a week outside 1..53 in a
   * linkable year.  On the `week/` route with week 0 the previous week is
   * week -1, so the view fails.
   */
  function WeekViewLinks(s: FirstDay, base: string, y: int, w: int, prevYearNumWeeks: int,
                         yearNumWeeks: int, thisYear: int, thisWeek: int): (r: Result<WeekLinks>)
    ensures var prev := PrevWeek(y, w, prevYearNumWeeks);
      var next := NextWeek(y, w, yearNumWeeks);
      r.Failure? <==>
        WeekUnreversable(prev.0, prev.1) || WeekUnreversable(next.0, next.1) ||
        WeekUnreversable(y - 1, w) || WeekUnreversable(y + 1, w) ||
        WeekUnreversable(thisYear, thisWeek)
    ensures LinkableYear(y) && w == 0 ==> r.Failure?
    ensures WeekUnreversable(thisYear, thisWeek) ==> r.Failure?
    ensures r.Success? && r.value.thisWeek.Some? ==>
      LinkableYear(thisYear) && r.value.thisWeek.value == WeekPath(base, thisYear, LinkedWeek(s, thisYear, thisWeek))
  {
    var prev := PrevWeek(y, w, prevYearNumWeeks);
    var next := NextWeek(y, w, yearNumWeeks);
    var p := WeekUrl(s, base, prev.0, prev.1);
    var n := WeekUrl(s, base, next.0, next.1);
    var py := WeekUrl(s, base, y - 1, w);
    var ny := WeekUrl(s, base, y + 1, w);
    var t := WeekUrl(s, base, thisYear, thisWeek);
    if p.Failure? || n.Failure? || py.Failure? || ny.Failure? || t.Failure? then Failure("NoReverseMatch")
    else Success(WeekLinks(p.value, n.value, py.value, ny.value, t.value))
  }

  /**
   * As written, today's week link (`thisWeekUrl`) fails to reverse exactly
   * on a Sunday-first site before the Sunday-week year start, so every
   * week view raises then, whatever week it shows.
   */
  lemma WeekViewAsWrittenFails(s: FirstDay, base: string, y: int, w: int, prevYearNumWeeks: int,
                               yearNumWeeks: int, today: Date)
    requires NumberableDate(s, today) && 1901 <= today.year <= 2098
    ensures var wd := GregorianToWeekDateAsWritten(s, today);
      WeekUnreversable(wd.year, wd.week) <==> s.SundayFirst? && ToOrdinal(today) < SsweekYearStart(today.year)
    ensures var wd := GregorianToWeekDateAsWritten(s, today);
      s.SundayFirst? && ToOrdinal(today) < SsweekYearStart(today.year) ==>
        WeekViewLinks(s, base, y, w, prevYearNumWeeks, yearNumWeeks, wd.year, wd.week).Failure?
  {
  }

  /**
   * With the corrected week numbering, every week the week route accepts
   * (1..53) and `serveWeek` does not reject as a 53rd week of a 52-week
   * year has all five links.
   */
  lemma WeekViewLinksRoute(s: FirstDay, base: string, y: int, w: int, today: Date)
    requires InfoYear(s, y) && 1 <= w <= 53 && !(w == 53 && NumWeeks(y, StartWeekday(s)) == 52)
    requires NumberableDate(s, today) && 1901 <= today.year <= 2098
    ensures var info := WeekInfoFor(s, y, w);
      var wd := GregorianToWeekDate(s, today);
      WeekViewLinks(s, base, y, w, info.prevYearNumWeeks, info.yearNumWeeks, wd.year, wd.week).Success?
  {
    var info := WeekInfoFor(s, y, w);
    var wd := GregorianToWeekDate(s, today);
    assert info.yearNumWeeks == NumWeeksInYear(s, y);
    assert info.prevYearNumWeeks == NumWeeksInYear(s, y - 1);
    assert wd.week <= NumWeeksInYear(s, wd.year);
  }

  /** A week number prints as one or two digits that read back as it. */
  lemma WeekString(w: int)
    requires 1 <= w <= 53
    ensures MatchWW(NatToString(w)) && ParseNat(NatToString(w)) == w
  {
    var ws := NatToString(w);
    ParseNatToString(w);
    assert |ws| <= 2 by {
      if w >= 10 {
        assert ws == NatToString(w / 10) + [DigitChar(w % 10)];
      }
    }
    WeekPicture(ws);
  }

  /**
   * `reverse_subpage('serveWeek', args=[y, w])`: Django builds the path
   * only when each argument prints in its route picture, and raises
   * NoReverseMatch (`None` here) otherwise.
   */
  function ReverseWeek(base: string, y: int, w: int): (r: Option<string>)
    ensures r.Some? ==> r.value == WeekPath(base, y, w)
  {
    if MatchYYYY(IntToString(y)) && MatchWW(IntToString(w)) then Some(WeekPath(base, y, w)) else None
  }

  /** The week route reverses exactly for years 1900..2099 and weeks 1..53. */
  lemma ReverseWeekFound(base: string, y: int, w: int)
    ensures ReverseWeek(base, y, w).Some? <==> LinkableYear(y) && 1 <= w <= 53
  {
    YearPicture(IntToString(y));
    WeekPicture(IntToString(w));
    if y >= 0 {
      ParseNatToString(y);
      if LinkableYear(y) { YearString(y); }
    }
    if w >= 0 {
      ParseNatToString(w);
      if 1 <= w <= 53 { WeekString(w); }
    }
  }

  /** The month view's weekly link, from the week `MonthWeekLink` picks. */
  function MonthWeeklyUrl(s: FirstDay, base: string, y: int, m: int, today: Date): Option<string>
    requires NumberableDate(s, today) && NumberableDate(s, Date(y, m, 7))
  {
    var wd := MonthWeekLink(s, y, m, today);
    ReverseWeek(base, wd.year, wd.week)
  }

  /** The month view's weekly link as the source builds it. */
  function MonthWeeklyUrlAsWritten(s: FirstDay, base: string, y: int, m: int, today: Date): Option<string>
    requires NumberableDate(s, today) && NumberableDate(s, Date(y, m, 7))
  {
    var wd := MonthWeekLinkAsWritten(s, y, m, today);
    ReverseWeek(base, wd.year, wd.week)
  }

  /**
   * As written, the month view of the current month on a Sunday-first
   * site fails to reverse its weekly link exactly from 1 January up to
   * the Sunday-week year start, as week 0 is not in the week picture;
   * every other month view of 1901..2098 has its link.
   */
  lemma MonthWeeklyUrlAsWrittenFails(s: FirstDay, base: string, y: int, m: int, today: Date)
    requires NumberableDate(s, today) && NumberableDate(s, Date(y, m, 7))
    requires 1901 <= y <= 2098
    ensures MonthWeeklyUrlAsWritten(s, base, y, m, today).None? <==>
      (y, m) == (today.year, today.month) && s.SundayFirst? && ToOrdinal(today) < SsweekYearStart(today.year)
  {
    var wd := MonthWeekLinkAsWritten(s, y, m, today);
    ReverseWeekFound(base, wd.year, wd.week);
  }

  /** On 2015-01-01 a Sunday-first site's month view cannot link its week. */
  lemma MonthWeeklyUrlWeekZero(base: string, today: Date)
    requires today == Date(2015, 1, 1)
    ensures NumberableDate(SundayFirst, today) && NumberableDate(SundayFirst, Date(today.year, today.month, 7))
    ensures MonthWeekLinkAsWritten(SundayFirst, today.year, today.month, today).week == 0
    ensures MonthWeeklyUrlAsWritten(SundayFirst, base, today.year, today.month, today).None?
  {
    SundayWeekZeroOn2015(today);
    SeventhNumberable(SundayFirst, today);
    var wd := MonthWeekLinkAsWritten(SundayFirst, today.year, today.month, today);
    assert wd == GregorianToWeekDateAsWritten(SundayFirst, today);
    ReverseWeekFound(base, wd.year, wd.week);
  }

  /** With the corrected week numbering every month view of 1901..2098 links its week. */
  lemma MonthWeeklyUrlRoutes(s: FirstDay, base: string, y: int, m: int, today: Date)
    requires NumberableDate(s, today) && NumberableDate(s, Date(y, m, 7))
    requires 1901 <= y <= 2098
    ensures var wd := MonthWeekLink(s, y, m, today);
      MonthWeeklyUrl(s, base, y, m, today) == Some(WeekPath(base, wd.year, wd.week))
  {
    var wd := MonthWeekLink(s, y, m, today);
    ReverseWeekFound(base, wd.year, wd.week);
  }

  /**
   * The weekly link of the upcoming and past views, and the week view's
   * `thisWeekUrl`, from today's week as the setting binds it: reversing it
   * fails exactly on a Sunday-first site before the Sunday-week year start
   * (for the week view through `myUrl`, see `WeekViewAsWrittenFails`).
   */
  lemma TodayWeeklyUrlAsWrittenFails(s: FirstDay, base: string, today: Date)
    requires NumberableDate(s, today) && 1901 <= today.year <= 2098
    ensures var wd := GregorianToWeekDateAsWritten(s, today);
      ReverseWeek(base, wd.year, wd.week).None? <==>
        s.SundayFirst? && ToOrdinal(today) < SsweekYearStart(today.year)
  {
    var wd := GregorianToWeekDateAsWritten(s, today);
    ReverseWeekFound(base, wd.year, wd.week);
  }

  /** With the corrected week numbering the upcoming and past views always link today's week. */
  lemma TodayWeeklyUrlRoutes(s: FirstDay, base: string, today: Date)
    requires NumberableDate(s, today) && 1901 <= today.year <= 2098
    ensures var wd := GregorianToWeekDate(s, today);
      ReverseWeek(base, wd.year, wd.week) == Some(WeekPath(base, wd.year, wd.week))
  {
    var wd := GregorianToWeekDate(s, today);
    ReverseWeekFound(base, wd.year, wd.week);
  }

  /** `serveWeek`'s check: week 53 of a 52-week year is not found. */
  function ServeWeek(s: FirstDay, y: int, w: int): (r: Result<WeekInfo>)
    requires InfoYear(s, y)
    ensures r.Failure? <==> w == 53 && NumWeeks(y, StartWeekday(s)) == 52
    ensures r.Success? ==> r.value == WeekInfoFor(s, y, w)
    ensures r.Success? && 1 <= w <= 53 ==> w <= NumWeeks(y, StartWeekday(s))
  {
    var info := WeekInfoFor(s, y, w);
    if w == 53 && info.yearNumWeeks == 52 then Failure("Only 52 weeks in " + IntToString(y))
    else Success(info)
  }

  /** A day lies within its month. */
  lemma DayInItsMonth(n: int)
    ensures var d := FromOrdinal(n);
      FirstOfMonth(d.year, d.month) <= n < FirstOfMonth(d.year, d.month) + DaysInMonth(d.year, d.month)
  {
    ToFromOrdinal(n);
  }

  /** The month the week view links to: the month of its first day, or January 1900. */
  function WeekMonthlyLink(firstDay: int): (r: (int, int))
    ensures 1 <= r.1 <= 12 && r.0 >= 1900
    ensures FromOrdinal(firstDay).year >= 1900 ==>
      FirstOfMonth(r.0, r.1) <= firstDay < FirstOfMonth(r.0, r.1) + DaysInMonth(r.0, r.1)
    ensures FromOrdinal(firstDay).year < 1900 ==> r == (1900, 1)
  {
    var d := FromOrdinal(firstDay);
    DayInItsMonth(firstDay);
    if d.year >= 1900 then (d.year, d.month) else (1900, 1)
  }

  /** `serveDay`'s check: a day beyond the month's length is not found. */
  function ServeDay(y: int, m: int, dom: int): (r: Result<Date>)
    requires 1 <= m <= 12
    ensures r.Failure? <==> dom > DaysInMonth(y, m)
    ensures r.Success? ==> r.value == Date(y, m, dom)
  {
    if dom > DaysInMonth(y, m) then Failure("Only " + IntToString(DaysInMonth(y, m)) + " days in month")
    else Success(Date(y, m, dom))
  }

  /** A day URL that passes the pictures and the length check names a valid date. */
  lemma ServeDayValid(ys: string, ms: string, ds: string)
    requires MatchYYYY(ys) && MatchMM(ms) && MatchDD(ds)
    ensures AllDigits(ys) && AllDigits(ms) && AllDigits(ds)
    ensures 1 <= ParseNat(ms) <= 12
    ensures var r := ServeDay(ParseNat(ys), ParseNat(ms), ParseNat(ds));
      r.Success? ==> IsValid(r.value)
  {
    YearPicture(ys);
    MonthPicture(ms);
    DayPicture(ds);
  }

  // ---------------------------------------------------------------------
  // Pagination

  /** `Paginator.num_pages` with no orphans and an allowed empty first page. */
  function NumPages(count: nat, perPage: nat): (r: nat)
    requires perPage >= 1
    ensures r >= 1
    ensures (r - 1) * perPage < (if count == 0 then 1 else count) <= r * perPage
  {
    var hits := if count == 0 then 1 else count;
    var r := (hits + perPage - 1) / perPage;
    assert (r - 1) * perPage < hits by {
      assert r * perPage <= hits + perPage - 1;
    }
    r
  }

  /**
   * Decimal digits, single underscores allowed between two of them, as
   * `int()` reads them: a digit, then digits each preceded by at most one
   * underscore.
   */
  predicate Underscored(s: string)
    decreases |s|
  {
    |s| >= 1 && IsDigit(s[0]) &&
    (|s| == 1 || (if s[1] == '_' then Underscored(s[2..]) else Underscored(s[1..])))
  }

  lemma {:induction false} UnderscoredChars(s: string)
    requires Underscored(s)
    ensures forall i :: 0 <= i < |s| ==> IsDigit(s[i]) || s[i] == '_'
    decreases |s|
  {
    if |s| > 1 {
      var k := if s[1] == '_' then 2 else 1;
      UnderscoredChars(s[k..]);
      forall i | k <= i < |s| ensures IsDigit(s[i]) || s[i] == '_' {
        assert s[i] == s[k..][i - k];
      }
    }
  }

  lemma {:induction false} UnderscoredDigits(s: string)
    requires |s| >= 1 && AllDigits(s)
    ensures Underscored(s)
  {
    if |s| > 1 {
      UnderscoredDigits(s[1..]);
    }
  }

  lemma {:induction false} UnderscoredJoin(a: string, b: string)
    requires |a| >= 1 && AllDigits(a) && Underscored(b)
    ensures Underscored(a + "_" + b)
  {
    var u := a + "_" + b;
    if |a| == 1 {
      assert u[1] == '_' && u[2..] == b;
    } else {
      UnderscoredJoin(a[1..], b);
      assert u[1] == a[1] && u[1..] == a[1..] + "_" + b;
    }
  }

  /** The digits of `s`, underscores dropped. */
  function DropUnderscores(s: string): (r: string)
    ensures (forall i :: 0 <= i < |s| ==> IsDigit(s[i]) || s[i] == '_') ==> AllDigits(r)
    ensures forall i :: 0 <= i < |r| ==> r[i] != '_'
  {
    if s == [] then [] else (if s[0] == '_' then [] else [s[0]]) + DropUnderscores(s[1..])
  }

  lemma {:induction false} DropUnderscoresAppend(a: string, b: string)
    ensures DropUnderscores(a + b) == DropUnderscores(a) + DropUnderscores(b)
  {
    if a != [] {
      DropUnderscoresAppend(a[1..], b);
      assert (a + b)[1..] == a[1..] + b;
    } else {
      assert a + b == b;
    }
  }

  lemma {:induction false} DropUnderscoresDigits(s: string)
    requires AllDigits(s)
    ensures DropUnderscores(s) == s
  {
    if s != [] {
      DropUnderscoresDigits(s[1..]);
    }
  }

  /** The value of underscored digits. */
  function UnderscoredValue(s: string): nat
    requires Underscored(s)
  {
    UnderscoredChars(s);
    ParseNat(DropUnderscores(s))
  }

  /**
   * `int(s)` on a request parameter: surrounding whitespace ignored, an
   * optional sign, then digits with single underscores between them;
   * None where `int` raises `ValueError`.
   */
  function ParseInt(s: string): (r: Option<int>)
    ensures var t := Trim(s);
      r.Some? <==> Underscored(t) || (|t| >= 2 && (t[0] == '-' || t[0] == '+') && Underscored(t[1..]))
    ensures var t := Trim(s);
      r.Some? && t[0] != '-' && t[0] != '+' ==> Underscored(t) && r.value == UnderscoredValue(t)
    ensures var t := Trim(s);
      r.Some? && (t[0] == '-' || t[0] == '+') ==>
        Underscored(t[1..]) && r.value == (if t[0] == '-' then -1 else 1) * UnderscoredValue(t[1..])
  {
    ParseStripped(Trim(s))
  }

  /** `int` on a string with no surrounding whitespace. */
  function ParseStripped(t: string): (r: Option<int>)
    ensures r.Some? <==> Underscored(t) || (|t| >= 2 && (t[0] == '-' || t[0] == '+') && Underscored(t[1..]))
    ensures r.Some? && t[0] != '-' && t[0] != '+' ==> Underscored(t) && r.value == UnderscoredValue(t)
    ensures r.Some? && (t[0] == '-' || t[0] == '+') ==>
      Underscored(t[1..]) && r.value == (if t[0] == '-' then -1 else 1) * UnderscoredValue(t[1..])
  {
    if |t| >= 2 && (t[0] == '-' || t[0] == '+') && Underscored(t[1..]) then
      var v: int := UnderscoredValue(t[1..]);
      Some(if t[0] == '-' then -v else v)
    else if Underscored(t) then Some(UnderscoredValue(t))
    else None
  }

  /** `int(str(i)) == i`. */
  lemma ParseIntOfString(i: int)
    ensures ParseInt(IntToString(i)) == Some(i)
  {
    var n: nat := if i < 0 then -i else i;
    var d := NatToString(n);
    DigitsValue(d, n);
    var s := IntToString(i);
    assert s == if i < 0 then "-" + d else d;
    assert s[|s| - 1] == d[|d| - 1];
    TrimNone(s);
    if i < 0 {
      assert s[0] == '-' && s[1..] == d;
      StrippedSigned(s, d, n);
    } else {
      StrippedDigits(s, n);
    }
  }

  lemma StrippedDigits(d: string, n: nat)
    requires d == NatToString(n)
    ensures ParseStripped(d) == Some(n)
  {
    DigitsValue(d, n);
  }

  lemma StrippedSigned(s: string, d: string, n: nat)
    requires d == NatToString(n) && |s| >= 2 && s[0] == '-' && s[1..] == d
    ensures ParseStripped(s) == Some(-(n as int))
  {
    DigitsValue(d, n);
  }

  lemma DigitsValue(d: string, n: nat)
    requires d == NatToString(n)
    ensures Underscored(d) && UnderscoredValue(d) == n
  {
    UnderscoredDigits(d);
    DropUnderscoresDigits(d);
    ParseNatToString(n);
  }

  /** Whitespace around the parameter changes nothing: `int(" 2 ") == int("2")`. */
  lemma ParseIntSpaced(p: string, s: string, q: string)
    requires AllSpace(p) && AllSpace(q)
    requires s != [] && !IsSpace(s[0]) && !IsSpace(s[|s| - 1])
    ensures ParseInt(p + s + q) == ParseInt(s)
  {
    TrimSpaced(p, s, q);
  }

  /** An underscore between two runs of digits changes nothing: `int("1_000") == 1000`. */
  lemma ParseIntUnderscore(a: string, b: string)
    requires |a| >= 1 && |b| >= 1 && AllDigits(a) && AllDigits(b)
    ensures ParseInt(a + "_" + b) == ParseInt(a + b)
  {
    var u, v := a + "_" + b, a + b;
    assert u[0] == a[0] && u[|u| - 1] == b[|b| - 1];
    assert v[0] == a[0] && v[|v| - 1] == b[|b| - 1];
    TrimNone(u);
    TrimNone(v);
    UnderscoreValue(a, b);
    StrippedUnsigned(u);
    StrippedUnsigned(v);
  }

  lemma StrippedUnsigned(t: string)
    requires Underscored(t)
    ensures ParseStripped(t) == Some(UnderscoredValue(t))
  {
  }

  lemma UnderscoreValue(a: string, b: string)
    requires |a| >= 1 && |b| >= 1 && AllDigits(a) && AllDigits(b)
    ensures Underscored(a + "_" + b) && Underscored(a + b)
    ensures UnderscoredValue(a + "_" + b) == UnderscoredValue(a + b)
  {
    var u, v := a + "_" + b, a + b;
    assert u == a + ("_" + b);
    DropUnderscoresAppend(a, "_" + b);
    assert DropUnderscores("_" + b) == DropUnderscores(b) by {
      assert ("_" + b)[1..] == b;
    }
    DropUnderscoresAppend(a, b);
    UnderscoredDigits(b);
    UnderscoredJoin(a, b);
    assert AllDigits(v) by {
      forall i | 0 <= i < |v| ensures IsDigit(v[i]) {
        if i < |a| { assert v[i] == a[i]; } else { assert v[i] == b[i - |a|]; }
      }
    }
    UnderscoredDigits(v);
  }

  /**
   * `_paginate`: the requested page if it is an integer in range; page 1
   * if the parameter is missing or not an integer; the last page if it is
   * an integer out of range.
   */
  function Paginate(count: nat, perPage: nat, page: Option<string>): (r: nat)
    requires perPage >= 1
    ensures 1 <= r <= NumPages(count, perPage)
    ensures (page.None? || ParseInt(page.value).None?) ==> r == 1
    ensures page.Some? && ParseInt(page.value).Some? ==>
      var n := ParseInt(page.value).value;
      (1 <= n <= NumPages(count, perPage) ==> r == n) &&
      (!(1 <= n <= NumPages(count, perPage)) ==> r == NumPages(count, perPage))
  {
    if page.None? then 1
    else match ParseInt(page.value)
      case None => 1
      case Some(n) =>
        if n < 1 || n > NumPages(count, perPage) then NumPages(count, perPage) else n
  }

  /** The items on page `n`: `object_list[bottom:top]`. */
  function PageItems<T>(items: seq<T>, perPage: nat, n: nat): (r: seq<T>)
    requires perPage >= 1 && 1 <= n
    requires (n - 1) * perPage <= |items|
    ensures |r| <= perPage
  {
    var bottom := (n - 1) * perPage;
    var top := if bottom + perPage >= |items| then |items| else bottom + perPage;
    items[bottom..top]
  }

  /** Pages 1 to n, one after another. */
  function PagesUpTo<T>(items: seq<T>, perPage: nat, n: nat): seq<T>
    requires perPage >= 1
    requires (if n == 0 then 0 else n - 1) * perPage <= |items|
  {
    if n == 0 then []
    else
      assert (if n - 1 == 0 then 0 else n - 2) * perPage <= (n - 1) * perPage;
      PagesUpTo(items, perPage, n - 1) + PageItems(items, perPage, n)
  }

  lemma {:induction false} PagesUpToPrefix<T>(items: seq<T>, perPage: nat, n: nat)
    requires perPage >= 1
    requires (if n == 0 then 0 else n - 1) * perPage <= |items|
    ensures PagesUpTo(items, perPage, n) ==
      items[..if n * perPage >= |items| then |items| else n * perPage]
  {
    if n > 0 {
      assert (if n - 1 == 0 then 0 else n - 2) * perPage <= (n - 1) * perPage;
      PagesUpToPrefix(items, perPage, n - 1);
      var bottom := (n - 1) * perPage;
      var top := if bottom + perPage >= |items| then |items| else bottom + perPage;
      assert n * perPage == bottom + perPage;
      assert PagesUpTo(items, perPage, n - 1) == items[..bottom];
      assert PageItems(items, perPage, n) == items[bottom..top];
      assert items[..bottom] + items[bottom..top] == items[..top];
    }
  }

  /** The pages, read in order, are the whole list of events: nothing lost, nothing repeated. */
  lemma PagesCoverItems<T>(items: seq<T>, perPage: nat)
    requires perPage >= 1
    ensures (NumPages(|items|, perPage) - 1) * perPage <= |items|
    ensures PagesUpTo(items, perPage, NumPages(|items|, perPage)) == items
  {
    var n := NumPages(|items|, perPage);
    PagesUpToPrefix(items, perPage, n);
  }
}

=== FILE: dates.dfy ===
/**
 * Calendar dates as Python's `datetime` module sees them: the proleptic
 * Gregorian calendar, dates numbered by ordinal with 0001-01-01 as day 1,
 * `weekday()` with Monday as 0, and times of day in microseconds.
 * Every date the source handles is kept as its ordinal; `date + timedelta`
 * is then plain integer addition.
 */
module Dates {

  const MinYear := 1
  const MaxYear := 9999
  const MicrosPerDay := 86_400_000_000

  /** A time of day, `datetime.time`, in microseconds since midnight. */
  type TimeOfDay = t: int | 0 <= t < 86_400_000_000

  /** `datetime.time.min` and `datetime.time.max`. */
  const TimeMin: TimeOfDay := 0
  const TimeMax: TimeOfDay := 86_400_000_000 - 1

  datatype Date = Date(year: int, month: int, day: int)

  predicate IsLeap(y: int) {
    y % 4 == 0 && (y % 100 != 0 || y % 400 == 0)
  }

  function DaysInYear(y: int): int {
    if IsLeap(y) then 366 else 365
  }

  function DaysInMonth(y: int, m: int): int
    requires 1 <= m <= 12
  {
    if m == 2 then (if IsLeap(y) then 29 else 28)
    else if m == 4 || m == 6 || m == 9 || m == 11 then 30
    else 31
  }

  /** Days in the months of year `y` before month `m`. */
  function DaysBeforeMonth(y: int, m: int): int
    requires 1 <= m <= 12
  {
    if m == 1 then 0 else DaysBeforeMonth(y, m - 1) + DaysInMonth(y, m - 1)
  }

  /**
   * Days in the years before year `y`, counted from 0001-01-01 (negative
   * before year 1): the reference count, year by year.
   */
  function DaysBeforeYear(y: int): int
    decreases if y < 1 then 1 - y else y - 1
  {
    if y == 1 then 0
    else if y > 1 then DaysBeforeYear(y - 1) + DaysInYear(y - 1)
    else DaysBeforeYear(y + 1) - DaysInYear(y)
  }

  /** `_days_before_year`: 365 days a year plus the leap days, in closed form. */
  function DaysBeforeYearFormula(y: int): int {
    var z := y - 1;
    z * 365 + z / 4 - z / 100 + z / 400
  }

  /** A civil date, with no restriction on the year. */
  predicate IsCivil(d: Date) {
    1 <= d.month <= 12 && 1 <= d.day <= DaysInMonth(d.year, d.month)
  }

  /** A date Python's `datetime.date` accepts. */
  predicate IsValid(d: Date) {
    MinYear <= d.year <= MaxYear && IsCivil(d)
  }

  function ToOrdinal(d: Date): int
    requires 1 <= d.month <= 12
  {
    DaysBeforeYear(d.year) + DaysBeforeMonth(d.year, d.month) + d.day
  }

  /** Ordinals of `date.min` and `date.max`. */
  const MinOrdinal := 1
  const MaxOrdinal := 3_652_059

  predicate IsValidOrdinal(n: int) {
    MinOrdinal <= n <= MaxOrdinal
  }

  /** `date.weekday()`: Monday is 0 and Sunday is 6. */
  function Weekday(n: int): (r: int)
    ensures 0 <= r < 7
  {
    (n + 6) % 7
  }

  /** `date.isoweekday()`: Monday is 1 and Sunday is 7. */
  function IsoWeekday(n: int): (r: int)
    ensures 1 <= r <= 7
  {
    Weekday(n) + 1
  }

  /** Month containing day `r` (0-based) of year `y`. */
  function MonthOfDay(y: int, r: int, m: int): (res: int)
    requires 1 <= m <= 12
    requires DaysBeforeMonth(y, m) <= r < DaysInYear(y)
    ensures m <= res <= 12
    ensures DaysBeforeMonth(y, res) <= r < DaysBeforeMonth(y, res) + DaysInMonth(y, res)
    decreases 12 - m
  {
    YearLength(y);
    if m == 12 || r < DaysBeforeMonth(y, m + 1) then m else MonthOfDay(y, r, m + 1)
  }

  /** The twelve months make up the year. */
  lemma YearLength(y: int)
    ensures DaysBeforeMonth(y, 12) + DaysInMonth(y, 12) == DaysInYear(y)
  {
    var leap := if IsLeap(y) then 1 else 0;
    assert DaysBeforeMonth(y, 2) == 31;
    assert DaysBeforeMonth(y, 3) == 59 + leap;
    assert DaysBeforeMonth(y, 4) == 90 + leap;
    assert DaysBeforeMonth(y, 5) == 120 + leap;
    assert DaysBeforeMonth(y, 6) == 151 + leap;
    assert DaysBeforeMonth(y, 7) == 181 + leap;
    assert DaysBeforeMonth(y, 8) == 212 + leap;
    assert DaysBeforeMonth(y, 9) == 243 + leap;
    assert DaysBeforeMonth(y, 10) == 273 + leap;
    assert DaysBeforeMonth(y, 11) == 304 + leap;
    assert DaysBeforeMonth(y, 12) == 334 + leap;
  }

  lemma DaysBeforeMonthBounds(y: int, m: int)
    requires 1 <= m <= 12
    ensures 0 <= DaysBeforeMonth(y, m)
    ensures DaysBeforeMonth(y, m) + DaysInMonth(y, m) <= DaysInYear(y)
  {
    YearLength(y);
    if m < 12 {
      DaysBeforeMonthStrict(y, m, 12);
    }
    DaysBeforeMonthNonNegative(y, m);
  }

  lemma {:induction false} DaysBeforeMonthNonNegative(y: int, m: int)
    requires 1 <= m <= 12
    ensures 0 <= DaysBeforeMonth(y, m)
  {
    if m > 1 {
      DaysBeforeMonthNonNegative(y, m - 1);
    }
  }

  /**
   * `date.fromordinal(n)`: split `n - 1` into 400-, 100-, 4- and 1-year
   * cycles; the last day of a 4- or 400-year cycle is December 31 of the
   * year before the one the cycle count names.
   */
  function FromOrdinal(n: int): (d: Date)
    ensures IsCivil(d)
  {
    var n0 := n - 1;
    var r400 := n0 % 146097;
    var r100 := r400 % 36524;
    var r4 := r100 % 1461;
    FromCycles(n0 / 146097, r400 / 36524, r100 / 1461, r4 / 365, r4 % 365)
  }

  /**
   * The date `r` days into the year reached after `n400` 400-year,
   * `n100` 100-year, `n4` 4-year and `n1` single-year cycles.
   */
  function FromCycles(n400: int, n100: int, n4: int, n1: int, r: int): (d: Date)
    requires 0 <= n100 <= 4 && 0 <= n4 && 0 <= n1 <= 4 && 0 <= r < 365
    ensures IsCivil(d)
  {
    var year := n400 * 400 + 1 + n100 * 100 + n4 * 4 + n1;
    if n1 == 4 || n100 == 4 then
      Date(year - 1, 12, 31)
    else
      var m := MonthOfDay(year, r, 1);
      Date(year, m, r - DaysBeforeMonth(year, m) + 1)
  }

  /** The days before a year, counted in whole 400-, 100-, 4- and 1-year cycles. */
  lemma DaysBeforeYearCycles(a: int, b: int, c: int, e: int)
    requires 0 <= b <= 3 && 0 <= c <= 24 && 0 <= e <= 3
    ensures DaysBeforeYear(400 * a + 100 * b + 4 * c + e + 1)
            == 146097 * a + 36524 * b + 1461 * c + 365 * e
  {
    var y := 400 * a + 100 * b + 4 * c + e + 1;
    var z := y - 1;
    assert z / 4 == 100 * a + 25 * b + c;
    assert z / 100 == 4 * a + b;
    assert z / 400 == a;
    DaysBeforeYearIsFormula(y);
  }

  lemma LastDayOfCycle(a: int)
    ensures DaysBeforeYear(400 * a + 400) + 366 == 146097 * a + 146097
  {
    DaysBeforeYearIsFormula(400 * a + 400);
    var z := 400 * a + 399;
    assert z / 4 == 100 * a + 99;
    assert z / 100 == 4 * a + 3;
    assert z / 400 == a;
  }

  /** `fromordinal` is a right inverse of `toordinal` on every integer. */
  lemma ToFromOrdinal(n: int)
    ensures ToOrdinal(FromOrdinal(n)) == n
  {
    var n0 := n - 1;
    var r400 := n0 % 146097;
    var r100 := r400 % 36524;
    var r4 := r100 % 1461;
    CycleCounts(n0);
    CyclesToOrdinal(n0 / 146097, r400 / 36524, r100 / 1461, r4 / 365, r4 % 365);
  }

  /** The cycle counts `fromordinal` computes, and the cases that end a cycle. */
  lemma CycleCounts(n0: int)
    ensures var r400 := n0 % 146097; var r100 := r400 % 36524; var r4 := r100 % 1461;
      var b, c, e, r := r400 / 36524, r100 / 1461, r4 / 365, r4 % 365;
      && n0 == 146097 * (n0 / 146097) + 36524 * b + 1461 * c + 365 * e + r
      && 0 <= b <= 4 && 0 <= c <= 24 && 0 <= e <= 4 && 0 <= r < 365
      && (b == 4 ==> c == 0 && e == 0 && r == 0)
      && (e == 4 ==> c <= 23 && r == 0)
  {
    var r400 := n0 % 146097;
    var r100 := r400 % 36524;
    var r4 := r100 % 1461;
    assert n0 == 146097 * (n0 / 146097) + r400;
    assert r400 == 36524 * (r400 / 36524) + r100;
    assert r100 == 1461 * (r100 / 1461) + r4;
    assert r4 == 365 * (r4 / 365) + r4 % 365;
  }

  lemma CyclesToOrdinal(a: int, b: int, c: int, e: int, r: int)
    requires 0 <= b <= 4 && 0 <= c <= 24 && 0 <= e <= 4 && 0 <= r < 365
    requires b == 4 ==> c == 0 && e == 0 && r == 0
    requires e == 4 ==> c <= 23 && r == 0
    ensures ToOrdinal(FromCycles(a, b, c, e, r))
            == 146097 * a + 36524 * b + 1461 * c + 365 * e + r + 1
  {
    if b == 4 {
      LastDayOf400(a);
    } else if e == 4 {
      LastDayOf4(a, b, c);
    } else {
      var y := 400 * a + 100 * b + 4 * c + e + 1;
      DaysBeforeYearCycles(a, b, c, e);
      var m := MonthOfDay(y, r, 1);
      assert FromCycles(a, b, c, e, r) == Date(y, m, r - DaysBeforeMonth(y, m) + 1);
    }
  }

  /** A 400-year cycle ends on December 31 of a leap year. */
  lemma LastDayOf400(a: int)
    ensures ToOrdinal(FromCycles(a, 4, 0, 0, 0)) == 146097 * a + 146097
  {
    var y := 400 * a + 400;
    assert FromCycles(a, 4, 0, 0, 0) == Date(y, 12, 31);
    LastDayOfYear(y);
    LeapFourHundred(a + 1);
    LastDayOfCycle(a);
  }

  lemma LeapFourHundred(k: int)
    ensures IsLeap(400 * k)
  {
    assert 400 * k == 4 * (100 * k);
  }

  /** December 31 is the last day of its year. */
  lemma LastDayOfYear(y: int)
    ensures ToOrdinal(Date(y, 12, 31)) == DaysBeforeYear(y) + DaysInYear(y)
  {
    YearLength(y);
  }

  /** A 4-year cycle inside a century ends on December 31 of a leap year. */
  lemma LastDayOf4(a: int, b: int, c: int)
    requires 0 <= b <= 3 && 0 <= c <= 23
    ensures ToOrdinal(FromCycles(a, b, c, 4, 0)) == 146097 * a + 36524 * b + 1461 * c + 1461
  {
    var y := 400 * a + 100 * b + 4 * c + 4;
    DaysBeforeYearCycles(a, b, c, 3);
    assert IsLeap(y) by {
      assert y == 4 * (100 * a + 25 * b + c + 1);
      assert y == 100 * (4 * a + b) + (4 * c + 4);
    }
    assert FromCycles(a, b, c, 4, 0) == Date(y, 12, 31);
    LastDayOfYear(y);
  }

  /** Each year adds its own length to the days before the next. */
  lemma DaysBeforeYearStep(y: int)
    ensures DaysBeforeYear(y + 1) == DaysBeforeYear(y) + DaysInYear(y)
  {
  }

  /** Python's closed formula agrees with the year-by-year count on every year. */
  lemma {:induction false} DaysBeforeYearIsFormula(y: int)
    ensures DaysBeforeYear(y) == DaysBeforeYearFormula(y)
    decreases if y < 1 then 1 - y else y - 1
  {
    if y > 1 {
      DaysBeforeYearIsFormula(y - 1);
      FormulaStep(y - 1);
    } else if y < 1 {
      DaysBeforeYearIsFormula(y + 1);
      FormulaStep(y);
    }
  }

  lemma FormulaStep(y: int)
    ensures DaysBeforeYearFormula(y + 1) == DaysBeforeYearFormula(y) + DaysInYear(y)
  {
    var z := y - 1;
    DivStep4(z);
    DivStep100(z);
    DivStep400(z);
    Divisibility(y);
  }

  lemma DivStep4(z: int)
    ensures (z + 1) / 4 == z / 4 + (if (z + 1) % 4 == 0 then 1 else 0)
  {
    assert z == 4 * (z / 4) + z % 4;
  }

  lemma DivStep100(z: int)
    ensures (z + 1) / 100 == z / 100 + (if (z + 1) % 100 == 0 then 1 else 0)
  {
    assert z == 100 * (z / 100) + z % 100;
  }

  lemma DivStep400(z: int)
    ensures (z + 1) / 400 == z / 400 + (if (z + 1) % 400 == 0 then 1 else 0)
  {
    assert z == 400 * (z / 400) + z % 400;
  }

  lemma Divisibility(y: int)
    ensures y % 400 == 0 ==> y % 100 == 0
    ensures y % 100 == 0 ==> y % 4 == 0
  {
    var q4, q100, q400 := y / 4, y / 100, y / 400;
    assert y == 4 * q4 + y % 4 && 0 <= y % 4 < 4;
    assert y == 100 * q100 + y % 100 && 0 <= y % 100 < 100;
    assert y == 400 * q400 + y % 400 && 0 <= y % 400 < 400;
    if y % 400 == 0 {
      assert y % 100 == 100 * (4 * q400 - q100);
    }
    if y % 100 == 0 {
      assert y % 4 == 4 * (25 * q100 - q4);
    }
  }

  lemma {:induction false} DaysBeforeYearMonotone(y1: int, y2: int)
    requires y1 <= y2
    ensures DaysBeforeYear(y2) - DaysBeforeYear(y1) >= 365 * (y2 - y1)
    decreases y2 - y1
  {
    if y1 < y2 {
      DaysBeforeYearMonotone(y1, y2 - 1);
      DaysBeforeYearStep(y2 - 1);
    }
  }

  /** A civil date's ordinal falls inside its own year. */
  lemma OrdinalInYear(d: Date)
    requires IsCivil(d)
    ensures DaysBeforeYear(d.year) < ToOrdinal(d) <= DaysBeforeYear(d.year + 1)
  {
    DaysBeforeMonthBounds(d.year, d.month);
    DaysBeforeYearStep(d.year);
  }

  lemma {:induction false} DaysBeforeMonthStrict(y: int, m1: int, m2: int)
    requires 1 <= m1 < m2 <= 12
    ensures DaysBeforeMonth(y, m1) + DaysInMonth(y, m1) <= DaysBeforeMonth(y, m2)
    decreases m2 - m1
  {
    if m1 + 1 < m2 {
      DaysBeforeMonthStrict(y, m1, m2 - 1);
    }
  }

  /** Distinct civil dates have distinct ordinals. */
  lemma OrdinalInjective(d1: Date, d2: Date)
    requires IsCivil(d1) && IsCivil(d2)
    requires ToOrdinal(d1) == ToOrdinal(d2)
    ensures d1 == d2
  {
    OrdinalInYear(d1);
    OrdinalInYear(d2);
    if d1.year < d2.year {
      DaysBeforeYearMonotone(d1.year + 1, d2.year);
      assert false;
    } else if d2.year < d1.year {
      DaysBeforeYearMonotone(d2.year + 1, d1.year);
      assert false;
    }
    if d1.month < d2.month {
      DaysBeforeMonthStrict(d1.year, d1.month, d2.month);
      assert false;
    } else if d2.month < d1.month {
      DaysBeforeMonthStrict(d1.year, d2.month, d1.month);
      assert false;
    }
  }

  /** `fromordinal(d.toordinal()) == d` for every civil date. */
  lemma FromToOrdinal(d: Date)
    requires IsCivil(d)
    ensures FromOrdinal(ToOrdinal(d)) == d
  {
    ToFromOrdinal(ToOrdinal(d));
    OrdinalInjective(FromOrdinal(ToOrdinal(d)), d);
  }

  /** No days come before year 1, and `date.max` is the last day before year 10000. */
  lemma DaysBeforeEnd()
    ensures DaysBeforeYear(MinYear) == 0
    ensures DaysBeforeYear(MaxYear + 1) == MaxOrdinal
  {
    DaysBeforeYearIsFormula(MaxYear + 1);
  }

  /** The dates Python accepts are exactly the ordinals 1 .. 3652059. */
  lemma ValidOrdinalRange(d: Date)
    requires IsCivil(d)
    ensures IsValid(d) <==> IsValidOrdinal(ToOrdinal(d))
  {
    OrdinalInYear(d);
    DaysBeforeEnd();
    if d.year < MinYear {
      DaysBeforeYearMonotone(d.year + 1, MinYear);
    } else if d.year > MaxYear {
      DaysBeforeYearMonotone(MaxYear + 1, d.year);
    } else {
      DaysBeforeYearMonotone(MinYear, d.year);
      DaysBeforeYearMonotone(d.year + 1, MaxYear + 1);
    }
  }

  /** The ordinal of the first day of month `m` of year `y`. */
  function FirstOfMonth(y: int, m: int): (n: int)
    requires 1 <= m <= 12
  {
    ToOrdinal(Date(y, m, 1))
  }

  /** Day `i + 1` of a month lies `i` days after its 1st. */
  lemma DayOfMonthOrdinal(y: int, m: int, i: int)
    requires 1 <= m <= 12
    ensures ToOrdinal(Date(y, m, i + 1)) == FirstOfMonth(y, m) + i
  {
  }

  /** A valid date is the date of its ordinal, and that ordinal is valid. */
  lemma OrdinalInverse(d: Date, n: int)
    requires IsValid(d) && n == ToOrdinal(d)
    ensures IsValidOrdinal(n) && FromOrdinal(n) == d
  {
    FromToOrdinal(d);
    ValidOrdinalRange(d);
  }
}

=== FILE: event_base.dfy ===
/**
 * The day-by-day view of events (`EventsOnDay`, `EventsByDayList`), the
 * content-panel filter, the post-filter predicate, the event status and
 * the start-before-end form check.  Pages are identified by numbers;
 * their attributes that the source reads are function parameters.
 */
module EventBase {
  import opened Wrappers
  import opened Text
  import opened Dates
  import opened TellTime

  /** `ThisEvent(title, page, url)`. */
  datatype ThisEvent = ThisEvent(title: string, page: int, url: string)

  /** The events of one day: those starting on it and those continuing over it. */
  datatype EventsOnDay = EventsOnDay(date: int, holiday: Option<string>,
                                     daysEvents: seq<ThisEvent>, continuingEvents: seq<ThisEvent>)

  /** `all_events`: the day's own events, then the continuing ones. */
  function AllEvents(e: EventsOnDay): (r: seq<ThisEvent>)
    ensures |r| == |e.daysEvents| + |e.continuingEvents|
    ensures forall x :: x in r <==> x in e.daysEvents || x in e.continuingEvents
  {
    e.daysEvents + e.continuingEvents
  }

  function Titles(events: seq<ThisEvent>): (r: seq<string>)
    ensures |r| == |events| && forall i :: 0 <= i < |events| ==> r[i] == events[i].title
  {
    if events == [] then [] else [events[0].title] + Titles(events[1..])
  }

  const PreviewLength := 100

  /**
   * `preview`: the titles of all the day's events joined by ", ", cut to
   * at most 100 characters.
   */
  function Preview(e: EventsOnDay): (r: string)
    ensures |r| <= PreviewLength
    ensures var full := Join(Titles(AllEvents(e)), ", ");
      |r| <= |full| && r == full[..|r|] && (|full| <= PreviewLength ==> r == full)
  {
    var full := Join(Titles(AllEvents(e)), ", ");
    if |full| <= PreviewLength then full else full[..PreviewLength]
  }

  // ---------------------------------------------------------------------
  // EventsByDayList

  /** A list of days from `fromOrd` to `toOrd`, one entry per day ordinal. */
  datatype ByDayList = ByDayList(fromOrd: int, toOrd: int, days: seq<EventsOnDay>)

  predicate WellFormed(l: ByDayList) {
    |l.days| == (if l.toOrd < l.fromOrd then 0 else l.toOrd - l.fromOrd + 1) &&
    forall i :: 0 <= i < |l.days| ==> l.days[i].date == l.fromOrd + i
  }

  /** `holidays.get(day)`: the day's holiday, absent when the map has none. */
  function HolidayOn(holidays: map<int, string>, day: int): (r: Option<string>)
    ensures r.Some? <==> day in holidays
    ensures r.Some? ==> r.value == holidays[day]
  {
    if day in holidays then Some(holidays[day]) else None
  }

  /**
   * `EventsByDayList(fromDate, toDate, holidays)`: a day for every ordinal
   * of the range, with its holiday and no events yet.
   */
  function NewByDayList(fromOrd: int, toOrd: int, holidays: map<int, string>): (r: ByDayList)
    requires IsValidOrdinal(fromOrd) && IsValidOrdinal(toOrd)
    ensures WellFormed(r) && r.fromOrd == fromOrd && r.toOrd == toOrd
    ensures forall i :: 0 <= i < |r.days| ==>
      r.days[i].holiday == HolidayOn(holidays, fromOrd + i) &&
      r.days[i].daysEvents == [] && r.days[i].continuingEvents == []
  {
    var n := if toOrd < fromOrd then 0 else toOrd - fromOrd + 1;
    ByDayList(fromOrd, toOrd,
              seq(n, i => EventsOnDay(fromOrd + i, HolidayOn(holidays, fromOrd + i), [], [])))
  }

  /**
   * What `add(thisEvent, pageFromDate, pageToDate)` does to each day: the
   * event joins the own events of its start day and the continuing events
   * of every later day up to its end day, within the list's range.
   */
  function Add(l: ByDayList, ev: ThisEvent, pageFrom: int, pageTo: int): (r: ByDayList)
    requires WellFormed(l)
    ensures WellFormed(r) && r.fromOrd == l.fromOrd && r.toOrd == l.toOrd
    ensures forall i :: 0 <= i < |l.days| ==> r.days[i].holiday == l.days[i].holiday
  {
    ByDayList(l.fromOrd, l.toOrd, seq(|l.days|, i requires 0 <= i < |l.days| =>
      var d := l.days[i];
      d.(daysEvents := d.daysEvents + (if d.date == pageFrom then [ev] else []),
         continuingEvents := d.continuingEvents + (if pageFrom < d.date <= pageTo then [ev] else []))))
  }

  function AppendDays(days: seq<EventsOnDay>, k: int, ev: ThisEvent): (r: seq<EventsOnDay>)
    requires 0 <= k < |days|
    ensures |r| == |days| && r[k] == days[k].(daysEvents := days[k].daysEvents + [ev])
    ensures forall i :: 0 <= i < |days| && i != k ==> r[i] == days[i]
  {
    days[k := days[k].(daysEvents := days[k].daysEvents + [ev])]
  }

  function AppendContinuing(days: seq<EventsOnDay>, k: int, ev: ThisEvent): (r: seq<EventsOnDay>)
    requires 0 <= k < |days|
    ensures |r| == |days| && r[k] == days[k].(continuingEvents := days[k].continuingEvents + [ev])
    ensures forall i :: 0 <= i < |days| && i != k ==> r[i] == days[i]
  {
    days[k := days[k].(continuingEvents := days[k].continuingEvents + [ev])]
  }

  /** `add`, as the source writes it: the start day, then a loop over the following days. */
  method AddByLoop(l: ByDayList, ev: ThisEvent, pageFrom: int, pageTo: int) returns (r: ByDayList)
    requires WellFormed(l)
    ensures r == Add(l, ev, pageFrom, pageTo)
  {
    var days := l.days;
    var dayNum := pageFrom - l.fromOrd;
    if 0 <= dayNum <= l.toOrd - l.fromOrd {
      days := AppendDays(days, dayNum, ev);
    }
    var pageOrd := pageFrom + 1;
    while pageOrd < pageTo + 1
      invariant pageFrom + 1 <= pageOrd <= (if pageFrom < pageTo then pageTo + 1 else pageFrom + 1)
      invariant |days| == |l.days|
      invariant forall i :: 0 <= i < |days| ==>
        days[i].date == l.days[i].date && days[i].holiday == l.days[i].holiday &&
        days[i].daysEvents == l.days[i].daysEvents + (if l.days[i].date == pageFrom then [ev] else []) &&
        days[i].continuingEvents ==
          l.days[i].continuingEvents + (if pageFrom < l.days[i].date < pageOrd then [ev] else [])
      decreases pageTo + 1 - pageOrd
    {
      dayNum := pageOrd - l.fromOrd;
      if 0 <= dayNum <= l.toOrd - l.fromOrd {
        days := AppendContinuing(days, dayNum, ev);
      }
      pageOrd := pageOrd + 1;
    }
    r := ByDayList(l.fromOrd, l.toOrd, days);
    var spec := Add(l, ev, pageFrom, pageTo);
    assert forall i :: 0 <= i < |days| ==> (pageFrom < l.days[i].date < pageOrd <==> pageFrom < l.days[i].date <= pageTo);
    assert days == spec.days;
  }

  /**
   * After `add`, a day of the range lists the event once more among all its
   * events exactly when it is the event's start day or lies after it up to
   * the end day; no other event's count changes.  An end before the start
   * still puts the event on its start day.
   */
  lemma AddCounts(l: ByDayList, ev: ThisEvent, pageFrom: int, pageTo: int, i: int, x: ThisEvent)
    requires WellFormed(l) && 0 <= i < |l.days|
    ensures multiset(AllEvents(Add(l, ev, pageFrom, pageTo).days[i]))[x] ==
      multiset(AllEvents(l.days[i]))[x] +
      (if x == ev && (l.days[i].date == pageFrom || pageFrom < l.days[i].date <= pageTo) then 1 else 0)
  {
    var d := l.days[i];
    var a := Add(l, ev, pageFrom, pageTo).days[i];
    assert a == d.(daysEvents := d.daysEvents + (if d.date == pageFrom then [ev] else []),
                   continuingEvents := d.continuingEvents + (if pageFrom < d.date <= pageTo then [ev] else []));
    var e1: seq<ThisEvent> := if d.date == pageFrom then [ev] else [];
    var e2: seq<ThisEvent> := if pageFrom < d.date <= pageTo then [ev] else [];
    assert AllEvents(a) == d.daysEvents + e1 + (d.continuingEvents + e2);
    assert multiset(AllEvents(a)) ==
      multiset(d.daysEvents) + multiset(d.continuingEvents) + multiset(e1) + multiset(e2);
    assert multiset(AllEvents(d)) == multiset(d.daysEvents) + multiset(d.continuingEvents);
  }

  /** An event that starts after the range, or starts and ends before it, changes nothing. */
  lemma AddOutside(l: ByDayList, ev: ThisEvent, pageFrom: int, pageTo: int)
    requires WellFormed(l)
    requires pageFrom > l.toOrd || (pageFrom < l.fromOrd && pageTo < l.fromOrd)
    ensures Add(l, ev, pageFrom, pageTo) == l
  {
    var r := Add(l, ev, pageFrom, pageTo);
    forall i | 0 <= i < |l.days| ensures r.days[i] == l.days[i] {
      assert l.fromOrd <= l.days[i].date <= l.toOrd;
    }
    assert r.days == l.days;
  }

  // ---------------------------------------------------------------------
  // Content panels

  /** A panel: a field panel, a composite of child panels, or any other panel. */
  datatype Panel = FieldPanel(fieldName: string) | Composite(children: seq<Panel>) | OtherPanel(id: int)

  predicate Removed(p: Panel, remove: seq<string>) {
    p.FieldPanel? && p.fieldName in remove
  }

  /** `_filterContentPanels`: drop removed field panels at every level, keep the rest in order. */
  function FilterPanels(panels: seq<Panel>, remove: seq<string>): (r: seq<Panel>)
    ensures |r| <= |panels|
    decreases panels
  {
    if panels == [] then []
    else
      var p := panels[0];
      var rest := FilterPanels(panels[1..], remove);
      if Removed(p, remove) then rest
      else if p.Composite? then [Composite(FilterPanels(p.children, remove))] + rest
      else [p] + rest
  }

  /** No panel at any level is a field panel named in `remove`. */
  predicate NoneRemoved(panels: seq<Panel>, remove: seq<string>)
    decreases panels
  {
    forall i :: 0 <= i < |panels| ==>
      !Removed(panels[i], remove) &&
      (panels[i].Composite? ==> NoneRemoved(panels[i].children, remove))
  }

  /** The field names of the panels, depth first. */
  function FieldNames(panels: seq<Panel>): seq<string>
    decreases panels
  {
    if panels == [] then []
    else
      var p := panels[0];
      (match p
       case FieldPanel(n) => [n]
       case Composite(children) => FieldNames(children)
       case OtherPanel(_) => []) + FieldNames(panels[1..])
  }

  /** The names of `names` not in `remove`, in order. */
  function Without(names: seq<string>, remove: seq<string>): seq<string> {
    if names == [] then []
    else (if names[0] in remove then [] else [names[0]]) + Without(names[1..], remove)
  }

  /** What is left is exactly the names not removed. */
  lemma {:induction false} WithoutMembers(names: seq<string>, remove: seq<string>)
    ensures forall x :: x in Without(names, remove) <==> x in names && x !in remove
  {
    if names != [] {
      WithoutMembers(names[1..], remove);
      WithoutFirst(names, remove);
      assert names == [names[0]] + names[1..];
    }
  }

  lemma WithoutFirst(names: seq<string>, remove: seq<string>)
    requires names != []
    ensures Without(names, remove) == (if names[0] in remove then [] else [names[0]]) + Without(names[1..], remove)
  {
  }

  lemma {:induction false} WithoutAppend(a: seq<string>, b: seq<string>, remove: seq<string>)
    ensures Without(a + b, remove) == Without(a, remove) + Without(b, remove)
  {
    if a != [] {
      WithoutAppend(a[1..], b, remove);
      assert (a + b)[1..] == a[1..] + b;
    } else {
      assert a + b == b;
    }
  }

  /**
   * After filtering no removed panel is left at any level, and the field
   * names left are exactly the original ones not removed, in order.
   */
  lemma {:induction false} FilterPanelsCorrect(panels: seq<Panel>, remove: seq<string>)
    ensures NoneRemoved(FilterPanels(panels, remove), remove)
    ensures FieldNames(FilterPanels(panels, remove)) == Without(FieldNames(panels), remove)
    decreases panels
  {
    if panels != [] {
      var p := panels[0];
      var rest := FilterPanels(panels[1..], remove);
      FilterPanelsCorrect(panels[1..], remove);
      var own := match p
        case FieldPanel(n) => [n]
        case Composite(children) => FieldNames(children)
        case OtherPanel(_) => [];
      assert FieldNames(panels) == own + FieldNames(panels[1..]);
      WithoutAppend(own, FieldNames(panels[1..]), remove);
      var r := FilterPanels(panels, remove);
      if Removed(p, remove) {
        assert Without(own, remove) == [];
      } else if p.Composite? {
        FilterPanelsCorrect(p.children, remove);
        var q := Composite(FilterPanels(p.children, remove));
        assert r == [q] + rest;
        assert r[1..] == rest;
        assert FieldNames(r) == FieldNames(q.children) + FieldNames(rest);
      } else {
        assert r == [p] + rest;
        assert r[1..] == rest;
        if p.FieldPanel? {
          assert Without(own, remove) == [p.fieldName] by {
            assert own[1..] == [];
          }
        }
      }
    }
  }

  /** Filtering twice removes nothing more. */
  lemma {:induction false} FilterPanelsIdempotent(panels: seq<Panel>, remove: seq<string>)
    ensures FilterPanels(FilterPanels(panels, remove), remove) == FilterPanels(panels, remove)
    decreases panels
  {
    FilterPanelsCorrect(panels, remove);
    NoneRemovedUnchanged(FilterPanels(panels, remove), remove);
  }

  /** Panels from which nothing is to be removed come back unchanged. */
  lemma {:induction false} NoneRemovedUnchanged(panels: seq<Panel>, remove: seq<string>)
    requires NoneRemoved(panels, remove)
    ensures FilterPanels(panels, remove) == panels
    decreases panels
  {
    if panels != [] {
      var p := panels[0];
      assert NoneRemoved(panels[1..], remove) by {
        assert forall i :: 0 <= i < |panels[1..]| ==> panels[1..][i] == panels[i + 1];
      }
      NoneRemovedUnchanged(panels[1..], remove);
      if p.Composite? {
        NoneRemovedUnchanged(p.children, remove);
      }
      assert panels == [p] + panels[1..];
    }
  }

  // ---------------------------------------------------------------------
  // Post-filter predicate

  /** What the post-filter sees: a day of events, or a single page or event. */
  datatype Item = DayItem(daysEvents: seq<ThisEvent>) | PageItem(page: int)

  /**
   * `__predicateBasedOn(attribute)`'s predicate: true when the attribute is
   * truthy for every event's page of the day (or for the page itself).
   */
  method PredicateBasedOn(attr: int -> bool, item: Item) returns (b: bool)
    ensures item.DayItem? ==> (b <==> forall i :: 0 <= i < |item.daysEvents| ==> attr(item.daysEvents[i].page))
    ensures item.PageItem? ==> (b <==> attr(item.page))
  {
    var pages: seq<int> := if item.DayItem? then seq(|item.daysEvents|, i requires 0 <= i < |item.daysEvents| => item.daysEvents[i].page)
                           else [item.page];
    var k := 0;
    while k < |pages|
      invariant 0 <= k <= |pages|
      invariant forall i :: 0 <= i < k ==> attr(pages[i])
      invariant item.DayItem? ==>
                  |pages| == |item.daysEvents| &&
                  forall i :: 0 <= i < |pages| ==> pages[i] == item.daysEvents[i].page
      invariant item.PageItem? ==> pages == [item.page]
    {
      if !attr(pages[k]) {
        return false;
      }
      k := k + 1;
    }
    assert item.PageItem? ==> attr(pages[0]);
    return true;
  }

  // ---------------------------------------------------------------------
  // Status and validation

  /**
   * `status`, with the current time as the parameter `now`: "finished"
   * once the end is past, "started" once the start is past, otherwise none.
   */
  function Status(fromDt: int, toDt: int, now: int): (r: Option<string>)
    ensures r == Some("finished") <==> toDt < now
    ensures r == Some("started") <==> fromDt < now <= toDt
    ensures r.None? <==> now <= fromDt && now <= toDt
  {
    if toDt < now then Some("finished")
    else if fromDt < now then Some("started")
    else None
  }

  /** An error attached to a form field. */
  datatype FormError = FormError(field: string, message: string)

  const EndBeforeStart := "Event cannot end before it starts"

  /**
   * `EventPageForm._checkStartBeforeEnd`: an error on `time_to` when the
   * start time, with a missing one the earliest time, is after the end
   * time, with a missing one the latest time.
   */
  function CheckTimes(timeFrom: Option<TimeOfDay>, timeTo: Option<TimeOfDay>): (r: seq<FormError>)
    ensures r != [] <==> timeFrom.Some? && timeTo.Some? && timeFrom.value > timeTo.value
    ensures r != [] ==> r == [FormError("time_to", EndBeforeStart)]
  {
    if TimeFrom(timeFrom) > TimeTo(timeTo) then [FormError("time_to", EndBeforeStart)] else []
  }
}

=== FILE: events_api.dfy ===
/**
 * The event API helpers: finding an event by its iCalendar UID, the
 * argument flattening of `removeContentPanels`, merging several day-by-day
 * sources into one (`_getEventsByDay`) and cutting a month into weeks
 * (`_getEventsByWeek`).
 */
module EventsApi {
  import opened Wrappers
  import opened Dates
  import opened Weeks
  import opened WeekStyle
  import opened EventBase
  import opened Sorting
  import opened Grouping

  // ---------------------------------------------------------------------
  // getEventFromUid

  datatype UidOutcome = Found(page: int) | PermissionDenied | DoesNotExist | MultipleReturned

  /** The pages found by UID among the simple, multiday and recurring events, in that order. */
  function Matches(simple: Option<int>, multiday: Option<int>, recurring: Option<int>): (r: seq<int>)
    ensures |r| == (if simple.Some? then 1 else 0) + (if multiday.Some? then 1 else 0) +
                   (if recurring.Some? then 1 else 0)
  {
    (if simple.Some? then [simple.value] else []) +
    (if multiday.Some? then [multiday.value] else []) +
    (if recurring.Some? then [recurring.value] else [])
  }

  /**
   * `getEventFromUid`: the one match when the user may see it, otherwise
   * permission denied; no match or several are errors of their own.
   */
  function GetEventFromUid(simple: Option<int>, multiday: Option<int>, recurring: Option<int>,
                           authorized: int -> bool): (r: UidOutcome)
    ensures |Matches(simple, multiday, recurring)| == 0 <==> r == DoesNotExist
    ensures |Matches(simple, multiday, recurring)| >= 2 <==> r == MultipleReturned
    ensures r.Found? ==> r.page in Matches(simple, multiday, recurring) && authorized(r.page)
  {
    var events := Matches(simple, multiday, recurring);
    if |events| == 1 then
      if authorized(events[0]) then Found(events[0]) else PermissionDenied
    else if |events| == 0 then DoesNotExist
    else MultipleReturned
  }

  /** An event is returned exactly when one kind of event has the UID and the user may see it. */
  lemma GetEventFound(simple: Option<int>, multiday: Option<int>, recurring: Option<int>,
                      authorized: int -> bool, p: int)
    ensures GetEventFromUid(simple, multiday, recurring, authorized) == Found(p) <==>
      authorized(p) &&
      ((simple == Some(p) && multiday.None? && recurring.None?) ||
       (simple.None? && multiday == Some(p) && recurring.None?) ||
       (simple.None? && multiday.None? && recurring == Some(p)))
  {
  }

  // ---------------------------------------------------------------------
  // removeContentPanels

  /** An argument of `removeContentPanels`: one field name, or a collection of them. */
  datatype RemoveArg = Name(name: string) | Names(names: seq<string>)

  /** The names to remove: a string argument is one name, any other is extended in. */
  function RemoveList(args: seq<RemoveArg>): (r: seq<string>)
    ensures forall x :: x in r <==>
      exists i :: 0 <= i < |args| && (args[i] == Name(x) || (args[i].Names? && x in args[i].names))
  {
    if args == [] then []
    else
      var rest := RemoveList(args[1..]);
      assert forall i :: 1 <= i < |args| ==> args[i] == args[1..][i - 1];
      (match args[0] case Name(n) => [n] case Names(ns) => ns) + rest
  }

  /**
   * `_removeContentPanels(*args)` on one page class: its panels filtered
   * by the flattened names.  Exactly the field names not given in any
   * argument are left, in order.
   */
  function RemoveContentPanels(panels: seq<Panel>, args: seq<RemoveArg>): (r: seq<Panel>)
    ensures NoneRemoved(r, RemoveList(args))
    ensures FieldNames(r) == Without(FieldNames(panels), RemoveList(args))
  {
    FilterPanelsCorrect(panels, RemoveList(args));
    FilterPanels(panels, RemoveList(args))
  }

  // ---------------------------------------------------------------------
  // _getEventsByDay

  /** The shortest length among the sources, the number of rows `zip` gives. */
  function ZipLength(srcs: seq<seq<EventsOnDay>>): (n: nat)
    ensures forall k :: 0 <= k < |srcs| ==> n <= |srcs[k]|
    ensures srcs == [] ==> n == 0
    ensures srcs != [] ==> exists k :: 0 <= k < |srcs| && n == |srcs[k]|
  {
    if srcs == [] then 0
    else if |srcs| == 1 then |srcs[0]|
    else
      var m := ZipLength(srcs[1..]);
      assert forall k :: 1 <= k < |srcs| ==> srcs[k] == srcs[1..][k - 1];
      if |srcs[0]| <= m then |srcs[0]| else m
  }

  /** The own events of row `i` of every source, source after source. */
  function RowDaysEvents(srcs: seq<seq<EventsOnDay>>, i: nat): seq<ThisEvent>
    requires forall k :: 0 <= k < |srcs| ==> i < |srcs[k]|
  {
    if srcs == [] then [] else srcs[0][i].daysEvents + RowDaysEvents(srcs[1..], i)
  }

  /** The continuing events of row `i` of every source, source after source. */
  function RowContinuing(srcs: seq<seq<EventsOnDay>>, i: nat): seq<ThisEvent>
    requires forall k :: 0 <= k < |srcs| ==> i < |srcs[k]|
  {
    if srcs == [] then [] else srcs[0][i].continuingEvents + RowContinuing(srcs[1..], i)
  }

  /** `sortByTime`: an event's start time on the day, the latest time when it has none. */
  function SortTime(t: Option<TimeOfDay>): (r: int)
    ensures t.Some? ==> r == t.value
    ensures t.None? ==> r == TimeMax
  {
    t.GetOr(TimeMax)
  }

  /**
   * `_getEventsByDay(date_from, srcs, holidays)`: one day per row of the
   * zipped sources, dated from `dateFrom` on, with the sources' events
   * merged and the own events sorted by start time.  `fromTime(page, day)`
   * is the page's start time on the day.  Stepping the day past
   * 31 December 9999 after the last row fails.
   */
  function EventsByDay(dateFrom: int, srcs: seq<seq<EventsOnDay>>, holidays: map<int, string>,
                       fromTime: (int, int) -> Option<TimeOfDay>): (r: Result<seq<EventsOnDay>>)
    requires IsValidOrdinal(dateFrom)
    ensures r.Failure? <==> ZipLength(srcs) >= 1 && dateFrom + ZipLength(srcs) > MaxOrdinal
    ensures r.Success? ==> |r.value| == ZipLength(srcs)
  {
    var n := ZipLength(srcs);
    if n >= 1 && dateFrom + n > MaxOrdinal then Failure("date value out of range")
    else Success(seq(n, i requires 0 <= i < n => EventsRow(dateFrom, srcs, holidays, fromTime, i)))
  }

  /** Row `i` of `_getEventsByDay`. */
  function EventsRow(dateFrom: int, srcs: seq<seq<EventsOnDay>>, holidays: map<int, string>,
                     fromTime: (int, int) -> Option<TimeOfDay>, i: nat): (r: EventsOnDay)
    requires i < ZipLength(srcs)
    ensures r.date == dateFrom + i && r.holiday == HolidayOn(holidays, dateFrom + i)
    ensures r.continuingEvents == RowContinuing(srcs, i)
  {
    var day := dateFrom + i;
    var key := (e: ThisEvent) => SortTime(fromTime(e.page, day));
    EventsOnDay(day, HolidayOn(holidays, day), SortByKey(RowDaysEvents(srcs, i), key),
                RowContinuing(srcs, i))
  }

  /**
   * A day's own events are those of all the sources, ordered by start time
   * with untimed events last, events starting together keeping their
   * source order.
   */
  lemma EventsRowSorted(dateFrom: int, srcs: seq<seq<EventsOnDay>>, holidays: map<int, string>,
                        fromTime: (int, int) -> Option<TimeOfDay>, i: nat)
    requires i < ZipLength(srcs)
    ensures var key := (e: ThisEvent) => SortTime(fromTime(e.page, dateFrom + i));
      var evs := EventsRow(dateFrom, srcs, holidays, fromTime, i).daysEvents;
      SortedBy(evs, key) && multiset(evs) == multiset(RowDaysEvents(srcs, i)) &&
      forall k :: WithKey(evs, key, k) == WithKey(RowDaysEvents(srcs, i), key, k)
  {
    var key := (e: ThisEvent) => SortTime(fromTime(e.page, dateFrom + i));
    SortByKeyCorrect(RowDaysEvents(srcs, i), key);
  }

  // ---------------------------------------------------------------------
  // _getEventsByWeek

  /**
   * `week_of_month` of a day ordinal.  Days outside years 1 to 9999 do
   * not occur in a month's list; they get 0.
   */
  function WeekOfMonthOrd(s: FirstDay, n: int): int {
    if IsValidOrdinal(n) then
      ToFromOrdinal(n);
      ValidOrdinalRange(FromOrdinal(n));
      WeekOfMonth(s, FromOrdinal(n))
    else 0
  }

  /** `calcWeekOfMonth`: the grouping key of a day. */
  function WeekKey(s: FirstDay): EventsOnDay -> int {
    (d: EventsOnDay) => WeekOfMonthOrd(s, d.date)
  }

  lemma WeekKeyOf(s: FirstDay, d: EventsOnDay, n: int)
    requires d.date == n
    ensures WeekKey(s)(d) == WeekOfMonthOrd(s, n)
  {
  }

  /** A day in each slot. */
  function Slots<T>(xs: seq<T>): (r: seq<Option<T>>)
    ensures |r| == |xs| && forall j :: 0 <= j < |xs| ==> r[j] == Some(xs[j])
  {
    seq(|xs|, j requires 0 <= j < |xs| => Some(xs[j]))
  }

  /** `n` empty slots. */
  function Blanks<T>(n: nat): (r: seq<Option<T>>)
    ensures |r| == n && forall j :: 0 <= j < n ==> r[j] == None
  {
    seq(n, j => None)
  }

  /** The filled slots, read in order. */
  function Present<T>(slots: seq<Option<T>>): seq<T> {
    if slots == [] then []
    else (if slots[0].Some? then [slots[0].value] else []) + Present(slots[1..])
  }

  lemma {:induction false} PresentAppend<T>(a: seq<Option<T>>, b: seq<Option<T>>)
    ensures Present(a + b) == Present(a) + Present(b)
  {
    if a != [] {
      PresentAppend(a[1..], b);
      assert (a + b)[1..] == a[1..] + b;
    } else {
      assert a + b == b;
    }
  }

  lemma {:induction false} PresentSlots<T>(xs: seq<T>)
    ensures Present(Slots(xs)) == xs
  {
    if xs != [] {
      PresentSlots(xs[1..]);
      assert Slots(xs)[1..] == Slots(xs[1..]);
    }
  }

  lemma {:induction false} PresentBlanks<T>(n: nat)
    ensures Present(Blanks<T>(n)) == []
  {
    if n > 0 {
      PresentBlanks<T>(n - 1);
      assert Blanks<T>(n)[1..] == Blanks<T>(n - 1);
    }
  }

  /** Empty slots only before the filled ones. */
  predicate PaddedAtFront<T>(w: seq<Option<T>>) {
    forall i, j :: 0 <= i < j < |w| && w[j].None? ==> w[i].None?
  }

  /** Empty slots only after the filled ones. */
  predicate PaddedAtBack<T>(w: seq<Option<T>>) {
    forall i, j :: 0 <= i < j < |w| && w[i].None? ==> w[j].None?
  }

  /**
   * A run of days made up to seven slots: at the front for week 0, at the
   * back otherwise.  The days are kept in order.
   */
  function PadWeek(week: seq<EventsOnDay>, weekOfMonth: int): (r: seq<Option<EventsOnDay>>)
    ensures |r| == if |week| < 7 then 7 else |week|
    ensures Present(r) == week
    ensures weekOfMonth == 0 ==> PaddedAtFront(r)
    ensures weekOfMonth != 0 ==> PaddedAtBack(r)
  {
    PresentSlots(week);
    if |week| < 7 then
      var padding := Blanks(7 - |week|);
      PresentBlanks<EventsOnDay>(7 - |week|);
      if weekOfMonth == 0 then
        PresentAppend(padding, Slots(week));
        padding + Slots(week)
      else
        PresentAppend(Slots(week), padding);
        Slots(week) + padding
    else Slots(week)
  }

  /** `_getEventsByWeek`: the days grouped by week of the month, each week padded to seven slots. */
  function EventsByWeek(s: FirstDay, days: seq<EventsOnDay>): (r: seq<seq<Option<EventsOnDay>>>)
    ensures |r| == |GroupBy(days, WeekKey(s))|
  {
    var groups := GroupBy(days, WeekKey(s));
    seq(|groups|, i requires 0 <= i < |groups| =>
      PadWeek(groups[i], if groups[i] == [] then 0 else WeekKey(s)(groups[i][0])))
  }

  function PresentAll<T>(weeks: seq<seq<Option<T>>>): seq<T> {
    if weeks == [] then [] else Present(weeks[0]) + PresentAll(weeks[1..])
  }

  /** The filled slots of all the weeks, read in order, are the days given. */
  lemma EventsByWeekDays(s: FirstDay, days: seq<EventsOnDay>)
    ensures PresentAll(EventsByWeek(s, days)) == days
  {
    var groups := GroupBy(days, WeekKey(s));
    GroupByFlatten(days, WeekKey(s));
    var weeks := EventsByWeek(s, days);
    forall i | 0 <= i < |groups| ensures Present(weeks[i]) == groups[i] {
      assert weeks[i] == PadWeek(groups[i], if groups[i] == [] then 0 else WeekKey(s)(groups[i][0]));
    }
    PresentAllGroups(s, groups, weeks);
  }

  lemma {:induction false} PresentAllGroups(s: FirstDay, groups: seq<seq<EventsOnDay>>,
                                             weeks: seq<seq<Option<EventsOnDay>>>)
    requires |weeks| == |groups|
    requires forall i :: 0 <= i < |groups| ==> Present(weeks[i]) == groups[i]
    ensures PresentAll(weeks) == Flatten(groups)
  {
    if groups != [] {
      PresentAllGroups(s, groups[1..], weeks[1..]);
    }
  }

  /** The days of month `m` of year `y`, one per date from the 1st on. */
  predicate MonthDays(y: int, m: int, days: seq<EventsOnDay>) {
    MinYear <= y <= MaxYear && 1 <= m <= 12 && |days| == DaysInMonth(y, m) &&
    forall i :: 0 <= i < |days| ==> days[i].date == FirstOfMonth(y, m) + i
  }

  /** Day `i + 1` of a month, `i` days after the 1st, is in week `(i + lead) / 7` of the month. */
  lemma MonthDayKey(s: FirstDay, y: int, m: int, i: int, n: int)
    requires MinYear <= y <= MaxYear && 1 <= m <= 12 && 0 <= i < DaysInMonth(y, m)
    requires n == FirstOfMonth(y, m) + i
    ensures WeekOfMonthOrd(s, n) ==
      (i + (Weekday(FirstOfMonth(y, m)) - StartWeekday(s)) % 7) / 7
  {
    MonthDayWeek(s, y, m, i, n);
    MonthWeekFormula(FirstOfMonth(y, m), i + 1, StartWeekday(s));
  }

  lemma MonthDayWeek(s: FirstDay, y: int, m: int, i: int, n: int)
    requires MinYear <= y <= MaxYear && 1 <= m <= 12 && 0 <= i < DaysInMonth(y, m)
    requires n == FirstOfMonth(y, m) + i
    ensures WeekOfMonthOrd(s, n) == MonthWeek(FirstOfMonth(y, m), i + 1, StartWeekday(s))
  {
    MonthDayOrdinal(y, m, i, n);
    OrdinalWeekKey(s, n, Date(y, m, i + 1));
  }

  lemma MonthDayOrdinal(y: int, m: int, i: int, n: int)
    requires MinYear <= y <= MaxYear && 1 <= m <= 12 && 0 <= i < DaysInMonth(y, m)
    requires n == FirstOfMonth(y, m) + i
    ensures IsValidOrdinal(n) && FromOrdinal(n) == Date(y, m, i + 1)
  {
    DayOfMonthOrdinal(y, m, i);
    OrdinalInverse(Date(y, m, i + 1), n);
  }

  lemma OrdinalWeekKey(s: FirstDay, n: int, d: Date)
    requires IsValid(d) && IsValidOrdinal(n) && FromOrdinal(n) == d
    ensures WeekOfMonthOrd(s, n) == MonthWeek(FirstOfMonth(d.year, d.month), d.day, StartWeekday(s))
  {
    assert WeekOfMonthOrd(s, n) == WeekOfMonth(s, d);
  }

  lemma MonthWeekFormula(f: int, k: int, fw: int)
    requires 0 <= fw < 7
    ensures MonthWeek(f, k, fw) == (k - 1 + (Weekday(f) - fw) % 7) / 7
  {
  }

  /** A week later the week of the month is one more. */
  lemma MonthWeekPlusSeven(f: int, k: int, fw: int)
    requires 0 <= fw < 7
    ensures MonthWeek(f, k + 7, fw) == MonthWeek(f, k, fw) + 1
  {
    var x := k + (Weekday(f) - fw) % 7 - 1;
    assert (x + 7) / 7 == x / 7 + 1;
  }

  /** A month's week key: day `i` of the list has week `(i + lead) / 7`. */
  lemma MonthKeys(s: FirstDay, y: int, m: int, days: seq<EventsOnDay>)
    requires MonthDays(y, m, days)
    ensures forall i :: 0 <= i < |days| ==>
      WeekKey(s)(days[i]) == (i + (Weekday(FirstOfMonth(y, m)) - StartWeekday(s)) % 7) / 7
  {
    forall i | 0 <= i < |days|
      ensures WeekKey(s)(days[i]) == (i + (Weekday(FirstOfMonth(y, m)) - StartWeekday(s)) % 7) / 7
    {
      MonthDayKey(s, y, m, i, days[i].date);
      WeekKeyOf(s, days[i], days[i].date);
    }
  }

  /** With week keys `(i + lead) / 7`, the key changes within every seven days. */
  lemma LeadChangesWithinSeven(s: FirstDay, days: seq<EventsOnDay>, lead: int)
    requires 0 <= lead < 7
    requires forall i :: 0 <= i < |days| ==> WeekKey(s)(days[i]) == (i + lead) / 7
    ensures KeyChangesWithinSeven(days, WeekKey(s))
  {
    forall i | 0 <= i < |days| - 7
      ensures WeekKey(s)(days[i]) != WeekKey(s)(days[i + 7])
    {
      assert (i + 7 + lead) / 7 == (i + lead) / 7 + 1;
    }
  }

  /**
   * A month grid of `days`: every week has exactly seven slots, the filled
   * ones are the days in order, the first week starts with `lead` empty
   * slots, and every later week is padded at the back.
   */
  predicate MonthGrid(weeks: seq<seq<Option<EventsOnDay>>>, days: seq<EventsOnDay>, lead: int)
    requires 0 <= lead < 7 && |days| >= 7
  {
    |weeks| >= 1 &&
    (forall i :: 0 <= i < |weeks| ==> |weeks[i]| == 7) &&
    PresentAll(weeks) == days &&
    weeks[0] == Blanks(lead) + Slots(days[..7 - lead]) &&
    (forall i :: 1 <= i < |weeks| ==> PaddedAtBack(weeks[i]))
  }

  /**
   * The month's grid: every week has exactly seven slots, the filled ones
   * are the month's days in order, the first week starts with as many
   * empty slots as the 1st is days into its week, and every later week is
   * padded at the back.
   */
  lemma EventsByWeekMonth(s: FirstDay, y: int, m: int, days: seq<EventsOnDay>)
    requires MonthDays(y, m, days)
    ensures MonthGrid(EventsByWeek(s, days), days, (Weekday(FirstOfMonth(y, m)) - StartWeekday(s)) % 7)
  {
    MonthDaysLength(y, m, days);
    MonthKeys(s, y, m, days);
    EventsByWeekLead(s, days, (Weekday(FirstOfMonth(y, m)) - StartWeekday(s)) % 7);
  }

  lemma MonthDaysLength(y: int, m: int, days: seq<EventsOnDay>)
    requires MonthDays(y, m, days)
    ensures |days| >= 28
  {
  }

  /** The grid of any run of at least four weeks' days whose week keys are `(i + lead) / 7`. */
  lemma EventsByWeekLead(s: FirstDay, days: seq<EventsOnDay>, lead: int)
    requires 0 <= lead < 7 && |days| >= 28
    requires forall i :: 0 <= i < |days| ==> WeekKey(s)(days[i]) == (i + lead) / 7
    ensures MonthGrid(EventsByWeek(s, days), days, lead)
  {
    var key := WeekKey(s);
    var groups := GroupBy(days, key);
    var weeks := EventsByWeek(s, days);
    EventsByWeekDays(s, days);
    LeadGroups(s, days, lead);
    assert weeks[0] == PadWeek(days[..7 - lead], 0);
    if lead == 0 {
      assert Blanks<EventsOnDay>(0) + Slots(days[..7]) == Slots(days[..7]);
    }
    forall i | 0 <= i < |weeks|
      ensures |weeks[i]| == 7 && (i >= 1 ==> PaddedAtBack(weeks[i]))
    {
      assert weeks[i] == PadWeek(groups[i], key(groups[i][0]));
    }
  }

  /**
   * With week keys `(i + lead) / 7`, the first run is the first `7 - lead`
   * days, at week 0, and every later run is a non-empty run of at most
   * seven days in a later week.
   */
  lemma LeadGroups(s: FirstDay, days: seq<EventsOnDay>, lead: int)
    requires 0 <= lead < 7 && |days| >= 28
    requires forall i :: 0 <= i < |days| ==> WeekKey(s)(days[i]) == (i + lead) / 7
    ensures var groups := GroupBy(days, WeekKey(s));
      |groups| >= 1 && groups[0] == days[..7 - lead] && WeekKey(s)(groups[0][0]) == 0 &&
      forall i :: 0 <= i < |groups| ==>
        (groups[i] != [] && |groups[i]| <= 7 && (i >= 1 ==> WeekKey(s)(groups[i][0]) > 0))
  {
    LeadFirstGroup(s, days, lead);
    LeadLaterGroups(s, days, lead);
  }

  lemma LeadFirstGroup(s: FirstDay, days: seq<EventsOnDay>, lead: int)
    requires 0 <= lead < 7 && |days| >= 28
    requires forall i :: 0 <= i < |days| ==> WeekKey(s)(days[i]) == (i + lead) / 7
    ensures var groups := GroupBy(days, WeekKey(s));
      |groups| >= 1 && groups[0] == days[..7 - lead] && WeekKey(s)(groups[0][0]) == 0
  {
    var key := WeekKey(s);
    GroupByFirstRun(days, key);
    var n := |GroupBy(days, key)[0]|;
    assert key(days[0]) == 0;
    assert key(days[7 - lead]) == 1;
    assert n == 7 - lead;
  }

  lemma LeadLaterGroups(s: FirstDay, days: seq<EventsOnDay>, lead: int)
    requires 0 <= lead < 7 && |days| >= 28
    requires forall i :: 0 <= i < |days| ==> WeekKey(s)(days[i]) == (i + lead) / 7
    ensures var groups := GroupBy(days, WeekKey(s));
      forall i :: 0 <= i < |groups| ==>
        (groups[i] != [] && |groups[i]| <= 7 && (i >= 1 ==> WeekKey(s)(groups[i][0]) > 0))
  {
    LeadRunsShort(s, days, lead);
    LeadRunsLater(s, days, lead);
  }

  lemma LeadRunsShort(s: FirstDay, days: seq<EventsOnDay>, lead: int)
    requires 0 <= lead < 7
    requires forall i :: 0 <= i < |days| ==> WeekKey(s)(days[i]) == (i + lead) / 7
    ensures var groups := GroupBy(days, WeekKey(s));
      forall i :: 0 <= i < |groups| ==> |groups[i]| <= 7
  {
    LeadChangesWithinSeven(s, days, lead);
    GroupByAtMostSeven(days, WeekKey(s));
  }

  lemma LeadRunsLater(s: FirstDay, days: seq<EventsOnDay>, lead: int)
    requires 0 <= lead < 7 && |days| >= 1
    requires forall i :: 0 <= i < |days| ==> WeekKey(s)(days[i]) == (i + lead) / 7
    ensures var groups := GroupBy(days, WeekKey(s));
      forall i :: 1 <= i < |groups| ==> groups[i] != [] && WeekKey(s)(groups[i][0]) > 0
  {
    assert WeekKey(s)(days[0]) == 0;
    LeadAscending(s, days, lead);
    GroupByAscending(days, WeekKey(s));
  }

  lemma LeadAscending(s: FirstDay, days: seq<EventsOnDay>, lead: int)
    requires 0 <= lead < 7
    requires forall i :: 0 <= i < |days| ==> WeekKey(s)(days[i]) == (i + lead) / 7
    ensures Ascending(days, WeekKey(s))
  {
    forall i, j | 0 <= i <= j < |days|
      ensures WeekKey(s)(days[i]) <= WeekKey(s)(days[j])
    {
      DivMonotone(i + lead, j + lead);
    }
  }

  lemma DivMonotone(a: int, b: int)
    requires 0 <= a <= b
    ensures a / 7 <= b / 7
  {
  }
}

=== FILE: forms.dfy ===
/**
 * The defence of a page class's `base_form_class`: the `FormDefender`
 * metaclass stores a declared form class under `_base_form_class` and
 * routes later assignments through a setter that, with
 * `JOYOUS_DEFEND_FORMS` on, keeps the class it has and lets a
 * `BorgPageForm` assimilate the newcomer instead.
 *
 * Classes are their names; which class subclasses which is a parameter.
 */
module Forms {
  import opened Wrappers

  datatype FormClass = FormClass(name: string)

  const WagtailAdminPageForm := FormClass("WagtailAdminPageForm")
  const BorgPageForm := FormClass("BorgPageForm")

  // ---------------------------------------------------------------------
  // Class creation

  /** The attribute name the metaclass stores a declared `base_form_class` under. */
  function Renamed(k: string): (r: string)
    ensures k == "base_form_class" ==> r == "_base_form_class"
    ensures k != "base_form_class" ==> r == k
  {
    if k != "base_form_class" then k else "_" + k
  }

  /**
   * `FormDefender.__new__`: the class body's attributes, in order, with
   * `base_form_class` renamed; a later attribute of the same name
   * replaces an earlier one, as in a dict built from them.
   */
  function NewAttrs<V>(attrs: seq<(string, V)>): (r: map<string, V>)
    ensures "base_form_class" !in r
    ensures forall k :: k in r <==> exists i :: 0 <= i < |attrs| && Renamed(attrs[i].0) == k
  {
    if attrs == [] then map[]
    else NewAttrs(attrs[..|attrs| - 1])[Renamed(attrs[|attrs| - 1].0) := attrs[|attrs| - 1].1]
  }

  /** Each stored attribute holds the value of the last class-body entry that lands on its name. */
  lemma {:induction false} NewAttrsLastWins<V>(attrs: seq<(string, V)>, i: int)
    requires 0 <= i < |attrs|
    requires forall j :: i < j < |attrs| ==> Renamed(attrs[j].0) != Renamed(attrs[i].0)
    ensures Renamed(attrs[i].0) in NewAttrs(attrs) && NewAttrs(attrs)[Renamed(attrs[i].0)] == attrs[i].1
  {
    if i < |attrs| - 1 {
      var init := attrs[..|attrs| - 1];
      forall j | i < j < |init|
        ensures Renamed(init[j].0) != Renamed(init[i].0)
      {
        assert init[j] == attrs[j];
      }
      NewAttrsLastWins(init, i);
      assert init[i] == attrs[i];
    }
  }

  /** A page class as the setter sees it: its stored form class, None while unset. */
  datatype PageClass = PageClass(baseFormClass: Option<FormClass>)

  /** The getter reads a class-body `base_form_class` back from where `__new__` put it. */
  lemma DeclaredFormClassReadsBack(attrs: seq<(string, FormClass)>, i: int)
    requires 0 <= i < |attrs| && attrs[i].0 == "base_form_class"
    requires forall j :: i < j < |attrs| ==> attrs[j].0 != "base_form_class" && attrs[j].0 != "_base_form_class"
    ensures "_base_form_class" in NewAttrs(attrs) && NewAttrs(attrs)["_base_form_class"] == attrs[i].1
  {
    NewAttrsLastWins(attrs, i);
  }

  // ---------------------------------------------------------------------
  // Assimilation and the setter

  /** The form class each Borg form has assimilated, keyed by the Borg class. */
  type Assimilated = map<FormClass, FormClass>

  /** `BorgPageForm.assimilate`: only admin page forms are taken in. */
  function Assimilate(a: Assimilated, borg: FormClass, form: FormClass,
                      isSubclass: (FormClass, FormClass) -> bool): (r: Assimilated)
    ensures isSubclass(form, WagtailAdminPageForm) ==> borg in r && r[borg] == form
    ensures forall c :: c != borg ==> (c in r <==> c in a) && (c in a ==> r[c] == a[c])
    ensures !isSubclass(form, WagtailAdminPageForm) ==> r == a
  {
    if isSubclass(form, WagtailAdminPageForm) then a[borg := form] else a
  }

  /** The outcome of an assignment: the page class, the assimilations and any warning issued. */
  datatype SetResult = SetResult(page: PageClass, assimilated: Assimilated, warning: Option<string>)

  function OverwriteWarning(mine: FormClass, form: FormClass): string {
    mine.name + " has been overwritten with " + form.name + ", consider enabling JOYOUS_DEFEND_FORMS"
  }

  /** The `base_form_class` setter; `defend` is the `JOYOUS_DEFEND_FORMS` setting. */
  function SetFormClass(p: PageClass, a: Assimilated, form: FormClass, defend: bool,
                        isSubclass: (FormClass, FormClass) -> bool): (r: SetResult)
    ensures p.baseFormClass.None? ==> r == SetResult(PageClass(Some(form)), a, None)
    ensures p.baseFormClass.Some? && defend ==>
      r.page == p && r.warning.None? &&
      r.assimilated == (if isSubclass(p.baseFormClass.value, BorgPageForm)
                        then Assimilate(a, p.baseFormClass.value, form, isSubclass) else a)
    ensures p.baseFormClass.Some? && !defend ==>
      r == SetResult(PageClass(Some(form)), a, Some(OverwriteWarning(p.baseFormClass.value, form)))
  {
    match p.baseFormClass
    case None => SetResult(PageClass(Some(form)), a, None)
    case Some(mine) =>
      if defend then
        SetResult(p, if isSubclass(mine, BorgPageForm) then Assimilate(a, mine, form, isSubclass) else a, None)
      else SetResult(PageClass(Some(form)), a, Some(OverwriteWarning(mine, form)))
  }

  /** Assignments one after another, from the class as created. */
  function SetAll(p: PageClass, a: Assimilated, forms: seq<FormClass>, defend: bool,
                  isSubclass: (FormClass, FormClass) -> bool): (r: SetResult)
    decreases |forms|
  {
    if forms == [] then SetResult(p, a, None)
    else
      var r := SetFormClass(p, a, forms[0], defend, isSubclass);
      SetAll(r.page, r.assimilated, forms[1..], defend, isSubclass)
  }

  /**
   * With the defence on, the first form class the page class holds is the
   * one it keeps, however many assignments follow.
   */
  lemma {:induction false} DefendedKeepsFirst(p: PageClass, a: Assimilated, forms: seq<FormClass>,
                                              isSubclass: (FormClass, FormClass) -> bool)
    requires p.baseFormClass.Some? || forms != []
    ensures SetAll(p, a, forms, true, isSubclass).page.baseFormClass ==
      (if p.baseFormClass.Some? then p.baseFormClass else Some(forms[0]))
    decreases |forms|
  {
    if forms != [] {
      var r := SetFormClass(p, a, forms[0], true, isSubclass);
      DefendedKeepsFirst(r.page, r.assimilated, forms[1..], isSubclass);
    }
  }

  /** With the defence off, the last assignment wins. */
  lemma {:induction false} UndefendedKeepsLast(p: PageClass, a: Assimilated, forms: seq<FormClass>,
                                               isSubclass: (FormClass, FormClass) -> bool)
    requires forms != []
    ensures SetAll(p, a, forms, false, isSubclass).page.baseFormClass == Some(forms[|forms| - 1])
    decreases |forms|
  {
    if |forms| > 1 {
      var r := SetFormClass(p, a, forms[0], false, isSubclass);
      UndefendedKeepsLast(r.page, r.assimilated, forms[1..], isSubclass);
    }
  }

  /**
   * With the defence on and a Borg form installed, the Borg form ends up
   * assimilating the last admin page form assigned to it.
   */
  lemma {:induction false} BorgAssimilatesLast(p: PageClass, a: Assimilated, forms: seq<FormClass>,
                                               isSubclass: (FormClass, FormClass) -> bool, i: int)
    requires p.baseFormClass.Some? && isSubclass(p.baseFormClass.value, BorgPageForm)
    requires 0 <= i < |forms| && isSubclass(forms[i], WagtailAdminPageForm)
    requires forall j :: i < j < |forms| ==> !isSubclass(forms[j], WagtailAdminPageForm)
    ensures var r := SetAll(p, a, forms, true, isSubclass);
      p.baseFormClass.value in r.assimilated && r.assimilated[p.baseFormClass.value] == forms[i]
    decreases |forms|
  {
    var r := SetFormClass(p, a, forms[0], true, isSubclass);
    if i > 0 {
      BorgAssimilatesLast(r.page, r.assimilated, forms[1..], isSubclass, i - 1);
    } else {
      KeepsAssimilated(r.page, r.assimilated, forms[1..], isSubclass);
    }
  }

  /** Assignments of classes that are not admin page forms leave a Borg form's assimilation alone. */
  lemma {:induction false} KeepsAssimilated(p: PageClass, a: Assimilated, forms: seq<FormClass>,
                                            isSubclass: (FormClass, FormClass) -> bool)
    requires p.baseFormClass.Some? && p.baseFormClass.value in a
    requires forall j :: 0 <= j < |forms| ==> !isSubclass(forms[j], WagtailAdminPageForm)
    ensures var r := SetAll(p, a, forms, true, isSubclass);
      p.baseFormClass.value in r.assimilated && r.assimilated[p.baseFormClass.value] == a[p.baseFormClass.value]
    decreases |forms|
  {
    if forms != [] {
      var r := SetFormClass(p, a, forms[0], true, isSubclass);
      KeepsAssimilated(r.page, r.assimilated, forms[1..], isSubclass);
    }
  }
}

=== FILE: grouping.dfy ===
/**
 * `itertools.groupby`: a list cut into its maximal runs of consecutive
 * elements with the same key.
 */
module Grouping {
  function Flatten<T>(xss: seq<seq<T>>): seq<T> {
    if xss == [] then [] else xss[0] + Flatten(xss[1..])
  }

  /** Every run is non-empty and all of its elements have the key of its first. */
  predicate Runs<T>(r: seq<seq<T>>, key: T -> int) {
    forall i :: 0 <= i < |r| ==>
      |r[i]| >= 1 && forall j :: 0 <= j < |r[i]| ==> key(r[i][j]) == key(r[i][0])
  }

  /** Neighbouring runs have different keys, so no run could be longer. */
  predicate Maximal<T>(r: seq<seq<T>>, key: T -> int)
    requires Runs(r, key)
  {
    forall i :: 0 <= i < |r| - 1 ==> key(r[i][0]) != key(r[i + 1][0])
  }

  function GroupBy<T>(xs: seq<T>, key: T -> int): (r: seq<seq<T>>)
    ensures xs == [] <==> r == []
  {
    if xs == [] then []
    else
      var rest := GroupBy(xs[1..], key);
      if rest != [] && rest[0] != [] && key(rest[0][0]) == key(xs[0]) then
        [[xs[0]] + rest[0]] + rest[1..]
      else
        [[xs[0]]] + rest
  }

  /** Read in order, the runs give back the list. */
  lemma {:induction false} GroupByFlatten<T>(xs: seq<T>, key: T -> int)
    ensures Flatten(GroupBy(xs, key)) == xs
  {
    if xs != [] {
      var rest := GroupBy(xs[1..], key);
      GroupByFlatten(xs[1..], key);
      var r := GroupBy(xs, key);
      if rest != [] && rest[0] != [] && key(rest[0][0]) == key(xs[0]) {
        assert r[1..] == rest[1..];
        assert Flatten(r) == [xs[0]] + rest[0] + Flatten(rest[1..]);
        assert Flatten(rest) == rest[0] + Flatten(rest[1..]);
      } else {
        assert r[1..] == rest;
      }
    }
  }

  /** The first run is a prefix of the list. */
  lemma {:induction false} GroupByPrefix<T>(xs: seq<T>, key: T -> int)
    ensures GroupBy(xs, key) != [] ==>
      |GroupBy(xs, key)[0]| <= |xs| && GroupBy(xs, key)[0] == xs[..|GroupBy(xs, key)[0]|]
  {
    if xs != [] {
      GroupByPrefix(xs[1..], key);
    }
  }

  /** The runs are non-empty, each has one key, and neighbouring runs differ in key. */
  lemma {:induction false} GroupByRuns<T>(xs: seq<T>, key: T -> int)
    ensures Runs(GroupBy(xs, key), key) && Maximal(GroupBy(xs, key), key)
  {
    if xs != [] {
      var rest := GroupBy(xs[1..], key);
      GroupByRuns(xs[1..], key);
      var r := GroupBy(xs, key);
      if rest != [] && rest[0] != [] && key(rest[0][0]) == key(xs[0]) {
        assert forall i :: 1 <= i < |r| ==> r[i] == rest[i];
        assert forall j :: 1 <= j < |r[0]| ==> r[0][j] == rest[0][j - 1];
      } else {
        assert forall i :: 1 <= i < |r| ==> r[i] == rest[i - 1];
      }
    }
  }

  /** No two elements seven places apart share a key. */
  predicate KeyChangesWithinSeven<T>(xs: seq<T>, key: T -> int) {
    forall i :: 0 <= i < |xs| - 7 ==> key(xs[i]) != key(xs[i + 7])
  }

  /** When the key changes within every seven places, no run is longer than seven. */
  lemma {:induction false} GroupByAtMostSeven<T>(xs: seq<T>, key: T -> int)
    requires KeyChangesWithinSeven(xs, key)
    ensures forall i :: 0 <= i < |GroupBy(xs, key)| ==> |GroupBy(xs, key)[i]| <= 7
  {
    if xs != [] {
      var rest := GroupBy(xs[1..], key);
      assert KeyChangesWithinSeven(xs[1..], key) by {
        forall i | 0 <= i < |xs[1..]| - 7
          ensures key(xs[1..][i]) != key(xs[1..][i + 7])
        {
          assert xs[1..][i] == xs[i + 1] && xs[1..][i + 7] == xs[i + 8];
        }
      }
      GroupByAtMostSeven(xs[1..], key);
      var r := GroupBy(xs, key);
      if rest != [] && rest[0] != [] && key(rest[0][0]) == key(xs[0]) {
        GroupByPrefix(xs[1..], key);
        GroupByRuns(xs[1..], key);
        assert forall i :: 1 <= i < |r| ==> r[i] == rest[i];
        assert forall j :: 0 <= j < |rest[0]| ==> rest[0][j] == xs[j + 1];
        assert |xs| > 7 ==> key(xs[0]) != key(xs[7]);
      } else {
        assert forall i :: 1 <= i < |r| ==> r[i] == rest[i - 1];
      }
    }
  }

  /**
   * The first run is the longest prefix sharing the first element's key:
   * the next element, if any, has another key.
   */
  lemma {:induction false} GroupByFirstRun<T>(xs: seq<T>, key: T -> int)
    requires xs != []
    ensures var r := GroupBy(xs, key);
      1 <= |r[0]| <= |xs| && r[0] == xs[..|r[0]|] &&
      (forall j :: 0 <= j < |r[0]| ==> key(xs[j]) == key(xs[0])) &&
      (|r[0]| < |xs| ==> key(xs[|r[0]|]) != key(xs[0]))
  {
    var rest := GroupBy(xs[1..], key);
    if xs[1..] != [] {
      GroupByFirstRun(xs[1..], key);
      var m := |rest[0]|;
      assert rest[0][0] == xs[1];
      if key(rest[0][0]) == key(xs[0]) {
        assert GroupBy(xs, key)[0] == [xs[0]] + rest[0];
        assert [xs[0]] + xs[1..][..m] == xs[..m + 1];
        forall j | 1 <= j < m + 1 ensures key(xs[j]) == key(xs[0]) {
          assert xs[j] == xs[1..][j - 1];
        }
        if m + 1 < |xs| {
          assert xs[m + 1] == xs[1..][m];
        }
      } else {
        assert GroupBy(xs, key)[0] == [xs[0]];
      }
    } else {
      assert GroupBy(xs, key)[0] == [xs[0]];
    }
  }

  /** Keys never decrease along the list. */
  predicate Ascending<T>(xs: seq<T>, key: T -> int) {
    forall i, j :: 0 <= i <= j < |xs| ==> key(xs[i]) <= key(xs[j])
  }

  /** Along an ascending list, every run after the first has a greater key than the first. */
  lemma {:induction false} GroupByAscending<T>(xs: seq<T>, key: T -> int)
    requires Ascending(xs, key)
    ensures var r := GroupBy(xs, key);
      forall i :: 1 <= i < |r| ==> r[i] != [] && key(r[i][0]) > key(xs[0])
  {
    if xs != [] {
      var r := GroupBy(xs, key);
      var rest := GroupBy(xs[1..], key);
      GroupByRuns(xs, key);
      if xs[1..] != [] {
        assert Ascending(xs[1..], key) by {
          forall i, j | 0 <= i <= j < |xs[1..]| ensures key(xs[1..][i]) <= key(xs[1..][j]) {
            assert xs[1..][i] == xs[i + 1] && xs[1..][j] == xs[j + 1];
          }
        }
        GroupByAscending(xs[1..], key);
        GroupByFirstRun(xs[1..], key);
        assert rest[0][0] == xs[1];
        assert key(xs[0]) <= key(xs[1]);
      }
    }
  }
}

=== FILE: holidays.dfy ===
/**
 * The registry of holidays: a map of individually added holidays, which is
 * always the first source, followed by registered sources in order.  A
 * source answers with a holiday text per day ordinal; an absent key and
 * the empty string both mean "no holiday".  Sources loaded from settings
 * by the parser are plain registered sources here.
 */
module Holidays {
  import opened Text

  const Sep := ", "

  /** A source of holiday data: the registry's own map, or a registered one. */
  datatype Source = SimpleSource | Registered(table: map<int, string>)

  datatype Holidays = Holidays(simple: map<int, string>, srcs: seq<Source>)

  /** `Holidays()` before settings are parsed: an empty map as the only source. */
  function Init(): (h: Holidays)
    ensures h.simple == map[] && h.srcs == [SimpleSource]
  {
    Holidays(map[], [SimpleSource])
  }

  /** `register(src)`: the source goes to the end; nothing else changes. */
  function Register(h: Holidays, table: map<int, string>): (r: Holidays)
    ensures r.simple == h.simple
    ensures |r.srcs| == |h.srcs| + 1 && r.srcs[..|h.srcs|] == h.srcs
    ensures r.srcs[|h.srcs|] == Registered(table)
  {
    Holidays(h.simple, h.srcs + [Registered(table)])
  }

  /** `dict.get(day)` with "" for a missing key (both are falsy). */
  function Lookup(m: map<int, string>, day: int): string {
    if day in m then m[day] else ""
  }

  /**
   * `add(day, value)`: an empty or missing entry becomes `value`; an entry
   * that contains `value`, or is contained in it, is left alone; any other
   * entry becomes "old, value".
   */
  function Add(h: Holidays, day: int, value: string): (r: Holidays)
    ensures r.srcs == h.srcs
    ensures day in r.simple
    ensures forall d :: d != day ==> Lookup(r.simple, d) == Lookup(h.simple, d)
    ensures forall d :: d in r.simple && d != day ==> d in h.simple && r.simple[d] == h.simple[d]
    ensures Lookup(h.simple, day) == "" ==> r.simple[day] == value
    ensures Lookup(h.simple, day) != "" ==>
      (Contains(value, Lookup(h.simple, day)) || Contains(Lookup(h.simple, day), value) ==>
         r.simple == h.simple)
    ensures Lookup(h.simple, day) != "" ==>
      (!Contains(value, Lookup(h.simple, day)) && !Contains(Lookup(h.simple, day), value) ==>
         r.simple[day] == Lookup(h.simple, day) + Sep + value)
  {
    var oldValue := Lookup(h.simple, day);
    if oldValue != "" then
      if !Contains(value, oldValue) && !Contains(oldValue, value) then
        Holidays(h.simple[day := oldValue + Sep + value], h.srcs)
      else h
    else Holidays(h.simple[day := value], h.srcs)
  }

  lemma ContainsSuffix(a: string, b: string)
    ensures Contains(a + Sep + b, b)
  {
    var s := a + Sep + b;
    assert s[|a| + 2..|a| + 2 + |b|] == b;
    assert OccursAt(s, b, |a| + 2);
  }

  /** Adding the same holiday twice is the same as adding it once. */
  lemma AddIdempotent(h: Holidays, day: int, value: string)
    ensures Add(Add(h, day, value), day, value) == Add(h, day, value)
  {
    var h1 := Add(h, day, value);
    var oldValue := Lookup(h.simple, day);
    ContainsSelf(value);
    if oldValue != "" && !Contains(value, oldValue) && !Contains(oldValue, value) {
      ContainsSuffix(oldValue, value);
      assert Lookup(h1.simple, day) == oldValue + Sep + value;
    } else if oldValue == "" {
      assert h1.simple == h.simple[day := value];
      if value == "" {
        assert h1.simple[day := value] == h1.simple;
      }
    }
  }

  /** The holiday text one source gives for a day. */
  function SourceText(h: Holidays, src: Source, day: int): string {
    match src
    case SimpleSource => Lookup(h.simple, day)
    case Registered(table) => Lookup(table, day)
  }

  /** The names from the sources `srcs`, each non-empty text split at ", ". */
  function Names(h: Holidays, srcs: seq<Source>, day: int): seq<string> {
    if srcs == [] then []
    else
      var text := SourceText(h, srcs[0], day);
      (if text != "" then Split(text, Sep) else []) + Names(h, srcs[1..], day)
  }

  /** `get(day)`'s list: the names of every source, duplicates removed. */
  function GetNames(h: Holidays, day: int): seq<string> {
    Dedup(Names(h, h.srcs, day))
  }

  /**
   * `get(day)`: the names joined with ", "; empty when no source has a
   * holiday.
   */
  function Get(h: Holidays, day: int): (r: string)
    ensures !HasHoliday(h, h.srcs, day) ==> r == ""
    ensures AppearsInOrder(r, GetNames(h, day))
  {
    NamesEmpty(h, h.srcs, day);
    JoinAppearsInOrder(GetNames(h, day), Sep);
    Join(Dedup(Names(h, h.srcs, day)), Sep)
  }

  /** A source that has a holiday gives its text as at least one name. */
  predicate HasHoliday(h: Holidays, srcs: seq<Source>, day: int) {
    exists i :: 0 <= i < |srcs| && SourceText(h, srcs[i], day) != ""
  }

  /** Some name is produced exactly when some source has a holiday. */
  lemma {:induction false} NamesEmpty(h: Holidays, srcs: seq<Source>, day: int)
    ensures Names(h, srcs, day) == [] <==> !HasHoliday(h, srcs, day)
  {
    if srcs != [] {
      NamesEmpty(h, srcs[1..], day);
      if HasHoliday(h, srcs[1..], day) {
        var i :| 0 <= i < |srcs[1..]| && SourceText(h, srcs[1..][i], day) != "";
        assert SourceText(h, srcs[i + 1], day) != "";
      }
      if HasHoliday(h, srcs, day) && SourceText(h, srcs[0], day) == "" {
        var i :| 0 <= i < |srcs| && SourceText(h, srcs[i], day) != "";
        assert SourceText(h, srcs[1..][i - 1], day) != "";
      }
      if SourceText(h, srcs[0], day) != "" {
        assert |Split(SourceText(h, srcs[0], day), Sep)| >= 1;
      }
    }
  }

  lemma DedupEmpty<T>(xs: seq<T>)
    ensures Dedup(xs) == [] <==> xs == []
  {
    DedupMembers(xs);
    if xs != [] {
      assert xs[0] in Dedup(xs);
    }
  }

  /** When some source has a holiday, `get` lists at least one name. */
  lemma GetSomeHoliday(h: Holidays, day: int)
    requires HasHoliday(h, h.srcs, day)
    ensures |GetNames(h, day)| >= 1
  {
    NamesEmpty(h, h.srcs, day);
    DedupEmpty(Names(h, h.srcs, day));
  }

  /**
   * The names `get` lists are exactly the names the sources give, each
   * once, in the order of their first appearance across the sources.
   */
  lemma GetNamesProperties(h: Holidays, day: int)
    ensures NoDuplicates(GetNames(h, day))
    ensures forall x :: x in GetNames(h, day) <==> x in Names(h, h.srcs, day)
    ensures forall i, j :: 0 <= i < j < |GetNames(h, day)| ==>
      FirstIndex(Names(h, h.srcs, day), GetNames(h, day)[i]) <
      FirstIndex(Names(h, h.srcs, day), GetNames(h, day)[j])
  {
    var xs := Names(h, h.srcs, day);
    DedupNoDuplicates(xs);
    DedupMembers(xs);
    DedupOrder(xs);
  }

  /** Names of earlier sources come before those of later ones. */
  lemma {:induction false} NamesAppend(h: Holidays, a: seq<Source>, b: seq<Source>, day: int)
    ensures Names(h, a + b, day) == Names(h, a, day) + Names(h, b, day)
  {
    if a != [] {
      NamesAppend(h, a[1..], b, day);
      var text := SourceText(h, a[0], day);
      var p := if text != "" then Split(text, Sep) else [];
      assert (a + b)[0] == a[0] && (a + b)[1..] == a[1..] + b;
      assert Names(h, a + b, day) == p + Names(h, a[1..] + b, day);
      assert Names(h, a, day) == p + Names(h, a[1..], day);
    } else {
      assert a + b == b;
    }
  }

  /** Registering a source adds its names after all earlier ones. */
  lemma RegisterNames(h: Holidays, table: map<int, string>, day: int)
    ensures Names(Register(h, table), Register(h, table).srcs, day) ==
      Names(h, h.srcs, day) + (if Lookup(table, day) != "" then Split(Lookup(table, day), Sep) else [])
  {
    var r := Register(h, table);
    assert Names(r, h.srcs, day) == Names(h, h.srcs, day) by {
      NamesSameSimple(r, h, h.srcs, day);
    }
    NamesAppend(r, h.srcs, [Registered(table)], day);
  }

  lemma {:induction false} NamesSameSimple(h1: Holidays, h2: Holidays, srcs: seq<Source>, day: int)
    requires Lookup(h1.simple, day) == Lookup(h2.simple, day)
    ensures Names(h1, srcs, day) == Names(h2, srcs, day)
  {
    if srcs != [] {
      NamesSameSimple(h1, h2, srcs[1..], day);
    }
  }

  /** Adding on one day changes no other day's holidays. */
  lemma AddOtherDay(h: Holidays, day: int, value: string, other: int)
    requires other != day
    ensures Get(Add(h, day, value), other) == Get(h, other)
  {
    NamesSameSimple(Add(h, day, value), h, h.srcs, other);
  }

  /** A freshly created registry with one added holiday lists exactly it. */
  lemma InitAddGet(day: int, value: string)
    requires value != "" && !Contains(value, Sep)
    ensures Get(Add(Init(), day, value), day) == value
  {
    var h := Add(Init(), day, value);
    assert Lookup(h.simple, day) == value;
    SplitNoSeparator(value);
    assert Names(h, [SimpleSource], day) == [value] + Names(h, [], day);
    assert Dedup([value]) == [value] by {
      assert [value][..0] == [];
    }
  }

  lemma {:induction false} SplitNoSeparator(s: string)
    requires !Contains(s, Sep)
    ensures Split(s, Sep) == [s]
    decreases |s|
  {
    if |s| >= |Sep| {
      assert !OccursAt(s, Sep, 0);
      assert s[..|Sep|] != Sep by {
        assert s[0..|Sep|] == s[..|Sep|];
      }
      forall i | 0 <= i <= |s[1..]|
        ensures !OccursAt(s[1..], Sep, i)
      {
        assert !OccursAt(s, Sep, i + 1);
        if i + |Sep| <= |s[1..]| {
          assert s[i + 1..i + 1 + |Sep|] == s[1..][i..i + |Sep|];
        }
      }
      SplitNoSeparator(s[1..]);
      assert [s[0]] + s[1..] == s;
    }
  }

  /** Splitting at ", " peels off a first piece that has no ", " in it. */
  lemma {:induction false} SplitSepPrefix(a: string, rest: string)
    requires !Contains(a, Sep)
    ensures Split(a + Sep + rest, Sep) == [a] + Split(rest, Sep)
    decreases |a|
  {
    var s := a + Sep + rest;
    if a == [] {
      assert s == Sep + rest && s[..|Sep|] == Sep && s[|Sep|..] == rest;
    } else {
      assert s[..|Sep|] != Sep by {
        if |a| >= 2 {
          assert s[..2] == a[..2];
          assert !OccursAt(a, Sep, 0);
        } else {
          assert s[1] == ',';
        }
      }
      assert !Contains(a[1..], Sep) by {
        if Contains(a[1..], Sep) {
          var i :| 0 <= i <= |a[1..]| && OccursAt(a[1..], Sep, i);
          assert a[i + 1..i + 1 + |Sep|] == a[1..][i..i + |Sep|];
          assert OccursAt(a, Sep, i + 1);
        }
      }
      SplitSepPrefix(a[1..], rest);
      assert s[1..] == a[1..] + Sep + rest;
      assert [a[0]] + a[1..] == a;
    }
  }

  /** When no name contains ", ", splitting the joined names gives them back. */
  lemma {:induction false} SplitJoinSep(names: seq<string>)
    requires |names| >= 1
    requires forall i :: 0 <= i < |names| ==> !Contains(names[i], Sep)
    ensures Split(Join(names, Sep), Sep) == names
  {
    if |names| == 1 {
      SplitNoSeparator(names[0]);
    } else {
      SplitJoinSep(names[1..]);
      SplitSepPrefix(names[0], Join(names[1..], Sep));
      assert [names[0]] + names[1..] == names;
    }
  }
}

=== FILE: ical.dfy ===
/**
 * iCalendar import: how a VEVENT's properties are checked, completed and
 * classified into one of the event kinds Joyous stores (section 3.6.1 of
 * RFC 5545 for DTSTART, DTEND and DURATION), how exceptions are matched to
 * their recurring parent by UID, the inclusive-date conversion of `vDt`,
 * and the span of datetimes a time zone definition must cover.
 *
 * Dates are day ordinals and times of day microseconds, as in `Dates`.
 * The time zone database is a parameter: `utcOffset(zone, local)` gives
 * the offset in microseconds of a zone at a local wall-clock time.
 */
module ICal {
  import opened Wrappers
  import opened Dates

  // ---------------------------------------------------------------------
  // Values

  /**
   * The value of a DATE or DATE-TIME property.  A DATE-TIME's `zone` is
   * None when it is floating (naive).
   */
  datatype DtValue =
    | DateValue(day: int)
    | DateTimeValue(day: int, time: TimeOfDay, zone: Option<string>)

  /** A DURATION as Python's normalised `timedelta`: whole days and the microseconds left over. */
  datatype Duration = Duration(days: int, micros: TimeOfDay)

  const OutOfRange := "date value out of range"

  /** Whether two values are of the same Python type, `date` or `datetime`. */
  predicate SameType(a: DtValue, b: DtValue) {
    a.DateValue? == b.DateValue?
  }

  /** `value + duration`: a date only takes the whole days. */
  function AddDuration(v: DtValue, d: Duration): (r: Result<DtValue>)
    ensures r.Success? ==> SameType(r.value, v) && IsValidOrdinal(r.value.day)
    ensures v.DateValue? ==> (r.Success? <==> IsValidOrdinal(v.day + d.days))
    ensures r.Success? && v.DateValue? ==> r.value.day == v.day + d.days
    ensures r.Success? && v.DateTimeValue? ==>
      r.value.zone == v.zone &&
      r.value.day * MicrosPerDay + r.value.time == v.day * MicrosPerDay + v.time + d.days * MicrosPerDay + d.micros
  {
    match v
    case DateValue(x) =>
      if IsValidOrdinal(x + d.days) then Success(DateValue(x + d.days)) else Failure(OutOfRange)
    case DateTimeValue(x, t, z) =>
      var total := t + d.micros;
      var day := x + d.days + total / MicrosPerDay;
      if IsValidOrdinal(day) then Success(DateTimeValue(day, total % MicrosPerDay, z))
      else Failure(OutOfRange)
  }

  /** `vDt(value, inclusive=True)`: an inclusive end date becomes the exclusive next day. */
  function InclusiveToExclusive(v: DtValue): (r: Result<DtValue>)
    ensures v.DateTimeValue? ==> r == Success(v)
    ensures v.DateValue? ==>
      (r.Success? <==> IsValidOrdinal(v.day + 1)) && (r.Success? ==> r.value == DateValue(v.day + 1))
  {
    if v.DateValue? then
      if IsValidOrdinal(v.day + 1) then Success(DateValue(v.day + 1)) else Failure(OutOfRange)
    else Success(v)
  }

  /** `vDt.date(inclusive=True)`: the last day an exclusive end covers. */
  function InclusiveDate(v: DtValue): (r: Result<int>)
    ensures v.DateTimeValue? ==> r == Success(v.day)
    ensures v.DateValue? ==> (r.Success? <==> IsValidOrdinal(v.day - 1)) && (r.Success? ==> r.value == v.day - 1)
  {
    if v.DateValue? then
      if IsValidOrdinal(v.day - 1) then Success(v.day - 1) else Failure(OutOfRange)
    else Success(v.day)
  }

  /** Converting an inclusive DATE to `vDt` and back gives the date again. */
  lemma InclusiveRoundTrip(d: int)
    requires IsValidOrdinal(d) && IsValidOrdinal(d + 1)
    ensures InclusiveToExclusive(DateValue(d)).Success?
    ensures InclusiveDate(InclusiveToExclusive(DateValue(d)).value) == Success(d)
  {
  }

  /** `vDt.time()`: the time of a DATE-TIME, nothing for a DATE. */
  function TimeOf(v: DtValue): (r: Option<TimeOfDay>)
    ensures r.Some? <==> v.DateTimeValue?
    ensures r.Some? ==> r.value == v.time
  {
    if v.DateTimeValue? then Some(v.time) else None
  }

  /** `vDt.timezone()`: a DATE or floating DATE-TIME is in the site's current zone. */
  function TimeZoneOf(v: DtValue, current: string): (r: string)
    ensures v.DateTimeValue? && v.zone.Some? ==> r == v.zone.value
    ensures !(v.DateTimeValue? && v.zone.Some?) ==> r == current
  {
    if v.DateTimeValue? && v.zone.Some? then v.zone.value else current
  }

  /** `numDays`: the days from the start to the inclusive end, counting both. */
  function NumDays(start: DtValue, end: DtValue): (r: Result<int>)
    ensures r.Success? <==> InclusiveDate(end).Success?
    ensures r.Success? ==> r.value == InclusiveDate(end).value - start.day + 1
  {
    match InclusiveDate(end)
    case Failure(e) => Failure(e)
    case Success(last) => Success(last - start.day + 1)
  }

  // ---------------------------------------------------------------------
  // Properties and events

  datatype RruleProp = NoRrule | OneRrule | ManyRrules

  /** The VEVENT properties the factory looks at. */
  datatype Props = Props(
    hasUid: bool, hasDtstamp: bool,
    dtstart: Option<DtValue>, dtend: Option<DtValue>, duration: Option<Duration>,
    rrule: RruleProp, recurrenceId: Option<DtValue>,
    summary: Option<string>, description: Option<string>)

  /** The kinds of event the factory makes. */
  datatype Kind =
    | SimpleEvent | MultidayEvent | RecurringEvent | MultidayRecurringEvent
    | ExtraInfoEvent | RescheduleMultidayEvent | PostponementEvent
  {
    /** `isinstance(vevent, ExceptionVEvent)`. */
    predicate IsException() {
      this.ExtraInfoEvent? || this.RescheduleMultidayEvent? || this.PostponementEvent?
    }
  }

  /** A made event: its kind, its properties with DTEND filled in, and its day count. */
  datatype VEvent = VEvent(kind: Kind, props: Props, dtend: DtValue, numDays: int)

  /** `component[key]` on a text property: a missing one raises KeyError. */
  function Get(p: Option<string>, key: string): (r: Result<string>)
    ensures r.Success? <==> p.Some?
    ensures r.Success? ==> r.value == p.value
  {
    if p.Some? then Success(p.value) else Failure("KeyError: '" + key + "'")
  }

  /**
   * The text half of the extra-information test: the summary differs, or
   * else the descriptions differ and the exception's is not empty; the
   * lookups happen left to right and stop as Python's `or` and chained
   * comparison do.
   */
  function TextDiffers(parent: Props, props: Props): (r: Result<bool>)
    ensures parent.summary.Some? && props.summary.Some? && parent.summary != props.summary ==> r == Success(true)
    ensures (parent.summary.Some? && parent.summary == props.summary &&
      parent.description.Some? && props.description.Some?) ==>
      r == Success(parent.description != props.description && props.description.value != "")
    ensures parent.summary.None? || props.summary.None? ==> r.Failure?
  {
    match Get(parent.summary, "SUMMARY")
    case Failure(e) => Failure(e)
    case Success(ps) =>
      match Get(props.summary, "SUMMARY")
      case Failure(e) => Failure(e)
      case Success(s) =>
        if ps != s then Success(true)
        else
          match Get(parent.description, "DESCRIPTION")
          case Failure(e) => Failure(e)
          case Success(pd) =>
            match Get(props.description, "DESCRIPTION")
            case Failure(e) => Failure(e)
            case Success(d) => Success(pd != d && d != "")
  }

  /** The end the factory settles on: DTEND, DTSTART + DURATION, or the default. */
  function CompleteEnd(dtstart: DtValue, dtend: Option<DtValue>, duration: Option<Duration>)
    : (r: Result<DtValue>)
    ensures duration.Some? && dtend.Some? ==> r == Failure("Both DURATION and DTEND set")
    ensures duration.Some? && dtend.None? ==> r == AddDuration(dtstart, duration.value)
    ensures duration.None? && dtend.Some? ==> r == Success(dtend.value)
    ensures duration.None? && dtend.None? ==> r == InclusiveToExclusive(dtstart)
  {
    if duration.Some? then
      if dtend.Some? then Failure("Both DURATION and DTEND set")
      else AddDuration(dtstart, duration.value)
    else if dtend.None? then InclusiveToExclusive(dtstart)
    else Success(dtend.value)
  }

  /** The exception starts at its RECURRENCE-ID and keeps the parent's day count and end time. */
  predicate SameSlot(props: Props, start: DtValue, end: DtValue, numDays: int, parent: Option<VEvent>)
    requires props.recurrenceId.Some?
  {
    parent.Some? && props.recurrenceId.value == start &&
    parent.value.numDays == numDays && TimeOf(parent.value.dtend) == TimeOf(end)
  }

  /** The exception or its parent spans more than one day. */
  predicate Multiday(numDays: int, parent: Option<VEvent>) {
    numDays > 1 || (parent.Some? && parent.value.numDays > 1)
  }

  /**
   * The exception kind for a RECURRENCE-ID event, given the parent's
   * information: extra information exactly when it keeps the parent's
   * slot and changes its text, a failed text lookup exactly when the slot
   * is kept but a SUMMARY or DESCRIPTION is missing, and otherwise a
   * multi-day reschedule or a postponement by the day counts.
   */
  function ExceptionKind(props: Props, start: DtValue, end: DtValue, numDays: int,
                         parent: Option<VEvent>): (r: Result<Kind>)
    requires props.recurrenceId.Some?
    ensures r.Success? ==> r.value.IsException()
    ensures r.Failure? <==>
      SameSlot(props, start, end, numDays, parent) && TextDiffers(parent.value.props, props).Failure?
    ensures r == Success(ExtraInfoEvent) <==>
      SameSlot(props, start, end, numDays, parent) && TextDiffers(parent.value.props, props) == Success(true)
    ensures r.Success? && r.value != ExtraInfoEvent ==>
      r.value == if Multiday(numDays, parent) then RescheduleMultidayEvent else PostponementEvent
    ensures parent.None? ==>
      r == Success(if numDays > 1 then RescheduleMultidayEvent else PostponementEvent)
    ensures r == Success(ExtraInfoEvent) ==>
      parent.Some? && props.recurrenceId.value == start && parent.value.numDays == numDays &&
      TimeOf(parent.value.dtend) == TimeOf(end)
    ensures r.Success? && numDays > 1 ==> r.value != PostponementEvent
  {
    var sameSlot := SameSlot(props, start, end, numDays, parent);
    var extra := if sameSlot then TextDiffers(parent.value.props, props) else Success(false);
    if extra.Failure? then Failure(extra.error)
    else if extra.value then Success(ExtraInfoEvent)
    else if numDays > 1 then Success(RescheduleMultidayEvent)
    else if parent.Some? && parent.value.numDays > 1 then Success(RescheduleMultidayEvent)
    else Success(PostponementEvent)
  }

  /**
   * In the parent's slot the kind follows from the texts: a changed
   * summary gives extra information, a changed non-empty description
   * under the same summary too, and unchanged texts give a reschedule or
   * a postponement by the day count.  Out of the slot the texts are never
   * read.
   */
  lemma ExceptionKindByText(props: Props, start: DtValue, end: DtValue, numDays: int, parent: Option<VEvent>)
    requires props.recurrenceId.Some?
    ensures var r := ExceptionKind(props, start, end, numDays, parent);
      SameSlot(props, start, end, numDays, parent) ==>
        var pp := parent.value.props;
        && (pp.summary.Some? && props.summary.Some? && pp.summary != props.summary ==> r == Success(ExtraInfoEvent))
        && (pp.summary.Some? && pp.summary == props.summary && props.description.Some? &&
            pp.description.Some? && pp.description != props.description && props.description.value != "" ==>
              r == Success(ExtraInfoEvent))
        && (pp.summary.Some? && pp.summary == props.summary && pp.description.Some? && pp.description == props.description ==>
              r == Success(if numDays > 1 then RescheduleMultidayEvent else PostponementEvent))
    ensures !SameSlot(props, start, end, numDays, parent) ==>
      ExceptionKind(props, start, end, numDays, parent) ==
        Success(if Multiday(numDays, parent) then RescheduleMultidayEvent else PostponementEvent)
  {
  }

  /**
   * `VEventFactory.makeFromProps`: the checks in the source's order, the
   * completed DTEND, and the kind of event.  `current` is the site's time
   * zone.
   */
  function MakeFromProps(props: Props, parent: Option<VEvent>, current: string): (r: Result<VEvent>)
    ensures !props.hasUid ==> r == Failure("Missing UID")
    ensures props.hasUid && !props.hasDtstamp ==> r == Failure("Missing DTSTAMP")
    ensures props.hasUid && props.hasDtstamp && props.dtstart.None? ==> r == Failure("Missing DTSTART")
    ensures props.hasUid && props.hasDtstamp && props.dtstart.Some? && props.duration.Some? && props.dtend.Some? ==>
      r == Failure("Both DURATION and DTEND set")
    ensures r.Success? ==>
      && props.hasUid && props.hasDtstamp && props.dtstart.Some?
      && CompleteEnd(props.dtstart.value, props.dtend, props.duration) == Success(r.value.dtend)
      && SameType(props.dtstart.value, r.value.dtend)
      && TimeZoneOf(props.dtstart.value, current) == TimeZoneOf(r.value.dtend, current)
      && NumDays(props.dtstart.value, r.value.dtend) == Success(r.value.numDays)
      && r.value.props == props.(dtend := Some(r.value.dtend))
    ensures r.Success? && props.rrule.OneRrule? ==>
      r.value.kind == (if r.value.numDays > 1 then MultidayRecurringEvent else RecurringEvent)
    ensures props.rrule.ManyRrules? ==> r.Failure?
    ensures r.Success? && props.rrule.NoRrule? && props.recurrenceId.Some? ==> r.value.kind.IsException()
    ensures r.Success? && props.rrule.NoRrule? && props.recurrenceId.None? ==>
      r.value.kind == (if r.value.numDays != 1 then MultidayEvent else SimpleEvent)
  {
    if !props.hasUid then Failure("Missing UID")
    else if !props.hasDtstamp then Failure("Missing DTSTAMP")
    else if props.dtstart.None? then Failure("Missing DTSTART")
    else
      var start := props.dtstart.value;
      match CompleteEnd(start, props.dtend, props.duration)
      case Failure(e) => Failure(e)
      case Success(end) =>
        var completed := props.(dtend := Some(end));
        if !SameType(start, end) then Failure("DTSTART and DTEND types do not match")
        else if TimeZoneOf(start, current) != TimeZoneOf(end, current) then
          Failure("DTSTART.timezone != DTEND.timezone")
        else
          match NumDays(start, end)
          case Failure(e) => Failure(e)
          case Success(n) =>
            if props.rrule.ManyRrules? then Failure("Multiple RRULEs")
            else if props.rrule.OneRrule? then
              Success(VEvent(if n > 1 then MultidayRecurringEvent else RecurringEvent, completed, end, n))
            else if props.recurrenceId.Some? then
              if TimeZoneOf(start, current) != TimeZoneOf(props.recurrenceId.value, current) then
                Failure("DTSTART.timezone != RECURRENCE-ID.timezone")
              else
                match ExceptionKind(props, start, end, n, parent)
                case Failure(e) => Failure(e)
                case Success(k) => Success(VEvent(k, completed, end, n))
            else
              Success(VEvent(if start.day != InclusiveDate(end).value then MultidayEvent else SimpleEvent,
                             completed, end, n))
  }

  /**
   * With DURATION the end is DTSTART + DURATION; with neither DTEND nor
   * DURATION a DATE start lasts its one day and a DATE-TIME start ends
   * when it starts.
   */
  lemma DefaultEnds(props: Props, current: string)
    requires props.hasUid && props.hasDtstamp && props.dtstart.Some? && props.dtend.None?
    requires props.rrule.NoRrule? && props.recurrenceId.None?
    ensures var r := MakeFromProps(props, None, current);
      && (props.duration.Some? && r.Success? ==> Success(r.value.dtend) == AddDuration(props.dtstart.value, props.duration.value))
      && (props.duration.None? && props.dtstart.value.DateValue? &&
          IsValidOrdinal(props.dtstart.value.day) && IsValidOrdinal(props.dtstart.value.day + 1) ==>
            r.Success? && r.value.dtend == DateValue(props.dtstart.value.day + 1) &&
            r.value.numDays == 1 && r.value.kind == SimpleEvent)
      && (props.duration.None? && props.dtstart.value.DateTimeValue? ==>
            r.Success? && r.value.dtend == props.dtstart.value && r.value.kind == SimpleEvent)
  {
  }

  // ---------------------------------------------------------------------
  // Matching exceptions with their parent

  /**
   * The events sharing one UID: the parent once it has arrived, the
   * exceptions attached to it, and the exceptions that came first.
   */
  datatype Match = Match(parent: Option<VEvent>, children: seq<VEvent>, orphans: seq<VEvent>)

  const NewMatch := Match(None, [], [])

  /** Orphans only wait while there is no parent, and children only exist once there is one. */
  predicate ValidMatch(m: Match) {
    (m.parent.None? ==> m.children == []) && (m.parent.Some? ==> m.orphans == [])
  }

  /** Remake each orphan against the parent, stopping at the first failure. */
  function RemakeAll(orphans: seq<VEvent>, parent: VEvent, remake: (VEvent, VEvent) -> Result<VEvent>)
    : (r: Result<seq<VEvent>>)
    ensures r.Success? ==> |r.value| == |orphans|
    ensures r.Success? ==> forall i :: 0 <= i < |orphans| ==> remake(orphans[i], parent) == Success(r.value[i])
    ensures r.Failure? ==> exists i :: 0 <= i < |orphans| && remake(orphans[i], parent).Failure?
  {
    if orphans == [] then Success([])
    else
      match remake(orphans[0], parent)
      case Failure(e) => Failure(e)
      case Success(first) =>
        match RemakeAll(orphans[1..], parent, remake)
        case Failure(e) => Failure(e)
        case Success(rest) => Success([first] + rest)
  }

  /**
   * `VMatch.add`: an exception joins the parent's children, or waits as an
   * orphan; a parent is installed, its orphans remade against it with
   * `remake` and moved to its children; a second parent is an error.
   */
  function MatchAdd(m: Match, e: VEvent, uid: string, remake: (VEvent, VEvent) -> Result<VEvent>)
    : (r: Result<Match>)
    requires ValidMatch(m)
    ensures r.Success? ==> ValidMatch(r.value)
    ensures e.kind.IsException() && m.parent.Some? ==> r == Success(m.(children := m.children + [e]))
    ensures e.kind.IsException() && m.parent.None? ==> r == Success(m.(orphans := m.orphans + [e]))
    ensures !e.kind.IsException() && m.parent.Some? ==> r == Failure("UID " + uid)
    ensures !e.kind.IsException() && m.parent.None? ==>
      (r.Success? <==> RemakeAll(m.orphans, e, remake).Success?) &&
      (r.Success? ==> r.value == Match(Some(e), RemakeAll(m.orphans, e, remake).value, []))
  {
    if e.kind.IsException() then
      if m.parent.Some? then Success(m.(children := m.children + [e]))
      else Success(m.(orphans := m.orphans + [e]))
    else if m.parent.Some? then Failure("UID " + uid)
    else
      match RemakeAll(m.orphans, e, remake)
      case Failure(err) => Failure(err)
      case Success(children) => Success(Match(Some(e), children, []))
  }

  function CountExceptions(es: seq<VEvent>): nat {
    if es == [] then 0 else CountExceptions(es[..|es| - 1]) + (if es[|es| - 1].kind.IsException() then 1 else 0)
  }

  /** Adding the events of one UID in order. */
  function MatchAll(es: seq<VEvent>, uid: string, remake: (VEvent, VEvent) -> Result<VEvent>)
    : (r: Result<Match>)
    ensures r.Success? ==> ValidMatch(r.value)
  {
    if es == [] then Success(NewMatch)
    else
      match MatchAll(es[..|es| - 1], uid, remake)
      case Failure(err) => Failure(err)
      case Success(m) => MatchAdd(m, es[|es| - 1], uid, remake)
  }

  /** No exception is lost: they are all either children or still orphans. */
  lemma {:induction false} MatchAllKeepsExceptions(es: seq<VEvent>, uid: string,
                                                    remake: (VEvent, VEvent) -> Result<VEvent>)
    requires MatchAll(es, uid, remake).Success?
    ensures var m := MatchAll(es, uid, remake).value;
      |m.children| + |m.orphans| == CountExceptions(es)
  {
    if es != [] {
      MatchAllKeepsExceptions(es[..|es| - 1], uid, remake);
    }
  }

  /** `makeFromProps(orphan, parent)` as the source calls it, on the orphan's completed properties. */
  function RemakeAsWritten(current: string): (f: (VEvent, VEvent) -> Result<VEvent>)
    ensures forall o, p :: f(o, p) == MakeFromProps(o.props, Some(p), current)
  {
    (o: VEvent, p: VEvent) => MakeFromProps(o.props, Some(p), current)
  }

  /**
   * As written, an exception that came with DURATION and arrived before
   * its parent cannot be remade: its properties now hold both DURATION and
   * the DTEND the first pass filled in.
   */
  lemma OrphanWithDurationFails(props: Props, parent: VEvent, current: string)
    requires MakeFromProps(props, None, current).Success? && props.duration.Some?
    ensures RemakeAsWritten(current)(MakeFromProps(props, None, current).value, parent)
      == Failure("Both DURATION and DTEND set")
  {
  }

  /** Remaking an orphan from its properties with the already-applied DURATION dropped. */
  function RemakeOrphan(current: string): (f: (VEvent, VEvent) -> Result<VEvent>)
    ensures forall o, p :: f(o, p) == MakeFromProps(o.props.(duration := None), Some(p), current)
  {
    (o: VEvent, p: VEvent) => MakeFromProps(o.props.(duration := None), Some(p), current)
  }

  /**
   * An orphan remade this way is classified, completed and counted
   * exactly as it would have been had it arrived after its parent.
   */
  lemma RemakeOrphanAsIfLate(props: Props, parent: VEvent, current: string)
    requires MakeFromProps(props, None, current).Success?
    ensures var late := MakeFromProps(props, Some(parent), current);
      var remade := RemakeOrphan(current)(MakeFromProps(props, None, current).value, parent);
      && (late.Success? <==> remade.Success?)
      && (late.Success? ==>
            remade.value.kind == late.value.kind && remade.value.dtend == late.value.dtend &&
            remade.value.numDays == late.value.numDays &&
            remade.value.props == late.value.props.(duration := None))
  {
    var first := MakeFromProps(props, None, current).value;
    assert CompleteEnd(props.dtstart.value, first.props.dtend, None) == Success(first.dtend);
  }

  // ---------------------------------------------------------------------
  // EXDATE

  /**
   * `VEvent.exDates`: the excluded dates of every EXDATE property that are
   * of the same type as DTSTART, without repeats.
   */
  function ExDates(exdates: seq<seq<DtValue>>, dtstart: DtValue): (r: set<DtValue>)
    ensures forall v :: v in r <==> SameType(v, dtstart) && exists i :: 0 <= i < |exdates| && v in exdates[i]
  {
    set i, v | 0 <= i < |exdates| && v in exdates[i] && SameType(v, dtstart) :: v
  }

  // ---------------------------------------------------------------------
  // Time zone spans

  /** An aware datetime: a wall-clock day and time in a named zone. */
  datatype Aware = Aware(day: int, time: TimeOfDay, zone: string)

  /** The instant of an aware datetime, in microseconds, from the zone's offset at that wall-clock time. */
  function Instant(a: Aware, utcOffset: (string, int) -> int): int {
    var local := a.day * MicrosPerDay + a.time;
    local - utcOffset(a.zone, local)
  }

  /** `vDt.datetime(timeDefault)`: a DATE at the default time, floating values in the current zone. */
  function ToAware(v: DtValue, timeDefault: TimeOfDay, current: string): (r: Aware)
    ensures r.day == v.day
    ensures r.zone == TimeZoneOf(v, current)
    ensures r.time == (if v.DateTimeValue? then v.time else timeDefault)
  {
    match v
    case DateValue(d) => Aware(d, timeDefault, current)
    case DateTimeValue(d, t, z) => Aware(d, t, if z.Some? then z.value else current)
  }

  /** 2038-12-31, beyond which pytz knows no transitions. */
  const LastTransitionDay := 744_364

  lemma LastTransitionDayIsDec31()
    ensures ToOrdinal(Date(2038, 12, 31)) == LastTransitionDay
  {
    DaysBeforeYearIsFormula(2038);
  }

  /** The span of one event: from its start to its end, or to the end of its recurrence. */
  datatype SpanEvent = SpanEvent(dtstart: DtValue, dtend: DtValue, rrule: Option<Option<DtValue>>)

  /** The last datetime an event needs: UNTIL, else 2038-12-31 for an open recurrence, else DTEND. */
  function LastOf(e: SpanEvent, current: string): (r: Aware)
    ensures e.rrule.None? ==> r == ToAware(e.dtend, TimeMax, current)
    ensures e.rrule.Some? && e.rrule.value.Some? ==> r == ToAware(e.rrule.value.value, TimeMax, current)
    ensures e.rrule.Some? && e.rrule.value.None? ==>
      r == ToAware(e.dtend, TimeMax, current).(day := LastTransitionDay)
  {
    var last := ToAware(e.dtend, TimeMax, current);
    if e.rrule.None? then last
    else if e.rrule.value.Some? then ToAware(e.rrule.value.value, TimeMax, current)
    else last.(day := LastTransitionDay)
  }

  datatype Span = Span(first: Option<Aware>, last: Option<Aware>)

  /** `TimeZoneSpan.add`: keep the earlier first and the later last. */
  function SpanAdd(s: Span, e: SpanEvent, current: string, utcOffset: (string, int) -> int): (r: Span)
    ensures r.first.Some? && r.last.Some?
    ensures var f := FirstOf(e, current);
      && Instant(r.first.value, utcOffset) <= Instant(f, utcOffset)
      && (r.first.value == f || Some(r.first.value) == s.first)
      && (s.first.Some? ==> Instant(r.first.value, utcOffset) <= Instant(s.first.value, utcOffset))
    ensures var l := LastOf(e, current);
      && Instant(r.last.value, utcOffset) >= Instant(l, utcOffset)
      && (r.last.value == l || Some(r.last.value) == s.last)
      && (s.last.Some? ==> Instant(r.last.value, utcOffset) >= Instant(s.last.value, utcOffset))
  {
    var f := FirstOf(e, current);
    var l := LastOf(e, current);
    Span(if s.first.None? || Instant(f, utcOffset) < Instant(s.first.value, utcOffset) then Some(f) else s.first,
         if s.last.None? || Instant(l, utcOffset) > Instant(s.last.value, utcOffset) then Some(l) else s.last)
  }

  /**
   * `TimeZoneSpan`: the span after adding every event, empty (and giving
   * no time zone) exactly when there are none.
   */
  function SpanAll(es: seq<SpanEvent>, current: string, utcOffset: (string, int) -> int): (r: Span)
    ensures r.first.None? <==> es == []
    ensures r.last.None? <==> es == []
  {
    if es == [] then Span(None, None)
    else SpanAdd(SpanAll(es[..|es| - 1], current, utcOffset), es[|es| - 1], current, utcOffset)
  }

  /** The first instant an event needs. */
  function FirstOf(e: SpanEvent, current: string): Aware {
    ToAware(e.dtstart, TimeMin, current)
  }

  /** After adding events, the span starts no later than any of them. */
  lemma {:induction false} SpanAllFirstBound(es: seq<SpanEvent>, current: string, utcOffset: (string, int) -> int)
    requires es != []
    ensures var s := SpanAll(es, current, utcOffset);
      s.first.Some? &&
      forall i :: 0 <= i < |es| ==> Instant(s.first.value, utcOffset) <= Instant(FirstOf(es[i], current), utcOffset)
  {
    var init := es[..|es| - 1];
    if init != [] {
      SpanAllFirstBound(init, current, utcOffset);
      var s0 := SpanAll(init, current, utcOffset);
      var s := SpanAdd(s0, es[|es| - 1], current, utcOffset);
      assert s == SpanAll(es, current, utcOffset);
      var v := Instant(s.first.value, utcOffset);
      assert v <= Instant(s0.first.value, utcOffset);
      forall i | 0 <= i < |init|
        ensures v <= Instant(FirstOf(es[i], current), utcOffset)
      {
        assert es[i] == init[i];
      }
    }
  }

  /** After adding events, the span starts at one of their starts. */
  lemma {:induction false} SpanAllFirstAttained(es: seq<SpanEvent>, current: string, utcOffset: (string, int) -> int)
    requires es != []
    ensures var s := SpanAll(es, current, utcOffset);
      s.first.Some? && exists i :: 0 <= i < |es| && s.first.value == FirstOf(es[i], current)
  {
    var init := es[..|es| - 1];
    var e := es[|es| - 1];
    var s := SpanAll(es, current, utcOffset);
    if init == [] {
      assert es[0] == e;
    } else if s.first.value != FirstOf(e, current) {
      SpanAllFirstAttained(init, current, utcOffset);
      var s0 := SpanAll(init, current, utcOffset);
      var j :| 0 <= j < |init| && s0.first.value == FirstOf(init[j], current);
      assert es[j] == init[j];
    }
  }

  /** After adding events, the span ends no earlier than any of them. */
  lemma {:induction false} SpanAllLastBound(es: seq<SpanEvent>, current: string, utcOffset: (string, int) -> int)
    requires es != []
    ensures var s := SpanAll(es, current, utcOffset);
      s.last.Some? &&
      forall i :: 0 <= i < |es| ==> Instant(s.last.value, utcOffset) >= Instant(LastOf(es[i], current), utcOffset)
  {
    var init := es[..|es| - 1];
    if init != [] {
      SpanAllLastBound(init, current, utcOffset);
      var s0 := SpanAll(init, current, utcOffset);
      var s := SpanAdd(s0, es[|es| - 1], current, utcOffset);
      assert s == SpanAll(es, current, utcOffset);
      var v := Instant(s.last.value, utcOffset);
      assert v >= Instant(s0.last.value, utcOffset);
      forall i | 0 <= i < |init|
        ensures v >= Instant(LastOf(es[i], current), utcOffset)
      {
        assert es[i] == init[i];
      }
    }
  }

  /** After adding events, the span ends at one of their ends. */
  lemma {:induction false} SpanAllLastAttained(es: seq<SpanEvent>, current: string, utcOffset: (string, int) -> int)
    requires es != []
    ensures var s := SpanAll(es, current, utcOffset);
      s.last.Some? && exists i :: 0 <= i < |es| && s.last.value == LastOf(es[i], current)
  {
    var init := es[..|es| - 1];
    var e := es[|es| - 1];
    var s := SpanAll(es, current, utcOffset);
    if init == [] {
      assert es[0] == e;
    } else if s.last.value != LastOf(e, current) {
      SpanAllLastAttained(init, current, utcOffset);
      var s0 := SpanAll(init, current, utcOffset);
      var j :| 0 <= j < |init| && s0.last.value == LastOf(init[j], current);
      assert es[j] == init[j];
    }
  }

  /** `createVTimeZone`: the span's ends, or NotInitializedError before any event was added. */
  function CreateVTimeZone(s: Span): (r: Result<(Aware, Aware)>)
    ensures r.Failure? <==> s.first.None? || s.last.None?
    ensures r.Success? ==> r.value == (s.first.value, s.last.value)
  {
    if s.first.None? || s.last.None? then Failure("NotInitializedError") else Success((s.first.value, s.last.value))
  }
}

=== FILE: manythings.dfy ===
/**
 * Human-readable ordinals and list joining.  The spelled-out ordinal and
 * the numeric ordinal come from num2words in the source; here they are
 * parameters.
 */
module ManyThings {
  import opened Text

  /**
   * `toOrdinal(n)`: -1 and -2 have their own words, 1 to 5 are spelled
   * out, every other number gets its numeric ordinal.
   */
  function ToOrdinal(n: int, spelled: int -> string, numeric: int -> string): (r: string)
    ensures n == -1 ==> r == "last"
    ensures n == -2 ==> r == "penultimate"
    ensures 1 <= n <= 5 ==> r == spelled(n)
    ensures n != -1 && n != -2 && !(1 <= n <= 5) ==> r == numeric(n)
  {
    if n == -1 then "last"
    else if n == -2 then "penultimate"
    else if 1 <= n <= 5 then spelled(n)
    else numeric(n)
  }

  /**
   * `hrJoin(items)`: up to two items are joined with `and`; longer lists
   * are comma-separated except for the last, which follows `and`.
   */
  function HrJoin(items: seq<string>, and: string): (r: string)
    ensures |items| == 0 ==> r == ""
    ensures |items| == 1 ==> r == items[0]
    ensures |items| == 2 ==> r == items[0] + and + items[1]
    ensures |items| >= 3 ==>
      r == Join(items[..|items| - 1], ", ") + and + items[|items| - 1]
  {
    if |items| <= 2 then Join(items, and)
    else Join(items[..|items| - 1], ", ") + and + items[|items| - 1]
  }

  /** Every item appears in the joined text, in the original order. */
  lemma HrJoinKeepsOrder(items: seq<string>, and: string)
    ensures AppearsInOrder(HrJoin(items, and), items)
  {
    if |items| <= 2 {
      JoinAppearsInOrder(items, and);
    } else {
      var n := |items| - 1;
      var init := items[..n];
      JoinAppearsInOrder(init, ", ");
      AppearsInOrderSingle(items[n]);
      AppearsAfterPrefix(and, items[n], [items[n]]);
      AppearsInOrderConcat(Join(init, ", "), init, and + items[n], [items[n]]);
      assert init + [items[n]] == items;
      assert Join(init, ", ") + and + items[n] == Join(init, ", ") + (and + items[n]);
    }
  }

  /** Three items, as the source's examples show: "a, b and c". */
  lemma HrJoinThree(a: string, b: string, c: string, and: string)
    ensures HrJoin([a, b, c], and) == a + ", " + b + and + c
  {
    assert [a, b, c][..2] == [a, b];
    assert [a, b][1..] == [b];
  }
}

=== FILE: minicalendar.dfy ===
/**
 * The mini calendar widget's cursor: the month it shows, moved one month
 * back or forward by its "previous" and "next" links, and the address it
 * fetches the new month from.  The fetch and the splicing of the answer
 * into the page are not modelled.
 */
module MiniCalendar {
  import opened Text
  import CalendarViews

  datatype MiniCal = MiniCal(calendarUrl: string, year: int, month: int)

  /** The "previous" link: the month goes down by one, from January to December of the year before. */
  function Prev(c: MiniCal): (r: MiniCal)
    ensures r.calendarUrl == c.calendarUrl
    ensures c.month == 1 ==> r.year == c.year - 1 && r.month == 12
    ensures c.month != 1 ==> r.year == c.year && r.month == c.month - 1
  {
    var m := c.month - 1;
    if m == 0 then MiniCal(c.calendarUrl, c.year - 1, 12) else c.(month := m)
  }

  /** The "next" link: the month goes up by one, from December to January of the year after. */
  function Next(c: MiniCal): (r: MiniCal)
    ensures r.calendarUrl == c.calendarUrl
    ensures c.month == 12 ==> r.year == c.year + 1 && r.month == 1
    ensures c.month != 12 ==> r.year == c.year && r.month == c.month + 1
  {
    var m := c.month + 1;
    if m == 13 then MiniCal(c.calendarUrl, c.year + 1, 1) else c.(month := m)
  }

  /** The address fetched after a move: the calendar, `mini/`, the year and the unpadded month. */
  function Url(c: MiniCal): string {
    c.calendarUrl + "mini/" + IntToString(c.year) + "/" + IntToString(c.month)
  }

  /** Both links keep a month in 1 to 12. */
  lemma MonthStaysInRange(c: MiniCal)
    requires 1 <= c.month <= 12
    ensures 1 <= Prev(c).month <= 12 && 1 <= Next(c).month <= 12
  {
  }

  /**
   * "Previous" then "next" returns to the starting month exactly when the
   * cursor did not start on the out-of-range month 13; "next" then
   * "previous" exactly when it did not start on month 0.
   */
  lemma PrevNextRoundTrip(c: MiniCal)
    ensures Next(Prev(c)) == c <==> c.month != 13
    ensures Prev(Next(c)) == c <==> c.month != 0
  {
  }

  /**
   * For a month shown in the calendar's 1900 to 2099 range, the address
   * ends with a year and a month in the forms of the `mini/{YYYY}/{MM}`
   * route, which read back as the cursor's year and month.
   */
  lemma UrlRoutes(c: MiniCal)
    requires CalendarViews.LinkableYear(c.year) && 1 <= c.month <= 12
    ensures Url(c) == c.calendarUrl + "mini/" + NatToString(c.year) + "/" + NatToString(c.month)
    ensures CalendarViews.MatchYYYY(NatToString(c.year)) && ParseNat(NatToString(c.year)) == c.year
    ensures CalendarViews.MatchMM(NatToString(c.month)) && ParseNat(NatToString(c.month)) == c.month
  {
    CalendarViews.YearString(c.year);
    CalendarViews.MonthString(c.month);
  }
}

=== FILE: names.dfy ===
/**
 * Tables of weekday and month names, and the indexing of the tuple type
 * that holds them.  Django's translated tables are parameters: a weekday
 * table lists seven names from Monday, a month table maps 1..12 to names.
 */
module Names {
  import opened Wrappers

  /** Django's `WEEKDAYS`, in English: index 0 is Monday. */
  const EnglishWeekdays: seq<string> :=
    ["Monday", "Tuesday", "Wednesday", "Thursday", "Friday", "Saturday", "Sunday"]

  /** Django's `WEEKDAYS_ABBR`, in English. */
  const EnglishWeekdayAbbrs: seq<string> := ["Mon", "Tue", "Wed", "Thu", "Fri", "Sat", "Sun"]

  /** Django's `MONTHS`, in English. */
  const EnglishMonths: map<int, string> :=
    map[1 := "January", 2 := "February", 3 := "March", 4 := "April", 5 := "May",
        6 := "June", 7 := "July", 8 := "August", 9 := "September", 10 := "October",
        11 := "November", 12 := "December"]

  /** Django's `MONTHS_AP` (Associated Press style), in English. */
  const EnglishMonthAbbrs: map<int, string> :=
    map[1 := "Jan.", 2 := "Feb.", 3 := "March", 4 := "April", 5 := "May",
        6 := "June", 7 := "July", 8 := "Aug.", 9 := "Sept.", 10 := "Oct.",
        11 := "Nov.", 12 := "Dec."]

  predicate IsWeekTable(t: seq<string>) {
    |t| == 7
  }

  /** A month table has exactly the keys 1 to 12. */
  predicate IsMonthTable(months: map<int, string>) {
    (forall k :: 1 <= k <= 12 ==> k in months) && (forall k :: k in months ==> 1 <= k <= 12)
  }

  lemma EnglishTables()
    ensures IsWeekTable(EnglishWeekdays) && IsWeekTable(EnglishWeekdayAbbrs)
    ensures IsMonthTable(EnglishMonths) && IsMonthTable(EnglishMonthAbbrs)
  {
  }

  /** `MONDAY_TO_SUNDAY` (and `MON_TO_SUN` for the abbreviations). */
  function MondayToSunday(weekdays: seq<string>): (r: seq<string>)
    requires IsWeekTable(weekdays)
    ensures IsWeekTable(r)
    ensures forall i :: 0 <= i < 7 ==> r[i] == weekdays[i]
  {
    seq(7, k requires 0 <= k < 7 => weekdays[k])
  }

  /**
   * `SUNDAY_TO_SATURDAY` (and `SUN_TO_SAT`): the source reads the table at
   * `k % 7` for k from 6 to 12, so Sunday comes first and Monday to
   * Saturday follow.
   */
  function SundayToSaturday(weekdays: seq<string>): (r: seq<string>)
    requires IsWeekTable(weekdays)
    ensures IsWeekTable(r)
    ensures r[0] == weekdays[6]
    ensures forall i :: 1 <= i < 7 ==> r[i] == weekdays[i - 1]
  {
    seq(7, j requires 0 <= j < 7 => weekdays[(j + 6) % 7])
  }

  /** The Sunday-first table is the Monday-first one rotated by one place. */
  lemma SundayRotation(weekdays: seq<string>)
    requires IsWeekTable(weekdays)
    ensures forall i :: 0 <= i < 7 ==>
      SundayToSaturday(weekdays)[i] == MondayToSunday(weekdays)[(i + 6) % 7]
    ensures forall i :: 0 <= i < 7 ==>
      MondayToSunday(weekdays)[i] == SundayToSaturday(weekdays)[(i + 1) % 7]
  {
  }

  /** `MONTH_NAMES` (and `MONTH_ABBRS`): `MONTHS.get(k, "")` for k in 0..12. */
  function MonthNames(months: map<int, string>): (r: seq<string>)
    requires IsMonthTable(months)
    ensures |r| == 13 && r[0] == ""
    ensures forall m :: 1 <= m <= 12 ==> r[m] == months[m]
  {
    seq(13, k => if k in months then months[k] else "")
  }

  /**
   * `WRAPPED_MONTH_NAMES`: `MONTHS[k % 12 + 1]` for k in 11..24, so
   * December, then January to December, then January.
   */
  function WrappedMonthNames(months: map<int, string>): (r: seq<string>)
    requires IsMonthTable(months)
    ensures |r| == 14
    ensures r[0] == months[12] && r[13] == months[1]
    ensures forall m :: 1 <= m <= 12 ==> r[m] == months[m]
  {
    seq(14, j => months[(j + 11) % 12 + 1])
  }

  /** The wrapped table agrees with the plain one and adds a month either side. */
  lemma WrappedAgreesWithPlain(months: map<int, string>)
    requires IsMonthTable(months)
    ensures WrappedMonthNames(months)[1..13] == MonthNames(months)[1..]
    ensures WrappedMonthNames(months)[0] == MonthNames(months)[12]
    ensures WrappedMonthNames(months)[13] == MonthNames(months)[1]
  {
    var w := WrappedMonthNames(months);
    var p := MonthNames(months);
    forall i | 0 <= i < 12
      ensures w[1..13][i] == p[1..][i]
    {
      assert w[1..13][i] == w[i + 1] == months[i + 1];
    }
  }

  // ---------------------------------------------------------------------
  // `_Names.__getitem__`

  /** A subscript: an integer, or a slice with optional bounds and step 1. */
  datatype Subscript = At(i: int) | Slice(start: Option<int>, stop: Option<int>)

  /** The result of a subscript: one name (as `str`) or a tuple of names. */
  datatype Item = Name(s: string) | Names(t: seq<string>)

  /** Python's resolution of a slice bound against a sequence of length n. */
  function SliceBound(b: Option<int>, n: nat, default: nat): (r: nat)
    requires default <= n
    ensures r <= n
    ensures b.Some? && 0 <= b.value <= n ==> r == b.value
    ensures b.Some? && b.value < 0 <= n + b.value ==> r == n + b.value
  {
    match b
    case None => default
    case Some(v) =>
      if v < 0 then (if n + v < 0 then 0 else n + v)
      else if v > n then n
      else v
  }

  /**
   * `names[i]`: an integer subscript selects one entry, counting from the
   * end when negative, and raises IndexError out of range; a slice returns
   * the tuple slice, empty when the bounds cross.
   */
  function GetItem(names: seq<string>, sub: Subscript): (r: Result<Item>)
    ensures sub.At? ==>
      (r.Success? <==> 0 <= |names| + sub.i && sub.i < |names|)
    ensures sub.At? && 0 <= sub.i < |names| ==> r == Success(Name(names[sub.i]))
    ensures sub.At? && sub.i < 0 <= |names| + sub.i ==> r == Success(Name(names[|names| + sub.i]))
    ensures sub.Slice? ==> r.Success? && r.value.Names?
  {
    match sub
    case At(i) =>
      if 0 <= i < |names| then Success(Name(names[i]))
      else if i < 0 <= |names| + i then Success(Name(names[|names| + i]))
      else Failure("tuple index out of range")
    case Slice(start, stop) =>
      var lo := SliceBound(start, |names|, 0);
      var hi := SliceBound(stop, |names|, |names|);
      Success(Names(if lo <= hi then names[lo..hi] else []))
  }

  /** The full slice `names[:]` is the tuple itself. */
  lemma FullSlice(names: seq<string>)
    ensures GetItem(names, Slice(None, None)) == Success(Names(names))
  {
    assert names[0..|names|] == names;
  }

  /**
   * Every entry of a slice is what integer subscripting gives at the
   * corresponding position, so slicing returns the entries unchanged.
   */
  lemma SliceEntries(names: seq<string>, start: Option<int>, stop: Option<int>, r: Result<Item>, k: int)
    requires r == GetItem(names, Slice(start, stop))
    requires r.Success? && r.value.Names? && 0 <= k < |r.value.t|
    ensures
      var lo := SliceBound(start, |names|, 0);
      GetItem(names, At(lo + k)) == Success(Name(r.value.t[k]))
  {
  }
}

=== FILE: one_off_events.dfy ===
/**
 * One-off events: the multiday form's start-before-end check and the date
 * windows `byDay` queries before it buckets simple and multiday events
 * into days.  The local start and end dates of an event come from
 * time-zone conversion, which is not modelled; they are given with each
 * event.
 */
module OneOffEvents {
  import opened Wrappers
  import opened Dates
  import opened EventBase

  /**
   * `MultidayEventPageForm._checkStartBeforeEnd`: a missing start date is
   * `date.min` and a missing end date `date.max`; an end date before the
   * start date is an error on `date_to`, and equal dates leave the decision
   * to the time check.
   */
  function CheckMultiday(dateFrom: Option<int>, dateTo: Option<int>,
                         timeFrom: Option<TimeOfDay>, timeTo: Option<TimeOfDay>): (r: seq<FormError>)
    requires dateFrom.Some? ==> IsValidOrdinal(dateFrom.value)
    requires dateTo.Some? ==> IsValidOrdinal(dateTo.value)
    ensures dateFrom.Some? && dateTo.Some? && dateFrom.value > dateTo.value ==>
      r == [FormError("date_to", EndBeforeStart)]
    ensures dateFrom.Some? && dateTo.Some? && dateFrom.value < dateTo.value ==> r == []
    ensures dateFrom.Some? && dateTo.Some? && dateFrom.value == dateTo.value ==>
      r == CheckTimes(timeFrom, timeTo)
  {
    var startDate := dateFrom.GetOr(MinOrdinal);
    var endDate := dateTo.GetOr(MaxOrdinal);
    if startDate > endDate then [FormError("date_to", EndBeforeStart)]
    else if startDate == endDate then CheckTimes(timeFrom, timeTo)
    else []
  }

  /**
   * The multiday check reports an error on `date_to` exactly when both
   * dates are given and the end comes first, and an error on `time_to`
   * exactly when the dates fall on one day (a missing date counting as
   * the earliest or latest day) and both times are given the wrong way
   * round.  These are the only errors.
   */
  lemma CheckMultidayErrors(dateFrom: Option<int>, dateTo: Option<int>,
                            timeFrom: Option<TimeOfDay>, timeTo: Option<TimeOfDay>)
    requires dateFrom.Some? ==> IsValidOrdinal(dateFrom.value)
    requires dateTo.Some? ==> IsValidOrdinal(dateTo.value)
    ensures var r := CheckMultiday(dateFrom, dateTo, timeFrom, timeTo);
      (FormError("date_to", EndBeforeStart) in r <==>
         dateFrom.Some? && dateTo.Some? && dateFrom.value > dateTo.value) &&
      (FormError("time_to", EndBeforeStart) in r <==>
         dateFrom.GetOr(MinOrdinal) == dateTo.GetOr(MaxOrdinal) &&
         timeFrom.Some? && timeTo.Some? && timeFrom.value > timeTo.value) &&
      |r| <= 1
  {
  }

  /** A missing date never produces the date error. */
  lemma CheckMultidayMissingDate(dateFrom: Option<int>, dateTo: Option<int>,
                                 timeFrom: Option<TimeOfDay>, timeTo: Option<TimeOfDay>)
    requires dateFrom.Some? ==> IsValidOrdinal(dateFrom.value)
    requires dateTo.Some? ==> IsValidOrdinal(dateTo.value)
    requires dateFrom.None? || dateTo.None?
    ensures var r := CheckMultiday(dateFrom, dateTo, timeFrom, timeTo);
      r == [] || r == CheckTimes(timeFrom, timeTo)
  {
  }

  // ---------------------------------------------------------------------
  // byDay

  /** The margin `byDay` queries around its range, `_2days`. */
  const Margin := 2

  /** The simple-event query: the event's date lies within two days of the range. */
  predicate SimpleInWindow(date: int, fromDate: int, toDate: int) {
    fromDate - Margin <= date <= toDate + Margin
  }

  /** The multiday-event query: ends no earlier than two days before, starts no later than two days after. */
  predicate MultidayInWindow(dateFrom: int, dateTo: int, fromDate: int, toDate: int) {
    dateTo >= fromDate - Margin && dateFrom <= toDate + Margin
  }

  /**
   * A multiday event over a range of a day or more is queried exactly when
   * one of its days is within the simple window.
   */
  lemma MultidayWindowOverlap(dateFrom: int, dateTo: int, fromDate: int, toDate: int)
    requires dateFrom <= dateTo && fromDate <= toDate
    ensures MultidayInWindow(dateFrom, dateTo, fromDate, toDate) <==>
      exists d :: dateFrom <= d <= dateTo && SimpleInWindow(d, fromDate, toDate)
  {
    if MultidayInWindow(dateFrom, dateTo, fromDate, toDate) {
      var d := if dateFrom < fromDate - Margin then fromDate - Margin else dateFrom;
      assert dateFrom <= d <= dateTo && SimpleInWindow(d, fromDate, toDate);
    }
  }

  /** A one-day event is queried by both windows alike. */
  lemma SingleDayWindows(date: int, fromDate: int, toDate: int)
    ensures SimpleInWindow(date, fromDate, toDate) <==> MultidayInWindow(date, date, fromDate, toDate)
  {
  }

  /**
   * An event page as `byDay` sees it: its dates as stored (for a simple
   * event both are `date`), and its start and end dates in local time.
   */
  datatype Occurrence = Occurrence(ev: ThisEvent, dateFrom: int, dateTo: int,
                                   localFrom: int, localTo: int)

  /** The query of simple events (`multiday` false) or of multiday events. */
  predicate Queried(multiday: bool, o: Occurrence, fromDate: int, toDate: int) {
    if multiday then MultidayInWindow(o.dateFrom, o.dateTo, fromDate, toDate)
    else SimpleInWindow(o.dateFrom, fromDate, toDate)
  }

  function Query(multiday: bool, occs: seq<Occurrence>, fromDate: int, toDate: int): (r: seq<Occurrence>)
    ensures forall o :: o in r <==> o in occs && Queried(multiday, o, fromDate, toDate)
  {
    if occs == [] then []
    else
      (if Queried(multiday, occs[0], fromDate, toDate) then [occs[0]] else []) +
      Query(multiday, occs[1..], fromDate, toDate)
  }

  /** Every event added to the list at its local dates, in order. */
  function AddAll(l: ByDayList, occs: seq<Occurrence>): (r: ByDayList)
    requires WellFormed(l)
    ensures WellFormed(r) && r.fromOrd == l.fromOrd && r.toOrd == l.toOrd
    decreases |occs|
  {
    if occs == [] then l
    else AddAll(Add(l, occs[0].ev, occs[0].localFrom, occs[0].localTo), occs[1..])
  }

  /** `byDay(fromDate, toDate)`: the queried events bucketed into the range's days. */
  function ByDay(multiday: bool, fromDate: int, toDate: int, holidays: map<int, string>,
                 occs: seq<Occurrence>): (r: ByDayList)
    requires IsValidOrdinal(fromDate) && IsValidOrdinal(toDate)
    ensures WellFormed(r) && r.fromOrd == fromDate && r.toOrd == toDate
  {
    AddAll(NewByDayList(fromDate, toDate, holidays), Query(multiday, occs, fromDate, toDate))
  }

  /**
   * Local time moves a date by at most the margin, and the event does not
   * end before it starts.
   */
  predicate NearLocal(o: Occurrence) {
    o.dateFrom <= o.dateTo &&
    o.dateFrom - Margin <= o.localFrom <= o.dateFrom + Margin &&
    o.dateTo - Margin <= o.localTo <= o.dateTo + Margin
  }

  /** An event the query leaves out would not have been put on any day of the range. */
  lemma {:induction false} QueryLosesNothing(multiday: bool, l: ByDayList, occs: seq<Occurrence>)
    requires WellFormed(l)
    requires forall i :: 0 <= i < |occs| ==> NearLocal(occs[i])
    requires !multiday ==> forall i :: 0 <= i < |occs| ==> occs[i].dateFrom == occs[i].dateTo
    ensures AddAll(l, Query(multiday, occs, l.fromOrd, l.toOrd)) == AddAll(l, occs)
    decreases |occs|
  {
    if occs != [] {
      var o := occs[0];
      assert forall i :: 0 <= i < |occs[1..]| ==> occs[1..][i] == occs[i + 1];
      var l' := Add(l, o.ev, o.localFrom, o.localTo);
      QueryLosesNothing(multiday, l', occs[1..]);
      var rest := Query(multiday, occs[1..], l.fromOrd, l.toOrd);
      if Queried(multiday, o, l.fromOrd, l.toOrd) {
        assert Query(multiday, occs, l.fromOrd, l.toOrd) == [o] + rest;
        assert ([o] + rest)[1..] == rest;
      } else {
        AddOutside(l, o.ev, o.localFrom, o.localTo);
        QueryLosesNothing(multiday, l, occs[1..]);
        assert Query(multiday, occs, l.fromOrd, l.toOrd) == rest;
      }
    }
  }

  /** So `byDay` buckets exactly as if every event had been added. */
  lemma ByDayAllEvents(multiday: bool, fromDate: int, toDate: int, holidays: map<int, string>,
                       occs: seq<Occurrence>)
    requires IsValidOrdinal(fromDate) && IsValidOrdinal(toDate)
    requires forall i :: 0 <= i < |occs| ==> NearLocal(occs[i])
    requires !multiday ==> forall i :: 0 <= i < |occs| ==> occs[i].dateFrom == occs[i].dateTo
    ensures ByDay(multiday, fromDate, toDate, holidays, occs) ==
      AddAll(NewByDayList(fromDate, toDate, holidays), occs)
  {
    QueryLosesNothing(multiday, NewByDayList(fromDate, toDate, holidays), occs);
  }
}

=== FILE: recurrence.dfy ===
/**
 * Recurrence rules as the calendar stores them: the fields of a dateutil
 * `rrule` and their text form, the RRULE value of section 3.3.10 of
 * RFC 5545 preceded by a DTSTART line.  Expanding a rule into its
 * occurrences is dateutil's work and is not part of this model.
 */
module Recurrence {
  import opened Wrappers
  import opened Text
  import opened Dates

  // ---------------------------------------------------------------------
  // Weekdays

  /** The two-letter code of weekday `i`, Monday = 0. */
  function Code(i: int): (r: string)
    requires 0 <= i < 7
    ensures |r| == 2 && r[0] in "MTWFS" && r[1] in "OUEHRA"
  {
    if i == 0 then "MO" else if i == 1 then "TU" else if i == 2 then "WE"
    else if i == 3 then "TH" else if i == 4 then "FR" else if i == 5 then "SA" else "SU"
  }

  /** The weekday a two-letter code names, or -1. */
  function CodeIndex(c: string): (r: int)
    ensures -1 <= r < 7
  {
    if c == "MO" then 0 else if c == "TU" then 1 else if c == "WE" then 2
    else if c == "TH" then 3 else if c == "FR" then 4 else if c == "SA" then 5
    else if c == "SU" then 6 else -1
  }

  lemma CodeIndexOf(i: int)
    requires 0 <= i < 7
    ensures CodeIndex(Code(i)) == i
  {
  }

  /**
   * A weekday of a rule: `weekday` counts from Monday = 0 and `n` picks
   * one occurrence in the period (1 the first, -1 the last).  Python's
   * `None` and 0 are both "every such weekday" and both are 0 here.
   */
  datatype Weekday = Weekday(weekday: int, n: int)

  predicate ValidWeekday(w: Weekday) {
    0 <= w.weekday < 7
  }

  /** `Weekday.__repr__`: the code, preceded by the signed position when there is one. */
  function WeekdayRepr(w: Weekday): (r: string)
    requires ValidWeekday(w)
    ensures |r| >= 2 && r[|r| - 2..] == Code(w.weekday)
    ensures w.n == 0 <==> |r| == 2
    ensures w.n != 0 ==> r[..|r| - 2] == SignedToString(w.n)
  {
    if w.n == 0 then Code(w.weekday)
    else
      var s := SignedToString(w.n) + Code(w.weekday);
      assert s[..|s| - 2] == SignedToString(w.n);
      s
  }

  /** Reads a weekday code such as `MO`, `+2TU` or `-1FR`. */
  function ParseWeekday(s: string): (r: Option<Weekday>)
    ensures r.Some? ==> ValidWeekday(r.value)
  {
    if |s| < 2 then None
    else
      var i := CodeIndex(s[|s| - 2..]);
      var p := s[..|s| - 2];
      if i < 0 then None
      else if p == [] then Some(Weekday(i, 0))
      else if |p| >= 2 && (p[0] == '+' || p[0] == '-') && AllDigits(p[1..]) then
        var v := ParseNat(p[1..]);
        Some(Weekday(i, if p[0] == '-' then -(v as int) else v))
      else None
  }

  /** Every weekday code reads back as the weekday it was written from. */
  lemma WeekdayReprRoundTrip(w: Weekday)
    requires ValidWeekday(w)
    ensures ParseWeekday(WeekdayRepr(w)) == Some(w)
  {
    var s := WeekdayRepr(w);
    CodeIndexOf(w.weekday);
    if w.n != 0 {
      SignedReadsBack(w.n, s[..|s| - 2]);
    }
  }

  /** The signed position in front of a weekday code reads back as the position. */
  lemma SignedReadsBack(n: int, p: string)
    requires n != 0 && p == SignedToString(n)
    ensures |p| >= 2 && (p[0] == '+' || p[0] == '-') && AllDigits(p[1..])
    ensures (if p[0] == '-' then -(ParseNat(p[1..]) as int) else ParseNat(p[1..])) == n
  {
    if n > 0 {
      NatReadsBack(p[1..], n);
    } else {
      NatReadsBack(p[1..], -n);
    }
  }

  lemma NatReadsBack(q: string, n: nat)
    requires q == NatToString(n)
    ensures AllDigits(q) && ParseNat(q) == n
  {
    ParseNatToString(n);
  }

  lemma WeekdayReprInjective(a: Weekday, b: Weekday)
    requires ValidWeekday(a) && ValidWeekday(b) && WeekdayRepr(a) == WeekdayRepr(b)
    ensures a == b
  {
    WeekdayReprRoundTrip(a);
    WeekdayReprRoundTrip(b);
  }

  // ---------------------------------------------------------------------
  // Frequencies

  /** dateutil's frequency numbers. */
  const Yearly := 0
  const Monthly := 1
  const Weekly := 2
  const Daily := 3

  const UnsupportedPrefix := "unsupported_frequency_"

  /** `Recurrence.frequency`: the names of the four supported frequencies, a marker otherwise. */
  function Frequency(freq: nat): (r: string)
    ensures freq == Yearly ==> r == "YEARLY"
    ensures freq == Monthly ==> r == "MONTHLY"
    ensures freq == Weekly ==> r == "WEEKLY"
    ensures freq == Daily ==> r == "DAILY"
    ensures freq >= 4 ==> r == UnsupportedPrefix + NatToString(freq)
  {
    if freq == 0 then "YEARLY" else if freq == 1 then "MONTHLY"
    else if freq == 2 then "WEEKLY" else if freq == 3 then "DAILY"
    else UnsupportedPrefix + NatToString(freq)
  }

  /** The frequency a name stands for. */
  function ParseFrequency(s: string): (r: Option<nat>) {
    if s == "YEARLY" then Some(Yearly) else if s == "MONTHLY" then Some(Monthly)
    else if s == "WEEKLY" then Some(Weekly) else if s == "DAILY" then Some(Daily)
    else if |s| > |UnsupportedPrefix| && s[..|UnsupportedPrefix|] == UnsupportedPrefix
         && AllDigits(s[|UnsupportedPrefix|..]) then
      Some(ParseNat(s[|UnsupportedPrefix|..]))
    else None
  }

  /** Different frequencies get different names: the name reads back. */
  lemma FrequencyRoundTrip(freq: nat)
    ensures ParseFrequency(Frequency(freq)) == Some(freq)
  {
    if freq >= 4 {
      var s := Frequency(freq);
      assert s[..|UnsupportedPrefix|] == UnsupportedPrefix;
      assert s[|UnsupportedPrefix|..] == NatToString(freq);
      ParseNatToString(freq);
    }
  }

  // ---------------------------------------------------------------------
  // Rules

  /**
   * The fields of a dateutil rule that `Recurrence` reads.  dateutil keeps
   * plain weekdays and month days apart from the positioned ones
   * (`_byweekday`/`_bynweekday`, `_bymonthday`/`_bynmonthday`); an empty
   * sequence stands for a missing (None) tuple.  `dtstart` and `until` are
   * the dates of the rule's datetimes.
   */
  datatype Rule = Rule(
    freq: nat, interval: nat, count: Option<nat>,
    byweekno: seq<int>, byyearday: seq<int>, byeaster: seq<int>, bysetpos: seq<int>,
    dtstart: Date, until: Option<Date>, wkst: int,
    plainWeekdays: seq<int>, nthWeekdays: seq<(int, int)>,
    plainMonthdays: seq<int>, nthMonthdays: seq<int>, bymonth: seq<int>)

  /** What dateutil guarantees of a rule it has built. */
  predicate ValidRule(r: Rule) {
    && IsValid(r.dtstart)
    && (r.until.Some? ==> IsValid(r.until.value))
    && 0 <= r.wkst < 7
    && (forall i :: 0 <= i < |r.plainWeekdays| ==> 0 <= r.plainWeekdays[i] < 7)
    && (forall i :: 0 <= i < |r.nthWeekdays| ==> 0 <= r.nthWeekdays[i].0 < 7)
    && (forall i :: 0 <= i < |r.bymonth| ==> 1 <= r.bymonth[i] <= 12)
  }

  /** `Recurrence.byweekday`: the plain weekdays, then the positioned ones. */
  function ByWeekday(r: Rule): (ws: seq<Weekday>)
    requires ValidRule(r)
    ensures |ws| == |r.plainWeekdays| + |r.nthWeekdays|
    ensures forall i :: 0 <= i < |r.plainWeekdays| ==> ws[i] == Weekday(r.plainWeekdays[i], 0)
    ensures forall i :: 0 <= i < |r.nthWeekdays| ==>
      ws[|r.plainWeekdays| + i] == Weekday(r.nthWeekdays[i].0, r.nthWeekdays[i].1)
    ensures forall i :: 0 <= i < |ws| ==> ValidWeekday(ws[i])
  {
    seq(|r.plainWeekdays|, i requires 0 <= i < |r.plainWeekdays| => Weekday(r.plainWeekdays[i], 0))
    + seq(|r.nthWeekdays|, i requires 0 <= i < |r.nthWeekdays| =>
          Weekday(r.nthWeekdays[i].0, r.nthWeekdays[i].1))
  }

  /** `Recurrence.bymonthday`: the plain month days, then the counted-from-the-end ones. */
  function ByMonthday(r: Rule): (ds: seq<int>)
    ensures |ds| == |r.plainMonthdays| + |r.nthMonthdays|
    ensures ds[..|r.plainMonthdays|] == r.plainMonthdays && ds[|r.plainMonthdays|..] == r.nthMonthdays
  {
    r.plainMonthdays + r.nthMonthdays
  }

  /** `Recurrence.__eq__`: every stored field agrees, the datetimes compared by date. */
  function Eq(a: Rule, b: Rule): (r: bool)
    ensures r <==> a == b
  {
    && a.freq == b.freq && a.interval == b.interval && a.count == b.count
    && a.byweekno == b.byweekno && a.byyearday == b.byyearday
    && a.byeaster == b.byeaster && a.bysetpos == b.bysetpos
    && a.dtstart == b.dtstart && a.until == b.until && a.wkst == b.wkst
    && a.plainWeekdays == b.plainWeekdays && a.nthWeekdays == b.nthWeekdays
    && a.plainMonthdays == b.plainMonthdays && a.nthMonthdays == b.nthMonthdays
    && a.bymonth == b.bymonth
  }

  // ---------------------------------------------------------------------
  // The RRULE text

  /** `{:%Y%m%d}` of a date. */
  function Ymd(d: Date): (s: string)
    requires IsValid(d)
    ensures |s| == 8 && AllDigits(s)
    ensures AllDigits(s[..4]) && AllDigits(s[4..6]) && AllDigits(s[6..])
  {
    NatToStringAtMost(d.year, 4);
    NatToStringAtMost(d.month, 2);
    NatToStringAtMost(d.day, 2);
    ZeroPad(d.year, 4) + ZeroPad(d.month, 2) + ZeroPad(d.day, 2)
  }

  /** The eight digits name the date again. */
  lemma YmdReadsBack(d: Date)
    requires IsValid(d)
    ensures Date(ParseNat(Ymd(d)[..4]), ParseNat(Ymd(d)[4..6]), ParseNat(Ymd(d)[6..])) == d
  {
    var s := Ymd(d);
    NatToStringAtMost(d.year, 4);
    NatToStringAtMost(d.month, 2);
    NatToStringAtMost(d.day, 2);
    assert s[..4] == ZeroPad(d.year, 4);
    assert s[4..6] == ZeroPad(d.month, 2);
    assert s[6..] == ZeroPad(d.day, 2);
    ParseZeroPad(d.year, 4);
    ParseZeroPad(d.month, 2);
    ParseZeroPad(d.day, 2);
  }

  /** The `untilDt` argument: a datetime to the second, with its UTC offset in seconds. */
  datatype UntilDatetime = UntilDatetime(day: Date, hour: int, minute: int, second: int, utcOffset: int)

  predicate ValidUntil(u: UntilDatetime) {
    IsValid(u.day) && 0 <= u.hour < 24 && 0 <= u.minute < 60 && 0 <= u.second < 60
  }

  /** `{:%Y%m%dT%H%M%SZ}`. */
  function UtcStamp(u: UntilDatetime): (s: string)
    requires ValidUntil(u)
    ensures |s| == 16 && s[..8] == Ymd(u.day) && s[8] == 'T' && s[15] == 'Z'
    ensures AllDigits(s[9..15])
  {
    NatToStringAtMost(u.hour, 2);
    NatToStringAtMost(u.minute, 2);
    NatToStringAtMost(u.second, 2);
    var hms := ZeroPad(u.hour, 2) + ZeroPad(u.minute, 2) + ZeroPad(u.second, 2);
    var s := Ymd(u.day) + "T" + hms + "Z";
    assert s[..8] == Ymd(u.day) && s[9..15] == hms;
    s
  }

  /** One `NAME=value` part of an RRULE. */
  datatype Part = Part(name: string, value: string)

  function PartText(p: Part): string {
    p.name + "=" + p.value
  }

  /** The part names, in the order `_getRrule` considers them. */
  const PartNames: seq<string> :=
    ["FREQ", "INTERVAL", "WKST", "COUNT", "UNTIL",
     "BYSETPOS", "BYDAY", "BYMONTH", "BYMONTHDAY", "BYYEARDAY", "BYWEEKNO"]

  /** A `BY…` part: present only when it has values, which are joined with commas. */
  function ByPart(name: string, values: seq<string>): (r: Option<Part>)
    ensures r.Some? <==> values != []
    ensures r.Some? ==> r.value == Part(name, Join(values, ","))
  {
    if values == [] then None else Some(Part(name, Join(values, ",")))
  }

  /** `repr` of each integer. */
  function IntReprs(xs: seq<int>): (r: seq<string>)
    ensures |r| == |xs| && forall i :: 0 <= i < |xs| ==> r[i] == IntToString(xs[i])
  {
    seq(|xs|, i requires 0 <= i < |xs| => IntToString(xs[i]))
  }

  /** `repr` of each weekday. */
  function WeekdayReprs(ws: seq<Weekday>): (r: seq<string>)
    requires forall i :: 0 <= i < |ws| ==> ValidWeekday(ws[i])
    ensures |r| == |ws| && forall i :: 0 <= i < |ws| ==> r[i] == WeekdayRepr(ws[i])
  {
    seq(|ws|, i requires 0 <= i < |ws| => WeekdayRepr(ws[i]))
  }

  function FreqPart(r: Rule): (p: Option<Part>)
    ensures p == Some(Part(PartNames[0], Frequency(r.freq)))
  {
    Some(Part(PartNames[0], Frequency(r.freq)))
  }

  /** INTERVAL is written unless the interval is 0 or 1. */
  function IntervalPart(r: Rule): (p: Option<Part>)
    ensures p.Some? <==> r.interval != 0 && r.interval != 1
    ensures p.Some? ==> p.value == Part(PartNames[1], NatToString(r.interval))
  {
    if r.interval != 0 && r.interval != 1 then Some(Part(PartNames[1], NatToString(r.interval))) else None
  }

  /** WKST is always written: a weekday object is never false. */
  function WkstPart(r: Rule): (p: Option<Part>)
    requires 0 <= r.wkst < 7
    ensures p == Some(Part(PartNames[2], Code(r.wkst)))
  {
    Some(Part(PartNames[2], WeekdayRepr(Weekday(r.wkst, 0))))
  }

  /** COUNT is written unless it is missing or 0. */
  function CountPart(r: Rule): (p: Option<Part>)
    ensures p.Some? <==> r.count.Some? && r.count.value != 0
    ensures p.Some? ==> p.value == Part(PartNames[3], NatToString(r.count.value))
  {
    if r.count.Some? && r.count.value != 0 then Some(Part(PartNames[3], NatToString(r.count.value))) else None
  }

  /** UNTIL comes from `untilDt` if given, and otherwise from the rule's until date. */
  function UntilPart(r: Rule, untilDt: Option<UntilDatetime>): (p: Option<Part>)
    requires ValidRule(r) && (untilDt.Some? ==> ValidUntil(untilDt.value))
    ensures p.Some? <==> untilDt.Some? || r.until.Some?
    ensures untilDt.Some? ==> p == Some(Part(PartNames[4], UtcStamp(untilDt.value)))
    ensures untilDt.None? && r.until.Some? ==> p == Some(Part(PartNames[4], Ymd(r.until.value)))
  {
    if untilDt.Some? then Some(Part(PartNames[4], UtcStamp(untilDt.value)))
    else if r.until.Some? then Some(Part(PartNames[4], Ymd(r.until.value)))
    else None
  }

  /**
   * The part `_getRrule` may write at position `k` of its fixed order, or
   * None where it writes nothing; the `BY…` parts appear when they have
   * values.
   */
  function CandidateAt(r: Rule, untilDt: Option<UntilDatetime>, k: int): (p: Option<Part>)
    requires ValidRule(r) && (untilDt.Some? ==> ValidUntil(untilDt.value))
    requires 0 <= k < |PartNames|
    ensures p.Some? ==> p.value.name == PartNames[k]
  {
    if k == 0 then FreqPart(r)
    else if k == 1 then IntervalPart(r)
    else if k == 2 then WkstPart(r)
    else if k == 3 then CountPart(r)
    else if k == 4 then UntilPart(r, untilDt)
    else if k == 5 then ByPart(PartNames[5], IntReprs(r.bysetpos))
    else if k == 6 then ByPart(PartNames[6], WeekdayReprs(ByWeekday(r)))
    else if k == 7 then ByPart(PartNames[7], IntReprs(r.bymonth))
    else if k == 8 then ByPart(PartNames[8], IntReprs(ByMonthday(r)))
    else if k == 9 then ByPart(PartNames[9], IntReprs(r.byyearday))
    else ByPart(PartNames[10], IntReprs(r.byweekno))
  }

  /** All eleven candidates, in order. */
  function Candidates(r: Rule, untilDt: Option<UntilDatetime>): (c: seq<Option<Part>>)
    requires ValidRule(r) && (untilDt.Some? ==> ValidUntil(untilDt.value))
    ensures |c| == |PartNames|
    ensures forall k :: 0 <= k < |PartNames| ==> c[k] == CandidateAt(r, untilDt, k)
  {
    seq(|PartNames|, k requires 0 <= k < |PartNames| => CandidateAt(r, untilDt, k))
  }

  /** The present candidates, in order. */
  function Somes(c: seq<Option<Part>>): (ps: seq<Part>)
    ensures |ps| <= |c|
    ensures c != [] && c[0].Some? ==> ps != [] && ps[0] == c[0].value
  {
    if c == [] then []
    else if c[0].Some? then [c[0].value] + Somes(c[1..])
    else Somes(c[1..])
  }

  function PartTexts(ps: seq<Part>): (ts: seq<string>)
    ensures |ts| == |ps| && forall i :: 0 <= i < |ps| ==> ts[i] == PartText(ps[i])
  {
    seq(|ps|, i requires 0 <= i < |ps| => PartText(ps[i]))
  }

  /** The RRULE value of a rule that is not given an until datetime. */
  function RruleText(r: Rule): string
    requires ValidRule(r)
  {
    Join(PartTexts(Somes(Candidates(r, None))), ";")
  }

  /**
   * `_getRrule(untilDt)`: a TypeError for an until datetime that is not in
   * UTC; otherwise the present parts joined with semicolons.
   */
  function GetRrule(r: Rule, untilDt: Option<UntilDatetime>): (res: Result<string>)
    requires ValidRule(r) && (untilDt.Some? ==> ValidUntil(untilDt.value))
    ensures res.Failure? <==> untilDt.Some? && untilDt.value.utcOffset != 0
    ensures untilDt.None? ==> res == Success(RruleText(r))
  {
    if untilDt.Some? && untilDt.value.utcOffset != 0 then Failure("untilDt must be a UTC datetime")
    else Success(Join(PartTexts(Somes(Candidates(r, untilDt))), ";"))
  }

  lemma Layout(a: string, b: string, c: string, d: string)
    requires |a| == 8 && |b| == 8 && |c| == 7
    ensures var s := a + b + c + d;
      |s| >= 23 && s[..8] == a && s[8..16] == b && s[16..23] == c && s[23..] == d
  {
  }

  /** `Recurrence.__repr__`: the DTSTART line, then the RRULE. */
  function Repr(r: Rule): (s: string)
    requires ValidRule(r)
    ensures |s| >= 23 && s[..8] == "DTSTART:" && s[16..23] == "\nRRULE:"
    ensures s[8..16] == Ymd(r.dtstart) && s[23..] == RruleText(r)
  {
    Layout("DTSTART:", Ymd(r.dtstart), "\nRRULE:", RruleText(r));
    "DTSTART:" + Ymd(r.dtstart) + "\nRRULE:" + RruleText(r)
  }

  /** The DTSTART line of a rule's text names its start date. */
  lemma ReprStartReadsBack(r: Rule)
    requires ValidRule(r)
    ensures var s := Repr(r)[8..16];
      Date(ParseNat(s[..4]), ParseNat(s[4..6]), ParseNat(s[6..])) == r.dtstart
  {
    YmdReadsBack(r.dtstart);
  }

  /** Rules that compare equal have the same text. */
  lemma EqSameText(a: Rule, b: Rule)
    requires ValidRule(a) && ValidRule(b) && Eq(a, b)
    ensures Repr(a) == Repr(b)
  {
  }

  /** The text is coarser than equality: the Easter offset is compared but never written. */
  lemma EasterNotWritten(a: Rule)
    requires ValidRule(a)
    ensures var b := a.(byeaster := a.byeaster + [0]);
      ValidRule(b) && Repr(a) == Repr(b) && !Eq(a, b)
  {
    var b := a.(byeaster := a.byeaster + [0]);
    assert |b.byeaster| != |a.byeaster|;
    assert Candidates(a, None) == Candidates(b, None);
  }

  // ---------------------------------------------------------------------
  // Reading an RRULE back

  /** Splits `NAME=value` at its first `=`. */
  function ParsePart(t: string): (p: Part)
    decreases |t|
  {
    if t == [] then Part("", "")
    else if t[0] == '=' then Part("", t[1..])
    else
      var rest := ParsePart(t[1..]);
      Part([t[0]] + rest.name, rest.value)
  }

  lemma {:induction false} ParsePartText(p: Part)
    requires '=' !in p.name
    ensures ParsePart(PartText(p)) == p
    decreases |p.name|
  {
    if p.name != [] {
      var q := Part(p.name[1..], p.value);
      assert PartText(p)[1..] == PartText(q);
      ParsePartText(q);
      assert [p.name[0]] + p.name[1..] == p.name;
    }
  }

  /** Reads an RRULE value into its parts. */
  function ReadRrule(s: string): (ps: seq<Part>) {
    var texts := Split(s, ";");
    seq(|texts|, i requires 0 <= i < |texts| => ParsePart(texts[i]))
  }

  /** The value of the first part with the given name. */
  function Lookup(ps: seq<Part>, name: string): (v: Option<string>)
    ensures v.Some? ==> exists i :: 0 <= i < |ps| && ps[i] == Part(name, v.value)
    ensures v.None? ==> forall i :: 0 <= i < |ps| ==> ps[i].name != name
  {
    if ps == [] then None
    else if ps[0].name == name then Some(ps[0].value)
    else
      var v := Lookup(ps[1..], name);
      assert forall i :: 1 <= i < |ps| ==> ps[i] == ps[1..][i - 1];
      v
  }

  function ValueOf(p: Option<Part>): Option<string> {
    if p.Some? then Some(p.value.value) else None
  }

  /** With distinct names, looking a name up finds the candidate that carries it. */
  lemma {:induction false} LookupSomes(c: seq<Option<Part>>, names: seq<string>, k: int)
    requires |c| == |names| && NoDuplicates(names) && 0 <= k < |c|
    requires forall j :: 0 <= j < |c| && c[j].Some? ==> c[j].value.name == names[j]
    ensures Lookup(Somes(c), names[k]) == ValueOf(c[k])
    decreases |c|
  {
    if k > 0 {
      assert names[k] != names[0];
      assert names[1..][k - 1] == names[k];
      LookupSomes(c[1..], names[1..], k - 1);
    } else if c[0].None? {
      assert forall j :: 1 <= j < |c| && c[j].Some? ==> c[j].value.name != names[0];
      SomesNames(c[1..], names[0]);
    }
  }

  /** A name no present candidate carries is not among the parts. */
  lemma {:induction false} SomesNames(c: seq<Option<Part>>, name: string)
    requires forall j :: 0 <= j < |c| && c[j].Some? ==> c[j].value.name != name
    ensures Lookup(Somes(c), name) == None
    decreases |c|
  {
    if c != [] {
      SomesNames(c[1..], name);
    }
  }

  /** `xs` can be had from `ys` by leaving elements out. */
  predicate IsSubsequence(xs: seq<string>, ys: seq<string>)
    decreases |ys|
  {
    if xs == [] then true
    else if ys == [] then false
    else (xs[0] == ys[0] && IsSubsequence(xs[1..], ys[1..])) || IsSubsequence(xs, ys[1..])
  }

  function NamesOf(ps: seq<Part>): (ns: seq<string>)
    ensures |ns| == |ps| && forall i :: 0 <= i < |ps| ==> ns[i] == ps[i].name
  {
    seq(|ps|, i requires 0 <= i < |ps| => ps[i].name)
  }

  /** The present candidates keep the order of the names. */
  lemma {:induction false} SomesInOrder(c: seq<Option<Part>>, names: seq<string>)
    requires |c| == |names|
    requires forall j :: 0 <= j < |c| && c[j].Some? ==> c[j].value.name == names[j]
    ensures IsSubsequence(NamesOf(Somes(c)), names)
    decreases |c|
  {
    if c != [] {
      SomesInOrder(c[1..], names[1..]);
      var rest := NamesOf(Somes(c[1..]));
      if c[0].Some? {
        assert NamesOf(Somes(c)) == [names[0]] + rest;
        assert ([names[0]] + rest)[1..] == rest;
      } else {
        assert NamesOf(Somes(c)) == rest;
      }
    }
  }

  lemma PartNamesDistinct()
    ensures NoDuplicates(PartNames)
    ensures forall k :: 0 <= k < |PartNames| ==> '=' !in PartNames[k] && ';' !in PartNames[k]
  {
  }


  /** No piece of an RRULE value contains a semicolon. */
  lemma DigitsFree(s: string)
    requires AllDigits(s)
    ensures ';' !in s
  {
    forall i | 0 <= i < |s| ensures s[i] != ';' {
      assert IsDigit(s[i]);
    }
  }

  lemma IntFree(x: int)
    ensures ';' !in IntToString(x)
  {
    DigitsFree(NatToString(if x < 0 then -x else x));
  }

  lemma WeekdayFree(w: Weekday)
    requires ValidWeekday(w)
    ensures ';' !in WeekdayRepr(w)
  {
    var code := Code(w.weekday);
    assert ';' !in code by {
      assert code[0] != ';' && code[1] != ';';
    }
    if w.n != 0 {
      var sign := SignedToString(w.n);
      DigitsFree(NatToString(if w.n < 0 then -w.n else w.n));
      assert sign == [sign[0]] + NatToString(if w.n < 0 then -w.n else w.n);
      assert WeekdayRepr(w) == sign + code;
    }
  }

  lemma {:induction false} JoinFree(parts: seq<string>, sep: string)
    requires ';' !in sep && forall i :: 0 <= i < |parts| ==> ';' !in parts[i]
    ensures ';' !in Join(parts, sep)
  {
    if |parts| >= 2 {
      JoinFree(parts[1..], sep);
    }
  }

  lemma FrequencyFree(freq: nat)
    ensures ';' !in Frequency(freq)
  {
    if freq >= 4 {
      DigitsFree(NatToString(freq));
    }
  }

  lemma IntsFree(xs: seq<int>)
    ensures ';' !in Join(IntReprs(xs), ",")
  {
    forall i | 0 <= i < |xs| ensures ';' !in IntReprs(xs)[i] {
      IntFree(xs[i]);
    }
    JoinFree(IntReprs(xs), ",");
  }

  lemma WeekdaysFree(ws: seq<Weekday>)
    requires forall i :: 0 <= i < |ws| ==> ValidWeekday(ws[i])
    ensures ';' !in Join(WeekdayReprs(ws), ",")
  {
    forall i | 0 <= i < |ws| ensures ';' !in WeekdayReprs(ws)[i] {
      WeekdayFree(ws[i]);
    }
    JoinFree(WeekdayReprs(ws), ",");
  }

  /** A part, if present, whose text has no semicolon. */
  predicate FreePart(p: Option<Part>) {
    p.Some? ==> ';' !in p.value.name && ';' !in p.value.value
  }

  lemma UntilFree(r: Rule, untilDt: Option<UntilDatetime>)
    requires ValidRule(r) && (untilDt.Some? ==> ValidUntil(untilDt.value))
    ensures FreePart(UntilPart(r, untilDt))
  {
    PartNamesDistinct();
    if untilDt.Some? {
      var s := UtcStamp(untilDt.value);
      DigitsFree(s[..8]);
      DigitsFree(s[9..15]);
      assert s == s[..8] + "T" + s[9..15] + "Z";
    } else if r.until.Some? {
      DigitsFree(Ymd(r.until.value));
    }
  }

  /** The candidates' values, one by one. */
  lemma ScalarsFree(r: Rule)
    requires ValidRule(r)
    ensures FreePart(FreqPart(r)) && FreePart(IntervalPart(r))
    ensures FreePart(WkstPart(r)) && FreePart(CountPart(r))
  {
    PartNamesDistinct();
    FrequencyFree(r.freq);
    DigitsFree(NatToString(r.interval));
    WeekdayFree(Weekday(r.wkst, 0));
    if r.count.Some? {
      DigitsFree(NatToString(r.count.value));
    }
  }

  /** A `BY…` part of a semicolon-free name and values is free of semicolons. */
  lemma ByPartFree(name: string, values: seq<string>)
    requires ';' !in name && ';' !in Join(values, ",")
    ensures FreePart(ByPart(name, values))
  {
  }

  lemma CandidateFree(r: Rule, untilDt: Option<UntilDatetime>, k: int)
    requires ValidRule(r) && (untilDt.Some? ==> ValidUntil(untilDt.value))
    requires 0 <= k < |PartNames|
    ensures FreePart(CandidateAt(r, untilDt, k))
  {
    var p := CandidateAt(r, untilDt, k);
    if k == 0 {
      ScalarsFree(r);
      assert p == FreqPart(r);
    } else if k == 1 {
      ScalarsFree(r);
      assert p == IntervalPart(r);
    } else if k == 2 {
      ScalarsFree(r);
      assert p == WkstPart(r);
    } else if k == 3 {
      ScalarsFree(r);
      assert p == CountPart(r);
    } else if k == 4 {
      UntilFree(r, untilDt);
      assert p == UntilPart(r, untilDt);
    } else {
      ByCandidateFree(r, untilDt, k);
    }
  }

  lemma ByCandidateFree(r: Rule, untilDt: Option<UntilDatetime>, k: int)
    requires ValidRule(r) && (untilDt.Some? ==> ValidUntil(untilDt.value))
    requires 5 <= k < |PartNames|
    ensures FreePart(CandidateAt(r, untilDt, k))
  {
    if k == 5 {
      IntsFree(r.bysetpos);
      ByPartFree(PartNames[5], IntReprs(r.bysetpos));
    } else if k == 6 {
      WeekdaysFree(ByWeekday(r));
      ByPartFree(PartNames[6], WeekdayReprs(ByWeekday(r)));
    } else if k == 7 {
      IntsFree(r.bymonth);
      ByPartFree(PartNames[7], IntReprs(r.bymonth));
    } else if k == 8 {
      IntsFree(ByMonthday(r));
      ByPartFree(PartNames[8], IntReprs(ByMonthday(r)));
    } else if k == 9 {
      IntsFree(r.byyearday);
      ByPartFree(PartNames[9], IntReprs(r.byyearday));
    } else {
      IntsFree(r.byweekno);
      ByPartFree(PartNames[10], IntReprs(r.byweekno));
    }
  }

  /** Every candidate part's name and value are free of semicolons. */
  lemma CandidatesFree(r: Rule, untilDt: Option<UntilDatetime>)
    requires ValidRule(r) && (untilDt.Some? ==> ValidUntil(untilDt.value))
    ensures forall k :: 0 <= k < |PartNames| ==> FreePart(Candidates(r, untilDt)[k])
  {
    forall k | 0 <= k < |PartNames| {
      CandidateFree(r, untilDt, k);
    }
  }

  /** The present candidates keep the properties of the names they carry. */
  lemma {:induction false} SomesFree(c: seq<Option<Part>>, names: seq<string>)
    requires |c| == |names|
    requires forall j :: 0 <= j < |c| && c[j].Some? ==> c[j].value.name == names[j]
    requires forall j :: 0 <= j < |names| ==> '=' !in names[j]
    requires forall k :: 0 <= k < |c| ==> FreePart(c[k])
    ensures forall i :: 0 <= i < |Somes(c)| ==>
      '=' !in Somes(c)[i].name && ';' !in PartText(Somes(c)[i])
    decreases |c|
  {
    if c != [] {
      SomesFree(c[1..], names[1..]);
    }
  }

  /**
   * Parts whose names have no `=` and whose texts have no semicolon read
   * back from their semicolon-joined text.
   */
  lemma ReadJoinedParts(ps: seq<Part>)
    requires |ps| >= 1
    requires forall i :: 0 <= i < |ps| ==> '=' !in ps[i].name && ';' !in PartText(ps[i])
    ensures ReadRrule(Join(PartTexts(ps), ";")) == ps
  {
    var ts := PartTexts(ps);
    SplitJoin(ts, ';');
    assert Split(Join(ts, ";"), ";") == ts;
    var read := ReadRrule(Join(ts, ";"));
    forall i | 0 <= i < |ps| ensures read[i] == ps[i] {
      ParsePartText(ps[i]);
    }
  }

  /**
   * An RRULE value reads back part by part: each of the eleven names finds
   * exactly the value its candidate carries (and nothing when it is absent),
   * and the names that are present keep the fixed order.
   */
  lemma RruleReadsBack(r: Rule, untilDt: Option<UntilDatetime>)
    requires ValidRule(r) && (untilDt.Some? ==> ValidUntil(untilDt.value))
    requires GetRrule(r, untilDt).Success?
    ensures var ps := ReadRrule(GetRrule(r, untilDt).value);
      && ps == Somes(Candidates(r, untilDt))
      && (forall k :: 0 <= k < |PartNames| ==>
            Lookup(ps, PartNames[k]) == ValueOf(Candidates(r, untilDt)[k]))
      && IsSubsequence(NamesOf(ps), PartNames)
      && ps[0] == Part(PartNames[0], Frequency(r.freq))
  {
    var c := Candidates(r, untilDt);
    var ps := Somes(c);
    PartNamesDistinct();
    CandidatesFree(r, untilDt);
    SomesFree(c, PartNames);
    ReadJoinedParts(ps);
    forall k | 0 <= k < |PartNames| ensures Lookup(ps, PartNames[k]) == ValueOf(c[k]) {
      LookupSomes(c, PartNames, k);
    }
    SomesInOrder(c, PartNames);
  }
}

=== FILE: recurrence_admin.dfy ===
/**
 * The recurrence editor in the admin: the state of one recurrence widget's
 * form controls, whether it shows the advanced options, clearing them,
 * the secondary weekday selects, the frequency panels and the exception
 * date chooser's calendar.  The DOM is a value: a page is the sequence of
 * its widgets, a calendar the sequence of its day cells.  What the
 * browser's `Date` makes of the start date (its weekday and month) is an
 * input.
 */
module RecurrenceAdmin {
  import opened Wrappers
  import opened Text
  import opened Dates
  import Recurrence

  // ---------------------------------------------------------------------
  // parseInt

  /** The digits at the start of `s`. */
  function DigitPrefix(s: string): (p: string)
    ensures AllDigits(p) && |p| <= |s| && p == s[..|p|]
    ensures |p| < |s| ==> !IsDigit(s[|p|])
  {
    if s == [] || !IsDigit(s[0]) then []
    else
      var rest := DigitPrefix(s[1..]);
      assert s[..1 + |rest|] == [s[0]] + s[1..][..|rest|];
      [s[0]] + rest
  }

  /**
   * `parseInt(s, 10)`: leading whitespace skipped, an optional sign, and
   * the digits that follow up to the first other character; None stands
   * for NaN.
   */
  function ParseInt(s: string): Option<int> {
    ParseTrimmed(TrimStart(s))
  }

  /** `parseInt` once the leading whitespace is gone. */
  function ParseTrimmed(t: string): (r: Option<int>)
    ensures r.None? <==> !((|t| >= 1 && IsDigit(t[0])) || (|t| >= 2 && (t[0] == '-' || t[0] == '+') && IsDigit(t[1])))
  {
    if |t| >= 1 && IsDigit(t[0]) then Some(ParseNat(DigitPrefix(t)))
    else if |t| >= 2 && (t[0] == '-' || t[0] == '+') && IsDigit(t[1]) then
      var v: int := ParseNat(DigitPrefix(t[1..]));
      Some(if t[0] == '-' then -v else v)
    else None
  }

  /** A number written out in full parses back. */
  lemma ParseIntOfString(n: nat)
    ensures ParseInt(NatToString(n)) == Some(n)
  {
    var s := NatToString(n);
    assert TrimStart(s) == s;
    assert DigitPrefix(s) == s by {
      DigitsAll(s);
    }
    ParseNatToString(n);
  }

  /** A run of digits reads as its value. */
  lemma ParseIntDigits(s: string)
    requires |s| >= 1 && AllDigits(s)
    ensures ParseInt(s) == Some(ParseNat(s))
  {
    assert TrimStart(s) == s;
    DigitsAll(s);
  }

  /** Whitespace in front changes nothing, and a sign is read as a sign. */
  lemma ParseIntSigned(p: string, n: nat)
    requires AllSpace(p)
    ensures ParseInt(p + NatToString(n)) == Some(n)
    ensures ParseInt(p + "+" + NatToString(n)) == Some(n)
    ensures ParseInt(p + "-" + NatToString(n)) == Some(-(n as int))
  {
    var d := NatToString(n);
    ParseIntOfString(n);
    TrimStartSpaces(p, d);
    TrimStartSpaces(p, "+" + d);
    TrimStartSpaces(p, "-" + d);
    assert p + "+" + d == p + ("+" + d) && p + "-" + d == p + ("-" + d);
    SignedTrimmed('+', d, n);
    SignedTrimmed('-', d, n);
  }

  lemma SignedTrimmed(c: char, d: string, n: nat)
    requires (c == '+' || c == '-') && d == NatToString(n)
    ensures TrimStart([c] + d) == [c] + d
    ensures ParseTrimmed([c] + d) == Some(if c == '-' then -(n as int) else n)
  {
    var t := [c] + d;
    assert t[1..] == d;
    DigitsAll(d);
    ParseNatToString(n);
  }

  lemma {:induction false} DigitsAll(s: string)
    requires AllDigits(s)
    ensures DigitPrefix(s) == s
  {
    if s != [] {
      DigitsAll(s[1..]);
    }
  }

  // ---------------------------------------------------------------------
  // A widget

  /**
   * One recurrence widget's controls: the interval input, the seven
   * weekday check boxes (box i has value i, Monday = 0), the twelve month
   * check boxes (box i has value i + 1), the primary ordinal and day
   * selects, the values of the secondary selects and whether they are
   * disabled.  `startWeekday` is `(dtstart.getDay() + 6) % 7` and
   * `startMonth` is `dtstart.getMonth() + 1` for the start date input; for
   * an empty or unparsable start date both are NaN, which any value
   * outside 0..6 (respectively 1..12) stands for here.
   */
  datatype Widget = Widget(
    interval: string, weekdays: seq<bool>, months: seq<bool>,
    ordChoice: string, dayChoice: string,
    secondary: seq<string>, secondaryDisabled: bool,
    startWeekday: int, startMonth: int)

  /** A widget has seven weekday boxes and twelve month boxes. */
  predicate ValidWidget(w: Widget) {
    |w.weekdays| == 7 && |w.months| == 12
  }

  /** The values of the ticked boxes, in page order: box i has value `i + base`. */
  function Ticked(boxes: seq<bool>, base: int): (vs: seq<int>)
    ensures |vs| <= |boxes|
    ensures forall v :: v in vs <==> base <= v < base + |boxes| && boxes[v - base]
    decreases |boxes|
  {
    if boxes == [] then []
    else
      var rest := Ticked(boxes[1..], base + 1);
      if boxes[0] then [base] + rest else rest
  }

  /** Exactly one box ticked: the values are that box's alone. */
  lemma {:induction false} TickedOne(boxes: seq<bool>, base: int, k: int)
    requires 0 <= k < |boxes| && forall i :: 0 <= i < |boxes| ==> (boxes[i] <==> i == k)
    ensures Ticked(boxes, base) == [base + k]
    decreases |boxes|
  {
    if k > 0 {
      TickedOne(boxes[1..], base + 1, k - 1);
    } else {
      TickedNone(boxes[1..], base + 1);
    }
  }

  lemma {:induction false} TickedNone(boxes: seq<bool>, base: int)
    requires forall i :: 0 <= i < |boxes| ==> !boxes[i]
    ensures Ticked(boxes, base) == []
    decreases |boxes|
  {
    if boxes != [] {
      TickedNone(boxes[1..], base + 1);
    }
  }

  /** `_hasAdvanced`'s checks of this widget's own controls, the secondary selects aside. */
  predicate OwnAdvanced(w: Widget) {
    var weekdays := Ticked(w.weekdays, 0);
    var months := Ticked(w.months, 1);
    || (w.interval != "" && ParseInt(w.interval).Some? && ParseInt(w.interval).value > 1)
    || |weekdays| > 1
    || (|weekdays| == 1 && weekdays[0] != w.startWeekday)
    || |months| > 1
    || (|months| == 1 && months[0] != w.startMonth)
    || ParseInt(w.ordChoice) != Some(101)
    || ParseInt(w.dayChoice) != Some(200)
  }

  /** Some secondary select has a value. */
  predicate SecondarySet(w: Widget) {
    exists i :: 0 <= i < |w.secondary| && w.secondary[i] != ""
  }

  /**
   * `_hasAdvanced` for the page's widget `k`, as written: the secondary
   * selects are looked up with the page-wide `$` rather than within the
   * widget, so every widget's secondary selects count.
   */
  predicate HasAdvancedAsWritten(page: seq<Widget>, k: int)
    requires 0 <= k < |page|
  {
    OwnAdvanced(page[k]) || exists j :: 0 <= j < |page| && SecondarySet(page[j])
  }

  /** `_hasAdvanced` looking only at the widget's own controls. */
  predicate HasAdvanced(w: Widget) {
    OwnAdvanced(w) || SecondarySet(w)
  }

  /** On a page with a single widget the two readings agree. */
  lemma HasAdvancedSingleWidget(w: Widget)
    ensures HasAdvancedAsWritten([w], 0) <==> HasAdvanced(w)
  {
    if SecondarySet(w) {
      assert SecondarySet([w][0]);
    }
  }

  /**
   * `_clearAdvanced`: every advanced control back to its plain value.  A
   * NaN start weekday selects no weekday box, so none is ticked.
   */
  function ClearAdvanced(w: Widget): (c: Widget)
    requires ValidWidget(w)
    ensures ValidWidget(c)
    ensures c.startWeekday == w.startWeekday && c.startMonth == w.startMonth
    ensures c.interval == "1" && c.ordChoice == "101" && c.dayChoice == "200"
    ensures forall i :: 0 <= i < 7 ==> (c.weekdays[i] <==> i == w.startWeekday)
    ensures !(0 <= w.startWeekday < 7) ==> forall i :: 0 <= i < 7 ==> !c.weekdays[i]
    ensures forall i :: 0 <= i < 12 ==> !c.months[i]
    ensures |c.secondary| == |w.secondary| && c.secondaryDisabled
    ensures forall i :: 0 <= i < |c.secondary| ==> c.secondary[i] == ""
  {
    Widget("1", seq(7, i => i == w.startWeekday), seq(12, i => false), "101", "200",
           seq(|w.secondary|, i => ""), true, w.startWeekday, w.startMonth)
  }

  lemma ParsePlainValues()
    ensures ParseInt("1") == Some(1) && ParseInt("101") == Some(101) && ParseInt("200") == Some(200)
  {
    assert NatToString(101) == "101" by {
      assert NatToString(10) == "10";
    }
    assert NatToString(200) == "200" by {
      assert NatToString(20) == "20";
    }
    ParseIntOfString(1);
    ParseIntOfString(101);
    ParseIntOfString(200);
  }

  /**
   * After clearing, the widget no longer shows advanced options: the start
   * weekday alone is ticked, or no weekday at all for a NaN start date.
   */
  lemma ClearedNotAdvanced(w: Widget)
    requires ValidWidget(w)
    ensures Ticked(ClearAdvanced(w).weekdays, 0) == if 0 <= w.startWeekday < 7 then [w.startWeekday] else []
    ensures !HasAdvanced(ClearAdvanced(w))
  {
    var c := ClearAdvanced(w);
    ParsePlainValues();
    if 0 <= w.startWeekday < 7 {
      TickedOne(c.weekdays, 0, w.startWeekday);
    } else {
      TickedNone(c.weekdays, 0);
    }
    TickedNone(c.months, 1);
    PlainNotAdvanced(c);
  }

  /**
   * A widget holding the plain values shows nothing advanced, with the
   * start weekday alone ticked or, for a NaN start weekday, no weekday.
   */
  lemma PlainNotAdvanced(c: Widget)
    requires ParseInt(c.interval) == Some(1) && ParseInt(c.ordChoice) == Some(101) && ParseInt(c.dayChoice) == Some(200)
    requires Ticked(c.weekdays, 0) == [c.startWeekday] || Ticked(c.weekdays, 0) == []
    requires Ticked(c.months, 1) == []
    requires forall i :: 0 <= i < |c.secondary| ==> c.secondary[i] == ""
    ensures !HasAdvanced(c)
  {
  }

  /** Clearing twice is clearing once. */
  lemma ClearIdempotent(w: Widget)
    requires ValidWidget(w)
    ensures ClearAdvanced(ClearAdvanced(w)) == ClearAdvanced(w)
  {
  }

  /**
   * As written, when a page loads, the "show advanced" box of a widget
   * holding only plain values (those `_clearAdvanced` sets) is ticked as
   * soon as another widget on the page has a secondary select set, though
   * the widget's own controls show nothing advanced.
   */
  lemma ClearedStillAdvancedAsWritten(w: Widget, other: Widget)
    requires ValidWidget(w) && SecondarySet(other)
    ensures HasAdvancedAsWritten([ClearAdvanced(w), other], 0) && !HasAdvanced(ClearAdvanced(w))
  {
    assert [ClearAdvanced(w), other][1] == other;
    ClearedNotAdvanced(w);
  }

  // ---------------------------------------------------------------------
  // Secondary selects

  /** The primary choice names a particular weekday of the month: ordinal -1..5, day 0..6. */
  predicate PrimaryIsOrdinalDay(w: Widget) {
    var ord := ParseInt(w.ordChoice);
    var day := ParseInt(w.dayChoice);
    ord.Some? && -1 <= ord.value <= 5 && day.Some? && 0 <= day.value <= 6
  }

  /**
   * `_primaryOrdDayChanged`: the secondary selects are enabled when the
   * primary choice is an ordinal weekday, and otherwise emptied and
   * disabled.
   */
  function PrimaryOrdDayChanged(w: Widget): (c: Widget)
    ensures c.secondaryDisabled <==> !PrimaryIsOrdinalDay(w)
    ensures PrimaryIsOrdinalDay(w) ==> c.secondary == w.secondary
    ensures !PrimaryIsOrdinalDay(w) ==>
      |c.secondary| == |w.secondary| && forall i :: 0 <= i < |c.secondary| ==> c.secondary[i] == ""
    ensures c.(secondary := w.secondary, secondaryDisabled := w.secondaryDisabled) == w
  {
    if PrimaryIsOrdinalDay(w) then w.(secondaryDisabled := false)
    else w.(secondary := seq(|w.secondary|, i => ""), secondaryDisabled := true)
  }

  /** Disabled secondary selects hold no value. */
  predicate SecondaryConsistent(w: Widget) {
    w.secondaryDisabled ==> !SecondarySet(w)
  }

  /** After any primary change, the editor never keeps a value in a disabled select. */
  lemma PrimaryChangeConsistent(w: Widget)
    ensures SecondaryConsistent(PrimaryOrdDayChanged(w))
    ensures PrimaryOrdDayChanged(PrimaryOrdDayChanged(w)) == PrimaryOrdDayChanged(w)
  {
  }

  /** Clearing leaves the secondary selects consistent too. */
  lemma ClearConsistent(w: Widget)
    requires ValidWidget(w)
    ensures SecondaryConsistent(ClearAdvanced(w))
  {
  }

  // ---------------------------------------------------------------------
  // Frequency panels

  /** Which advanced panels and which interval unit are shown. */
  datatype Panels = Panels(
    weekly: bool, monthly: bool, yearly: bool,
    days: bool, weeks: bool, months: bool, years: bool)

  /** `_freqChanged(freq)`: the panel table, keyed by dateutil's frequency numbers. */
  function FreqChanged(freq: string): (p: Panels)
    ensures var f := ParseInt(freq);
      && (f == Some(Recurrence.Yearly) ==> p == Panels(false, true, true, false, false, false, true))
      && (f == Some(Recurrence.Monthly) ==> p == Panels(false, true, false, false, false, true, false))
      && (f == Some(Recurrence.Weekly) ==> p == Panels(true, false, false, false, true, false, false))
      && (f == Some(Recurrence.Daily) ==> p == Panels(false, false, false, true, false, false, false))
  {
    var f := ParseInt(freq);
    var visible :=
      if f == Some(3) then (false, false, false)
      else if f == Some(2) then (true, false, false)
      else if f == Some(1) then (false, true, false)
      else if f == Some(0) then (false, true, true)
      else (false, false, false);
    Panels(visible.0, visible.1, visible.2, f == Some(3), f == Some(2), f == Some(1), f == Some(0))
  }

  function UnitsShown(p: Panels): nat {
    (if p.days then 1 else 0) + (if p.weeks then 1 else 0) + (if p.months then 1 else 0)
      + (if p.years then 1 else 0)
  }

  /**
   * A supported frequency shows exactly one interval unit; any other value
   * shows no unit and no panel.
   */
  lemma FreqChangedUnits(freq: string)
    ensures var f := ParseInt(freq);
      && (f.Some? && 0 <= f.value <= 3 <==> UnitsShown(FreqChanged(freq)) == 1)
      && (!(f.Some? && 0 <= f.value <= 3) ==>
            FreqChanged(freq) == Panels(false, false, false, false, false, false, false))
  {
  }

  // ---------------------------------------------------------------------
  // The exception date chooser

  /** A day cell of the date picker: `data-year`, `data-month` (from 0), `data-date`. */
  datatype Cell = Cell(year: int, month: int, date: int, disabled: bool)

  /** The cell a `YYYYMMDD` string selects, if its three fields parse. */
  function CellOf(yyyymmdd: string): (r: Option<(int, int, int)>) {
    var s := yyyymmdd;
    var yyyy := ParseInt(s[..if |s| < 4 then |s| else 4]);
    var mm := ParseInt(s[if |s| < 4 then |s| else 4..if |s| < 6 then |s| else 6]);
    var dd := ParseInt(s[if |s| < 6 then |s| else 6..if |s| < 8 then |s| else 8]);
    if yyyy.Some? && mm.Some? && dd.Some? then Some((yyyy.value, mm.value - 1, dd.value)) else None
  }

  predicate Listed(c: Cell, validDates: seq<string>) {
    exists i :: 0 <= i < |validDates| && CellOf(validDates[i]) == Some((c.year, c.month, c.date))
  }

  /**
   * The window the restriction applies to: the first of the month 200
   * days ago and the first of the month 600 days ahead, both at the
   * current time of day; datetimes are microseconds as elsewhere.
   */
  function ChooserWindow(today: int, now: TimeOfDay): (r: (int, int))
    requires IsValidOrdinal(today - 200) && IsValidOrdinal(today + 600)
  {
    (FirstOfMonthOf(today - 200) * MicrosPerDay + now, FirstOfMonthOf(today + 600) * MicrosPerDay + now)
  }

  /** The ordinal of the first day of the month of day `n`. */
  function FirstOfMonthOf(n: int): int
    requires IsValidOrdinal(n)
  {
    ToFromOrdinal(n);
    n - FromOrdinal(n).day + 1
  }

  /**
   * `onGenerate(ct)`: with a list of valid dates and a displayed time
   * strictly inside the window, every cell is disabled except the listed
   * ones; otherwise the cells are left as they are.
   */
  function OnGenerate(cells: seq<Cell>, validDates: Option<seq<string>>, ct: int, today: int, now: TimeOfDay)
    : (r: seq<Cell>)
    requires IsValidOrdinal(today - 200) && IsValidOrdinal(today + 600)
    ensures |r| == |cells|
    ensures var w := ChooserWindow(today, now);
      validDates.Some? && w.0 < ct < w.1 ==>
        forall i :: 0 <= i < |cells| ==>
          r[i] == cells[i].(disabled := !Listed(cells[i], validDates.value))
    ensures var w := ChooserWindow(today, now);
      !(validDates.Some? && w.0 < ct < w.1) ==> r == cells
  {
    var w := ChooserWindow(today, now);
    if validDates.Some? && w.0 < ct && ct < w.1 then
      seq(|cells|, i requires 0 <= i < |cells| => cells[i].(disabled := !Listed(cells[i], validDates.value)))
    else cells
  }

  /**
   * The server lists dates as `%Y%m%d`: each such date's cell reads back
   * from its string, so inside the window exactly the listed dates are
   * enabled.
   */
  lemma CellOfYmd(d: Date)
    requires IsValid(d)
    ensures CellOf(Recurrence.Ymd(d)) == Some((d.year, d.month - 1, d.day))
  {
    var s := Recurrence.Ymd(d);
    Recurrence.YmdReadsBack(d);
    assert s[6..8] == s[6..];
    ParseIntDigits(s[..4]);
    ParseIntDigits(s[4..6]);
    ParseIntDigits(s[6..]);
  }
}

=== FILE: recurrence_when.dfy ===
/**
 * The English "when" phrase of a recurrence: "Every 2 days", "Fortnightly
 * on Mondays and Fridays", "The last Friday of the month", ... with an
 * offset of whole days for a rule shown in another time zone.  The
 * translation tables and num2words' ordinals are parameters, gathered in
 * `Phrases`; Django's `gettext` is the identity.
 */
module RecurrenceWhen {
  import opened Wrappers
  import opened Text
  import opened Dates
  import opened Names
  import ManyThings
  import opened Recurrence
  import CalendarViews

  /**
   * The words the phrases are built from: the spelled and the numeric
   * ordinal behind `toOrdinal`, `toTheOrdinal`, `toDaysOffsetStr`, the
   * weekday names (singular and plural), the month names and
   * `dateShortFormat`.
   */
  datatype Phrases = Phrases(
    spelled: int -> string, numeric: int -> string,
    theOrdinal: int -> string, daysOffset: int -> string,
    weekdayNames: seq<string>, weekdayPlurals: seq<string>,
    months: map<int, string>, dateShort: Date -> string)

  predicate ValidPhrases(ph: Phrases) {
    IsWeekTable(ph.weekdayNames) && IsWeekTable(ph.weekdayPlurals) && IsMonthTable(ph.months)
  }

  const And := " and "

  // ---------------------------------------------------------------------
  // Weekdays

  /** The weekday a weekday becomes when shifted by `offset` days. */
  function LocalWeekday(weekday: int, offset: int): (r: int)
    ensures 0 <= r < 7
  {
    (weekday + offset) % 7
  }

  /** The shifted weekday is the weekday of the shifted day. */
  lemma LocalWeekdayIsShifted(day: int, offset: int)
    ensures Dates.Weekday(day + offset) == LocalWeekday(Dates.Weekday(day), offset)
  {
    var q := (day + 6) / 7;
    assert day + 6 == 7 * q + Dates.Weekday(day);
    assert day + offset + 6 == 7 * q + (Dates.Weekday(day) + offset);
  }

  /**
   * `Weekday._getWhen(offset, names)`: with no offset the weekday name,
   * preceded by its ordinal when the weekday has a position; with an
   * offset the name of the shifted weekday, followed for a positioned
   * weekday by "before" or "after" and the weekday it is counted from.
   */
  function WeekdayWhen(w: Weekday, offset: int, names: seq<string>, ph: Phrases): (r: string)
    requires ValidWeekday(w) && IsWeekTable(names)
    ensures offset == 0 && w.n == 0 ==> r == names[w.weekday]
    ensures offset == 0 && w.n != 0 ==>
      r == ManyThings.ToOrdinal(w.n, ph.spelled, ph.numeric) + " " + names[w.weekday]
    ensures offset != 0 && w.n == 0 ==> r == names[LocalWeekday(w.weekday, offset)]
    ensures offset < 0 && w.n != 0 ==>
      r == names[LocalWeekday(w.weekday, offset)] + " before " + ph.theOrdinal(w.n) + " " + names[w.weekday]
    ensures offset > 0 && w.n != 0 ==>
      r == names[LocalWeekday(w.weekday, offset)] + " after " + ph.theOrdinal(w.n) + " " + names[w.weekday]
  {
    var weekday := names[w.weekday];
    if offset == 0 then
      if w.n == 0 then weekday else ManyThings.ToOrdinal(w.n, ph.spelled, ph.numeric) + " " + weekday
    else
      var localWeekday := names[LocalWeekday(w.weekday, offset)];
      if w.n == 0 then localWeekday
      else if offset < 0 then localWeekday + " before " + ph.theOrdinal(w.n) + " " + weekday
      else localWeekday + " after " + ph.theOrdinal(w.n) + " " + weekday
  }

  /** With an offset, the phrase opens with the name of the day the event falls on locally. */
  lemma WeekdayWhenNamesLocalDay(w: Weekday, day: int, offset: int, names: seq<string>, ph: Phrases)
    requires ValidWeekday(w) && IsWeekTable(names) && Dates.Weekday(day) == w.weekday && offset != 0
    ensures var local := names[Dates.Weekday(day + offset)];
      |local| <= |WeekdayWhen(w, offset, names, ph)| && WeekdayWhen(w, offset, names, ph)[..|local|] == local
  {
    LocalWeekdayIsShifted(day, offset);
  }

  function WeekdayPhrases(ws: seq<Weekday>, offset: int, names: seq<string>, ph: Phrases): (r: seq<string>)
    requires IsWeekTable(names) && forall i :: 0 <= i < |ws| ==> ValidWeekday(ws[i])
    ensures |r| == |ws| && forall i :: 0 <= i < |ws| ==> r[i] == WeekdayWhen(ws[i], offset, names, ph)
  {
    seq(|ws|, i requires 0 <= i < |ws| => WeekdayWhen(ws[i], offset, names, ph))
  }

  // ---------------------------------------------------------------------
  // Numbers inside phrases

  /** `prefix + str(n) + suffix`, which reads back as `n`. */
  function Numbered(prefix: string, n: nat, suffix: string): (s: string)
    ensures |s| == |prefix| + |NatToString(n)| + |suffix|
    ensures s[..|prefix|] == prefix && s[|s| - |suffix|..] == suffix
    ensures AllDigits(s[|prefix|..|s| - |suffix|]) && ParseNat(s[|prefix|..|s| - |suffix|]) == n
  {
    var s := prefix + NatToString(n) + suffix;
    assert s[..|prefix|] == prefix;
    assert s[|prefix|..|s| - |suffix|] == NatToString(n);
    ParseNatToString(n);
    s
  }

  // ---------------------------------------------------------------------
  // Daily and weekly

  /** `__getDailyWhen`: "Daily", or "Every n days" for an interval above 1. */
  function DailyWhen(interval: nat): (s: string)
    ensures interval <= 1 ==> s == "Daily"
    ensures interval > 1 ==> s == Numbered("Every ", interval, " days")
  {
    if interval > 1 then Numbered("Every ", interval, " days") else "Daily"
  }

  /**
   * `__getWeeklyWhen`: the plural weekday phrases joined for reading,
   * introduced by "Fortnightly on" for an interval of 2 and by
   * "Every n weeks on" for a longer one.
   */
  function WeeklyWhen(r: Rule, offset: int, ph: Phrases): (s: string)
    requires ValidRule(r) && ValidPhrases(ph)
    ensures var days := ManyThings.HrJoin(WeekdayPhrases(ByWeekday(r), offset, ph.weekdayPlurals, ph), And);
      && (r.interval < 2 ==> s == days)
      && (r.interval == 2 ==> s == "Fortnightly on " + days)
      && (r.interval > 2 ==> s == Numbered("Every ", r.interval, " weeks on ") + days)
  {
    var days := ManyThings.HrJoin(WeekdayPhrases(ByWeekday(r), offset, ph.weekdayPlurals, ph), And);
    if r.interval == 2 then "Fortnightly on " + days
    else if r.interval > 2 then Numbered("Every ", r.interval, " weeks on ") + days
    else days
  }

  /** Every weekday of a weekly rule is named, in the rule's order. */
  lemma WeeklyWhenNamesEveryDay(r: Rule, offset: int, ph: Phrases)
    requires ValidRule(r) && ValidPhrases(ph)
    ensures AppearsInOrder(WeeklyWhen(r, offset, ph), WeekdayPhrases(ByWeekday(r), offset, ph.weekdayPlurals, ph))
  {
    var items := WeekdayPhrases(ByWeekday(r), offset, ph.weekdayPlurals, ph);
    var days := ManyThings.HrJoin(items, And);
    ManyThings.HrJoinKeepsOrder(items, And);
    if r.interval == 2 {
      AppearsAfterPrefix("Fortnightly on ", days, items);
    } else if r.interval > 2 {
      AppearsAfterPrefix(Numbered("Every ", r.interval, " weeks on "), days, items);
    }
  }

  // ---------------------------------------------------------------------
  // Monthly and yearly

  /** `theOrdinal[0].upper() + theOrdinal[1:]`, for ASCII letters. */
  function Capitalize(s: string): (r: string)
    requires |s| > 0
    ensures |r| == |s| && r[1..] == s[1..]
    ensures 'a' <= s[0] <= 'z' ==> r[0] == (s[0] as int - 32) as char
    ensures !('a' <= s[0] <= 'z') ==> r[0] == s[0]
  {
    [if 'a' <= s[0] <= 'z' then (s[0] as int - 32) as char else s[0]] + s[1..]
  }

  /** Indexing the first character of an empty ordinal raises IndexError. */
  const IndexError := "string index out of range"

  /**
   * `__getWhenByWeekday`: "Everyday" for all seven plain weekdays;
   * otherwise the weekday phrases joined, as "Every …" when the first has
   * no position and as "The … of …" when it has one.
   */
  function WhenByWeekday(r: Rule, offset: int, of: string, ph: Phrases): (s: string)
    requires ValidRule(r) && ValidPhrases(ph) && ByWeekday(r) != []
    ensures var ws := ByWeekday(r);
      var when := ManyThings.HrJoin(WeekdayPhrases(ws, offset, ph.weekdayNames, ph), And);
      && (|ws| == 7 && (forall i :: 0 <= i < 7 ==> ws[i].n == 0) ==> s == "Everyday")
      && (!(|ws| == 7 && (forall i :: 0 <= i < 7 ==> ws[i].n == 0)) && ws[0].n == 0 ==>
            s == "Every " + when)
      && (!(|ws| == 7 && (forall i :: 0 <= i < 7 ==> ws[i].n == 0)) && ws[0].n != 0 ==>
            s == "The " + when + of)
  {
    var ws := ByWeekday(r);
    if |ws| == 7 && forall i :: 0 <= i < 7 ==> ws[i].n == 0 then "Everyday"
    else
      var when := ManyThings.HrJoin(WeekdayPhrases(ws, offset, ph.weekdayNames, ph), And);
      if ws[0].n == 0 then "Every " + when else "The " + when + of
  }

  /**
   * How `__getWhenByMonthday` moves one month day by the offset: the first
   * day back to the last day(s) of the previous month, the last day on to
   * the first day(s) of the next month, a day that stays within 1..28 in
   * place; any other day is left as it is and the offset is spelled out.
   */
  datatype MonthdayPlan = Moved(day: int, monthShift: int) | Unmoved

  function PlanMonthday(d: int, offset: int): (p: MonthdayPlan)
    ensures p.Moved? ==> -1 <= p.monthShift <= 1
    ensures p.Moved? && p.monthShift != 0 ==> p.day == offset
    ensures p.Unmoved? <==>
      !(d == 1 && offset < 0) && !(d == -1 && offset > 0) && !(0 < d + offset <= 28)
  {
    if d == 1 && offset < 0 then Moved(offset, -1)
    else if d == -1 && offset > 0 then Moved(offset, 1)
    else if 0 < d + offset <= 28 then Moved(d + offset, 0)
    else Unmoved
  }

  /** The month `shift` months (-1, 0 or 1) from `(y, m)`. */
  function ShiftMonth(y: int, m: int, shift: int): (r: (int, int))
    requires 1 <= m <= 12
    ensures 1 <= r.1 <= 12
  {
    if shift < 0 then CalendarViews.PrevMonth(y, m)
    else if shift > 0 then CalendarViews.NextMonth(y, m)
    else (y, m)
  }

  /** Month day `d` of `(y, m)`: counted from the start when positive, from the end when negative. */
  function MonthDay(y: int, m: int, d: int): int
    requires 1 <= m <= 12
  {
    if d > 0 then FirstOfMonth(y, m) + d - 1 else FirstOfMonth(y, m) + DaysInMonth(y, m) + d
  }

  predicate IsMonthDay(y: int, m: int, d: int)
    requires 1 <= m <= 12
  {
    d != 0 && -DaysInMonth(y, m) <= d <= DaysInMonth(y, m)
  }

  /**
   * A moved month day names the day the offset reaches: for every month
   * and every time-zone shift of at most one day, the described day of the
   * described month is the rule's day moved by the offset.
   */
  lemma PlanMonthdayIsShifted(y: int, m: int, d: int, offset: int)
    requires 1 <= m <= 12 && IsMonthDay(y, m, d) && -1 <= offset <= 1
    requires PlanMonthday(d, offset).Moved?
    ensures var p := PlanMonthday(d, offset);
      var t := ShiftMonth(y, m, p.monthShift);
      IsMonthDay(t.0, t.1, p.day) && MonthDay(t.0, t.1, p.day) == MonthDay(y, m, d) + offset
  {
    var p := PlanMonthday(d, offset);
    var t := ShiftMonth(y, m, p.monthShift);
    CalendarViews.MonthNavigation(y, m);
    if p.monthShift < 0 {
      CalendarViews.NextMonthIsAdjacent(t.0, t.1);
    } else if p.monthShift > 0 {
      CalendarViews.NextMonthIsAdjacent(y, m);
    }
  }

  /** Without an offset a day of the first four weeks is kept and nothing is spelled out. */
  lemma PlanMonthdayNoOffset(d: int)
    requires 1 <= d <= 28
    ensures PlanMonthday(d, 0) == Moved(d, 0)
  {
  }

  /** `WRAPPED_MONTH_NAMES[m - 1]` and `[m + 1]` name the month before and after. */
  lemma WrappedNamesShift(months: map<int, string>, y: int, m: int, shift: int)
    requires IsMonthTable(months) && 1 <= m <= 12 && -1 <= shift <= 1
    ensures WrappedMonthNames(months)[m + shift] == months[ShiftMonth(y, m, shift).1]
  {
  }

  /** `of {months}` for the rule's months, each moved by `shift`. */
  function ShiftedMonths(r: Rule, shift: int, ph: Phrases): (s: string)
    requires ValidRule(r) && ValidPhrases(ph) && -1 <= shift <= 1
  {
    var names := seq(|r.bymonth|, i requires 0 <= i < |r.bymonth| =>
      WrappedMonthNames(ph.months)[r.bymonth[i] + shift]);
    " of " + ManyThings.HrJoin(names, And)
  }

  /**
   * `__getWhenByMonthday`: the single month day, moved by the offset when
   * the plan allows (and, for a yearly rule moved across a month end, the
   * months moved with it), else with the offset spelled out before it.
   */
  function WhenByMonthday(r: Rule, offset: int, of: string, ph: Phrases): (res: Result<string>)
    requires ValidRule(r) && ValidPhrases(ph) && |ByMonthday(r)| == 1
    ensures var d := ByMonthday(r)[0];
      var p := PlanMonthday(d, offset);
      var of2 := if p.Moved? && p.monthShift != 0 && r.freq != Monthly
                 then ShiftedMonths(r, p.monthShift, ph) else of;
      var theOrdinal := ph.theOrdinal(if p.Moved? then p.day else d);
      && (p.Unmoved? && ph.daysOffset(offset) != [] ==>
            res == Success(ph.daysOffset(offset) + " " + theOrdinal + " day" + of2))
      && ((p.Moved? || ph.daysOffset(offset) == []) ==>
            (res.Failure? <==> theOrdinal == []))
      && ((p.Moved? || ph.daysOffset(offset) == []) && theOrdinal != [] ==>
            res == Success(Capitalize(theOrdinal) + " day" + of2))
  {
    var d := ByMonthday(r)[0];
    var p := PlanMonthday(d, offset);
    var of2 := if p.Moved? && p.monthShift != 0 && r.freq != Monthly
               then ShiftedMonths(r, p.monthShift, ph) else of;
    var daysOffset := if p.Moved? then "" else ph.daysOffset(offset);
    var theOrdinal := ph.theOrdinal(if p.Moved? then p.day else d);
    if daysOffset != [] then Success(daysOffset + " " + theOrdinal + " day" + of2)
    else if theOrdinal == [] then Failure(IndexError)
    else Success(Capitalize(theOrdinal) + " day" + of2)
  }

  /**
   * `__getWhenWithOffsetMonthdays`: all the month days, with the offset
   * spelled out before them when there is one.
   */
  function WhenWithOffsetMonthdays(r: Rule, offset: int, of: string, ph: Phrases): (res: Result<string>)
    ensures var days := ByMonthday(r);
      var ordinals := ManyThings.HrJoin(seq(|days|, i requires 0 <= i < |days| => ph.theOrdinal(days[i])), And);
      && (offset != 0 ==> res == Success(ph.daysOffset(offset) + " " + ordinals + " day" + of))
      && (offset == 0 ==> (res.Failure? <==> ordinals == []))
      && (offset == 0 && ordinals != [] ==> res == Success(Capitalize(ordinals) + " day" + of))
  {
    var days := ByMonthday(r);
    var ordinals := ManyThings.HrJoin(seq(|days|, i requires 0 <= i < |days| => ph.theOrdinal(days[i])), And);
    if offset != 0 then Success(ph.daysOffset(offset) + " " + ordinals + " day" + of)
    else if ordinals == [] then Failure(IndexError)
    else Success(Capitalize(ordinals) + " day" + of)
  }

  /** `__getMonthlyYearlyWhen`: by weekday if there are any, else by the one month day, else by all. */
  function MonthlyYearlyWhen(r: Rule, offset: int, of: string, ph: Phrases): (res: Result<string>)
    requires ValidRule(r) && ValidPhrases(ph)
    ensures ByWeekday(r) != [] ==> res == Success(WhenByWeekday(r, offset, of, ph))
    ensures ByWeekday(r) == [] && |ByMonthday(r)| == 1 ==> res == WhenByMonthday(r, offset, of, ph)
    ensures ByWeekday(r) == [] && |ByMonthday(r)| != 1 ==> res == WhenWithOffsetMonthdays(r, offset, of, ph)
  {
    if ByWeekday(r) != [] then Success(WhenByWeekday(r, offset, of, ph))
    else if |ByMonthday(r)| == 1 then WhenByMonthday(r, offset, of, ph)
    else WhenWithOffsetMonthdays(r, offset, of, ph)
  }

  /** `{when}, every {n} …` for an interval of 2 or more. */
  function Every(when: Result<string>, interval: nat, unit: string): (res: Result<string>)
    ensures res.Failure? <==> when.Failure?
    ensures when.Success? && interval < 2 ==> res == when
    ensures when.Success? && interval >= 2 ==>
      res == Success(when.value + Numbered(", every ", interval, " " + unit))
  {
    if when.Failure? then when
    else if interval >= 2 then Success(when.value + Numbered(", every ", interval, " " + unit))
    else when
  }

  /** `__getMonthlyWhen`. */
  function MonthlyWhen(r: Rule, offset: int, ph: Phrases): (res: Result<string>)
    requires ValidRule(r) && ValidPhrases(ph)
  {
    Every(MonthlyYearlyWhen(r, offset, " of the month", ph), r.interval, "months")
  }

  /** `__getYearlyWhen`: the rule's months name the period. */
  function YearlyWhen(r: Rule, offset: int, ph: Phrases): (res: Result<string>)
    requires ValidRule(r) && ValidPhrases(ph)
  {
    Every(MonthlyYearlyWhen(r, offset, YearlyOf(r, ph), ph), r.interval, "years")
  }

  /** ` of {months}` for the rule's months, unmoved. */
  function YearlyOf(r: Rule, ph: Phrases): (s: string)
    requires ValidRule(r) && ValidPhrases(ph)
    ensures s == ShiftedMonths(r, 0, ph)
  {
    var names := seq(|r.bymonth|, i requires 0 <= i < |r.bymonth| => MonthNames(ph.months)[r.bymonth[i]]);
    var wrapped := seq(|r.bymonth|, i requires 0 <= i < |r.bymonth| =>
      WrappedMonthNames(ph.months)[r.bymonth[i] + 0]);
    forall i | 0 <= i < |r.bymonth| ensures names[i] == wrapped[i] {
      var m := r.bymonth[i];
      assert names[i] == MonthNames(ph.months)[m] == ph.months[m];
      assert wrapped[i] == WrappedMonthNames(ph.months)[m] == ph.months[m];
    }
    assert names == wrapped;
    " of " + ManyThings.HrJoin(names, And)
  }

  // ---------------------------------------------------------------------
  // The whole phrase

  /** `" for {n} days"` for an event of two days or more. */
  function ForDays(numDays: int): (s: string)
    ensures numDays < 2 ==> s == ""
    ensures numDays >= 2 ==> s == Numbered(" for ", numDays, " days")
  {
    if numDays >= 2 then Numbered(" for ", numDays, " days") else ""
  }

  /**
   * `" (until {when})"`, naming the until date moved by the offset; a
   * date moved outside the calendar raises OverflowError.
   */
  function UntilSuffix(until: Option<Date>, offset: int, ph: Phrases): (res: Result<string>)
    requires until.Some? ==> IsValid(until.value)
    ensures until.None? ==> res == Success("")
    ensures until.Some? ==> (res.Failure? <==> !IsValidOrdinal(ToOrdinal(until.value) + offset))
    ensures until.Some? && res.Success? ==>
      exists shifted: Date :: IsValid(shifted) && ToOrdinal(shifted) == ToOrdinal(until.value) + offset
        && res.value == " (until " + ph.dateShort(shifted) + ")"
  {
    if until.None? then Success("")
    else
      var n := ToOrdinal(until.value) + offset;
      if !IsValidOrdinal(n) then Failure("date value out of range")
      else
        var shifted := FromOrdinal(n);
        ToFromOrdinal(n);
        ValidOrdinalRange(shifted);
        Success(" (until " + ph.dateShort(shifted) + ")")
  }

  /** The phrase for the rule's frequency; unsupported frequencies have none. */
  function FrequencyWhen(r: Rule, offset: int, ph: Phrases): (res: Result<string>)
    requires ValidRule(r) && ValidPhrases(ph)
    ensures r.freq == Daily ==> res == Success(DailyWhen(r.interval))
    ensures r.freq == Weekly ==> res == Success(WeeklyWhen(r, offset, ph))
    ensures r.freq == Monthly ==> res == MonthlyWhen(r, offset, ph)
    ensures r.freq == Yearly ==> res == YearlyWhen(r, offset, ph)
    ensures r.freq >= 4 ==> res == Success("")
  {
    if r.freq == Daily then Success(DailyWhen(r.interval))
    else if r.freq == Weekly then Success(WeeklyWhen(r, offset, ph))
    else if r.freq == Monthly then MonthlyWhen(r, offset, ph)
    else if r.freq == Yearly then YearlyWhen(r, offset, ph)
    else Success("")
  }

  /**
   * `Recurrence._getWhen(offset, numDays)`: the frequency's phrase, then
   * the number of days for a multi-day event, then the until date moved by
   * the offset.
   */
  function GetWhen(r: Rule, offset: int, numDays: int, ph: Phrases): (res: Result<string>)
    requires ValidRule(r) && ValidPhrases(ph)
    ensures res.Failure? <==>
      FrequencyWhen(r, offset, ph).Failure? || UntilSuffix(r.until, offset, ph).Failure?
    ensures res.Success? ==>
      res.value == FrequencyWhen(r, offset, ph).value + ForDays(numDays) + UntilSuffix(r.until, offset, ph).value
  {
    var base := FrequencyWhen(r, offset, ph);
    var until := UntilSuffix(r.until, offset, ph);
    if base.Failure? then base
    else if until.Failure? then until
    else Success(base.value + ForDays(numDays) + until.value)
  }

  /**
   * A multi-day event's phrase says how many days it lasts, and the number
   * reads back; a single-day event's phrase says nothing about days.
   */
  lemma GetWhenDays(r: Rule, offset: int, numDays: int, ph: Phrases)
    requires ValidRule(r) && ValidPhrases(ph) && GetWhen(r, offset, numDays, ph).Success?
    ensures var s := GetWhen(r, offset, numDays, ph).value;
      var b := |FrequencyWhen(r, offset, ph).value|;
      var e := |s| - |UntilSuffix(r.until, offset, ph).value|;
      && b <= e <= |s|
      && (numDays < 2 ==> b == e)
      && (numDays >= 2 ==>
            (&& s[b..e][..5] == " for " && s[b..e][|s[b..e]| - 5..] == " days"
             && AllDigits(s[b..e][5..|s[b..e]| - 5]) && ParseNat(s[b..e][5..|s[b..e]| - 5]) == numDays))
  {
    var s := GetWhen(r, offset, numDays, ph).value;
    var base := FrequencyWhen(r, offset, ph).value;
    var until := UntilSuffix(r.until, offset, ph).value;
    assert s[|base|..|s| - |until|] == ForDays(numDays);
  }
}

=== FILE: recurring_events.dfy ===
/**
 * The exception logic of recurring events.  The occurrences of an event
 * are an abstract ascending sequence of day ordinals (the recurrence rule
 * engine is not modelled).  Exceptions are cancellations, extra
 * information, extended cancellations over a date range, and closures for
 * holidays; a postponement reports whether the event moved later.
 */
module RecurringEvents {
  import opened Wrappers
  import opened Text
  import opened Dates
  import opened TellTime
  import opened EventBase
  import Holidays

  // ---------------------------------------------------------------------
  // Extended cancellations

  /** `ExtCancellationPage`: cancelled from a day, up to a day or until further notice. */
  datatype ExtCancellation = ExtCancellation(cancelledFrom: int, cancelledTo: Option<int>)

  /** `_closedOn(d)`: the day is in the cancelled range; an open range has no end. */
  predicate ExtClosedOn(x: ExtCancellation, d: int) {
    if x.cancelledTo.Some? then x.cancelledFrom <= d <= x.cancelledTo.value
    else x.cancelledFrom <= d
  }

  /**
   * `_getMyRawDates(fromDate, toDate)`: every day from the later of the
   * two starts to the earlier of the two ends, whether or not the event
   * occurs on it.
   */
  function RawDates(x: ExtCancellation, fromDate: int, toDate: int): (r: seq<int>)
    ensures forall i :: 0 <= i < |r| - 1 ==> r[i + 1] == r[i] + 1
    ensures forall d :: d in r <==> fromDate <= d <= toDate && ExtClosedOn(x, d)
  {
    var lo := if x.cancelledFrom > fromDate then x.cancelledFrom else fromDate;
    var hi := if x.cancelledTo.Some? && x.cancelledTo.value < toDate then x.cancelledTo.value else toDate;
    var r := seq(if hi < lo then 0 else hi - lo + 1, i => lo + i);
    forall d | lo <= d <= hi ensures d in r {
      assert r[d - lo] == d;
    }
    r
  }

  /** The raw dates are empty exactly when the two ranges do not meet. */
  lemma RawDatesEmpty(x: ExtCancellation, fromDate: int, toDate: int)
    ensures RawDates(x, fromDate, toDate) == [] <==>
      !(exists d :: fromDate <= d <= toDate && ExtClosedOn(x, d))
  {
    if RawDates(x, fromDate, toDate) != [] {
      assert RawDates(x, fromDate, toDate)[0] in RawDates(x, fromDate, toDate);
    }
  }

  /** `str(date)`: `YYYY-MM-DD`. */
  function IsoDate(d: Date): (s: string)
    requires IsValid(d)
    ensures |s| == 10
  {
    NatToStringAtMost(d.year, 4);
    NatToStringAtMost(d.month, 2);
    NatToStringAtMost(d.day, 2);
    ZeroPad(d.year, 4) + "-" + ZeroPad(d.month, 2) + "-" + ZeroPad(d.day, 2)
  }

  /** The ISO form of a date reads back as the date. */
  lemma IsoDateInjective(a: Date, b: Date)
    requires IsValid(a) && IsValid(b) && IsoDate(a) == IsoDate(b)
    ensures a == b
  {
    var s := IsoDate(a);
    assert s[..4] == ZeroPad(a.year, 4) && s[..4] == ZeroPad(b.year, 4);
    assert s[5..7] == ZeroPad(a.month, 2) && s[5..7] == ZeroPad(b.month, 2);
    assert s[8..] == ZeroPad(a.day, 2) && s[8..] == ZeroPad(b.day, 2);
    ParseZeroPad(a.year, 4);
    ParseZeroPad(b.year, 4);
    ParseZeroPad(a.month, 2);
    ParseZeroPad(b.month, 2);
    ParseZeroPad(a.day, 2);
    ParseZeroPad(b.day, 2);
  }

  predicate ValidRange(x: ExtCancellation) {
    IsValidOrdinal(x.cancelledFrom) && (x.cancelledTo.Some? ==> IsValidOrdinal(x.cancelledTo.value))
  }

  function OrdinalIso(n: int): (s: string)
    requires IsValidOrdinal(n)
    ensures |s| == 10
  {
    ToFromOrdinal(n);
    ValidOrdinalRange(FromOrdinal(n));
    IsoDate(FromOrdinal(n))
  }

  lemma OrdinalIsoInjective(a: int, b: int)
    requires IsValidOrdinal(a) && IsValidOrdinal(b) && OrdinalIso(a) == OrdinalIso(b)
    ensures a == b
  {
    ToFromOrdinal(a);
    ToFromOrdinal(b);
    ValidOrdinalRange(FromOrdinal(a));
    ValidOrdinalRange(FromOrdinal(b));
    IsoDateInjective(FromOrdinal(a), FromOrdinal(b));
  }

  const CancellationSuffix := "-cancellation"

  /** The slug `full_clean` sets: `"{from}-{to or ''}-cancellation"`. */
  function ExtSlug(x: ExtCancellation): (s: string)
    requires ValidRange(x)
    ensures |s| == (if x.cancelledTo.Some? then 34 else 24)
    ensures s[..11] == OrdinalIso(x.cancelledFrom) + "-"
    ensures s[|s| - 13..] == CancellationSuffix
  {
    var slugTo := if x.cancelledTo.Some? then OrdinalIso(x.cancelledTo.value) else "";
    var s := OrdinalIso(x.cancelledFrom) + "-" + slugTo + CancellationSuffix;
    assert s[..11] == OrdinalIso(x.cancelledFrom) + "-";
    assert s[|s| - 13..] == CancellationSuffix;
    s
  }

  /** Different cancellation ranges never share a slug. */
  lemma ExtSlugInjective(x: ExtCancellation, y: ExtCancellation)
    requires ValidRange(x) && ValidRange(y) && ExtSlug(x) == ExtSlug(y)
    ensures x == y
  {
    var s := ExtSlug(x);
    assert OrdinalIso(x.cancelledFrom) == s[..10] == OrdinalIso(y.cancelledFrom);
    OrdinalIsoInjective(x.cancelledFrom, y.cancelledFrom);
    if x.cancelledTo.Some? {
      var sx := OrdinalIso(x.cancelledFrom) + "-" + OrdinalIso(x.cancelledTo.value) + CancellationSuffix;
      var sy := OrdinalIso(y.cancelledFrom) + "-" + OrdinalIso(y.cancelledTo.value) + CancellationSuffix;
      assert sx[11..21] == OrdinalIso(x.cancelledTo.value);
      assert sy[11..21] == OrdinalIso(y.cancelledTo.value);
      OrdinalIsoInjective(x.cancelledTo.value, y.cancelledTo.value);
    }
  }

  /**
   * The title `full_clean` sets, with `dateFormat` as a parameter: "to" and
   * the end date, or "until further notice".
   */
  function ExtTitle(x: ExtCancellation, format: int -> string): (s: string)
    ensures x.cancelledTo.Some? ==>
      s == "Cancellation from " + format(x.cancelledFrom) + " to " + format(x.cancelledTo.value)
    ensures x.cancelledTo.None? ==>
      s == "Cancellation from " + format(x.cancelledFrom) + " until further notice"
  {
    var titleTo := if x.cancelledTo.Some? then "to " + format(x.cancelledTo.value) else "until further notice";
    "Cancellation from " + format(x.cancelledFrom) + " " + titleTo
  }

  // ---------------------------------------------------------------------
  // Closed for holidays

  /** `ClosedForHolidaysPage`: closed for all holidays, or for the named ones. */
  datatype ClosedForHolidays = ClosedForHolidays(allHolidays: bool, closedFor: seq<string>)

  /**
   * `_closedOn(d)`: there is a holiday registry, the page is closed for
   * something, the day has a holiday, and either every holiday closes it
   * or one of the day's ", "-separated names is in the closed list.
   */
  function ClosedOn(c: ClosedForHolidays, holidays: Option<Holidays.Holidays>, d: int): (r: bool)
    ensures r <==> (holidays.Some? && (c.allHolidays || c.closedFor != []) &&
      Holidays.Get(holidays.value, d) != "" &&
      (c.allHolidays || exists name :: name in Split(Holidays.Get(holidays.value, d), ", ") && name in c.closedFor))
  {
    if holidays.None? then false
    else if !c.allHolidays && c.closedFor == [] then false
    else
      var holiday := Holidays.Get(holidays.value, d);
      if holiday != "" then
        c.allHolidays || exists i :: 0 <= i < |Split(holiday, ", ")| && Split(holiday, ", ")[i] in c.closedFor
      else false
  }

  /**
   * When no holiday name is empty or contains ", ", the page is closed on a
   * day exactly when it is closed for all holidays and the day has one, or
   * one of the day's holiday names is in its list.
   */
  lemma ClosedOnNames(c: ClosedForHolidays, h: Holidays.Holidays, d: int)
    requires forall i :: 0 <= i < |Holidays.GetNames(h, d)| ==>
      Holidays.GetNames(h, d)[i] != "" && !Contains(Holidays.GetNames(h, d)[i], ", ")
    ensures ClosedOn(c, Some(h), d) <==>
      (c.allHolidays && Holidays.GetNames(h, d) != []) ||
      exists name :: name in Holidays.GetNames(h, d) && name in c.closedFor
  {
    var names := Holidays.GetNames(h, d);
    if names != [] {
      Holidays.SplitJoinSep(names);
      assert Holidays.Get(h, d) == Join(names, ", ");
      JoinStartsWith(names, ", ");
    } else {
      assert Holidays.Get(h, d) == "";
    }
  }

  lemma JoinStartsWith(parts: seq<string>, sep: string)
    requires parts != []
    ensures |Join(parts, sep)| >= |parts[0]|
  {
  }

  /** `MAX_REPEAT_COUNT`: how many occurrences a search looks at. */
  const MaxRepeatCount := 500

  /**
   * The loop of `_getMyDates` over the occurrences, `n` of them seen since
   * the last closed one: the 501st occurrence in a row without a closure
   * ends the search before it is looked at.
   */
  function ClosedDates(closed: int -> bool, occs: seq<int>, n: nat): (r: seq<int>)
    ensures |r| <= |occs|
    ensures forall d :: d in r ==> d in occs && closed(d)
    decreases |occs|
  {
    if occs == [] || n + 1 > MaxRepeatCount then []
    else if closed(occs[0]) then [occs[0]] + ClosedDates(closed, occs[1..], 0)
    else ClosedDates(closed, occs[1..], n + 1)
  }

  /** The occurrences that are closed, in order. */
  function Filter(closed: int -> bool, occs: seq<int>): (r: seq<int>)
    ensures forall d :: d in r <==> d in occs && closed(d)
  {
    if occs == [] then []
    else (if closed(occs[0]) then [occs[0]] else []) + Filter(closed, occs[1..])
  }

  /**
   * `_getMyDates`: nothing without a holiday registry or when the page is
   * closed for nothing; otherwise the closed occurrences, until the search
   * gives up.
   */
  function GetMyDates(c: ClosedForHolidays, holidays: Option<Holidays.Holidays>, occs: seq<int>): (r: seq<int>)
    ensures holidays.None? || (!c.allHolidays && c.closedFor == []) ==> r == []
  {
    if holidays.None? || (!c.allHolidays && c.closedFor == []) then []
    else ClosedDates(d => ClosedOn(c, holidays, d), occs, 0)
  }

  /** Where the window of the 500 occurrences before index `j` starts. */
  function WindowStart(j: int): int {
    if j >= MaxRepeatCount then j - MaxRepeatCount else 0
  }

  /** Some occurrence among the 500 before index `j` is closed. */
  predicate ClosedBefore(closed: int -> bool, occs: seq<int>, j: int)
    requires 0 <= j <= |occs|
  {
    exists i :: WindowStart(j) <= i < j && closed(occs[i])
  }

  /**
   * With a closed occurrence among every 500 in a row (counting the `n`
   * already seen), the search yields every closed occurrence.
   */
  lemma {:induction false} ClosedDatesAll(closed: int -> bool, occs: seq<int>, n: nat)
    requires n <= MaxRepeatCount
    requires forall j :: 0 <= j < |occs| && j + n >= MaxRepeatCount ==> ClosedBefore(closed, occs, j)
    ensures ClosedDates(closed, occs, n) == Filter(closed, occs)
    decreases |occs|
  {
    if occs != [] {
      assert n < MaxRepeatCount by {
        assert !ClosedBefore(closed, occs, 0);
      }
      var tail := occs[1..];
      var n' := if closed(occs[0]) then 0 else n + 1;
      forall j | 0 <= j < |tail| && j + n' >= MaxRepeatCount
        ensures ClosedBefore(closed, tail, j)
      {
        assert ClosedBefore(closed, occs, j + 1);
        var i :| WindowStart(j + 1) <= i < j + 1 && closed(occs[i]);
        assert i >= 1;
        assert tail[i - 1] == occs[i];
      }
      ClosedDatesAll(closed, tail, n');
    }
  }

  /**
   * After 500 occurrences in a row that are not closed (counting the `n`
   * already seen), nothing more is yielded: the result is that of the
   * occurrences before.
   */
  lemma {:induction false} ClosedDatesBail(closed: int -> bool, occs: seq<int>, n: nat, k: nat)
    requires k <= |occs| && k + n >= MaxRepeatCount
    requires forall i :: WindowStart(k) <= i < k ==> !closed(occs[i])
    ensures ClosedDates(closed, occs, n) == ClosedDates(closed, occs[..k], n)
    decreases |occs|
  {
    if occs != [] && n + 1 <= MaxRepeatCount && k > 0 {
      var tail := occs[1..];
      assert occs[..k][1..] == tail[..k - 1];
      if closed(occs[0]) {
        assert WindowStart(k) > 0;
        ClosedDatesBail(closed, tail, 0, k - 1);
      } else {
        ClosedDatesBail(closed, tail, n + 1, k - 1);
      }
    }
  }

  // ---------------------------------------------------------------------
  // The next occurrence

  /** The first extended cancellation, in the given order, that covers the day. */
  function FirstShutdown(shutdowns: seq<ExtCancellation>, d: int): (r: Option<ExtCancellation>)
    ensures r.Some? ==> r.value in shutdowns && ExtClosedOn(r.value, d)
    ensures r.None? <==> forall i :: 0 <= i < |shutdowns| ==> !ExtClosedOn(shutdowns[i], d)
  {
    if shutdowns == [] then None
    else if ExtClosedOn(shutdowns[0], d) then Some(shutdowns[0])
    else FirstShutdown(shutdowns[1..], d)
  }

  /** `fromDate` bumped one day when the event's start time today has passed. */
  function AfterStart(fromDay: int, nowTime: TimeOfDay, timeFrom: Option<TimeOfDay>): (r: int)
    ensures r == fromDay || r == fromDay + 1
    ensures r == fromDay + 1 <==> timeFrom.Some? && timeFrom.value < nowTime
  {
    if timeFrom.Some? && timeFrom.value < nowTime then fromDay + 1 else fromDay
  }

  /** The loop of `__after` over the occurrences still to look at. */
  function AfterLoop(occs: seq<int>, exceptions: set<int>, shutdowns: seq<ExtCancellation>,
                     closed: int -> bool): (r: Option<int>)
    ensures r.Some? ==> r.value !in exceptions && FirstShutdown(shutdowns, r.value).None? && !closed(r.value)
  {
    if occs == [] then None
    else
      var d := occs[0];
      if d in exceptions then AfterLoop(occs[1..], exceptions, shutdowns, closed)
      else if FirstShutdown(shutdowns, d).Some? then
        if FirstShutdown(shutdowns, d).value.cancelledTo.None? then None
        else AfterLoop(occs[1..], exceptions, shutdowns, closed)
      else if closed(d) then AfterLoop(occs[1..], exceptions, shutdowns, closed)
      else Some(d)
  }

  /**
   * `__after`: the first of the first 500 occurrences that is not an
   * exception, not in an extended cancellation and not a closed holiday.
   * `occs` are the occurrences from the start day on, `closed` is the
   * closed-for-holidays page's test (false when there is none).
   */
  function After(occs: seq<int>, exceptions: set<int>, shutdowns: seq<ExtCancellation>,
                 closed: int -> bool): (r: Option<int>)
    ensures r.Some? ==> r.value in occs
  {
    var window := if |occs| > MaxRepeatCount then occs[..MaxRepeatCount] else occs;
    AfterLoopIn(window, exceptions, shutdowns, closed);
    AfterLoop(window, exceptions, shutdowns, closed)
  }

  lemma {:induction false} AfterLoopIn(occs: seq<int>, exceptions: set<int>, shutdowns: seq<ExtCancellation>,
                                        closed: int -> bool)
    ensures AfterLoop(occs, exceptions, shutdowns, closed).Some? ==>
      AfterLoop(occs, exceptions, shutdowns, closed).value in occs
  {
    if occs != [] {
      AfterLoopIn(occs[1..], exceptions, shutdowns, closed);
    }
  }

  /** An occurrence the search passes over. */
  predicate Skipped(d: int, exceptions: set<int>, shutdowns: seq<ExtCancellation>, closed: int -> bool) {
    d in exceptions || FirstShutdown(shutdowns, d).Some? || closed(d)
  }

  /** An occurrence at which the search gives up: its first covering cancellation is open-ended. */
  predicate Stops(d: int, exceptions: set<int>, shutdowns: seq<ExtCancellation>) {
    d !in exceptions && FirstShutdown(shutdowns, d).Some? && FirstShutdown(shutdowns, d).value.cancelledTo.None?
  }

  /**
   * The loop finds the occurrence at index `k` exactly when it is not
   * skipped and every earlier one is skipped without stopping the search.
   */
  lemma {:induction false} AfterLoopFinds(occs: seq<int>, exceptions: set<int>, shutdowns: seq<ExtCancellation>,
                                           closed: int -> bool, k: int)
    requires 0 <= k < |occs|
    ensures (!Skipped(occs[k], exceptions, shutdowns, closed) &&
             forall i :: 0 <= i < k ==>
               Skipped(occs[i], exceptions, shutdowns, closed) && !Stops(occs[i], exceptions, shutdowns)) ==>
      AfterLoop(occs, exceptions, shutdowns, closed) == Some(occs[k])
  {
    if k > 0 {
      forall i | 0 <= i < k - 1 ensures occs[1..][i] == occs[i + 1] { }
      if !Skipped(occs[k], exceptions, shutdowns, closed) &&
         forall i :: 0 <= i < k ==>
           Skipped(occs[i], exceptions, shutdowns, closed) && !Stops(occs[i], exceptions, shutdowns) {
        assert Skipped(occs[0], exceptions, shutdowns, closed) && !Stops(occs[0], exceptions, shutdowns);
        AfterLoopFinds(occs[1..], exceptions, shutdowns, closed, k - 1);
      }
    }
  }

  /**
   * Conversely, whatever the loop returns is the first occurrence not
   * skipped, and no occurrence before it stopped the search.
   */
  lemma {:induction false} AfterLoopFound(occs: seq<int>, exceptions: set<int>, shutdowns: seq<ExtCancellation>,
                                           closed: int -> bool)
    ensures var r := AfterLoop(occs, exceptions, shutdowns, closed);
      r.Some? ==> exists k :: (0 <= k < |occs| && occs[k] == r.value &&
                               !Skipped(occs[k], exceptions, shutdowns, closed) &&
                               forall i :: 0 <= i < k ==>
                                 Skipped(occs[i], exceptions, shutdowns, closed) &&
                                 !Stops(occs[i], exceptions, shutdowns))
  {
    var r := AfterLoop(occs, exceptions, shutdowns, closed);
    if occs != [] && r.Some? {
      if Skipped(occs[0], exceptions, shutdowns, closed) {
        AfterLoopFound(occs[1..], exceptions, shutdowns, closed);
        var k :| 0 <= k < |occs[1..]| && occs[1..][k] == r.value &&
          !Skipped(occs[1..][k], exceptions, shutdowns, closed) &&
          forall i :: 0 <= i < k ==>
            Skipped(occs[1..][i], exceptions, shutdowns, closed) && !Stops(occs[1..][i], exceptions, shutdowns);
        forall i | 0 <= i < k + 1
          ensures Skipped(occs[i], exceptions, shutdowns, closed) && !Stops(occs[i], exceptions, shutdowns)
        {
          if i > 0 { assert occs[i] == occs[1..][i - 1]; }
        }
        assert occs[k + 1] == r.value;
      } else {
        assert occs[0] == r.value;
      }
    }
  }

  /** No occurrence is found when one stops the search and all before it are skipped. */
  lemma {:induction false} AfterLoopStops(occs: seq<int>, exceptions: set<int>, shutdowns: seq<ExtCancellation>,
                                           closed: int -> bool, k: int)
    requires 0 <= k < |occs| && Stops(occs[k], exceptions, shutdowns)
    requires forall i :: 0 <= i < k ==> Skipped(occs[i], exceptions, shutdowns, closed)
    ensures AfterLoop(occs, exceptions, shutdowns, closed).None?
  {
    if k > 0 {
      assert Skipped(occs[0], exceptions, shutdowns, closed);
      forall i | 0 <= i < k - 1 ensures Skipped(occs[1..][i], exceptions, shutdowns, closed) {
        assert occs[1..][i] == occs[i + 1];
      }
      AfterLoopStops(occs[1..], exceptions, shutdowns, closed, k - 1);
    }
  }

  /**
   * `__after` over its first 500 occurrences: it returns the occurrence at
   * index `k` exactly when that one is not skipped and every earlier one
   * is skipped without stopping the search.
   */
  lemma AfterFinds(occs: seq<int>, exceptions: set<int>, shutdowns: seq<ExtCancellation>,
                   closed: int -> bool, d: int)
    ensures After(occs, exceptions, shutdowns, closed) == Some(d) <==>
      exists k :: (0 <= k < |occs| && k < MaxRepeatCount && occs[k] == d &&
                   !Skipped(d, exceptions, shutdowns, closed) &&
                   forall i :: 0 <= i < k ==>
                     Skipped(occs[i], exceptions, shutdowns, closed) &&
                     !Stops(occs[i], exceptions, shutdowns))
  {
    var window := if |occs| > MaxRepeatCount then occs[..MaxRepeatCount] else occs;
    assert forall i :: 0 <= i < |window| ==> window[i] == occs[i];
    if After(occs, exceptions, shutdowns, closed) == Some(d) {
      AfterLoopFound(window, exceptions, shutdowns, closed);
    }
    if exists k :: (0 <= k < |occs| && k < MaxRepeatCount && occs[k] == d &&
                    !Skipped(d, exceptions, shutdowns, closed) &&
                    forall i :: 0 <= i < k ==>
                      Skipped(occs[i], exceptions, shutdowns, closed) &&
                      !Stops(occs[i], exceptions, shutdowns)) {
      var k :| 0 <= k < |occs| && k < MaxRepeatCount && occs[k] == d &&
               !Skipped(d, exceptions, shutdowns, closed) &&
               forall i :: 0 <= i < k ==>
                 Skipped(occs[i], exceptions, shutdowns, closed) &&
                 !Stops(occs[i], exceptions, shutdowns);
      AfterLoopFinds(window, exceptions, shutdowns, closed, k);
    }
  }

  // ---------------------------------------------------------------------
  // byDay: exceptions and their precedence

  /** Dictionary assignments in order: a later pair for the same day replaces an earlier one. */
  function PutAll(m: map<int, ThisEvent>, pairs: seq<(int, ThisEvent)>): (r: map<int, ThisEvent>)
    ensures m.Keys <= r.Keys
    ensures pairs != [] ==> pairs[|pairs| - 1].0 in r && r[pairs[|pairs| - 1].0] == pairs[|pairs| - 1].1
    decreases |pairs|
  {
    if pairs == [] then m else PutAll(m[pairs[0].0 := pairs[0].1], pairs[1..])
  }

  /** The event of the last pair for the day, if any. */
  function LastFor(pairs: seq<(int, ThisEvent)>, d: int): (r: Option<ThisEvent>)
    ensures r.Some? <==> exists i :: 0 <= i < |pairs| && pairs[i].0 == d
    ensures r.Some? ==> exists i :: 0 <= i < |pairs| && pairs[i] == (d, r.value)
  {
    if pairs == [] then None
    else if pairs[|pairs| - 1].0 == d then Some(pairs[|pairs| - 1].1)
    else
      var r := LastFor(pairs[..|pairs| - 1], d);
      assert forall i :: 0 <= i < |pairs| - 1 ==> pairs[..|pairs| - 1][i] == pairs[i];
      r
  }

  function Lookup(m: map<int, ThisEvent>, d: int): Option<ThisEvent> {
    if d in m then Some(m[d]) else None
  }

  /** After the assignments, a day holds the last pair's event, or what it held before. */
  lemma {:induction false} PutAllLookup(m: map<int, ThisEvent>, pairs: seq<(int, ThisEvent)>, d: int)
    ensures Lookup(PutAll(m, pairs), d) == if LastFor(pairs, d).Some? then LastFor(pairs, d) else Lookup(m, d)
    decreases |pairs|
  {
    if pairs != [] {
      var m' := m[pairs[0].0 := pairs[0].1];
      PutAllLookup(m', pairs[1..], d);
      LastForCons(pairs, d);
    }
  }

  lemma {:induction false} LastForCons(pairs: seq<(int, ThisEvent)>, d: int)
    requires pairs != []
    ensures LastFor(pairs, d) ==
      if LastFor(pairs[1..], d).Some? then LastFor(pairs[1..], d)
      else if pairs[0].0 == d then Some(pairs[0].1) else None
    decreases |pairs|
  {
    var n := |pairs|;
    if n > 1 && pairs[n - 1].0 != d {
      LastForCons(pairs[..n - 1], d);
      assert pairs[..n - 1][1..] == pairs[1..][..n - 2];
    }
  }

  /** Every raw date of every extended cancellation, paired with its event. */
  function ShutdownPairs(shutdowns: seq<(ExtCancellation, ThisEvent)>, fromDate: int, toDate: int): (r: seq<(int, ThisEvent)>)
    ensures forall i :: 0 <= i < |r| ==>
      exists j :: 0 <= j < |shutdowns| && r[i].1 == shutdowns[j].1 &&
        fromDate <= r[i].0 <= toDate && ExtClosedOn(shutdowns[j].0, r[i].0)
  {
    if shutdowns == [] then []
    else
      var x := shutdowns[0];
      var here := seq(|RawDates(x.0, fromDate, toDate)|,
                      i requires 0 <= i < |RawDates(x.0, fromDate, toDate)| => (RawDates(x.0, fromDate, toDate)[i], x.1));
      var rest := ShutdownPairs(shutdowns[1..], fromDate, toDate);
      assert forall i :: 0 <= i < |here| ==> here[i].0 in RawDates(x.0, fromDate, toDate);
      forall i | 0 <= i < |rest|
        ensures exists j :: (0 <= j < |shutdowns| && rest[i].1 == shutdowns[j].1 &&
                             fromDate <= rest[i].0 <= toDate && ExtClosedOn(shutdowns[j].0, rest[i].0))
      {
        var j :| 0 <= j < |shutdowns[1..]| && rest[i].1 == shutdowns[1..][j].1 &&
          fromDate <= rest[i].0 <= toDate && ExtClosedOn(shutdowns[1..][j].0, rest[i].0);
        assert shutdowns[1..][j] == shutdowns[j + 1];
      }
      here + rest
  }

  /** A day has a pair exactly when it is in the range and some extended cancellation covers it. */
  lemma {:induction false} ShutdownPairsCover(shutdowns: seq<(ExtCancellation, ThisEvent)>, fromDate: int, toDate: int, d: int)
    ensures (exists i :: 0 <= i < |ShutdownPairs(shutdowns, fromDate, toDate)| &&
                         ShutdownPairs(shutdowns, fromDate, toDate)[i].0 == d) <==>
      fromDate <= d <= toDate && exists j :: 0 <= j < |shutdowns| && ExtClosedOn(shutdowns[j].0, d)
  {
    var r := ShutdownPairs(shutdowns, fromDate, toDate);
    if shutdowns != [] {
      var x := shutdowns[0];
      var raw := RawDates(x.0, fromDate, toDate);
      var here := seq(|raw|, i requires 0 <= i < |raw| => (raw[i], x.1));
      var rest := ShutdownPairs(shutdowns[1..], fromDate, toDate);
      assert r == here + rest;
      ShutdownPairsCover(shutdowns[1..], fromDate, toDate, d);
      if fromDate <= d <= toDate && exists j :: 0 <= j < |shutdowns| && ExtClosedOn(shutdowns[j].0, d) {
        var j :| 0 <= j < |shutdowns| && ExtClosedOn(shutdowns[j].0, d);
        if j == 0 {
          var k :| 0 <= k < |raw| && raw[k] == d;
          assert r[k].0 == d;
        } else {
          assert shutdowns[1..][j - 1] == shutdowns[j];
          var k :| 0 <= k < |rest| && rest[k].0 == d;
          assert r[|here| + k].0 == d;
        }
      }
    }
  }

  /** The pairs dated within `lo .. hi`, in order: the `except_date__range` filter. */
  function InRange(pairs: seq<(int, ThisEvent)>, lo: int, hi: int): (r: seq<(int, ThisEvent)>)
    ensures forall i :: 0 <= i < |r| ==> lo <= r[i].0 <= hi
  {
    if pairs == [] then []
    else
      var rest := InRange(pairs[..|pairs| - 1], lo, hi);
      var last := pairs[|pairs| - 1];
      if lo <= last.0 <= hi then rest + [last] else rest
  }

  /** Filtering by the range keeps a day's last pair exactly when the day is in the range. */
  lemma {:induction false} LastForInRange(pairs: seq<(int, ThisEvent)>, lo: int, hi: int, d: int)
    ensures LastFor(InRange(pairs, lo, hi), d) == if lo <= d <= hi then LastFor(pairs, d) else None
  {
    if pairs != [] {
      var init := pairs[..|pairs| - 1];
      var rest := InRange(init, lo, hi);
      var last := pairs[|pairs| - 1];
      LastForInRange(init, lo, hi, d);
      assert LastFor(pairs, d) == if last.0 == d then Some(last.1) else LastFor(init, d);
      if lo <= last.0 <= hi {
        LastForSnoc(rest, last, d);
      }
    }
  }

  lemma LastForSnoc(pairs: seq<(int, ThisEvent)>, last: (int, ThisEvent), d: int)
    ensures LastFor(pairs + [last], d) == if last.0 == d then Some(last.1) else LastFor(pairs, d)
  {
    assert (pairs + [last])[..|pairs|] == pairs;
  }

  /**
   * `__getExceptionsFor` with the dates limited to `lo .. hi`: extra
   * information first, then cancellations, then every day of every
   * extended cancellation, each replacing what the day held before.
   */
  function Exceptions(extraInfos: seq<(int, ThisEvent)>, cancellations: seq<(int, ThisEvent)>,
                      shutdowns: seq<(ExtCancellation, ThisEvent)>, lo: int, hi: int): (r: map<int, ThisEvent>)
    ensures forall d :: d in r ==> lo <= d <= hi
  {
    var m1 := PutAll(map[], InRange(extraInfos, lo, hi));
    var m2 := PutAll(m1, InRange(cancellations, lo, hi));
    var r := PutAll(m2, ShutdownPairs(shutdowns, lo, hi));
    assert forall d :: d in r ==> lo <= d <= hi by {
      forall d | d in r && !(lo <= d <= hi)
        ensures false
      {
        PutAllLookup(m2, ShutdownPairs(shutdowns, lo, hi), d);
        ShutdownPairsCover(shutdowns, lo, hi, d);
        PutAllLookup(m1, InRange(cancellations, lo, hi), d);
        LastForInRange(cancellations, lo, hi, d);
        PutAllLookup(map[], InRange(extraInfos, lo, hi), d);
        LastForInRange(extraInfos, lo, hi, d);
      }
    }
    r
  }

  /** The exceptions `byDay` gathers: those within two days of the range asked for. */
  function ExceptionsAsWritten(extraInfos: seq<(int, ThisEvent)>, cancellations: seq<(int, ThisEvent)>,
                               shutdowns: seq<(ExtCancellation, ThisEvent)>, fromDate: int, toDate: int): (r: map<int, ThisEvent>)
    ensures forall d :: d in r ==> fromDate - 2 <= d <= toDate + 2
  {
    Exceptions(extraInfos, cancellations, shutdowns, fromDate - 2, toDate + 2)
  }

  /**
   * The first and last day `byDay` asks the rule for occurrences on: an
   * event of `numDays` days starting up to `numDays + 1` days before the
   * range can still reach into it.
   */
  function OccurrenceFrom(numDays: int, fromDate: int): (r: int)
    ensures r + (numDays - 1) == fromDate - 2
  {
    fromDate - (numDays + 1)
  }

  function OccurrenceTo(toDate: int): (r: int)
    ensures r - 2 == toDate
  {
    toDate + 2
  }

  /** The exceptions over every day an occurrence can be looked up on. */
  function ExceptionsFor(extraInfos: seq<(int, ThisEvent)>, cancellations: seq<(int, ThisEvent)>,
                         shutdowns: seq<(ExtCancellation, ThisEvent)>, numDays: int,
                         fromDate: int, toDate: int): (r: map<int, ThisEvent>)
    ensures forall d :: d in r ==> OccurrenceFrom(numDays, fromDate) <= d <= OccurrenceTo(toDate)
  {
    Exceptions(extraInfos, cancellations, shutdowns, OccurrenceFrom(numDays, fromDate), OccurrenceTo(toDate))
  }

  /** An exception's event is shown when it has a title and hides the occurrence otherwise. */
  function Titled(e: ThisEvent): (r: Option<ThisEvent>)
    ensures r.Some? <==> e.title != ""
    ensures r.Some? ==> r.value == e
  {
    if e.title != "" then Some(e) else None
  }

  /**
   * The event `byDay` shows for one occurrence: an exception decides if
   * there is one; otherwise a holiday closure shows its cancellation event
   * (`closedEvent`, absent when the user may not see it or it has no
   * title); otherwise the page itself.
   */
  function OccurrenceEvent(exception: Option<ThisEvent>, closedHere: bool, closedEvent: Option<ThisEvent>,
                           pageEvent: ThisEvent): (r: Option<ThisEvent>)
    ensures exception.Some? ==> (r.Some? <==> exception.value.title != "") && (r.Some? ==> r == exception)
    ensures exception.None? && closedHere ==> r == closedEvent
    ensures exception.None? && !closedHere ==> r == Some(pageEvent)
  {
    if exception.Some? then Titled(exception.value)
    else if closedHere then closedEvent
    else Some(pageEvent)
  }

  /**
   * Precedence on a day of the window: an extended cancellation over the
   * day beats a cancellation, which beats extra information; the last of
   * each kind wins; only with none of them do holiday closures and the
   * page itself count.  Outside the window no exception counts.
   */
  lemma OccurrencePrecedence(extraInfos: seq<(int, ThisEvent)>, cancellations: seq<(int, ThisEvent)>,
                             shutdowns: seq<(ExtCancellation, ThisEvent)>, lo: int, hi: int,
                             d: int, closedHere: bool, closedEvent: Option<ThisEvent>, pageEvent: ThisEvent)
    ensures var shut := LastFor(ShutdownPairs(shutdowns, lo, hi), d);
      var r := OccurrenceEvent(Lookup(Exceptions(extraInfos, cancellations, shutdowns, lo, hi), d),
                               closedHere, closedEvent, pageEvent);
      var inside := lo <= d <= hi;
      (shut.Some? ==> r == Titled(shut.value)) &&
      (inside && shut.None? && LastFor(cancellations, d).Some? ==> r == Titled(LastFor(cancellations, d).value)) &&
      (inside && shut.None? && LastFor(cancellations, d).None? && LastFor(extraInfos, d).Some? ==>
         r == Titled(LastFor(extraInfos, d).value)) &&
      ((!inside || (LastFor(cancellations, d).None? && LastFor(extraInfos, d).None?)) && shut.None? ==>
         r == if closedHere then closedEvent else Some(pageEvent))
  {
    var m1 := PutAll(map[], InRange(extraInfos, lo, hi));
    var m2 := PutAll(m1, InRange(cancellations, lo, hi));
    PutAllLookup(map[], InRange(extraInfos, lo, hi), d);
    PutAllLookup(m1, InRange(cancellations, lo, hi), d);
    PutAllLookup(m2, ShutdownPairs(shutdowns, lo, hi), d);
    LastForInRange(extraInfos, lo, hi, d);
    LastForInRange(cancellations, lo, hi, d);
  }

  /** An occurrence in an extended cancellation within the window is decided by it. */
  lemma ShutdownDecides(shutdowns: seq<(ExtCancellation, ThisEvent)>, lo: int, hi: int, d: int)
    ensures LastFor(ShutdownPairs(shutdowns, lo, hi), d).Some? <==>
      lo <= d <= hi && exists j :: 0 <= j < |shutdowns| && ExtClosedOn(shutdowns[j].0, d)
  {
    ShutdownPairsCover(shutdowns, lo, hi, d);
  }

  /**
   * As written, an event of five days whose occurrence starts four days
   * before the range, and so still shows on its first day, keeps showing
   * though it is cancelled on that occurrence: the cancellation lies
   * outside the two-day margin and is never fetched.
   */
  lemma CancellationMissedAsWritten(fromDate: int, c: ThisEvent, pageEvent: ThisEvent)
    ensures var d := fromDate - 4;
      OccurrenceFrom(5, fromDate) <= d <= OccurrenceTo(fromDate) && d + 5 - 1 >= fromDate &&
      OccurrenceEvent(Lookup(ExceptionsAsWritten([], [(d, c)], [], fromDate, fromDate), d),
                      false, None, pageEvent) == Some(pageEvent) &&
      OccurrenceEvent(Lookup(ExceptionsFor([], [(d, c)], [], 5, fromDate, fromDate), d),
                      false, None, pageEvent) == Titled(c)
  {
    var d := fromDate - 4;
    OccurrencePrecedence([], [(d, c)], [], fromDate - 2, fromDate + 2, d, false, None, pageEvent);
    OccurrencePrecedence([], [(d, c)], [], fromDate - 6, fromDate + 2, d, false, None, pageEvent);
    assert LastFor([(d, c)], d) == Some(c);
    ShutdownDecides([], fromDate - 2, fromDate + 2, d);
    ShutdownDecides([], fromDate - 6, fromDate + 2, d);
  }

  /**
   * With the window widened to every day an occurrence is looked up on,
   * each occurrence is decided by the exceptions dated on it, whatever
   * their date relative to the range.
   */
  lemma ExceptionsForDecide(extraInfos: seq<(int, ThisEvent)>, cancellations: seq<(int, ThisEvent)>,
                            shutdowns: seq<(ExtCancellation, ThisEvent)>, numDays: int, fromDate: int, toDate: int,
                            d: int, closedHere: bool, closedEvent: Option<ThisEvent>, pageEvent: ThisEvent)
    requires OccurrenceFrom(numDays, fromDate) <= d <= OccurrenceTo(toDate)
    ensures var shut := exists j :: 0 <= j < |shutdowns| && ExtClosedOn(shutdowns[j].0, d);
      var r := OccurrenceEvent(Lookup(ExceptionsFor(extraInfos, cancellations, shutdowns, numDays, fromDate, toDate), d),
                               closedHere, closedEvent, pageEvent);
      (!shut && LastFor(cancellations, d).Some? ==> r == Titled(LastFor(cancellations, d).value)) &&
      (!shut && LastFor(cancellations, d).None? && LastFor(extraInfos, d).Some? ==>
         r == Titled(LastFor(extraInfos, d).value)) &&
      (!shut && LastFor(cancellations, d).None? && LastFor(extraInfos, d).None? ==>
         r == if closedHere then closedEvent else Some(pageEvent)) &&
      (shut && r.Some? ==> r.value.title != "") &&
      (shut && r.Some? ==>
         exists j :: 0 <= j < |shutdowns| && ExtClosedOn(shutdowns[j].0, d) && r.value == shutdowns[j].1)
  {
    var lo, hi := OccurrenceFrom(numDays, fromDate), OccurrenceTo(toDate);
    OccurrencePrecedence(extraInfos, cancellations, shutdowns, lo, hi, d, closedHere, closedEvent, pageEvent);
    ShutdownDecides(shutdowns, lo, hi, d);
    var pairs := ShutdownPairs(shutdowns, lo, hi);
    var shut := LastFor(pairs, d);
    if shut.Some? {
      var i :| 0 <= i < |pairs| && pairs[i] == (d, shut.value);
    }
  }

  // ---------------------------------------------------------------------
  // Postponements

  const Postponed := "Postponed"
  const Rescheduled := "Rescheduled"

  /**
   * `PostponementPage.what`: "Postponed" when the new start is later than
   * the original one, else "Rescheduled" when it is earlier or the end
   * differs, else nothing.  Both ends are counted from the original date.
   */
  function What(exceptDate: int, origTimeFrom: Option<TimeOfDay>, origTimeTo: Option<TimeOfDay>, origNumDays: int,
                date: int, timeFrom: Option<TimeOfDay>, timeTo: Option<TimeOfDay>, numDays: int): (r: Option<string>)
    ensures r == Some(Postponed) <==>
      exceptDate < date || (exceptDate == date && TimeFrom(origTimeFrom) < TimeFrom(timeFrom))
    ensures r.None? <==>
      exceptDate == date && TimeFrom(origTimeFrom) == TimeFrom(timeFrom) &&
      origNumDays == numDays && TimeTo(origTimeTo) == TimeTo(timeTo)
  {
    var originalFromDt := Combine(exceptDate, TimeFrom(origTimeFrom));
    var changedFromDt := Combine(date, TimeFrom(timeFrom));
    var originalToDt := Combine(exceptDate + origNumDays - 1, TimeTo(origTimeTo));
    var changedToDt := Combine(exceptDate + numDays - 1, TimeTo(timeTo));
    CombineOrder(exceptDate, TimeFrom(origTimeFrom), date, TimeFrom(timeFrom));
    CombineOrder(date, TimeFrom(timeFrom), exceptDate, TimeFrom(origTimeFrom));
    CombineParts(exceptDate + origNumDays - 1, TimeTo(origTimeTo));
    CombineParts(exceptDate + numDays - 1, TimeTo(timeTo));
    if originalFromDt < changedFromDt then Some(Postponed)
    else if originalFromDt > changedFromDt || originalToDt != changedToDt then Some(Rescheduled)
    else None
  }

  /**
   * The end is counted from the original date, not the new one; this
   * never changes the answer, since the ends only matter when the start is
   * unchanged.
   */
  lemma WhatEndFromNewDate(exceptDate: int, origTimeFrom: Option<TimeOfDay>, origTimeTo: Option<TimeOfDay>,
                           origNumDays: int, date: int, timeFrom: Option<TimeOfDay>, timeTo: Option<TimeOfDay>,
                           numDays: int)
    ensures var originalFromDt := Combine(exceptDate, TimeFrom(origTimeFrom));
      var changedFromDt := Combine(date, TimeFrom(timeFrom));
      var originalToDt := Combine(exceptDate + origNumDays - 1, TimeTo(origTimeTo));
      var newToDt := Combine(date + numDays - 1, TimeTo(timeTo));
      What(exceptDate, origTimeFrom, origTimeTo, origNumDays, date, timeFrom, timeTo, numDays) ==
        if originalFromDt < changedFromDt then Some(Postponed)
        else if originalFromDt > changedFromDt || originalToDt != newToDt then Some(Rescheduled)
        else None
  {
    CombineOrder(exceptDate, TimeFrom(origTimeFrom), date, TimeFrom(timeFrom));
    CombineOrder(date, TimeFrom(timeFrom), exceptDate, TimeFrom(origTimeFrom));
  }
}

=== FILE: sorting.dfy ===
/**
 * A stable sort by an integer key, the behaviour of Python's `list.sort`
 * with a `key` function: the result is ordered by key, holds the same
 * elements, and elements with equal keys keep their relative order.
 */
module Sorting {
  predicate SortedBy<T>(xs: seq<T>, key: T -> int) {
    forall i, j :: 0 <= i < j < |xs| ==> key(xs[i]) <= key(xs[j])
  }

  /** The elements of `xs` whose key is `k`, in their order in `xs`. */
  function WithKey<T>(xs: seq<T>, key: T -> int, k: int): seq<T> {
    if xs == [] then []
    else WithKey(xs[..|xs| - 1], key, k) + (if key(xs[|xs| - 1]) == k then [xs[|xs| - 1]] else [])
  }

  /** Inserts `x` into a sorted list after every element whose key is not greater. */
  function InsertAfter<T>(xs: seq<T>, x: T, key: T -> int): seq<T> {
    if xs == [] || key(xs[|xs| - 1]) <= key(x) then xs + [x]
    else InsertAfter(xs[..|xs| - 1], x, key) + [xs[|xs| - 1]]
  }

  /** Insertion sort, taking the elements from the front. */
  function SortByKey<T>(xs: seq<T>, key: T -> int): seq<T> {
    if xs == [] then [] else InsertAfter(SortByKey(xs[..|xs| - 1], key), xs[|xs| - 1], key)
  }

  lemma {:induction false} InsertAfterElements<T>(xs: seq<T>, x: T, key: T -> int)
    ensures multiset(InsertAfter(xs, x, key)) == multiset(xs) + multiset{x}
    decreases |xs|
  {
    if !(xs == [] || key(xs[|xs| - 1]) <= key(x)) {
      var n := |xs| - 1;
      InsertAfterElements(xs[..n], x, key);
      assert xs == xs[..n] + [xs[n]];
    }
  }

  lemma {:induction false} InsertAfterSorted<T>(xs: seq<T>, x: T, key: T -> int)
    requires SortedBy(xs, key)
    ensures SortedBy(InsertAfter(xs, x, key), key)
    decreases |xs|
  {
    var r := InsertAfter(xs, x, key);
    if xs == [] || key(xs[|xs| - 1]) <= key(x) {
      assert r[..|r| - 1] == xs;
    } else {
      var n := |xs| - 1;
      var init := xs[..n];
      var last := xs[n];
      assert SortedBy(init, key);
      InsertAfterSorted(init, x, key);
      InsertAfterElements(init, x, key);
      var r0 := InsertAfter(init, x, key);
      assert r == r0 + [last];
      forall i | 0 <= i < |r0|
        ensures key(r0[i]) <= key(last)
      {
        assert r0[i] in multiset(r0);
        if r0[i] != x {
          assert r0[i] in multiset(init);
          var i' :| 0 <= i' < |init| && init[i'] == r0[i];
          assert key(xs[i']) <= key(xs[n]);
        }
      }
    }
  }

  lemma {:induction false} InsertAfterWithKey<T>(xs: seq<T>, x: T, key: T -> int, k: int)
    ensures WithKey(InsertAfter(xs, x, key), key, k) ==
              WithKey(xs, key, k) + (if key(x) == k then [x] else [])
    decreases |xs|
  {
    var r := InsertAfter(xs, x, key);
    if xs == [] || key(xs[|xs| - 1]) <= key(x) {
      assert r[..|r| - 1] == xs;
    } else {
      var n := |xs| - 1;
      InsertAfterWithKey(xs[..n], x, key, k);
      var r0 := InsertAfter(xs[..n], x, key);
      assert r[..|r| - 1] == r0;
    }
  }

  /** The sort orders by key, keeps every element, and keeps equal keys in their order. */
  lemma {:induction false} SortByKeyCorrect<T>(xs: seq<T>, key: T -> int)
    ensures SortedBy(SortByKey(xs, key), key)
    ensures multiset(SortByKey(xs, key)) == multiset(xs)
    ensures forall k :: WithKey(SortByKey(xs, key), key, k) == WithKey(xs, key, k)
  {
    if xs != [] {
      var n := |xs| - 1;
      SortByKeyCorrect(xs[..n], key);
      var s := SortByKey(xs[..n], key);
      InsertAfterSorted(s, xs[n], key);
      InsertAfterElements(s, xs[n], key);
      forall k ensures WithKey(SortByKey(xs, key), key, k) == WithKey(xs, key, k) {
        InsertAfterWithKey(s, xs[n], key, k);
      }
      assert xs == xs[..n] + [xs[n]];
    }
  }
}

=== FILE: telltime.dfy ===
/**
 * Times of day that may be missing, naive datetimes, and the structure of
 * the time and date phrases.  Django's `time_format` and `format` are
 * parameters; "today" is the parameter `todayYear`.
 */
module TellTime {
  import opened Wrappers
  import opened Text
  import opened Dates

  /** A naive datetime: microseconds since midnight starting day ordinal 0. */
  function Combine(day: int, t: TimeOfDay): (r: int) {
    day * MicrosPerDay + t
  }

  /** A datetime determines its day and its time of day. */
  lemma CombineParts(day: int, t: TimeOfDay)
    ensures Combine(day, t) / MicrosPerDay == day
    ensures Combine(day, t) % MicrosPerDay == t
  {
  }

  /** Datetimes order by day first, then by time of day. */
  lemma CombineOrder(d1: int, t1: TimeOfDay, d2: int, t2: TimeOfDay)
    ensures Combine(d1, t1) < Combine(d2, t2) <==> d1 < d2 || (d1 == d2 && t1 < t2)
  {
    if d1 < d2 {
      assert Combine(d1, t1) < (d1 + 1) * MicrosPerDay <= Combine(d2, t2);
    } else if d1 > d2 {
      assert Combine(d2, t2) < (d2 + 1) * MicrosPerDay <= Combine(d1, t1);
    }
  }

  /** `timeFrom(t)`: a missing start time is the earliest time of day. */
  function TimeFrom(t: Option<TimeOfDay>): (r: TimeOfDay)
    ensures t.Some? ==> r == t.value
    ensures t.None? ==> r == TimeMin
  {
    if t.Some? then t.value else TimeMin
  }

  /** `timeTo(t)`: a missing end time is the latest time of day. */
  function TimeTo(t: Option<TimeOfDay>): (r: TimeOfDay)
    ensures t.Some? ==> r == t.value
    ensures t.None? ==> r == TimeMax
  {
    if t.Some? then t.value else TimeMax
  }

  /** `getDatetime(d, t, default)`: the default time replaces only a missing one. */
  function GetDatetime(day: int, t: Option<TimeOfDay>, default: TimeOfDay): (r: int)
    ensures r / MicrosPerDay == day
    ensures t.Some? ==> r % MicrosPerDay == t.value
    ensures t.None? ==> r % MicrosPerDay == default
  {
    CombineParts(day, t.GetOr(default));
    Combine(day, t.GetOr(default))
  }

  function DatetimeFrom(day: int, t: Option<TimeOfDay>): (r: int)
    ensures r == GetDatetime(day, t, TimeMin)
  {
    Combine(day, TimeFrom(t))
  }

  function DatetimeTo(day: int, t: Option<TimeOfDay>): (r: int)
    ensures r == GetDatetime(day, t, TimeMax)
  {
    Combine(day, TimeTo(t))
  }

  /** An event with missing times spans its whole days. */
  lemma DatetimeBounds(day: int, t: TimeOfDay)
    ensures DatetimeFrom(day, None) <= Combine(day, t) <= DatetimeTo(day, None)
  {
  }

  /**
   * A `time_from`/`time_to` argument: missing (None), the empty string, or
   * a time.  Only a time counts as present.
   */
  datatype TimeArg = Missing | Blank | Given(t: TimeOfDay) {
    predicate Present() { this.Given? }
  }

  /**
   * `timeFormat(from, to, prefix, infix)`: the prefix and the start time if
   * a start time is present, then the infix and the end time if an end time
   * is present.  `fromText` and `toText` are the lower-cased formatted times.
   */
  function TimeFormat(from: TimeArg, to: TimeArg, prefix: string, infix: string,
                      fromText: TimeOfDay -> string, toText: TimeOfDay -> string): (r: string)
    ensures !from.Present() && !to.Present() ==> r == ""
    ensures from.Present() && !to.Present() ==> r == prefix + fromText(from.t)
    ensures !from.Present() && to.Present() ==> r == infix + toText(to.t)
    ensures from.Present() ==>
      |prefix + fromText(from.t)| <= |r| && r[..|prefix + fromText(from.t)|] == prefix + fromText(from.t)
    ensures to.Present() ==>
      |infix + toText(to.t)| <= |r| && r[|r| - |infix + toText(to.t)|..] == infix + toText(to.t)
  {
    var head := if from.Present() then prefix + fromText(from.t) else "";
    var tail := if to.Present() then infix + toText(to.t) else "";
    assert (head + tail)[..|head|] == head;
    assert (head + tail)[|head + tail| - |tail|..] == tail;
    head + tail
  }

  /**
   * `dateFormat(when)`: empty for None; otherwise the formatted date, with
   * the year appended when it is not the current year.
   */
  function DateFormat(when: Option<Date>, todayYear: int, format: Date -> string): (r: string)
    ensures when.None? ==> r == ""
    ensures when.Some? && when.value.year == todayYear ==> r == format(when.value)
    ensures when.Some? && when.value.year != todayYear ==>
      r == format(when.value) + " " + IntToString(when.value.year)
  {
    match when
    case None => ""
    case Some(d) =>
      format(d) + (if d.year != todayYear then " " + IntToString(d.year) else "")
  }

  /** The year appended by `DateFormat` reads back as the year. */
  lemma DateFormatYear(d: Date, todayYear: int, format: Date -> string)
    requires d.year != todayYear && d.year >= 0
    ensures
      var r := DateFormat(Some(d), todayYear, format);
      var n := |format(d)| + 1;
      n <= |r| && r[..n] == format(d) + " " && AllDigits(r[n..]) && ParseNat(r[n..]) == d.year
  {
    var r := DateFormat(Some(d), todayYear, format);
    var n := |format(d)| + 1;
    assert r[n..] == NatToString(d.year);
    ParseNatToString(d.year);
  }

  /** `dateFormatDMY(when)`: the day-month-year format, empty for None. */
  function DateFormatDMY(when: Option<Date>, format: Date -> string): (r: string)
    ensures when.None? ==> r == ""
    ensures when.Some? ==> r == format(when.value)
  {
    if when.Some? then format(when.value) else ""
  }
}

=== FILE: text.dfy ===
/**
 * The handful of Python string operations the core relies on: decimal
 * formatting, zero padding, `str.join`, `str.split` on a separator,
 * the `in` test on strings, ASCII `str.lower` and order-preserving
 * removal of duplicates (`OrderedDict.fromkeys`).
 */
module Text {

  predicate IsDigit(c: char) {
    '0' <= c <= '9'
  }

  predicate AllDigits(s: string) {
    forall i :: 0 <= i < |s| ==> IsDigit(s[i])
  }

  function DigitChar(d: int): (c: char)
    requires 0 <= d < 10
    ensures IsDigit(c)
  {
    "0123456789"[d]
  }

  function DigitValue(c: char): int
    requires IsDigit(c)
  {
    c as int - '0' as int
  }

  /** `str(n)` for a non-negative integer: no leading zeros. */
  function NatToString(n: nat): (s: string)
    ensures |s| >= 1 && AllDigits(s)
    ensures |s| > 1 ==> s[0] != '0'
  {
    if n < 10 then [DigitChar(n)] else NatToString(n / 10) + [DigitChar(n % 10)]
  }

  /** `int(s)` for a string of decimal digits. */
  function ParseNat(s: string): nat
    requires AllDigits(s)
  {
    if s == [] then 0 else 10 * ParseNat(s[..|s| - 1]) + DigitValue(s[|s| - 1])
  }

  /** Reading back a formatted number gives the number. */
  lemma {:induction false} ParseNatToString(n: nat)
    ensures ParseNat(NatToString(n)) == n
  {
    var s := NatToString(n);
    if n >= 10 {
      ParseNatToString(n / 10);
      assert s[..|s| - 1] == NatToString(n / 10);
    }
  }

  /** Distinct numbers have distinct decimal forms. */
  lemma NatToStringInjective(a: nat, b: nat)
    requires NatToString(a) == NatToString(b)
    ensures a == b
  {
    ParseNatToString(a);
    ParseNatToString(b);
  }

  function Pow10(k: nat): (p: nat)
    ensures p >= 1
  {
    if k == 0 then 1 else 10 * Pow10(k - 1)
  }

  /** A number below `10^k` has at most `k` digits. */
  lemma {:induction false} NatToStringAtMost(n: nat, k: nat)
    requires k >= 1 && n < Pow10(k)
    ensures |NatToString(n)| <= k
  {
    if n >= 10 {
      assert Pow10(1) == 10;
      assert k >= 2;
      assert n / 10 < Pow10(k - 1);
      NatToStringAtMost(n / 10, k - 1);
    }
  }

  /** `str(i)` for any integer. */
  function IntToString(i: int): (s: string)
    ensures |s| >= 1
    ensures i >= 0 <==> s[0] != '-'
  {
    if i < 0 then "-" + NatToString(-i) else NatToString(i)
  }

  /** `"{:+d}".format(i)`: the sign is always written. */
  function SignedToString(i: int): (s: string)
    ensures |s| >= 2 && (s[0] == '+' <==> i >= 0) && (s[0] == '-' <==> i < 0)
  {
    if i < 0 then "-" + NatToString(-i) else "+" + NatToString(i)
  }

  function Repeat(c: char, n: nat): (s: string)
    ensures |s| == n && forall i :: 0 <= i < n ==> s[i] == c
  {
    if n == 0 then [] else [c] + Repeat(c, n - 1)
  }

  /** `"%0*d" % (width, n)`: `str(n)` left-padded with zeros to `width`. */
  function ZeroPad(n: nat, width: nat): (s: string)
    ensures AllDigits(s)
    ensures |s| == if |NatToString(n)| >= width then |NatToString(n)| else width
  {
    var digits := NatToString(n);
    (if |digits| >= width then "" else Repeat('0', width - |digits|)) + digits
  }

  lemma {:induction false} ParseLeadingZeros(k: nat, s: string)
    requires AllDigits(s)
    ensures AllDigits(Repeat('0', k) + s) && ParseNat(Repeat('0', k) + s) == ParseNat(s)
    decreases |s|
  {
    var t := Repeat('0', k) + s;
    if s == [] {
      assert t == Repeat('0', k);
      ZerosParseToZero(k);
    } else {
      ParseLeadingZeros(k, s[..|s| - 1]);
      assert t[..|t| - 1] == Repeat('0', k) + s[..|s| - 1];
    }
  }

  lemma {:induction false} ZerosParseToZero(k: nat)
    ensures ParseNat(Repeat('0', k)) == 0
  {
    if k > 0 {
      var t := Repeat('0', k);
      ZerosParseToZero(k - 1);
      assert t[..|t| - 1] == Repeat('0', k - 1);
    }
  }

  /** Zero padding does not change the value read back. */
  lemma ParseZeroPad(n: nat, width: nat)
    ensures ParseNat(ZeroPad(n, width)) == n
  {
    ParseNatToString(n);
    var digits := NatToString(n);
    if |digits| < width {
      ParseLeadingZeros(width - |digits|, digits);
    } else {
      assert ZeroPad(n, width) == digits;
    }
  }

  /** `sep.join(parts)`. */
  function Join(parts: seq<string>, sep: string): (s: string)
    ensures |parts| == 1 ==> s == parts[0]
  {
    if |parts| == 0 then ""
    else if |parts| == 1 then parts[0]
    else parts[0] + sep + Join(parts[1..], sep)
  }

  /**
   * `s.split(sep)` for a non-empty separator: the pieces between the
   * leftmost non-overlapping occurrences of `sep`.
   */
  function Split(s: string, sep: string): (parts: seq<string>)
    requires |sep| > 0
    ensures |parts| >= 1
    decreases |s|
  {
    if |s| < |sep| then [s]
    else if s[..|sep|] == sep then [""] + Split(s[|sep|..], sep)
    else
      var rest := Split(s[1..], sep);
      [[s[0]] + rest[0]] + rest[1..]
  }

  /** Joining the pieces of a split restores the string. */
  lemma {:induction false} JoinSplit(s: string, sep: string)
    requires |sep| > 0
    ensures Join(Split(s, sep), sep) == s
    decreases |s|
  {
    if |s| < |sep| {
    } else if s[..|sep|] == sep {
      JoinSplit(s[|sep|..], sep);
      var rest := Split(s[|sep|..], sep);
      assert Split(s, sep) == [""] + rest;
      assert ([""] + rest)[1..] == rest;
      assert s == sep + s[|sep|..];
    } else {
      JoinSplit(s[1..], sep);
      var rest := Split(s[1..], sep);
      assert Split(s, sep) == [[s[0]] + rest[0]] + rest[1..];
      JoinConsFirst(s[0], rest, sep);
      assert s == [s[0]] + s[1..];
    }
  }

  /** Putting a character in front of the first piece puts it in front of the join. */
  lemma JoinConsFirst(c: char, rest: seq<string>, sep: string)
    requires |rest| >= 1
    ensures Join([[c] + rest[0]] + rest[1..], sep) == [c] + Join(rest, sep)
  {
    var parts := [[c] + rest[0]] + rest[1..];
    if |rest| > 1 {
      assert parts[1..] == rest[1..];
    }
  }

  /** A string free of the separator character splits into itself. */
  lemma {:induction false} SplitNoSep(a: string, c: char)
    requires c !in a
    ensures Split(a, [c]) == [a]
    decreases |a|
  {
    if |a| >= 1 {
      assert a[..1] != [c] by { assert a[..1][0] == a[0]; }
      SplitNoSep(a[1..], c);
      assert [a[0]] + a[1..] == a;
    }
  }

  /** Splitting at the first separator character peels off the first piece. */
  lemma {:induction false} SplitPrefix(a: string, c: char, rest: string)
    requires c !in a
    ensures Split(a + [c] + rest, [c]) == [a] + Split(rest, [c])
    decreases |a|
  {
    var s := a + [c] + rest;
    if a == [] {
      assert s[..1] == [c] && s[1..] == rest;
    } else {
      assert s[..1] != [c] by { assert s[..1][0] == a[0]; }
      assert s[1..] == a[1..] + [c] + rest;
      SplitPrefix(a[1..], c, rest);
      assert [a[0]] + a[1..] == a;
    }
  }

  /** With a one-character separator no piece contains, split undoes join. */
  lemma {:induction false} SplitJoin(parts: seq<string>, c: char)
    requires |parts| >= 1
    requires forall i :: 0 <= i < |parts| ==> c !in parts[i]
    ensures Split(Join(parts, [c]), [c]) == parts
  {
    if |parts| == 1 {
      SplitNoSep(parts[0], c);
    } else {
      SplitJoin(parts[1..], c);
      SplitPrefix(parts[0], c, Join(parts[1..], [c]));
      assert [parts[0]] + parts[1..] == parts;
    }
  }

  predicate OccursAt(hay: string, needle: string, i: int) {
    0 <= i && i + |needle| <= |hay| && hay[i..i + |needle|] == needle
  }

  /** `needle in hay` on strings. */
  predicate Contains(hay: string, needle: string) {
    exists i :: 0 <= i <= |hay| && OccursAt(hay, needle, i)
  }

  lemma ContainsSelf(s: string)
    ensures Contains(s, s)
  {
    assert OccursAt(s, s, 0);
  }

  /**
   * The strings of `items` occur in `s` one after another, without
   * overlapping, in their order.
   */
  predicate AppearsInOrder(s: string, items: seq<string>)
    decreases |items|
  {
    items == [] ||
    exists i :: 0 <= i <= |s| && OccursAt(s, items[0], i) && AppearsInOrder(s[i + |items[0]|..], items[1..])
  }

  lemma {:induction false} AppearsAfterPrefix(p: string, s: string, items: seq<string>)
    requires AppearsInOrder(s, items)
    ensures AppearsInOrder(p + s, items)
  {
    if items != [] {
      var x := items[0];
      var i :| 0 <= i <= |s| && OccursAt(s, x, i) && AppearsInOrder(s[i + |x|..], items[1..]);
      assert 0 <= i && i + |x| <= |s|;
      var t := p + s;
      assert t[|p| + i..|p| + i + |x|] == x;
      assert OccursAt(t, x, |p| + i);
      assert t[|p| + i + |x|..] == s[i + |x|..];
    }
  }

  /** Order of appearance is kept by concatenation. */
  lemma {:induction false} AppearsInOrderConcat(a: string, xs: seq<string>, b: string, ys: seq<string>)
    requires AppearsInOrder(a, xs) && AppearsInOrder(b, ys)
    ensures AppearsInOrder(a + b, xs + ys)
    decreases |xs|
  {
    if xs == [] {
      assert xs + ys == ys;
      AppearsAfterPrefix(a, b, ys);
    } else {
      var x := xs[0];
      var i :| 0 <= i <= |a| && OccursAt(a, x, i) && AppearsInOrder(a[i + |x|..], xs[1..]);
      assert 0 <= i && i + |x| <= |a|;
      AppearsInOrderConcat(a[i + |x|..], xs[1..], b, ys);
      ConcatAt(a, b, x, i);
      assert (xs + ys)[0] == x && (xs + ys)[1..] == xs[1..] + ys;
      AppearsFirstAt(a + b, xs + ys, i);
    }
  }

  /** What occurs at `i` in `a` occurs there in `a + b`, and `b` follows its tail. */
  lemma ConcatAt(a: string, b: string, x: string, i: int)
    requires OccursAt(a, x, i)
    ensures OccursAt(a + b, x, i) && (a + b)[i + |x|..] == a[i + |x|..] + b
  {
    assert (a + b)[i..i + |x|] == a[i..i + |x|];
  }

  /** The first item at `i` and the rest after it is an appearance in order. */
  lemma AppearsFirstAt(s: string, items: seq<string>, i: int)
    requires items != [] && 0 <= i <= |s| && OccursAt(s, items[0], i)
    requires AppearsInOrder(s[i + |items[0]|..], items[1..])
    ensures AppearsInOrder(s, items)
  {
  }

  lemma AppearsInOrderSingle(s: string)
    ensures AppearsInOrder(s, [s])
  {
    assert s[0..|s|] == s;
    assert OccursAt(s, s, 0);
    assert [s][1..] == [] && s[|s|..] == [];
    var items := [s];
    assert items[0] == s;
    assert 0 <= 0 <= |s| && OccursAt(s, items[0], 0) && AppearsInOrder(s[0 + |items[0]|..], items[1..]);
  }

  /** A joined string shows every part, in order. */
  lemma {:induction false} JoinAppearsInOrder(parts: seq<string>, sep: string)
    ensures AppearsInOrder(Join(parts, sep), parts)
  {
    if |parts| == 1 {
      AppearsInOrderSingle(parts[0]);
    } else if |parts| > 1 {
      JoinAppearsInOrder(parts[1..], sep);
      AppearsInOrderSingle(parts[0]);
      AppearsAfterPrefix(sep, Join(parts[1..], sep), parts[1..]);
      AppearsInOrderConcat(parts[0], [parts[0]], sep + Join(parts[1..], sep), parts[1..]);
      assert parts[0] + sep + Join(parts[1..], sep) == parts[0] + (sep + Join(parts[1..], sep));
      assert [parts[0]] + parts[1..] == parts;
    }
  }

  /** The ASCII whitespace: space, tab, newline, vertical tab, form feed and carriage return. */
  predicate IsSpace(c: char) {
    c == ' ' || c == '\t' || c == '\n' || c == '\U{000B}' || c == '\U{000C}' || c == '\r'
  }

  /** `s` without its leading whitespace. */
  function TrimStart(s: string): (r: string)
    ensures |r| <= |s|
    ensures r != [] ==> !IsSpace(r[0])
  {
    if s != [] && IsSpace(s[0]) then TrimStart(s[1..]) else s
  }

  /** `s` without its trailing whitespace. */
  function TrimEnd(s: string): (r: string)
    ensures |r| <= |s|
    ensures r != [] ==> !IsSpace(r[|r| - 1])
  {
    if s != [] && IsSpace(s[|s| - 1]) then TrimEnd(s[..|s| - 1]) else s
  }

  /** What `TrimStart` leaves is a suffix of the string, and only whitespace went. */
  lemma {:induction false} TrimStartSuffix(s: string)
    ensures var r := TrimStart(s);
      r == s[|s| - |r|..] && forall i :: 0 <= i < |s| - |r| ==> IsSpace(s[i])
  {
    if s != [] && IsSpace(s[0]) {
      TrimStartSuffix(s[1..]);
      var r := TrimStart(s[1..]);
      assert s[1..][|s| - 1 - |r|..] == s[|s| - |r|..];
      forall i | 1 <= i < |s| - |r| ensures IsSpace(s[i]) {
        assert s[i] == s[1..][i - 1];
      }
    } else {
      assert s[0..] == s;
    }
  }

  /** What `TrimEnd` leaves is a prefix of the string, and only whitespace went. */
  lemma {:induction false} TrimEndPrefix(s: string)
    ensures var r := TrimEnd(s);
      r == s[..|r|] && forall i :: |r| <= i < |s| ==> IsSpace(s[i])
  {
    if s != [] && IsSpace(s[|s| - 1]) {
      var init := s[..|s| - 1];
      TrimEndPrefix(init);
      var r := TrimEnd(init);
      assert init[..|r|] == s[..|r|];
      forall i | |r| <= i < |s| - 1 ensures IsSpace(s[i]) {
        assert s[i] == init[i];
      }
    } else {
      assert s[..|s|] == s;
    }
  }

  /** `str.strip()`: both ends trimmed. */
  function Trim(s: string): string {
    TrimEnd(TrimStart(s))
  }

  predicate AllSpace(s: string) {
    forall i :: 0 <= i < |s| ==> IsSpace(s[i])
  }

  /** Whitespace in front of a string is trimmed away. */
  lemma {:induction false} TrimStartSpaces(p: string, s: string)
    requires AllSpace(p)
    ensures TrimStart(p + s) == TrimStart(s)
  {
    if p != [] {
      var t := p + s;
      assert t[0] == p[0] && IsSpace(t[0]);
      assert t[1..] == p[1..] + s;
      TrimStartSpaces(p[1..], s);
      assert TrimStart(t) == TrimStart(t[1..]);
    } else {
      assert p + s == s;
    }
  }

  /** Whitespace behind a string is trimmed away. */
  lemma {:induction false} TrimEndSpaces(s: string, p: string)
    requires AllSpace(p)
    ensures TrimEnd(s + p) == TrimEnd(s)
  {
    if p != [] {
      var t := s + p;
      assert t[|t| - 1] == p[|p| - 1] && IsSpace(t[|t| - 1]);
      assert t[..|t| - 1] == s + p[..|p| - 1];
      TrimEndSpaces(s, p[..|p| - 1]);
      assert TrimEnd(t) == TrimEnd(t[..|t| - 1]);
    } else {
      assert s + p == s;
    }
  }

  /** A string that neither starts nor ends with whitespace is its own trim. */
  lemma TrimNone(s: string)
    requires s != [] ==> !IsSpace(s[0]) && !IsSpace(s[|s| - 1])
    ensures Trim(s) == s
  {
  }

  /** Whitespace around a string without any at its ends is exactly what `strip` removes. */
  lemma TrimSpaced(p: string, s: string, q: string)
    requires AllSpace(p) && AllSpace(q)
    requires s != [] && !IsSpace(s[0]) && !IsSpace(s[|s| - 1])
    ensures Trim(p + s + q) == s
  {
    assert p + s + q == p + (s + q);
    TrimStartSpaces(p, s + q);
    assert (s + q)[0] == s[0];
    assert TrimStart(s + q) == s + q;
    TrimEndSpaces(s, q);
  }

  /** ASCII case folding, `str.lower` restricted to the letters A to Z. */
  function LowerChar(c: char): char {
    if 'A' <= c <= 'Z' then (c as int + 32) as char else c
  }

  function Lower(s: string): (r: string)
    ensures |r| == |s|
    ensures forall i :: 0 <= i < |s| ==> r[i] == LowerChar(s[i])
  {
    if s == [] then [] else [LowerChar(s[0])] + Lower(s[1..])
  }

  lemma LowerIdempotent(s: string)
    ensures Lower(Lower(s)) == Lower(s)
  {
  }

  // ---------------------------------------------------------------------
  // Order-preserving removal of duplicates

  predicate NoDuplicates<T(==)>(xs: seq<T>) {
    forall i, j :: 0 <= i < j < |xs| ==> xs[i] != xs[j]
  }

  /** Position of the first occurrence of `x` in `xs`. */
  function FirstIndex<T(==)>(xs: seq<T>, x: T): (i: nat)
    requires x in xs
    ensures i < |xs| && xs[i] == x
    ensures forall j :: 0 <= j < i ==> xs[j] != x
  {
    if xs[0] == x then 0 else 1 + FirstIndex(xs[1..], x)
  }

  lemma FirstIndexPrefix<T>(xs: seq<T>, n: nat, x: T)
    requires n <= |xs| && x in xs[..n]
    ensures FirstIndex(xs, x) == FirstIndex(xs[..n], x)
  {
    var i := FirstIndex(xs[..n], x);
    var j := FirstIndex(xs, x);
    assert xs[i] == x;
    assert forall k :: 0 <= k < i ==> xs[k] == xs[..n][k];
    assert j <= i;
    assert j < n && xs[..n][j] == x;
  }

  /**
   * `list(OrderedDict.fromkeys(xs))`: every element once, in the order of
   * its first occurrence.
   */
  function Dedup<T(==)>(xs: seq<T>): seq<T> {
    if xs == [] then []
    else
      var r := Dedup(xs[..|xs| - 1]);
      if xs[|xs| - 1] in r then r else r + [xs[|xs| - 1]]
  }

  /** `Dedup` keeps exactly the elements of its input. */
  lemma {:induction false} DedupMembers<T>(xs: seq<T>)
    ensures forall i :: 0 <= i < |Dedup(xs)| ==> Dedup(xs)[i] in xs
    ensures forall i :: 0 <= i < |xs| ==> xs[i] in Dedup(xs)
  {
    if xs != [] {
      var n := |xs| - 1;
      DedupMembers(xs[..n]);
      assert xs == xs[..n] + [xs[n]];
      assert forall i :: 0 <= i < n ==> xs[i] == xs[..n][i];
    }
  }

  /** Each element appears in `Dedup(xs)` once. */
  lemma {:induction false} DedupNoDuplicates<T>(xs: seq<T>)
    ensures NoDuplicates(Dedup(xs))
  {
    if xs != [] {
      DedupNoDuplicates(xs[..|xs| - 1]);
    }
  }

  /** `Dedup(xs)` lists its elements in the order they first occur in `xs`. */
  lemma {:induction false} DedupOrder<T>(xs: seq<T>)
    ensures forall i, j :: 0 <= i < j < |Dedup(xs)| ==>
      Dedup(xs)[i] in xs && Dedup(xs)[j] in xs &&
      FirstIndex(xs, Dedup(xs)[i]) < FirstIndex(xs, Dedup(xs)[j])
  {
    DedupMembers(xs);
    if xs != [] {
      var n := |xs| - 1;
      var r := Dedup(xs[..n]);
      DedupOrder(xs[..n]);
      DedupMembers(xs[..n]);
      forall i | 0 <= i < |r|
        ensures FirstIndex(xs, r[i]) == FirstIndex(xs[..n], r[i])
      {
        FirstIndexPrefix(xs, n, r[i]);
      }
      if xs[n] in r {
        assert Dedup(xs) == r;
      } else {
        assert xs[n] !in xs[..n];
        assert forall j :: 0 <= j < n ==> xs[j] == xs[..n][j];
        assert FirstIndex(xs, xs[n]) == n;
        var r' := r + [xs[n]];
        assert Dedup(xs) == r';
        forall i, j | 0 <= i < j < |r'|
          ensures FirstIndex(xs, r'[i]) < FirstIndex(xs, r'[j])
        {
          assert r'[i] == r[i];
          if j < |r| {
            assert r'[j] == r[j];
          } else {
            assert FirstIndex(xs[..n], r[i]) < n;
          }
        }
      }
    }
  }
}

=== FILE: this_week.dfy ===
/**
 * The seven-day window of the "events this week" tag: it starts on today
 * when today is a Sunday and on the Monday of this week otherwise.
 * "Today" is the parameter `today`, a day ordinal.
 */
module ThisWeek {
  import opened Wrappers
  import opened Dates
  import opened Weeks

  /** The window's first and last day ordinals. */
  datatype Window = Window(begin: int, end: int)

  /**
   * `events_this_week`'s window.  Building the last day fails when it
   * would lie after 31 December 9999.
   */
  function EventsThisWeek(today: int): (r: Result<Window>)
    requires IsValidOrdinal(today)
    ensures r.Failure? <==> WindowBegin(today) + 6 > MaxOrdinal
    ensures r.Success? ==> r.value.begin == WindowBegin(today) && r.value.end == r.value.begin + 6
    ensures r.Success? ==> r.value.begin <= today <= r.value.end
  {
    var begin := WindowBegin(today);
    var end := begin + 6;
    if end > MaxOrdinal then Failure("ordinal must be in 1..3652059") else Success(Window(begin, end))
  }

  /** The first day: today on a Sunday, otherwise the Monday before or on today. */
  function WindowBegin(today: int): (r: int)
    requires IsValidOrdinal(today)
    ensures Weekday(today) == Sunday ==> r == today
    ensures Weekday(today) != Sunday ==> Weekday(r) == Monday && today - 6 <= r <= today
    ensures IsValidOrdinal(r)
  {
    if Weekday(today) != 6 then today - Weekday(today) else today
  }

  /**
   * Only the last six days of the calendar, 26 to 31 December 9999, have
   * no window: from there this week would end after the last day.
   */
  lemma {:induction false} WindowFailsAtEnd(today: int)
    requires IsValidOrdinal(today)
    ensures EventsThisWeek(today).Failure? <==> today >= MaxOrdinal - 5
  {
    assert Weekday(MaxOrdinal - 5) == Sunday;
    if today > MaxOrdinal - 5 {
      assert Weekday(today) == today - (MaxOrdinal - 4);
    }
  }
}

=== FILE: weeks.dfy ===
/**
 * Week numbering, with weeks that start on Monday (ISO 8601 section
 * 3.2.2: week 1 of a year is the week holding 4 January) or on Sunday (the
 * same rule with Sunday-first weeks). Days are ordinals from `Dates`.
 *
 * The generic part is parametrised by `fw`, the weekday (Monday = 0) that
 * begins a week; the functions named after the source fix `fw` to
 * `Monday` or `Sunday` and compute the way the source does.
 */
module Weeks {
  import opened Dates

  const Monday := 0
  const Sunday := 6

  /** A week-numbering year, a week of it (from 1) and a day number. */
  datatype WeekDate = WeekDate(year: int, week: int, day: int)

  /** `(first_day, last_day, prev_year_num_weeks, year_num_weeks)`. */
  datatype WeekInfo = WeekInfo(firstDay: int, lastDay: int, prevYearNumWeeks: int, yearNumWeeks: int)

  /** Ordinal of 4 January of year `y`. */
  function Jan4(y: int): int {
    ToOrdinal(Date(y, 1, 4))
  }

  lemma Jan4Step(y: int)
    ensures Jan4(y + 1) == Jan4(y) + DaysInYear(y)
  {
    DaysBeforeYearStep(y);
  }

  // ---------------------------------------------------------------------
  // Generic week arithmetic

  /** The latest day on or before `n` that falls on weekday `fw`. */
  function WeekStart(n: int, fw: int): (r: int)
    requires 0 <= fw < 7
    ensures Weekday(r) == fw && n - 6 <= r <= n
  {
    n - (Weekday(n) - fw) % 7
  }

  /** First day of week 1: the week start on or before 4 January. */
  function YearStart(y: int, fw: int): (r: int)
    requires 0 <= fw < 7
    ensures Weekday(r) == fw && Jan4(y) - 6 <= r <= Jan4(y)
  {
    WeekStart(Jan4(y), fw)
  }

  lemma ModShift(x: int, y: int)
    ensures (x % 7 + y) % 7 == (x + y) % 7
  {
    var q := x / 7;
    assert x == 7 * q + x % 7;
    assert x + y == 7 * q + (x % 7 + y);
  }

  lemma WeekdayShift(f: int, k: int)
    ensures Weekday(f + k) == (Weekday(f) + k) % 7
  {
    ModShift(f + 6, k);
  }

  lemma ModSmall(x: int)
    requires 0 <= x < 7
    ensures x % 7 == x
  {
  }

  lemma SameWeekday(a: int, b: int)
    requires Weekday(a) == Weekday(b)
    ensures b - a == 7 * ((b - a) / 7)
  {
    var qa, qb := (a + 6) / 7, (b + 6) / 7;
    assert a + 6 == 7 * qa + Weekday(a);
    assert b + 6 == 7 * qb + Weekday(b);
    assert b - a == 7 * (qb - qa);
  }

  /** Consecutive year starts are 52 or 53 whole weeks apart. */
  lemma YearStartGap(y: int, fw: int)
    requires 0 <= fw < 7
    ensures YearStart(y + 1, fw) - YearStart(y, fw) in {364, 371}
  {
    Jan4Step(y);
    StartGap(Jan4(y), Jan4(y + 1), fw);
  }

  lemma StartGap(j0: int, j1: int, fw: int)
    requires 0 <= fw < 7 && 365 <= j1 - j0 <= 366
    ensures WeekStart(j1, fw) - WeekStart(j0, fw) in {364, 371}
  {
    var a, b := WeekStart(j0, fw), WeekStart(j1, fw);
    SameWeekday(a, b);
    var q := (b - a) / 7;
    assert 359 <= 7 * q <= 372;
  }

  /** Number of weeks of year `y`, the gap to the next year start in weeks. */
  function NumWeeks(y: int, fw: int): (r: int)
    requires 0 <= fw < 7
    ensures r == 52 || r == 53
    ensures YearStart(y, fw) + 7 * r == YearStart(y + 1, fw)
  {
    YearStartGap(y, fw);
    (YearStart(y + 1, fw) - YearStart(y, fw)) / 7
  }

  lemma {:induction false} YearStartMonotone(a: int, b: int, fw: int)
    requires 0 <= fw < 7 && a <= b
    ensures YearStart(a, fw) + 364 * (b - a) <= YearStart(b, fw)
    decreases b - a
  {
    if a < b {
      YearStartMonotone(a, b - 1, fw);
      YearStartGap(b - 1, fw);
    }
  }

  /** `n` lies in week-numbering year `y`. */
  predicate InWeekYear(n: int, y: int, fw: int)
    requires 0 <= fw < 7
  {
    YearStart(y, fw) <= n < YearStart(y + 1, fw)
  }

  /** A day lies in exactly one week-numbering year. */
  lemma WeekYearUnique(n: int, y1: int, y2: int, fw: int)
    requires 0 <= fw < 7
    requires InWeekYear(n, y1, fw) && InWeekYear(n, y2, fw)
    ensures y1 == y2
  {
    if y1 < y2 {
      YearStartMonotone(y1 + 1, y2, fw);
    } else if y2 < y1 {
      YearStartMonotone(y2 + 1, y1, fw);
    }
  }

  /** The week-numbering year of date `d`: its calendar year or a neighbour. */
  function WeekYear(d: Date, fw: int): (y: int)
    requires IsCivil(d) && 0 <= fw < 7
    ensures InWeekYear(ToOrdinal(d), y, fw)
    ensures d.year - 1 <= y <= d.year + 1
  {
    var n := ToOrdinal(d);
    OrdinalInYear(d);
    Jan4Step(d.year);
    Jan4Step(d.year + 1);
    if n < YearStart(d.year, fw) then d.year - 1
    else if n >= YearStart(d.year + 1, fw) then d.year + 1
    else d.year
  }

  lemma WeekYearChoice(d: Date, fw: int)
    requires IsCivil(d) && 0 <= fw < 7
    ensures WeekYear(d, fw) ==
      if ToOrdinal(d) >= YearStart(d.year + 1, fw) then d.year + 1
      else if ToOrdinal(d) < YearStart(d.year, fw) then d.year - 1
      else d.year
  {
  }

  /** Reference week date of `d`: the week of the year and the day within the week (1 on `fw`). */
  function ToWeekDate(d: Date, fw: int): (r: WeekDate)
    requires IsCivil(d) && 0 <= fw < 7
    ensures 1 <= r.week <= NumWeeks(r.year, fw) && 1 <= r.day <= 7
    ensures YearStart(r.year, fw) + 7 * (r.week - 1) + (r.day - 1) == ToOrdinal(d)
    ensures d.year - 1 <= r.year <= d.year + 1
  {
    var y := WeekYear(d, fw);
    var offset := ToOrdinal(d) - YearStart(y, fw);
    WeekDate(y, offset / 7 + 1, offset % 7 + 1)
  }

  /** The day of the reference week date counts weekdays from `fw`, starting at 1. */
  lemma ToWeekDateDay(d: Date, fw: int)
    requires IsCivil(d) && 0 <= fw < 7
    ensures ToWeekDate(d, fw).day == (Weekday(ToOrdinal(d)) - fw) % 7 + 1
  {
    var y := WeekYear(d, fw);
    var s := YearStart(y, fw);
    assert ToWeekDate(d, fw).day == (ToOrdinal(d) - s) % 7 + 1;
    DayInWeek(s, ToOrdinal(d), fw);
  }

  /** Days from a week start, modulo 7, count weekdays from `fw`. */
  lemma DayInWeek(s: int, n: int, fw: int)
    requires 0 <= fw < 7 && Weekday(s) == fw
    ensures (n - s) % 7 == (Weekday(n) - fw) % 7
  {
    WeekdayShift(s, n - s);
    ModShift(fw + (n - s), -fw);
  }

  /** Every in-range week date is the reference week date of its day. */
  lemma ToWeekDateOf(date: Date, y: int, w: int, d: int, fw: int)
    requires IsCivil(date) && 0 <= fw < 7
    requires 1 <= w <= NumWeeks(y, fw) && 1 <= d <= 7
    requires ToOrdinal(date) == YearStart(y, fw) + 7 * (w - 1) + (d - 1)
    ensures ToWeekDate(date, fw) == WeekDate(y, w, d)
  {
    WeekYearUnique(ToOrdinal(date), y, WeekYear(date, fw), fw);
    var offset := 7 * (w - 1) + (d - 1);
    assert offset / 7 == w - 1 && offset % 7 == d - 1;
  }

  /** Day `d` of week `w` counted from a week start falls `d - 1` weekdays after `fw`. */
  lemma DayOfWeekFrom(s: int, w: int, d: int, fw: int)
    requires 0 <= fw < 7 && Weekday(s) == fw && 1 <= d <= 7
    ensures (Weekday(s + (d - 1) + 7 * (w - 1)) - fw) % 7 == d - 1
  {
    WeekdayPlusWeeks(s + (d - 1), w - 1);
    WeekdayShift(s, d - 1);
    ModShift(fw + d - 1, -fw);
  }

  /**
   * Week of the month (from 0) of day `k` of a month whose 1st is day `f`:
   * the number of week starts passed between the week of the 1st and the
   * week of day `k`.
   */
  function MonthWeek(f: int, k: int, fw: int): (r: int)
    requires 0 <= fw < 7
    ensures 7 * r == WeekStart(f + k - 1, fw) - WeekStart(f, fw)
  {
    WeekStartsBetween(f, k, fw);
    (k + (Weekday(f) - fw) % 7 - 1) / 7
  }

  /** Moving one day on from `f + k - 1` crosses a week start exactly when `f + k` is one. */
  lemma MonthWeekStep(f: int, k: int, fw: int)
    requires 0 <= fw < 7
    ensures MonthWeek(f, k + 1, fw) == MonthWeek(f, k, fw) + (if Weekday(f + k) == fw then 1 else 0)
  {
    var a := (Weekday(f) - fw) % 7;
    var x := Weekday(f) + k;
    WeekdayShift(f, k);
    ModShift(x, -fw);
    ModShift(Weekday(f) - fw, k);
    assert Weekday(f + k) == fw <==> (a + k) % 7 == 0;
    var t := k + a - 1;
    var q := t / 7;
    assert t == 7 * q + t % 7;
  }

  lemma {:induction false} MonthWeekMonotone(f: int, k1: int, k2: int, fw: int)
    requires 0 <= fw < 7 && k1 <= k2
    ensures MonthWeek(f, k1, fw) <= MonthWeek(f, k2, fw)
    decreases k2 - k1
  {
    if k1 < k2 {
      MonthWeekMonotone(f, k1, k2 - 1, fw);
      MonthWeekStep(f, k2 - 1, fw);
    }
  }

  /** Counting from weekday offset `a` of day `f`, `k - 1` days on. */
  lemma WeekStartsBetween(f: int, k: int, fw: int)
    requires 0 <= fw < 7
    ensures 7 * ((k + (Weekday(f) - fw) % 7 - 1) / 7) == WeekStart(f + k - 1, fw) - WeekStart(f, fw)
  {
    var a := (Weekday(f) - fw) % 7;
    var n := f + k - 1;
    WeekdayShift(f, k - 1);
    ModShift(Weekday(f) - fw, k - 1);
    ModShift(Weekday(f) + k - 1, -fw);
    assert (Weekday(n) - fw) % 7 == (a + k - 1) % 7;
    var t := k - 1 + a;
    assert 7 * (t / 7) == t - t % 7;
  }

  // ---------------------------------------------------------------------
  // Weeks starting on Monday

  /** `_iso_year_start`: 4 January less its ISO weekday minus one. */
  function IsoYearStart(y: int): (r: int)
    requires MinYear <= y <= MaxYear
    ensures r == YearStart(y, Monday)
    ensures Weekday(r) == Monday && Jan4(y) - 6 <= r <= Jan4(y)
  {
    var fourth := Jan4(y);
    fourth - (IsoWeekday(fourth) - 1)
  }

  /** 4 January less six days is 29 December of the previous year. */
  lemma Jan4LessSix(y: int)
    ensures Jan4(y) - 6 == ToOrdinal(Date(y - 1, 12, 29))
  {
    DaysBeforeYearStep(y - 1);
    YearLength(y - 1);
  }

  /** The ISO year starts on a Monday between 29 December and 4 January. */
  lemma IsoYearStartRange(y: int)
    requires MinYear <= y <= MaxYear
    ensures Weekday(IsoYearStart(y)) == Monday
    ensures ToOrdinal(Date(y - 1, 12, 29)) <= IsoYearStart(y) <= ToOrdinal(Date(y, 1, 4))
  {
    Jan4LessSix(y);
  }

  /** `_iso_to_gregorian`: day `d` of week `w` counted from the year start. */
  function IsoToGregorian(y: int, w: int, d: int): (r: int)
    requires MinYear <= y <= MaxYear
    ensures 1 <= d <= 7 ==> IsoWeekday(r) == d
  {
    var r := IsoYearStart(y) + (d - 1) + 7 * (w - 1);
    assert 1 <= d <= 7 ==> IsoWeekday(r) == d by {
      if 1 <= d <= 7 {
        DayOfWeekFrom(IsoYearStart(y), w, d, Monday);
        ModSmall(Weekday(r));
      }
    }
    r
  }

  /** `_iso_num_weeks`. */
  function IsoNumWeeks(y: int): (r: int)
    requires MinYear <= y < MaxYear
    ensures r == 52 || r == 53
    ensures IsoYearStart(y) + 7 * r == IsoYearStart(y + 1)
    ensures r == NumWeeks(y, Monday)
  {
    var r := (IsoYearStart(y + 1) - IsoYearStart(y)) / 7;
    assert r == NumWeeks(y, Monday);
    r
  }

  lemma WeekdayPlusWeeks(x: int, k: int)
    ensures Weekday(x + 7 * k) == Weekday(x)
  {
    WeekdayShift(x, 7 * k);
    var q := (Weekday(x) + 7 * k) / 7;
    assert Weekday(x) + 7 * k == 7 * k + Weekday(x);
  }

  /** `_iso_info`. */
  function IsoInfo(y: int, w: int): (r: WeekInfo)
    requires MinYear < y < MaxYear
    ensures r.firstDay == IsoToGregorian(y, w, 1) && r.lastDay == IsoToGregorian(y, w, 7)
    ensures r.prevYearNumWeeks == IsoNumWeeks(y - 1) && r.yearNumWeeks == IsoNumWeeks(y)
  {
    var prevYearStart := IsoYearStart(y - 1);
    var yearStart := IsoYearStart(y);
    var nextYearStart := IsoYearStart(y + 1);
    var firstDay := yearStart + 7 * (w - 1);
    WeekInfo(firstDay, firstDay + 6, (yearStart - prevYearStart) / 7, (nextYearStart - yearStart) / 7)
  }

  /**
   * `_gregorian_to_iso`, that is `date.isocalendar()`: the ISO 8601 week
   * date, whose day number is the ISO weekday.
   */
  function GregorianToIso(d: Date): (r: WeekDate)
    requires IsValid(d)
    ensures 1 <= r.week <= NumWeeks(r.year, Monday) && r.day == IsoWeekday(ToOrdinal(d))
    ensures MinYear <= r.year <= MaxYear && d.year - 1 <= r.year <= d.year + 1
  {
    var r := ToWeekDate(d, Monday);
    ToWeekDateDay(d, Monday);
    ModSmall(Weekday(ToOrdinal(d)));
    IsoYearInRange(d, r.year);
    r
  }

  /** ISO week-numbering years of valid dates are valid years. */
  lemma IsoYearInRange(d: Date, y: int)
    requires IsValid(d) && InWeekYear(ToOrdinal(d), y, Monday)
    ensures MinYear <= y <= MaxYear
  {
    ValidOrdinalRange(d);
    DaysBeforeEnd();
    assert Jan4(MinYear) == 4 && Weekday(4) == 3;
    assert Jan4(MaxYear + 1) == 3652063 && Weekday(3652063) == 1;
    if y < MinYear {
      YearStartMonotone(y + 1, MinYear, Monday);
    } else if y > MaxYear {
      YearStartMonotone(MaxYear + 1, y, Monday);
    }
  }

  /** Date to ISO week date and back. */
  lemma IsoRoundTrip(d: Date)
    requires IsValid(d)
    ensures var r := GregorianToIso(d); IsoToGregorian(r.year, r.week, r.day) == ToOrdinal(d)
  {
  }

  /** ISO week date to date and back, for every week date that names a valid day. */
  lemma IsoRoundTripBack(y: int, w: int, d: int)
    requires MinYear <= y < MaxYear && 1 <= w <= IsoNumWeeks(y) && 1 <= d <= 7
    requires IsValidOrdinal(IsoToGregorian(y, w, d))
    ensures IsValid(FromOrdinal(IsoToGregorian(y, w, d)))
    ensures GregorianToIso(FromOrdinal(IsoToGregorian(y, w, d))) == WeekDate(y, w, d)
  {
    var n := IsoToGregorian(y, w, d);
    var date := FromOrdinal(n);
    ToFromOrdinal(n);
    ValidOrdinalRange(date);
    ToWeekDateOf(date, y, w, d, Monday);
  }

  /** `_iso_week_of_month`: which Monday-first week of the month, from 0. */
  function IsoWeekOfMonth(d: Date): (r: int)
    requires IsValid(d)
    ensures r == MonthWeek(FirstOfMonth(d.year, d.month), d.day, Monday)
    ensures 0 <= r <= 5
  {
    var weekdayOfFirst := Weekday(FirstOfMonth(d.year, d.month));
    (d.day + weekdayOfFirst - 1) / 7
  }

  lemma IsoWeekOfMonthFirst(y: int, m: int)
    requires IsValid(Date(y, m, 1))
    ensures IsoWeekOfMonth(Date(y, m, 1)) == 0
  {
  }

  /** From one day of the month to the next the index grows by one exactly on a Monday. */
  lemma IsoWeekOfMonthStep(y: int, m: int, k: int)
    requires IsValid(Date(y, m, k)) && IsValid(Date(y, m, k + 1))
    ensures IsoWeekOfMonth(Date(y, m, k + 1))
            == IsoWeekOfMonth(Date(y, m, k)) + (if Weekday(FirstOfMonth(y, m) + k) == Monday then 1 else 0)
  {
    MonthWeekStep(FirstOfMonth(y, m), k, Monday);
  }

  lemma IsoWeekOfMonthMonotone(y: int, m: int, k1: int, k2: int)
    requires IsValid(Date(y, m, k1)) && IsValid(Date(y, m, k2)) && k1 <= k2
    ensures IsoWeekOfMonth(Date(y, m, k1)) <= IsoWeekOfMonth(Date(y, m, k2))
  {
    MonthWeekMonotone(FirstOfMonth(y, m), k1, k2, Monday);
  }

  // ---------------------------------------------------------------------
  // Weeks starting on Sunday

  /**
   * `_ssweek_year_start`: the Sunday before 5 January. Python raises for
   * year 1, whose Sunday-week year would start before 0001-01-01.
   */
  function SsweekYearStart(y: int): (r: int)
    requires MinYear < y <= MaxYear
    ensures r == YearStart(y, Sunday)
    ensures Weekday(r) == Sunday && Jan4(y) - 6 <= r <= Jan4(y)
  {
    var fifth := Jan4(y) + 1;
    fifth - (Weekday(fifth) + 1)
  }

  /** The Sunday-week year starts on a Sunday between 29 December and 4 January. */
  lemma SsweekYearStartRange(y: int)
    requires MinYear < y <= MaxYear
    ensures Weekday(SsweekYearStart(y)) == Sunday
    ensures ToOrdinal(Date(y - 1, 12, 29)) <= SsweekYearStart(y) <= ToOrdinal(Date(y, 1, 4))
  {
    Jan4LessSix(y);
  }

  /** `_ssweek_to_gregorian`: day `d` of week `w`, day 1 being the Sunday. */
  function SsweekToGregorian(y: int, w: int, d: int): (r: int)
    requires MinYear < y <= MaxYear
    ensures 1 <= d <= 7 ==> (Weekday(r) + 1) % 7 == d - 1
  {
    var r := SsweekYearStart(y) + (d - 1) + 7 * (w - 1);
    assert 1 <= d <= 7 ==> (Weekday(r) + 1) % 7 == d - 1 by {
      if 1 <= d <= 7 {
        DayOfWeekFrom(SsweekYearStart(y), w, d, Sunday);
        SundayFirstDay(Weekday(r));
      }
    }
    r
  }

  /** `_ssweek_num_weeks`. */
  function SsweekNumWeeks(y: int): (r: int)
    requires MinYear < y < MaxYear
    ensures r == 52 || r == 53
    ensures SsweekYearStart(y) + 7 * r == SsweekYearStart(y + 1)
    ensures r == NumWeeks(y, Sunday)
  {
    var r := (SsweekYearStart(y + 1) - SsweekYearStart(y)) / 7;
    assert r == NumWeeks(y, Sunday);
    r
  }

  /** `_ssweek_info`. */
  function SsweekInfo(y: int, w: int): (r: WeekInfo)
    requires MinYear + 1 < y < MaxYear
    ensures r.firstDay == SsweekToGregorian(y, w, 1) && r.lastDay == SsweekToGregorian(y, w, 7)
    ensures r.prevYearNumWeeks == SsweekNumWeeks(y - 1) && r.yearNumWeeks == SsweekNumWeeks(y)
  {
    var prevYearStart := SsweekYearStart(y - 1);
    var yearStart := SsweekYearStart(y);
    var nextYearStart := SsweekYearStart(y + 1);
    var firstDay := yearStart + 7 * (w - 1);
    WeekInfo(firstDay, firstDay + 6, (yearStart - prevYearStart) / 7, (nextYearStart - yearStart) / 7)
  }

  /** Dates whose own and following years have Sunday-week year starts. */
  predicate SsweekDatable(d: Date) {
    IsValid(d) && d.year < MaxYear
  }

  /**
   * `_gregorian_to_ssweek` as the source writes it: the next year if the
   * day is on or after next year's start, otherwise the calendar year,
   * even when the day comes before that year's start. The day number is
   * `weekday() + 1`, Monday being 1.
   */
  function GregorianToSsweekAsWritten(d: Date): (r: WeekDate)
    requires SsweekDatable(d) && d.year > MinYear
    ensures r.day == IsoWeekday(ToOrdinal(d))
    ensures ToOrdinal(d) >= SsweekYearStart(d.year) ==> r.week >= 1
  {
    var n := ToOrdinal(d);
    var nextYear := d.year + 1;
    var nextYearStart := SsweekYearStart(nextYear);
    var year := if n >= nextYearStart then nextYear else d.year;
    var yearStart := if n >= nextYearStart then nextYearStart else SsweekYearStart(d.year);
    WeekDate(year, (n - yearStart) / 7 + 1, Weekday(n) + 1)
  }

  /** 2015-01-01, a Thursday, lies before the Sunday-week year start 2015-01-04. */
  lemma SsweekWeekZero(d: Date)
    requires d == Date(2015, 1, 1)
    ensures SsweekDatable(d) && d.year > MinYear
    ensures GregorianToSsweekAsWritten(d) == WeekDate(2015, 0, 4)
  {
    DaysBeforeYearIsFormula(d.year);
    DaysBeforeYearIsFormula(d.year + 1);
    assert !IsLeap(d.year);
    assert DaysBeforeYear(d.year + 1) == 735963;
    assert ToOrdinal(d) == 735599;
    assert Weekday(735603) == 0 && Weekday(735968) == 1;
    assert SsweekYearStart(d.year) == 735602;
    assert SsweekYearStart(d.year + 1) == 735966;
  }

  /**
   * `_gregorian_to_ssweek` with the missing case added: a day before its
   * calendar year's start belongs to the last week of the previous year.
   * Year 1 is excluded, as Python cannot form its year start.
   */
  function GregorianToSsweek(d: Date): (r: WeekDate)
    requires SsweekDatable(d) && d.year > MinYear
    ensures r.year == ToWeekDate(d, Sunday).year && r.week == ToWeekDate(d, Sunday).week
    ensures r.day == IsoWeekday(ToOrdinal(d))
  {
    var n := ToOrdinal(d);
    var nextYearStart := SsweekYearStart(d.year + 1);
    var yearStart := SsweekYearStart(d.year);
    assert nextYearStart == YearStart(d.year + 1, Sunday);
    assert yearStart == YearStart(d.year, Sunday);
    var year := if n >= nextYearStart then d.year + 1 else if n < yearStart then d.year - 1 else d.year;
    WeekYearChoice(d, Sunday);
    WeekDate(year, (n - YearStart(year, Sunday)) / 7 + 1, Weekday(n) + 1)
  }

  /**
   * The corrected week is in range and holds the day, and the two
   * definitions agree on every day not before its calendar year's start.
   */
  lemma GregorianToSsweekBounds(d: Date)
    requires SsweekDatable(d) && d.year > MinYear
    ensures var r := GregorianToSsweek(d);
      && 1 <= r.week <= NumWeeks(r.year, Sunday)
      && YearStart(r.year, Sunday) + 7 * (r.week - 1) <= ToOrdinal(d) < YearStart(r.year, Sunday) + 7 * r.week
    ensures ToOrdinal(d) >= SsweekYearStart(d.year) ==> GregorianToSsweekAsWritten(d) == GregorianToSsweek(d)
  {
    var t := ToWeekDate(d, Sunday);
    assert YearStart(t.year, Sunday) + 7 * (t.week - 1) + (t.day - 1) == ToOrdinal(d);
  }

  /** `_ssweek_to_gregorian` recovers the date when given the day counted from Sunday. */
  lemma SsweekRoundTrip(d: Date)
    requires SsweekDatable(d) && d.year > MinYear + 1
    ensures var r := GregorianToSsweek(d);
      MinYear < r.year <= MaxYear && SsweekToGregorian(r.year, r.week, r.day % 7 + 1) == ToOrdinal(d)
  {
    var n := ToOrdinal(d);
    var t := ToWeekDate(d, Sunday);
    var r := GregorianToSsweek(d);
    assert r.day % 7 + 1 == t.day by {
      ToWeekDateDay(d, Sunday);
      SundayFirstDay(Weekday(n));
    }
    assert SsweekYearStart(t.year) == YearStart(t.year, Sunday);
  }

  lemma SundayFirstDay(x: int)
    requires 0 <= x < 7
    ensures (x - 6) % 7 == (x + 1) % 7
  {
  }

  /** `_ssweek_of_month`: which Sunday-first week of the month, from 0. */
  function SsweekOfMonth(d: Date): (r: int)
    requires IsValid(d)
    ensures r == MonthWeek(FirstOfMonth(d.year, d.month), d.day, Sunday)
    ensures 0 <= r <= 5
  {
    var weekdayOfFirst := (Weekday(FirstOfMonth(d.year, d.month)) + 1) % 7;
    (d.day + weekdayOfFirst - 1) / 7
  }

  lemma SsweekOfMonthFirst(y: int, m: int)
    requires IsValid(Date(y, m, 1))
    ensures SsweekOfMonth(Date(y, m, 1)) == 0
  {
  }

  /** From one day of the month to the next the index grows by one exactly on a Sunday. */
  lemma SsweekOfMonthStep(y: int, m: int, k: int)
    requires IsValid(Date(y, m, k)) && IsValid(Date(y, m, k + 1))
    ensures SsweekOfMonth(Date(y, m, k + 1))
            == SsweekOfMonth(Date(y, m, k)) + (if Weekday(FirstOfMonth(y, m) + k) == Sunday then 1 else 0)
  {
    MonthWeekStep(FirstOfMonth(y, m), k, Sunday);
  }

  lemma SsweekOfMonthMonotone(y: int, m: int, k1: int, k2: int)
    requires IsValid(Date(y, m, k1)) && IsValid(Date(y, m, k2)) && k1 <= k2
    ensures SsweekOfMonth(Date(y, m, k1)) <= SsweekOfMonth(Date(y, m, k2))
  {
    MonthWeekMonotone(FirstOfMonth(y, m), k1, k2, Sunday);
  }
}

=== FILE: weekstyle.dfy ===
/**
 * The choice between Monday-first and Sunday-first weeks that the
 * `JOYOUS_FIRST_DAY_OF_WEEK` setting makes once, at import time: it binds
 * `week_info`, `num_weeks_in_year`, `gregorian_to_week_date`,
 * `week_of_month` and the weekday name tables to one flavour.
 */
module WeekStyle {
  import opened Dates
  import opened Weeks
  import opened Names

  datatype FirstDay = MondayFirst | SundayFirst

  /** Setting 1 (Django's Monday) selects Monday-first weeks; anything else Sunday-first. */
  function FirstDayOfWeek(setting: int): (r: FirstDay)
    ensures r == MondayFirst <==> setting == 1
  {
    if setting == 1 then MondayFirst else SundayFirst
  }

  /** The weekday (Monday = 0) that begins a week. */
  function StartWeekday(s: FirstDay): (r: int)
    ensures 0 <= r < 7
    ensures s.MondayFirst? ==> r == Monday
    ensures s.SundayFirst? ==> r == Sunday
  {
    if s.MondayFirst? then Monday else Sunday
  }

  /** Years whose week count the flavour can compute. */
  predicate CountableYear(s: FirstDay, y: int) {
    if s.MondayFirst? then MinYear <= y < MaxYear else MinYear < y < MaxYear
  }

  /** Years whose week information the flavour can compute. */
  predicate InfoYear(s: FirstDay, y: int) {
    if s.MondayFirst? then MinYear < y < MaxYear else MinYear + 1 < y < MaxYear
  }

  /** Dates the flavour can number. */
  predicate NumberableDate(s: FirstDay, d: Date) {
    IsValid(d) && (s.SundayFirst? ==> SsweekDatable(d) && d.year > MinYear)
  }

  /** `num_weeks_in_year`. */
  function NumWeeksInYear(s: FirstDay, y: int): (r: int)
    requires CountableYear(s, y)
    ensures r == NumWeeks(y, StartWeekday(s))
    ensures r == 52 || r == 53
  {
    if s.MondayFirst? then IsoNumWeeks(y) else SsweekNumWeeks(y)
  }

  /** `week_info`: week `w` of year `y` is seven days from the week start. */
  function WeekInfoFor(s: FirstDay, y: int, w: int): (r: WeekInfo)
    requires InfoYear(s, y)
    ensures r.firstDay == YearStart(y, StartWeekday(s)) + 7 * (w - 1)
    ensures r.lastDay == r.firstDay + 6
    ensures r.prevYearNumWeeks == NumWeeks(y - 1, StartWeekday(s))
    ensures r.yearNumWeeks == NumWeeks(y, StartWeekday(s))
  {
    if s.MondayFirst? then IsoInfo(y, w) else SsweekInfo(y, w)
  }

  /**
   * `gregorian_to_week_date`: the week holding the date, and the date's
   * weekday numbered from Monday = 1 in both flavours.
   */
  function GregorianToWeekDate(s: FirstDay, d: Date): (r: WeekDate)
    requires NumberableDate(s, d)
    ensures 1 <= r.week <= NumWeeks(r.year, StartWeekday(s))
    ensures YearStart(r.year, StartWeekday(s)) + 7 * (r.week - 1) <= ToOrdinal(d)
    ensures ToOrdinal(d) < YearStart(r.year, StartWeekday(s)) + 7 * r.week
    ensures r.day == IsoWeekday(ToOrdinal(d))
    ensures d.year - 1 <= r.year <= d.year + 1
  {
    if s.MondayFirst? then
      GregorianToIso(d)
    else
      GregorianToSsweekBounds(d);
      GregorianToSsweek(d)
  }

  /**
   * `gregorian_to_week_date` as the setting binds it: for Sunday-first
   * weeks that is `_gregorian_to_ssweek` as written, which gives the days
   * before the Sunday-week year start week 0 of their calendar year.  On
   * every other day it agrees with `GregorianToWeekDate`.
   */
  function GregorianToWeekDateAsWritten(s: FirstDay, d: Date): (r: WeekDate)
    requires NumberableDate(s, d)
    ensures r.week == 0 <==> s.SundayFirst? && ToOrdinal(d) < SsweekYearStart(d.year)
    ensures r.week == 0 ==> r.year == d.year
    ensures r.week != 0 ==> r == GregorianToWeekDate(s, d)
    ensures YearStart(r.year, StartWeekday(s)) + 7 * (r.week - 1) <= ToOrdinal(d)
    ensures ToOrdinal(d) < YearStart(r.year, StartWeekday(s)) + 7 * r.week
    ensures r.day == IsoWeekday(ToOrdinal(d))
  {
    if s.MondayFirst? then
      GregorianToIso(d)
    else
      var n := ToOrdinal(d);
      GregorianToSsweekBounds(d);
      assert n >= Jan4(d.year) - 3 by {
        DaysBeforeMonthBounds(d.year, d.month);
      }
      assert SsweekYearStart(d.year) < SsweekYearStart(d.year + 1);
      GregorianToSsweekAsWritten(d)
  }

  /** On 2015-01-01 the Sunday-first binding gives week 0, as `Weeks.SsweekWeekZero` shows. */
  lemma SundayWeekZeroOn2015(d: Date)
    requires d == Date(2015, 1, 1)
    ensures NumberableDate(SundayFirst, d)
    ensures GregorianToWeekDateAsWritten(SundayFirst, d) == WeekDate(2015, 0, 4)
  {
    SsweekWeekZero(d);
  }

  /** Every month has a 7th, numberable whenever the month's other days are. */
  lemma SeventhNumberable(s: FirstDay, d: Date)
    requires NumberableDate(s, d)
    ensures NumberableDate(s, Date(d.year, d.month, 7))
  {
  }

  /** `week_of_month`. */
  function WeekOfMonth(s: FirstDay, d: Date): (r: int)
    requires IsValid(d)
    ensures r == MonthWeek(FirstOfMonth(d.year, d.month), d.day, StartWeekday(s))
    ensures 0 <= r <= 5
  {
    if s.MondayFirst? then IsoWeekOfMonth(d) else SsweekOfMonth(d)
  }

  /** `weekday_name` / `weekday_abbr`: position i names weekday `(i + start) % 7`. */
  function WeekdayTable(s: FirstDay, names: seq<string>): (r: seq<string>)
    requires IsWeekTable(names)
    ensures |r| == 7
    ensures forall i :: 0 <= i < 7 ==> r[i] == names[(i + StartWeekday(s)) % 7]
  {
    if s.MondayFirst? then MondayToSunday(names) else SundayToSaturday(names)
  }
}

=== FILE: wrappers.dfy ===
/**
 * Optional values and results with an error message, used throughout the
 * model wherever the Python code returns None or raises an exception.
 */
module Wrappers {

  datatype Option<T> = None | Some(value: T) {
    predicate IsNone() { this.None? }

    /** The value, or `default` when there is none. */
    function GetOr(default: T): T {
      match this
      case None => default
      case Some(v) => v
    }
  }

  /** `Failure` carries the text of the exception the source raises. */
  datatype Result<T> = Success(value: T) | Failure(error: string) {
    predicate IsFailure() { this.Failure? }
  }
}
